=== FILE: README.md ===
# EEG backend processing core, modelled in Dafny

This project models the incremental processing core of an EEG analysis backend. A request names a subject, a task, an optional run and a set of parameters. The backend loads the recording, filters it, marks bad channels and segments, cuts epochs around task events and averages them into evoked responses. Every stage's result is kept in a versioned, content-addressed artifact cache, so the same request never recomputes a stage.

What is modelled, module by module:

- **CacheKeys, Cache** (`cache_key.dfy`, `local_cache.dfy`): the params hash, the cache directory layout and the file stem, and `LocalCache` as a class over a path-to-content map. Saving writes straight to the artifact's final path. Loading fails softly on a miss or on a corrupt artifact.
- **FilterFacet, ChannelSpec, EpochFacet, EvokedFacet, LegacyFacet** (`filter_params.dfy`, `channel_spec.dfy`, `epoch_params.dfy`, `evoked_params.dfy`, `legacy_params.dfy`): the parameter facets and their cache keys. The keys nest: filter ⊆ cleaning ⊆ epochs ⊆ evoked. Also the channel-spec expansion (`E1-E10,E69`) and the parsing of evoked time lists. Both live versions of the filter schema are modelled, and a lemma relates their keys.
- **EventCodes, TaskEvents** (`constants.dfy`, `task_events.dfy`): the 24 surround-suppression event codes, plus the event selection done by the per-task preprocessors.
- **Processor, Executor, Cohort** (`task_processor.dfy`, `task_executor.dfy`, `cohort_executor.dfy`):
  - the stage orchestration: filtered → epochs → evoked, each stage consulting the cache first;
  - the per-task executor, which memoises its lazily built collaborators and loaded data; the memoised recording is the object `pre_filter` changes in place, so after a pre-filter run it holds the pre-filtered recording;
  - the cohort executor, which pools epochs and grand-averages evoked responses across subjects.
  - Labels come back from `get_epochs` as a list, except on an epochs-cache miss for surround suppression, where they are a NumPy array. The cohort's `if lbls:` raises ValueError on such an array of more than one label.
- **SignalCleaner, ChannelsHelp** (`signal_cleaner.dfy`, `channels_helper.dfy`):
  - the decision rules of bad-channel and bad-segment marking: flatline runs, high-frequency noise z-scores, low correlation, ASR gating and power windows;
  - that pre-filtering reads only the filter key's fields and marking only the cleaning key's, which is what the processor's per-key cleaner relies on;
  - the microvolt channel filter of the channels helper.
- **TaskLoader, TaskNames, CcdMetrics, Participants** (`task_loader.dfy`, `task_names.dfy`, `ccd_metrics.dfy`, `participants.dfy`):
  - the BIDS file names and the round trip between building a name and discovering it;
  - column-name normalisation and CCD behavioural scoring;
  - validation of the participants table against the files on disk.
- **GridPlot, SignalSpatial** (`grid_plot.dfy`, `signal_spatial.dfy`): the condition-label grid helpers and the SNR spectrum kernel.
- **SessionSync, TrainPredict** (`session_sync.dfy`, `train_predict.dfy`): normalisation of the shared filter fields across a session's child parameter sets, and the train and predict request validators.
- **Wrappers, Text, Numbers, PyDict, Eeg**: support modules.
  - `Option`/`Result`.
  - string helpers: `strip` over Python's full white-space set, and ASCII `lower` and digit tests.
  - Python's `round` and number formatting.
  - Python dicts as ordered association lists.
  - Symbolic EEG values (`Raw`, `Epochs`, `Evoked`).

Foreign numerics are parameters of the model: MNE filtering, PSD, epoching and averaging; NumPy statistics; ASR. The same holds for SHA-256 and the disk: operations take a `Numerics`, `Mne` or `Cleaner` record of functions, a `Digest` function and a `Disk` or `Store` value. Floating point is modelled over reals, with `Option` standing for NaN where NaN matters.

Where the two parameter schema files disagree, both are modelled as written. The defaults are taken as the classes declare them, and pydantic does not validate defaults. So `EpochParams()` keeps the string `"None"` as its stimulus. Its evoked key then differs from that of a request that explicitly sends `None` (`EpochFacet.DefaultStimulusKeyed`). The session's child schemas declare none of the shared filter fields, so session normalisation drops the copied values. Rebuilding a child runs its validators again, though. A default epoch-type child therefore comes back with a null stimulus in place of the string `"None"`, and every other child comes back unchanged (`SessionSync.SyncedOfSchemas`).

## Model

| member | source | states |
|---|---|---|
| CacheKeys.RunDir | backend/app/core/cache_manager.py:53 | the run directory is `run-<run>` for a non-empty run and `run-none` exactly when the run is None, empty or the text "none" |
| CacheKeys.Subdir | backend/app/core/cache_manager.py:51-54 | when no component holds '/', the subdirectory splits on '/' into subject, task, run directory and stage |
| CacheKeys.HashPrefix | backend/app/core/cache_manager.py:31-33 | the params hash is 16 lower-case hex digits, the first 16 of the digest of the key-sorted params |
| CacheKeys.TypeTag | backend/app/core/cache_manager.py:115 | each artifact kind's type tag (`eeg`, `epo`, `ave`) is three characters |
| CacheKeys.BadPathInjective | backend/app/core/cache_manager.py:123 | distinct files are quarantined under distinct `.bad` names |
| CacheKeys.DirsFor | backend/app/core/cache_manager.py:108-109 | the directories `_path_for` creates include `base/<subdir>` |
| CacheKeys.StemShape | backend/app/core/cache_manager.py:56-58 | the file stem is 16 hex digits, '-', then the pipeline version |
| CacheKeys.StemIgnoresInsertionOrder | backend/app/core/cache_manager.py:31-33 | param dicts with the same keys holding the same JSON values (int, float and bool kept apart) give the same stem whatever their key insertion order |
| CacheKeys.SubdirLayout | backend/app/core/cache_manager.py:51-54 | the subdirectory is subject, task, run directory and stage joined by '/' |
| CacheKeys.RunNoneCollides | backend/app/core/cache_manager.py:53 | a run of None, "" and "none" land in the same directory |
| CacheKeys.FileNameInjective | backend/app/core/cache_manager.py:110 | the file name `<hash>-<version>_<type>.fif` determines hash, version and type |
| CacheKeys.PathInjective | backend/app/core/cache_manager.py:106-111 | two concatenated artifact paths coincide only when subject, task, run directory, stage, params hash, version and artifact kind agree |
| CacheKeys.DistinctKeysDistinctPaths | backend/app/core/cache_manager.py:106-111 | in the concatenated path, keys that differ in a component or (when the hash prefix separates them) in params never share a path |
| CacheKeys.Kept | backend/app/core/cache_manager.py:108 | the segments pathlib keeps are neither empty nor "." |
| CacheKeys.PathForIsPathlib | backend/app/core/cache_manager.py:106-111 | for keys whose components are free of '/', non-empty and not ".", the concatenated path is the one pathlib builds |
| CacheKeys.EmptySubjectIgnoresBase | backend/app/core/cache_manager.py:108 | with an empty subject the subdirectory is absolute, so pathlib discards the cache's base and every base gives the same path |
| CacheKeys.DotSegmentsCollide | backend/app/core/cache_manager.py:108 | pathlib drops a "." segment, so subject "." with task t and subject t with task "." share a path |
| CacheKeys.PathlibInjective | backend/app/core/cache_manager.py:106-111 | under pathlib, keys with '/'-free, non-empty components other than "." share a path only when subject, task, run directory, stage, params hash, version and artifact kind agree |
| CacheKeys.SidecarAndBadPathsAreNotArtifacts | backend/app/core/cache_manager.py:154-163 | a labels sidecar, a quarantined file and an artifact file never share a path |
| Cache.Rename | backend/app/core/cache_manager.py:124 | a rename moves the content to the new name, replacing what was there, and leaves every other path alone |
| Cache.LocalCache.constructor | backend/app/core/cache_manager.py:68-73 | the cache records base, version and digest, and the base directory now exists |
| Cache.LocalCache.PathFor | backend/app/core/cache_manager.py:106-111 | returns the artifact path and creates exactly the key's directory chain |
| Cache.LocalCache.LoadRawFiltered | backend/app/core/cache_manager.py:113-130 | returns the parsed recording or a miss, and leaves the store as the load specification says (a corrupt file renamed to `.bad` when the rename works) |
| Cache.LocalCache.SaveRawFiltered | backend/app/core/cache_manager.py:132-142 | overwrites the artifact path with the recording and returns that path |
| Cache.LocalCache.LoadEpochs | backend/app/core/cache_manager.py:144-177 | returns `(epochs, labels)` or `(None, None)` and quarantines a corrupt epochs file and its sidecar |
| Cache.LocalCache.SaveEpochs | backend/app/core/cache_manager.py:179-214 | a failed write changes nothing; otherwise writes the epochs and, when given, the labels sidecar; returns the path either way |
| Cache.LocalCache.LoadEvoked | backend/app/core/cache_manager.py:216-232 | returns the first stored evoked response or None and changes no file |
| Cache.LocalCache.SaveEvoked | backend/app/core/cache_manager.py:234-239 | overwrites the artifact path with the evoked response and returns that path |
| Cache.LoadMissIsNoop | backend/app/core/cache_manager.py:117-130 | a missing file is a miss for every artifact kind and loading it changes no file |
| Cache.RawRoundTrip | backend/app/core/cache_manager.py:113-142 | saving a recording then loading it gives it back, and that load changes nothing |
| Cache.EvokedRoundTrip | backend/app/core/cache_manager.py:216-239 | saving an evoked response then loading it gives it back |
| Cache.EpochsRoundTrip | backend/app/core/cache_manager.py:144-214 | saving epochs with labels then loading gives both back |
| Cache.SaveLeavesOtherPaths | backend/app/core/cache_manager.py:132-142 | saving under one path does not change what another path loads |
| Cache.RawQuarantine | backend/app/core/cache_manager.py:119-128 | an unreadable recording is a miss, moved to `<p>.bad` when the rename works and left in place when it fails |
| Cache.EvokedNotQuarantined | backend/app/core/cache_manager.py:222-232 | an unreadable evoked file is a miss and is never moved |
| Cache.EpochsQuarantine | backend/app/core/cache_manager.py:160-177 | a failed epochs read returns `(None, None)`, moves the file to `.bad`, and renames or else deletes the sidecar |
| Cache.FailedEpochsWriteIsNoop | backend/app/core/cache_manager.py:189-196 | a failed epochs write leaves every file as it was |
| Cache.StaleLabelsSurvive | backend/app/core/cache_manager.py:154-199 | saving epochs without labels keeps an older sidecar, whose labels the next load returns beside the new epochs |
| FilterFacet.FilterKey | backend/app/schemas/params/base_filter_schema.py:71-78 | `filter_key` holds exactly the four filtering fields, in order |
| FilterFacet.CleanValues | backend/app/schemas/params/base_filter_schema.py:83-93 | the eight cleaning fields are visited in the declared order, each under its own name |
| FilterFacet.BuildCleaningKey | backend/app/schemas/params/base_filter_schema.py:80-100 | the loop of conditional inserts builds exactly the `cleaning_key` specification |
| FilterFacet.Present | backend/app/schemas/params/base_filter_schema.py:94-95 | a conditional insert stores nothing exactly when the value is None |
| FilterFacet.PresentEntriesGet | backend/app/schemas/params/base_filter_schema.py:83-95 | the conditional inserts store each present value once, under its name, and nothing for None |
| FilterFacet.CleanNames | backend/app/schemas/params/base_filter_schema.py:73-98 | the filter names, cleaning names and remove-only name are pairwise distinct |
| FilterFacet.CleanEntriesGet | backend/app/schemas/params/base_filter_schema.py:83-95 | each cleaning number is in the key exactly when it is set, and no other name is added by the loop |
| FilterFacet.CleaningKeyFacts | backend/app/schemas/params/base_filter_schema.py:80-100 | `cleaning_key` holds all of `filter_key`, each cleaning number exactly when set, `clean_asr_remove_only` exactly when true, and no key twice |
| FilterFacet.CleaningKeyIff | backend/app/schemas/params/base_filter_schema.py:80-100 | two parameter sets give the same `cleaning_key` exactly when they agree on the four filter fields, the eight cleaning numbers and whether remove-only is on |
| FilterFacet.CleaningKeyDetermines | backend/app/schemas/params/base_filter_schema.py:80-100 | equal cleaning keys imply agreement on every cache-relevant field |
| FilterFacet.FilterKeyDetermines | backend/app/schemas/params/base_filter_schema.py:71-78 | filter keys that agree on their four names imply the four fields agree |
| FilterFacet.FilterKeyGet | backend/app/schemas/params/base_filter_schema.py:73-78 | each filter field is stored under its own name |
| FilterFacet.FilterKeyIff | backend/app/schemas/params/base_filter_schema.py:71-78 | `filter_key` changes exactly when one of the four filter fields does |
| FilterFacet.KeysIgnoreChannelFields | backend/app/schemas/params/base_filter_schema.py:71-100 | the channel selection and the µV bounds reach neither key |
| FilterFacet.Slots | backend/app/schemas/params/base_filter_schema.py:6-63 | the given value of each declared field, in declaration order |
| FilterFacet.FromFields | backend/app/schemas/params/base_filter_schema.py:6-69 | validation succeeds exactly when every key is declared and every given value has its field's type; an undeclared key is refused as `extra_forbidden` |
| FilterFacet.ToFields | backend/app/schemas/params/base_filter_schema.py:6-63 | the dump holds every declared field under its name, in declaration order |
| FilterFacet.FromNoFields | backend/app/schemas/params/base_filter_schema.py:7-63 | no fields at all gives the declared defaults |
| FilterFacet.FromFieldsOfDump | backend/app/schemas/params/base_filter_schema.py:6-69 | validating a dump gives the same parameters back |
| FilterFacet.DumpSlots | backend/app/schemas/params/base_filter_schema.py:6-63 | each slot of a dump is the corresponding field's JSON value |
| ChannelSpec.AllChannels | backend/app/schemas/params/base_filter_schema.py:105 | the whole net is the 128 names E1..E128 in order |
| ChannelSpec.IntOf | backend/app/schemas/params/base_filter_schema.py:111-117 | `int(s)` succeeds exactly on the text of an integer: optional white space and sign, then digits with single underscores allowed between two digits (PEP 515) |
| Text.UnderscoreDropped | backend/app/schemas/params/base_filter_schema.py:117 | `int` reads two numerals joined by one underscore as the two written side by side |
| Text.UnderscoreMisplaced | backend/app/schemas/params/base_filter_schema.py:117 | `int` refuses an underscore after the sign or at the start, at the end, or doubled |
| ChannelSpec.UnderscoreToken | backend/app/schemas/filter_schema.py:82 | the token "1_0" names E10 under both the current and the older reading |
| ChannelSpec.ExpandWithErr | backend/app/schemas/params/base_filter_schema.py:108-120 | once a token fails, the whole expansion fails with that token's error |
| ChannelSpec.DedupStep | backend/app/schemas/params/base_filter_schema.py:113-120 | one name through the `seen` guard keeps `out` the de-duplicated list of all names emitted so far |
| ChannelSpec.AppendUnseen | backend/app/schemas/params/base_filter_schema.py:111-115 | the inner range loop appends each unseen name and keeps `seen` equal to the names in `out` |
| ChannelSpec.BuildChannelsList | backend/app/schemas/params/base_filter_schema.py:102-122 | the loops compute the `channels_list` specification: the net for blank text, else the names in first-appearance order without repeats, or the first bad token's error |
| ChannelSpec.ExpandUnique | backend/app/schemas/params/base_filter_schema.py:107-122 | the token loop yields every token's names de-duplicated in order, or the first failing token's error |
| ChannelSpec.BlankSelectsAll | backend/app/schemas/params/base_filter_schema.py:104-105 | blank or white-space-only text selects E1..E128 |
| ChannelSpec.RangeEndsCommute | backend/app/schemas/params/base_filter_schema.py:109-111 | a range token names the same electrodes whichever end comes first |
| ChannelSpec.RangeToken | backend/app/schemas/params/base_filter_schema.py:109-111 | "a-b" names min(a,b) through max(a,b), max-min+1 electrodes |
| ChannelSpec.PlainToken | backend/app/schemas/params/base_filter_schema.py:116-117 | a plain number names itself |
| ChannelSpec.NegativeTokenRejected | backend/app/schemas/params/base_filter_schema.py:109-111 | a negative number reads as a range with an empty left end and is refused |
| ChannelSpec.EmptyTokenRejected | backend/app/schemas/params/base_filter_schema.py:117 | an empty token is refused by both versions |
| ChannelSpec.TrailingSeparatorRejected | backend/app/schemas/params/base_filter_schema.py:104-120 | non-blank text ending in a comma or white space is refused |
| ChannelSpec.ChannelsListOrder | backend/app/schemas/params/base_filter_schema.py:107-122 | the selection never repeats a name, holds exactly the expanded names, and keeps their first-appearance order |
| ChannelSpec.AppendNames | backend/app/schemas/filter_schema.py:79-82 | the older inner loop appends every name of the range |
| ChannelSpec.BuildLegacyChannelsList | backend/app/schemas/filter_schema.py:69-84 | the older loops compute the older specification: the net only for the empty string, else `sorted(set(...))` of the names |
| ChannelSpec.LegacyRangeToken | backend/app/schemas/filter_schema.py:77-80 | in the older rule "a-b" is a, a+1, ..., b |
| ChannelSpec.ReversedRangeDiffers | backend/app/schemas/filter_schema.py:79 | a reversed range names nothing in the older rule and the full span in the newer one (the newer rule: line 111 of the params base filter schema) |
| ChannelSpec.RangeTokenAscending | backend/app/schemas/params/base_filter_schema.py:109-111 | a low-high range names every electrode from low to high |
| ChannelSpec.TwoDashesRejected | backend/app/schemas/filter_schema.py:78 | a token with two '-' fails to unpack in the older rule |
| ChannelSpec.WhiteSpaceDiffers | backend/app/schemas/filter_schema.py:70-73 | white space alone is the whole net in the newer version and refused in the older |
| ChannelSpec.LegacySortsAsStrings | backend/app/schemas/filter_schema.py:84 | the older version sorts names as strings, so "69,100" gives E100 before E69 |
| EpochFacet.NormalizeNone | backend/app/schemas/params/epoch_filter_schema.py:22-25 | the string "None" becomes null, every other value passes unchanged, and the result is never the string "None" |
| EpochFacet.StimulusOf | backend/app/schemas/params/epoch_filter_schema.py:12-19 | a stimulus is accepted exactly when it is null or one of "None", "open", "close", and is kept as given |
| EpochFacet.GivenStimulus | backend/app/schemas/params/epoch_filter_schema.py:12-25 | a given stimulus is accepted exactly when null or an option, and ends up None, "open" or "close", never the string "None" |
| EpochFacet.EpochFromFields | backend/app/schemas/params/epoch_filter_schema.py:5-25 | validation succeeds exactly when tmin, tmax and stimulus each validate, missing ones taking their defaults |
| EpochFacet.EpochDefaults | backend/app/schemas/params/epoch_filter_schema.py:6-25 | with nothing given the defaults hold, stimulus the string "None" included; an explicit "None" becomes None |
| EpochFacet.StimulusJson | backend/app/schemas/params/epoch_filter_schema.py:33 | a missing stimulus is stored as null and only then |
| EpochFacet.EpochsKeyBare | backend/app/schemas/params/epoch_filter_schema.py:27-29 | on the class as written, `epochs_key` always fails, since the class has no `cleaning_key` |
| EpochFacet.EpochsKeyFacts | backend/app/schemas/params/epoch_filter_schema.py:28-29 | the epochs key holds tmin and tmax, otherwise exactly the cleaning key, no stimulus, and no key twice |
| EpochFacet.EvokedKeyFacts | backend/app/schemas/params/epoch_filter_schema.py:32-33 | the evoked key holds the stimulus and otherwise exactly the epochs key |
| EpochFacet.KeyChain | backend/app/schemas/params/epoch_filter_schema.py:28-33 | every entry of the filter, cleaning and epochs keys is in the next key with the same value, the filter and cleaning keys being those of the params base filter schema (lines 71-100) |
| EpochFacet.CleaningKeyHasNoWindow | backend/app/schemas/params/base_filter_schema.py:80-100 | the cleaning key names neither tmin nor tmax |
| EpochFacet.StimulusOnlyInEvokedKey | backend/app/schemas/params/epoch_filter_schema.py:28-33 | requests differing only in stimulus share the epochs key but not the evoked key |
| EpochFacet.EpochsKeyIff | backend/app/schemas/params/epoch_filter_schema.py:28-29 | epochs keys are equal exactly when the cleaning-relevant fields and the window are equal |
| EpochFacet.SameCleaningKeyFromEpochs | backend/app/schemas/params/epoch_filter_schema.py:28-29 | equal epochs keys come from equal cleaning keys |
| EpochFacet.SameCleaningKeys | backend/app/schemas/params/base_filter_schema.py:80-100 | cleaning keys that agree on every lookup are the same entry list |
| EpochFacet.DefaultStimulusKeyed | backend/app/schemas/params/epoch_filter_schema.py:12-33 | a request left at the default stimulus and one that sends "None" share the epochs key but have different evoked keys |
| EvokedFacet.GfpDomain | backend/app/schemas/params/evoked_filter_schema.py:13-20 | `gfp` accepts exactly null, the two booleans and "only", and defaults to False |
| EvokedFacet.ScaleModeDomain | backend/app/schemas/params/evoked_filter_schema.py:24-31 | `scale_mode` accepts exactly null, "per-plot" and "uniform-grid", and defaults to "per-plot" |
| EvokedFacet.DigitRun | backend/app/schemas/params/evoked_filter_schema.py:46 | the leading run of digits in a number match is maximal |
| EvokedFacet.UnsignedAt | backend/app/schemas/params/evoked_filter_schema.py:46 | a match of the unsigned part of the pattern is non-empty and inside the text |
| EvokedFacet.NumberAt | backend/app/schemas/params/evoked_filter_schema.py:46 | a match of `[-+]?\d*\.?\d+` is non-empty and inside the text |
| EvokedFacet.FindNumbersSplit | backend/app/schemas/params/evoked_filter_schema.py:46 | a separator no number runs through splits the scan: the numbers before it, then those after it, repeats kept |
| EvokedFacet.FindNumbersSplitAt | backend/app/schemas/params/evoked_filter_schema.py:46 | the same split, stated at any blocking position of the text |
| EvokedFacet.FindNumbersStep | backend/app/schemas/params/evoked_filter_schema.py:46 | one scan step takes a match or moves on one character |
| EvokedFacet.FindNumbersOfNat | backend/app/schemas/params/evoked_filter_schema.py:46 | the written form of a natural number reads back as that number |
| EvokedFacet.FindNumbersNoDigits | backend/app/schemas/params/evoked_filter_schema.py:46 | text without digits holds no number |
| EvokedFacet.InWindow | backend/app/schemas/params/evoked_filter_schema.py:48 | every kept time lies in [tmin, tmax] and no time is added |
| EvokedFacet.InWindowAppend | backend/app/schemas/params/evoked_filter_schema.py:48 | the window filter works piecewise, so it keeps the order of the times |
| EvokedFacet.InWindowCounts | backend/app/schemas/params/evoked_filter_schema.py:48 | each time inside the window is kept as often as it occurs and every other time is dropped |
| EvokedFacet.ResolvedTimesFacts | backend/app/schemas/params/evoked_filter_schema.py:39-49 | `resolved_times` is "auto" or "peak", or a non-empty list of times inside the window in text order; an empty list becomes "auto" |
| EvokedFacet.TwoTimes | backend/app/schemas/params/evoked_filter_schema.py:45-49 | two whole-number times between a separator come back in order when inside the window |
| EvokedFacet.NotKeyword | backend/app/schemas/params/evoked_filter_schema.py:41-43 | text starting with a digit is neither keyword |
| LegacyFacet.LegacyFilterKey | backend/app/schemas/filter_schema.py:39-46 | the older `filter_key` holds exactly the four filtering fields |
| LegacyFacet.BuildLegacyCleaningKey | backend/app/schemas/filter_schema.py:48-64 | the older loop of conditional inserts builds the older `cleaning_key` specification |
| LegacyFacet.FilterKeysAgree | backend/app/schemas/filter_schema.py:39-46 | the older and newer filter keys of the same fields are equal (the newer key: lines 71-78 of the params base filter schema) |
| LegacyFacet.CleaningKeysAgree | backend/app/schemas/filter_schema.py:48-64 | the older cleaning key equals the newer one of the same fields exactly when remove-only ASR is not on, and never holds that flag (the newer key: lines 80-100 of the params base filter schema) |
| LegacyFacet.DefaultKeysDiffer | backend/app/schemas/filter_schema.py:17-35 | at their defaults the older key holds the 60 Hz notch and every cleaning number, the newer one no notch and no cleaning number (the newer defaults: lines 7-63 of the params base filter schema) |
| LegacyFacet.LegacyDefaultKey | backend/app/schemas/filter_schema.py:17-64 | the older default key holds notch 60.0 and every cleaning number |
| LegacyFacet.NewDefaultKey | backend/app/schemas/params/base_filter_schema.py:7-100 | the newer default key holds a null notch and no cleaning number |
| LegacyFacet.EpochsKeysAgree | backend/app/schemas/filter_schema.py:91-102 | without remove-only ASR the older and newer epochs keys of the same fields are equal, whatever the stimulus (the newer key: lines 28-29 of the params epoch filter schema) |
| LegacyFacet.LegacyPsdParams.constructor | backend/app/schemas/filter_schema.py:109-113 | the PSD parameters hold the given band and bounds |
| LegacyFacet.LegacyPsdParams.PostInit | backend/app/schemas/filter_schema.py:115-119 | a missing fmin becomes l_freq, a missing fmax becomes h_freq, given bounds are kept |
| LegacyFacet.PsdBand | backend/app/schemas/filter_schema.py:115-119 | after the hook both bounds are set to the given bound or the band edge, and running the hook again changes nothing |
| LegacyFacet.ResolvedTimesAgree | backend/app/schemas/filter_schema.py:135-144 | the two versions agree on the exact keywords and on text that is a keyword in neither spelling (the newer version: lines 39-49 of the params evoked filter schema) |
| LegacyFacet.KeywordSpellingDiffers | backend/app/schemas/filter_schema.py:137-144 | "peak" with capitals or surrounding spaces is honoured only by the newer version; the older one falls back to "auto" (the newer version: lines 41-43 of the params evoked filter schema) |
| LegacyFacet.NoDigitsInKeyword | backend/app/schemas/params/evoked_filter_schema.py:41-46 | text that strips and lower-cases to "peak" holds no digit, so the scan finds no time in it |
| EventCodes.OneDecimal | backend/app/pipeline/constants.py:14 | `{f:.1f}` of a non-negative value has one digit after the point |
| EventCodes.EventIdEntries | backend/app/pipeline/constants.py:13-16 | `EVENT_ID` has 24 entries; entry i is the i-th condition of the product of background, foreground and stimulus and has code i + 1 |
| EventCodes.FindCode | backend/app/pipeline/constants.py:13-16 | a label has no code exactly when no entry carries it |
| EventCodes.LabelShape | backend/app/pipeline/constants.py:14 | every label reads "bg" with 0 or 1, "_fg" with one of 0.0, 0.3, 0.6, 1.0, and "_stim" with 1, 2 or 3 |
| EventCodes.ForegroundText | backend/app/pipeline/constants.py:10-14 | the four foreground levels print as 0.0, 0.3, 0.6 and 1.0 |
| EventCodes.LabelInjective | backend/app/pipeline/constants.py:14 | different conditions get different labels |
| EventCodes.EntriesDistinct | backend/app/pipeline/constants.py:13-16 | the labels of `EVENT_ID` are pairwise distinct, so the dict keeps all 24 keys |
| EventCodes.EventCodeOf | backend/app/pipeline/constants.py:13-16 | the code of condition (b, f, s) is 12·b + 3·f + s + 1 |
| EventCodes.CodesAreOneTo24 | backend/app/pipeline/constants.py:13-16 | every code is in 1..24, and a label has a code exactly when it is one of the 24 condition labels |
| TaskEvents.Preprocessor | backend/app/pipeline/task_processor.py:146-150 | a task has a preprocessor exactly when its name is "surroundSupp", "RestingState" or "contrastChangeDetection" |
| TaskEvents.SelectStim | backend/app/pipeline/task_processor.py:24-46 | the stimulus selection keeps at most the table's rows |
| TaskEvents.SelectStimMembers | backend/app/pipeline/task_processor.py:24-46 | an onset is selected exactly when some "stim_ON" row with an onset has its epoch window inside the recording and gives that sample and label |
| TaskEvents.SelectedWindowInside | backend/app/pipeline/task_processor.py:38-46 | every selected epoch window `[sample + tmin·sfreq, sample + tmax·sfreq]` lies inside `[0, n_times)` |
| TaskEvents.Tags | backend/app/pipeline/task_processor.py:28-31 | the labels are the selected rows' labels in order |
| TaskEvents.SurroundPrep | backend/app/pipeline/task_processor.py:18-70 | a surround-suppression result has one event per label, each coded by `EVENT_ID` with previous value 0, and every code in 1..24 |
| TaskEvents.CodedEvents | backend/app/pipeline/task_processor.py:50-56 | one `[sample, 0, EVENT_ID[label]]` row per selected onset |
| TaskEvents.CodedIds | backend/app/pipeline/task_processor.py:58 | the event-id table holds exactly the labels that occur, each with its `EVENT_ID` code |
| TaskEvents.Relabel | backend/app/pipeline/task_processor.py:94-96 | the re-coded rows are at most the events, each with previous value 0 and the new code |
| TaskEvents.AppendRelabelled | backend/app/pipeline/task_processor.py:94-96 | the inner loop appends exactly the re-coded rows of one annotation |
| TaskEvents.RestingEvents | backend/app/pipeline/task_processor.py:86-98 | the loops build exactly the specified events and `present` list |
| TaskEvents.RestingFacts | backend/app/pipeline/task_processor.py:86-101 | open events are coded 1 and close events 2; `present` names the conditions found, open before close, and is empty exactly when no event was found |
| TaskEvents.RestingTwo | backend/app/pipeline/task_processor.py:89-98 | the two passes of the loop contribute the open rows then the close rows |
| TaskEvents.InsertEvent | backend/app/pipeline/task_processor.py:105 | inserting an event into a sorted list keeps it sorted and adds exactly that event |
| TaskEvents.SortEvents | backend/app/pipeline/task_processor.py:105 | `sorted(new_events)` is sorted in Python's list order and a permutation of its input |
| TaskEvents.RowsWith | backend/app/pipeline/task_processor.py:80-81 | the selected rows all carry one of the wanted values and come from the table |
| TaskEvents.RestingPrepared | backend/app/pipeline/task_processor.py:73-112 | the resting-state result is None exactly when there is no table or no event was found; otherwise its events are non-empty and sorted |
| TaskEvents.RestingPrep | backend/app/pipeline/task_processor.py:73-112 | the loop form computes the resting-state specification |
| TaskEvents.CcdPrep | backend/app/pipeline/task_processor.py:115-143 | a CCD result has label list ["trial_start"], id table `CCD_EVENT_ID` and at least one event, each coded 1 with previous value 0 |
| TaskEvents.NoneIsNoCondition | backend/app/pipeline/task_processor.py:58 | no preprocessor's event-id table holds the string "None" |
| Processor.FilteredStage | backend/app/pipeline/task_processor.py:160-189 | a cleaned-cache hit is returned without asking for the raw recording and with the files unchanged; the raw recording is asked for (and pre-filtered) exactly when both the cleaned and the prefilter artifacts miss; in every case the cleaned artifact afterwards loads as the returned recording |
| Processor.FilteredStageAsWritten | backend/app/pipeline/task_processor.py:160-189 | as written, `get_filtered` raises exactly when both the cleaned and the prefilter artifacts miss (the read-back names the unimported `mne`); otherwise it agrees with the corrected stage |
| Processor.Built | backend/app/pipeline/task_processor.py:210-214 | the built epochs carry the prepared events and id table, and no bad channel remains after interpolation |
| Processor.Select | backend/app/pipeline/task_processor.py:217-225 | a chosen stimulus the epochs do not know is "unavailable"; a known one keeps only that condition's events; with no stimulus every event is kept; labels pass through |
| Processor.FromSidecar | backend/app/core/cache_manager.py:154-159 | a sidecar read back gives its JSON as a labels list; no sidecar gives no labels |
| Processor.FreshLabels | backend/app/pipeline/task_processor.py:69-70 | a preprocessor hands back a NumPy array of labels exactly for surround suppression, and a list otherwise; either way `save_epochs` writes the list of its strings |
| Processor.EpochsStage | backend/app/pipeline/task_processor.py:191-225 | an unsupported task is "unavailable" and touches nothing; asking for neither the raw recording nor the events happens only on an epochs-cache hit; `pre_filter` changes the handed recording only in a call that asked for it; the labels returned are an array exactly when a miss built them for surround suppression |
| Processor.EpochsStageAsWritten | backend/app/pipeline/task_processor.py:206-225 | as written, `get_epochs` never asks for the raw recording or the events, and agrees with the corrected stage only for an unsupported task or an epochs-cache hit |
| Processor.EvokedStage | backend/app/pipeline/task_processor.py:227-250 | a params object without `evoked_key` raises and touches nothing; an evoked hit is returned with the files unchanged and nothing asked for; a produced response is what the evoked artifact then loads; `pre_filter` changes the handed recording only in a call that asked for it |
| Processor.TaskProcessor.constructor | backend/app/pipeline/task_processor.py:154-158 | the processor records its request, cache, MNE calls and cleaner |
| Processor.TaskProcessor.GetFiltered | backend/app/pipeline/task_processor.py:160-189 | the method returns, and leaves the cache in, exactly what the `get_filtered` specification says; `rawUsed` reports that `pre_filter` ran on the handed recording, which the caller then holds as `Handed` says |
| Processor.TaskProcessor.Prefilter | backend/app/pipeline/task_processor.py:173-185 | a prefilter hit is loaded and leaves the handed recording alone; a miss pre-filters the handed recording (`rawUsed`), saves it and returns what the file reads back |
| Processor.TaskProcessor.RunPreprocessor | backend/app/pipeline/task_processor.py:210 | running a task's preprocessor gives the specified preparation, cache, demand and in-place change; contrast change detection reads its events from the recording `get_raw()` returns after `get_filtered`, pre-filtered when `pre_filter` ran on it |
| Processor.TaskProcessor.GetEpochs | backend/app/pipeline/task_processor.py:191-225 | the method returns, and leaves the cache in, exactly what the `get_epochs` specification says, and reports whether `pre_filter` changed the handed recording |
| Processor.TaskProcessor.GetEvoked | backend/app/pipeline/task_processor.py:227-250 | the method returns, and leaves the cache in, exactly what the `get_evoked` specification says, and reports whether `pre_filter` changed the handed recording |
| Processor.StagePathsDistinct | backend/app/pipeline/task_processor.py:161-180 | the cleaned and prefilter artifacts of one recording never share a path |
| Processor.FilteredTwiceHits | backend/app/pipeline/task_processor.py:169-188 | a second `get_filtered` with the same params is a cleaned hit: same recording, files unchanged, raw recording not asked for |
| Processor.SharedFilterKeyReusesPrefilter | backend/app/pipeline/task_processor.py:173-186 | after a cleaned miss, a request with the same filter key finds the prefilter artifact and does not ask for the raw recording |
| Processor.EpochsTwiceHits | backend/app/pipeline/task_processor.py:206-215 | after a `get_epochs` that produced epochs and saved them, the same call is a hit with the same epochs, nothing asked for, and the labels as the sidecar holds them (a list where the first call returned an array) |
| Processor.EvokedTwiceHits | backend/app/pipeline/task_processor.py:237-249 | after a `get_evoked` that produced a response, the same call returns it, leaves the files alone and asks for nothing |
| Processor.ColdEpochsAsWritten | backend/app/pipeline/task_processor.py:206-223 | as written, a cold epochs cache for a supported task raises without running the preprocessor or saving anything |
| Processor.ColdEpochsComputed | backend/app/pipeline/task_processor.py:206-215 | with the corrected hit test, a cold epochs cache runs the preprocessor |
| Processor.NoneStimulusUnavailable | backend/app/pipeline/task_processor.py:217-220 | a request whose stimulus is the string "None" never gets epochs on a cache miss |
| Processor.FilteredRetryAfterNameError | backend/app/pipeline/task_processor.py:181-188 | after the as-written stage raised, the same call succeeds from the saved prefilter artifact without asking for the raw recording |
| Processor.PrefilterSaved | backend/app/pipeline/task_processor.py:173-185 | a call that ran `pre_filter` leaves the pre-filter of the handed recording readable at the prefilter path |
| Processor.PrefilterSavedAsWritten | backend/app/pipeline/task_processor.py:173-185 | as written, the call that raises NameError has already saved the pre-filter of the handed recording at the prefilter path |
| Processor.RefilterAsWritten | backend/app/pipeline/task_processor.py:182 | as written, a first request that pre-filtered the memoised recording in place raises NameError and leaves the memo pre-filtered; a second request whose filter key misses then stores the pre-filter of the already pre-filtered recording, with the stage as written and with the corrected one |
| Processor.RefilterOnCopy | backend/app/pipeline/signal_cleaner.py:263-289 | with `pre_filter` on a copy, what a request stores under its prefilter key is the same whatever was requested before: the pre-filter of the loaded recording |
| Executor.TaskExecutor.constructor | backend/app/pipeline/task_executor.py:14-37 | nothing is loaded or created yet, nothing has been asked of the loader, and an injected cache is kept |
| Executor.TaskExecutor.Ensure | backend/app/pipeline/task_executor.py:39-52 | afterwards loader, cache and processor exist; an existing cache or processor is kept, a missing cache is created with the default base and `PIPELINE_VERSION`; the cache contents are unchanged |
| Executor.TaskExecutor.GetRaw | backend/app/pipeline/task_executor.py:54-58 | returns and memoises the current recording, asking the loader only while nothing is memoised; after a pre-filter ran on the memo, that is the pre-filtered object |
| Executor.TaskExecutor.GetEvent | backend/app/pipeline/task_executor.py:60-64 | returns the loader's table; a memoised table is reused, and a None is asked for again on the next call |
| Executor.TaskExecutor.Electrodes | backend/app/pipeline/task_executor.py:66-71 | returns the memoised electrodes, or loads them once more when nothing is memoised |
| Executor.TaskExecutor.Metadata | backend/app/pipeline/task_executor.py:73-78 | returns the memoised metadata, or loads it once more when nothing is memoised |
| Executor.TaskExecutor.Channels | backend/app/pipeline/task_executor.py:80-85 | returns the memoised channels table, or loads it once more when nothing is memoised |
| Executor.TaskExecutor.Served | backend/app/pipeline/task_executor.py:47-64 | the processor's calls of `get_raw` and `get_event` memoise and count loads as those methods do, and the memoised recording becomes the object as the processor left it |
| Executor.TaskExecutor.Filter | backend/app/pipeline/task_executor.py:89 | the processor's `get_filtered`, fed with the current (possibly already pre-filtered) memoised recording, as the processor's specification says |
| Executor.TaskExecutor.GetFilteredRaw | backend/app/pipeline/task_executor.py:87-91 | returns the processor's cleaned recording computed from the current recording and drops the memoised raw recording |
| Executor.TaskExecutor.FilteredRawReady | backend/app/pipeline/task_executor.py:89-91 | once `_ensure` has run, returns the cleaned recording computed from the current recording and drops the memoised raw recording |
| Executor.TaskExecutor.GetEpochs | backend/app/pipeline/task_executor.py:93-95 | returns the processor's `get_epochs` answer unchanged; when the recording was asked for, the memo is kept and is the pre-filtered recording exactly when `pre_filter` ran |
| Executor.TaskExecutor.EpochsReady | backend/app/pipeline/task_executor.py:95 | once `_ensure` has run, returns the processor's `get_epochs` answer unchanged and keeps the memo as `pre_filter` left it |
| Executor.TaskExecutor.GetEvoked | backend/app/pipeline/task_executor.py:97-99 | returns the processor's `get_evoked` answer unchanged; when the recording was asked for, the memo is kept and is the pre-filtered recording exactly when `pre_filter` ran |
| Executor.TaskExecutor.EvokedReady | backend/app/pipeline/task_executor.py:99 | once `_ensure` has run, returns the processor's `get_evoked` answer unchanged and keeps the memo as `pre_filter` left it |
| Cohort.FirstRaised | backend/app/pipeline/cohort_executor.py:69-70 | no exception is reported exactly when no executor raised |
| Cohort.StringItems | backend/app/pipeline/cohort_executor.py:73-74 | the strings a list of labels contributes are exactly its string items |
| Cohort.Chars | backend/app/pipeline/cohort_executor.py:74 | `update` with a string adds exactly its one-character strings |
| Cohort.LabelUpdate | backend/app/pipeline/cohort_executor.py:73-74 | per shape of the labels: falsy labels add nothing; a string adds its characters; a list adds its string items and raises TypeError on a nested list; a truthy number or true raises TypeError; an array of several labels raises NumPy's ValueError, and a one-element array adds its non-empty label |
| Cohort.LabelStrings | backend/app/pipeline/cohort_executor.py:73-74 | labels that pass `update` contribute what `LabelUpdate` adds |
| Cohort.Checked | backend/app/pipeline/cohort_executor.py:73-74 | the answer raises exactly when the executor raised or `update` raises on its labels, with that exception, and is otherwise left as it was |
| Cohort.LabelUpdateRaises | backend/app/pipeline/cohort_executor.py:69-74 | when the first executor that raises or answers with labels `update` raises on does the latter, the cohort raises that exception (NumPy's ValueError for an array of several labels) |
| Cohort.CheckedReady | backend/app/pipeline/cohort_executor.py:69-81 | cohort epochs come only from executors none of which raised and none of whose labels `update` raised on |
| Cohort.ReadyPairs | backend/app/pipeline/cohort_executor.py:69-72 | the kept pairs are exactly those of the executors that returned epochs |
| Cohort.LabelPool | backend/app/pipeline/cohort_executor.py:73-74 | the label pool holds exactly the labels of the kept pairs |
| Cohort.CohortEpochsFacts | backend/app/pipeline/cohort_executor.py:62-81 | the cohort has epochs exactly when no executor raised and some returned epochs; its labels are then strictly ascending and exactly the union of those executors' labels |
| Cohort.FirstRaisedAt | backend/app/pipeline/cohort_executor.py:69-70 | the first exception after a clean prefix is the one reported |
| Cohort.SubjectIndex | backend/app/pipeline/cohort_executor.py:92 | a subject's position in the per-subject dict is its first entry, or the end when absent |
| Cohort.ReadyEvokeds | backend/app/pipeline/cohort_executor.py:88-92 | at most one item per executor |
| Cohort.GroupedSnoc | backend/app/pipeline/cohort_executor.py:92 | one more response extends the grouping by one `setdefault(...).append` |
| Cohort.EvokedsOfSubject | backend/app/pipeline/cohort_executor.py:92 | a subject with a response is one of the items' subjects |
| Cohort.GroupAddSubjects | backend/app/pipeline/cohort_executor.py:92 | adding a response adds its subject at the end unless already present |
| Cohort.GroupAddMembers | backend/app/pipeline/cohort_executor.py:92 | with distinct subjects, adding a response extends that subject's list only |
| Cohort.GroupedSubjects | backend/app/pipeline/cohort_executor.py:87-92 | the per-subject dict has one group per subject, in first-seen order |
| Cohort.GroupedMembers | backend/app/pipeline/cohort_executor.py:87-92 | each group holds exactly its subject's responses, in order |
| Cohort.GroupsNonEmpty | backend/app/pipeline/cohort_executor.py:92-96 | every group holds at least one response, so `v[0]` is defined |
| Cohort.PerSubject | backend/app/pipeline/cohort_executor.py:94-97 | one response per subject |
| Cohort.SingleEvokedKept | backend/app/pipeline/cohort_executor.py:95-102 | a single executor's response is returned as is |
| Cohort.SameSubjectAveraged | backend/app/pipeline/cohort_executor.py:92-102 | two responses of one subject give their grand average |
| Cohort.ConcatTables | backend/app/pipeline/cohort_executor.py:31 | the concatenated table's columns are the union of the tables' columns and its rows number the tables' rows together |
| Cohort.GroupBySubject | backend/app/pipeline/cohort_executor.py:87-92 | the loop builds exactly the per-subject grouping |
| Cohort.CohortExecutor.constructor | backend/app/pipeline/cohort_executor.py:15-25 | the executors are kept and every memo starts empty |
| Cohort.CohortExecutor.EventAt | backend/app/pipeline/cohort_executor.py:30 | one comprehension element gives that executor's table and changes no other executor |
| Cohort.CohortExecutor.Events | backend/app/pipeline/cohort_executor.py:27-32 | the `events` property returns the memo, or concatenates the present tables once and memoises them |
| Cohort.CohortExecutor.Electrodes | backend/app/pipeline/cohort_executor.py:34-36 | the first executor's electrodes, or None with no executor |
| Cohort.CohortExecutor.Metadata | backend/app/pipeline/cohort_executor.py:38-40 | the first executor's metadata, or None with no executor |
| Cohort.CohortExecutor.Channels | backend/app/pipeline/cohort_executor.py:42-44 | the first executor's channels table, or None with no executor |
| Cohort.CohortExecutor.FilteredOnce | backend/app/pipeline/cohort_executor.py:51-53 | one `get_filtered_raw` call gives the executor's filtered recording, which the same call again would also give |
| Cohort.CohortExecutor.FilteredAt | backend/app/pipeline/cohort_executor.py:50-54 | one comprehension element asks the executor twice and returns the first answer |
| Cohort.CohortExecutor.ConsultFiltered | backend/app/pipeline/cohort_executor.py:50-54 | the comprehension gives every executor's filtered recording, each executor asked twice |
| Cohort.CohortExecutor.GetFilteredRaw | backend/app/pipeline/cohort_executor.py:46-60 | returns the memo whatever the params; otherwise the executors' recordings concatenated, None with no executor |
| Cohort.CohortExecutor.EpochsAt | backend/app/pipeline/cohort_executor.py:70 | one executor's `get_epochs` answer, other executors untouched |
| Cohort.CohortExecutor.ConsultEpochs | backend/app/pipeline/cohort_executor.py:69-74 | the loop gives the first exception, counting the ValueError of `if lbls:` on an array of several labels, or the pairs of the executors that answered |
| Cohort.CohortExecutor.GetEpochs | backend/app/pipeline/cohort_executor.py:62-81 | returns the memo whatever the params; otherwise the combined answer with each executor's labels passed through `if lbls:`, memoised when there are epochs |
| Cohort.CohortExecutor.EvokedAt | backend/app/pipeline/cohort_executor.py:89 | one executor's `get_evoked` answer, other executors untouched |
| Cohort.CohortExecutor.ConsultEvoked | backend/app/pipeline/cohort_executor.py:88-92 | the loop gives the first exception, or the subjects and responses of the executors that answered |
| Cohort.CohortExecutor.GetEvoked | backend/app/pipeline/cohort_executor.py:83-103 | returns the memo whatever the params; otherwise the per-subject then cross-subject average, memoised when there is one |
| SignalCleaner.PicksUpTo | backend/app/pipeline/signal_cleaner.py:50 | the picks are ascending channel indices, and an index is picked exactly when it is an EEG channel not marked bad |
| SignalCleaner.KeptLength | backend/app/pipeline/signal_cleaner.py:54 | rows of equal length keep equally many samples under the annotation mask |
| SignalCleaner.PickedDataRectangular | backend/app/pipeline/signal_cleaner.py:54 | the picked data has one row per pick, all rows of the same length |
| SignalCleaner.FlaggedNames | backend/app/pipeline/signal_cleaner.py:106-107 | a name is collected exactly when some picked channel with a set flag has it |
| SignalCleaner.PresentStandardised | backend/app/pipeline/signal_cleaner.py:23-27 | the non-NaN scores are the present values shifted by the mean and divided by the spread |
| SignalCleaner.ZScoresCentred | backend/app/pipeline/signal_cleaner.py:23-27 | with a non-zero spread the non-NaN scores sum to zero |
| SignalCleaner.ZScoreNaN | backend/app/pipeline/signal_cleaner.py:26-27 | a zero spread makes every score NaN; otherwise a score is NaN exactly where the input is |
| SignalCleaner.WithBads | backend/app/pipeline/signal_cleaner.py:108-111 | only the bad marks change; they become the sorted union of the old marks and the flagged names, and stay put when nothing is flagged |
| SignalCleaner.FlatWindowConstant | backend/app/pipeline/signal_cleaner.py:61-62 | a window is flat exactly when all its samples are equal |
| SignalCleaner.FlatRunLength | backend/app/pipeline/signal_cleaner.py:41-49 | the detector runs only with a positive duration whose rounded sample count exceeds one |
| SignalCleaner.Flatline | backend/app/pipeline/signal_cleaner.py:39-73 | only the marks change, none is dropped, and a disabled detector or no EEG channel leaves the recording as it was |
| SignalCleaner.FlatlineMarks | backend/app/pipeline/signal_cleaner.py:54-70 | afterwards a channel is marked exactly when it was marked or is an EEG channel whose kept samples hold a flat run |
| SignalCleaner.MarksByChannel | backend/app/pipeline/signal_cleaner.py:67-70 | the marks after flagging are the old ones plus every EEG channel with the flagged property |
| SignalCleaner.ShortChannelNotFlat | backend/app/pipeline/signal_cleaner.py:58-59 | a channel shorter than the run length is never flat |
| SignalCleaner.MarkFlatlineChannels | backend/app/pipeline/signal_cleaner.py:39-73 | the loop gives exactly the flatline detector's result |
| SignalCleaner.FlatNames | backend/app/pipeline/signal_cleaner.py:55-66 | the loop collects exactly the names of the flat channels, in pick order |
| SignalCleaner.HfBand | backend/app/pipeline/signal_cleaner.py:86-94 | there is a band exactly when min(100, lowpass) exceeds max(30, highpass) by more than one hertz |
| SignalCleaner.HfNoise | backend/app/pipeline/signal_cleaner.py:76-114 | only the marks change, none is dropped, and a disabled detector, no EEG channel or no band leaves the recording as it was |
| SignalCleaner.HfNoiseMarks | backend/app/pipeline/signal_cleaner.py:105-111 | afterwards a channel is marked exactly when it was marked or is an EEG channel whose band-power score is above the threshold |
| SignalCleaner.PositiveScoreAboveMean | backend/app/pipeline/signal_cleaner.py:23-27 | a channel with a positive score has more band power than the mean |
| SignalCleaner.Correlations | backend/app/pipeline/signal_cleaner.py:129-137 | the loop gives each channel's correlation with the median trace, 1.0 below ten samples |
| SignalCleaner.CorrThreshold | backend/app/pipeline/signal_cleaner.py:119-122 | the detector runs only with 0 < corr_min <= 1 |
| SignalCleaner.LowCorr | backend/app/pipeline/signal_cleaner.py:117-147 | only the marks change, none is dropped, and a disabled detector or fewer than three EEG channels leaves the recording as it was |
| SignalCleaner.LowCorrMarks | backend/app/pipeline/signal_cleaner.py:127-144 | afterwards a channel is marked exactly when it was marked or is an EEG channel whose correlation is below the threshold |
| SignalCleaner.ShortChannelNotLowCorr | backend/app/pipeline/signal_cleaner.py:133-135 | a channel with fewer than ten samples is never flagged |
| SignalCleaner.MarkLowCorrChannels | backend/app/pipeline/signal_cleaner.py:117-147 | the loop gives exactly the low-correlation detector's result |
| SignalCleaner.WindowLength | backend/app/pipeline/signal_cleaner.py:160 | at least one sample, and the rounded window length when above one |
| SignalCleaner.BadWindows | backend/app/pipeline/signal_cleaner.py:178-180 | the flagged windows are ascending, and a window is flagged exactly when its out-of-band percentage is above the threshold |
| SignalCleaner.PowerAnnotations | backend/app/pipeline/signal_cleaner.py:184-187 | one "bad_power" annotation per window, at index / sfreq, lasting win / sfreq |
| SignalCleaner.PowerBadWindows | backend/app/pipeline/signal_cleaner.py:150-168 | the detector runs only with a positive window of at least one sample |
| Eeg.InsertAnn | backend/app/pipeline/signal_cleaner.py:189 | inserting one annotation into the list that MNE's `+` sorts adds exactly that annotation |
| Eeg.InsertAnnSorted | backend/app/pipeline/signal_cleaner.py:189 | inserting into a list sorted by (onset, duration) keeps it sorted |
| Eeg.SortAnns | backend/app/pipeline/signal_cleaner.py:189 | the stable sort MNE applies after `+` returns a sorted permutation of its input |
| Eeg.AddAnnotations | backend/app/pipeline/signal_cleaner.py:189 | `raw.annotations + ann` holds every old and every new annotation (as multisets) and is sorted by onset, then duration |
| Eeg.SortSortedUnchanged | backend/app/pipeline/signal_cleaner.py:189 | the sort is stable: a list already sorted comes back unchanged |
| Eeg.AddLaterAppends | backend/app/pipeline/signal_cleaner.py:189 | when the joined list is already sorted, `+` is plain concatenation |
| SignalCleaner.PowerWindows | backend/app/pipeline/signal_cleaner.py:150-192 | only the annotations change; no old annotation is lost, every added one is a "bad_power" window of the window's length, and when windows were added the list is sorted |
| SignalCleaner.PowerWindowOnsets | backend/app/pipeline/signal_cleaner.py:184-189 | the annotations added are exactly one per flagged window, starting at its index over the rate, and the result is sorted |
| SignalCleaner.FullThresholdFlagsNothing | backend/app/pipeline/signal_cleaner.py:178-180 | a threshold of 100 or more flags no window |
| SignalCleaner.ThresholdMonotone | backend/app/pipeline/signal_cleaner.py:179-180 | raising the threshold can only unflag windows |
| SignalCleaner.OutPctMeaning | backend/app/pipeline/signal_cleaner.py:178-180 | a window is flagged exactly when more than the threshold percentage of channels are out of band |
| SignalCleaner.Asr | backend/app/pipeline/signal_cleaner.py:195-223 | a missing or non-positive cutoff or a recording without EEG channels is returned unchanged; with an ASR that keeps the layout, channels, bad marks and rate stay and no annotation is lost |
| SignalCleaner.PreFilter | backend/app/pipeline/signal_cleaner.py:263-289 | with filters that change only samples, channels, bad marks and annotations stay, and the rate becomes the resampling target exactly when it is positive and more than 1e-6 away from the current rate |
| SignalCleaner.PreFilterByFilterKey | backend/app/pipeline/signal_cleaner.py:266-284 | pre-filtering reads only l_freq, h_freq, resample_fs and notch: two parameter sets with the same filter key pre-filter a recording alike |
| SignalCleaner.PreFilterBandpassOnly | backend/app/pipeline/signal_cleaner.py:278-287 | with no resampling target and no notch, pre-filtering is the band-pass alone |
| SignalCleaner.CleanMark | backend/app/pipeline/signal_cleaner.py:292-303 | the recording is threaded through the five steps in order |
| SignalCleaner.CleanMarkKeeps | backend/app/pipeline/signal_cleaner.py:292-303 | cleaning keeps the channels and the sampling rate, drops no bad mark and drops no annotation |
| SignalCleaner.ChannelMarkersKeep | backend/app/pipeline/signal_cleaner.py:297-299 | the three channel detectors together change only the marks and keep the old ones |
| SignalCleaner.CleanMarkByCleaningKey | backend/app/pipeline/signal_cleaner.py:292-303 | marking reads only the cleaning fields: two parameter sets with the same cleaning key mark a recording alike |
| ChannelsHelp.ToFloatOrNone | backend/app/pipeline/channels_helper.py:45-53 | None, a blank string and an unconvertible value give None; a number is kept; a boolean gives 1.0 or 0.0; any other string is parsed |
| ChannelsHelp.PickIndices | backend/app/pipeline/channels_helper.py:34-36 | the picks are ascending, and a channel is picked exactly when it is included (an empty list including all) and not excluded |
| ChannelsHelp.OrderedPicks | backend/app/pipeline/channels_helper.py:34 | the ordered picks are the first positions of the included, non-excluded names, and no pick is excluded |
| ChannelsHelp.PickOrdered | backend/app/pipeline/channels_helper.py:34 | with `ordered=True` the pick raises exactly when a requested name is not a channel, and otherwise picks no excluded channel |
| ChannelsHelp.PickOrderedAgrees | backend/app/pipeline/channels_helper.py:34 | on distinct channel names, an ordered pick that does not raise picks the same channels as the channel-order pick |
| ChannelsHelp.Selection | backend/app/pipeline/channels_helper.py:28-36 | every pick indexes a channel |
| ChannelsHelp.Where | backend/app/pipeline/channels_helper.py:103 | the kept elements are those whose flag is set, in their order |
| ChannelsHelp.UvSelectionSubsequence | backend/app/pipeline/channels_helper.py:58-107 | the µV filter keeps the picks' order, adds no channel and never empties a non-empty selection |
| ChannelsHelp.UvSelectionKeepsWithin | backend/app/pipeline/channels_helper.py:95-106 | with a bound set and some channel within the bounds, exactly the picked channels within them remain |
| ChannelsHelp.UvSelectionFallsBack | backend/app/pipeline/channels_helper.py:104-105 | when no picked channel is within the bounds, the picks stay as they were |
| ChannelsHelp.KeepMask | backend/app/pipeline/channels_helper.py:95-101 | the mask holds for a channel exactly when its minimum is at least uv_min and its maximum at most uv_max, each when set |
| ChannelsHelp.ChannelsHelper.constructor | backend/app/pipeline/channels_helper.py:19-24 | keeps the params and the instance, with no picks and no pick names yet |
| ChannelsHelp.ChannelsHelper.PickChannels | backend/app/pipeline/channels_helper.py:26-40 | the picks become the selection honouring the channel list and the bad list, and the pick names name them |
| ChannelsHelp.ChannelsHelper.FilterByUv | backend/app/pipeline/channels_helper.py:42-107 | selects first when nothing was selected, then sets the picks to the µV-filtered selection, keeping the pick names in step |
| ChannelsHelp.PreparedPicks | backend/app/pipeline/channels_helper.py:124-128 | every kept channel indexes a channel of the instance |
| ChannelsHelp.PrepareChannels | backend/app/pipeline/channels_helper.py:110-137 | a fresh helper picks and filters, then the picks are combined into one "combined" channel, copied, or picked |
| ChannelsHelp.PreparedRespectsSelection | backend/app/pipeline/channels_helper.py:124-128 | unless showbad is set no bad channel survives, and with a channel list every kept channel is on it |
| TaskLoader.BaseName | backend/app/pipeline/task_loader.py:52-54 | "<subject>_task-<task>", followed by "_run-<run>" exactly when a non-empty run is given |
| TaskLoader.GetFile | backend/app/pipeline/task_loader.py:50-56 | the path is the data directory, the subject, "eeg" and "<base>_<ext>" |
| TaskLoader.LoadJson | backend/app/pipeline/task_loader.py:58-63 | an absent file gives the empty dict, a present one its parsed contents |
| TaskLoader.LoadTsv | backend/app/pipeline/task_loader.py:65-69 | None exactly when the file is absent, otherwise its parsed table |
| TaskLoader.LoadMetadata | backend/app/pipeline/task_loader.py:34-36 | a missing "eeg.json" gives the empty dict |
| TaskLoader.LoadEvents | backend/app/pipeline/task_loader.py:38-40 | None exactly when "events.tsv" is absent |
| TaskLoader.LoadChannels | backend/app/pipeline/task_loader.py:42-44 | None exactly when "channels.tsv" is absent |
| TaskLoader.LoadElectrodes | backend/app/pipeline/task_loader.py:46-48 | None exactly when "electrodes.tsv" is absent |
| TaskLoader.FdtPath | backend/app/pipeline/task_loader.py:24 | the same path with the ".set" suffix replaced by ".fdt" |
| TaskLoader.DropChannel | backend/app/pipeline/task_loader.py:30 | the named channel is gone, every other channel stays, and rate, marks and annotations are kept |
| TaskLoader.LoadRaw | backend/app/pipeline/task_loader.py:21-32 | the recording read with preload exactly when no ".fdt" sidecar exists has every channel but "Cz" |
| TaskNames.KeepNormChars | backend/app/core/participants_loader.py:130 | the kept characters are all ASCII lower-case letters or digits, never more than the input |
| TaskNames.Norm | backend/app/core/participants_loader.py:128-130 | the result holds only lower-case letters and digits, and None gives the empty string |
| TaskNames.NormFixpoint | backend/app/core/participants_loader.py:128-130 | a string already lower-case alphanumeric is its own normal form |
| TaskNames.NormIdempotent | backend/app/core/participants_loader.py:128-130 | normalising twice is normalising once |
| TaskNames.NormConcat | backend/app/core/participants_loader.py:128-130 | the normal form of a concatenation is the concatenation of the normal forms |
| TaskNames.NormChar | backend/app/core/participants_loader.py:130 | a letter becomes its lower case, a digit stays, anything else is dropped |
| TaskNames.NormLower | backend/app/core/participants_loader.py:130 | lower-casing first does not change the normal form |
| TaskNames.TrailingDigits | backend/app/core/participants_loader.py:140 | the digit run that ends the string, as long as possible |
| TaskNames.TrailingDigitsMaximal | backend/app/core/participants_loader.py:140 | no longer digit run ends the string |
| TaskNames.RunSuffixAt | backend/app/core/participants_loader.py:332 | a found suffix is "_" followed by at least one digit up to the end |
| TaskNames.RunSuffixUnique | backend/app/core/participants_loader.py:332 | a "_" followed only by digits is the suffix found |
| TaskNames.RunSuffixOf | backend/app/core/participants_loader.py:332 | the column "<base>_<digits>" has its suffix right after the base |
| TaskNames.StripRunSuffix | backend/app/core/participants_loader.py:429 | the stripped column is a prefix of the column |
| TaskNames.ColumnSplit | backend/app/core/participants_loader.py:332-337 | the base is the column without its suffix; the run, when found, is digits and joins back to the column |
| TaskNames.ColumnSplitOf | backend/app/core/participants_loader.py:332-337 | "<base>_<digits>" splits into exactly that base and run |
| TaskNames.NormBases | backend/app/core/participants_loader.py:133-143 | the base names are non-empty normal forms and include the column's own normal form when non-empty |
| TaskNames.NormBasesIndexed | backend/app/core/participants_loader.py:137-139 | "<base>_<digits>" has the normal form of its base among its base names |
| TaskNames.NormBasesNumbered | backend/app/core/participants_loader.py:140-142 | a normal form ending in digits has the stem before them among its base names |
| TaskNames.ParseTail | backend/app/core/participants_loader.py:167 | a parsed task is non-empty without "_", and a parsed run is digits |
| TaskNames.DiscoverPair | backend/app/core/participants_loader.py:99-115 | a name is read only when the glob matches, giving a well-formed task and run |
| TaskNames.SubjectPair | backend/app/core/participants_loader.py:167-173 | a name is read only when the subject's glob matches, giving a well-formed task and run |
| TaskNames.TailFacts | backend/app/core/participants_loader.py:167 | the parts after the subject of a built file name parse back to its task and run |
| TaskNames.FileNameJoin | backend/app/core/participants_loader.py:167 | the EEG file name is the subject and the tail parts joined with "_" |
| TaskNames.TailJoin | backend/app/core/participants_loader.py:167 | the tail is "task-<task>[_run-<run>]_eeg.set" |
| TaskNames.TailJoinShape | backend/app/core/participants_loader.py:168 | the tail starts with "task-" and ends with "_eeg.set" |
| TaskNames.SubjectGlobOfFileName | backend/app/core/participants_loader.py:168 | the built file name matches the subject's glob |
| TaskNames.FileNameSubjectPair | backend/app/core/participants_loader.py:157-178 | the EEG file the loader opens is found for its subject, with its own task and run |
| TaskNames.DiscoveryGlobOfFileName | backend/app/core/participants_loader.py:109 | the built file name of a "sub-" subject matches the discovery glob |
| TaskNames.FileNameDiscovered | backend/app/core/participants_loader.py:99-118 | the EEG file the loader opens is found by the discovery scan with its own task and run |
| CcdMetrics.WithOnsets | backend/app/core/participants_loader.py:217-218 | the rows kept are exactly those with a numeric onset |
| CcdMetrics.InsertByOnsetFacts | backend/app/core/participants_loader.py:218 | inserting a row into a sorted table keeps it sorted and adds exactly that row |
| CcdMetrics.SortByOnset | backend/app/core/participants_loader.py:218 | the sorted table is ordered by onset and a permutation of the input |
| CcdMetrics.Prepare | backend/app/core/participants_loader.py:217-218 | the prepared table is ordered by onset and holds exactly the rows with an onset |
| CcdMetrics.NextTrialStart | backend/app/core/participants_loader.py:225-230 | the first trial start at or after a row, or none when there is none |
| CcdMetrics.FirstPress | backend/app/core/participants_loader.py:231-236 | the first candidate press after the target, or none when there is none |
| CcdMetrics.Round4Within | backend/app/core/participants_loader.py:256 | rounding to four decimals keeps a percentage within 0 and 100 |
| CcdMetrics.ResponseTime | backend/app/core/participants_loader.py:242 | a response time is never negative |
| CcdMetrics.TargetOutcome | backend/app/core/participants_loader.py:227-254 | a target is missed exactly when no press answers it before the next trial start, and a scored time is never negative |
| CcdMetrics.RecordConsistent | backend/app/core/participants_loader.py:232-254 | scoring one target counts it once and keeps the counters consistent |
| CcdMetrics.TallyRowsFacts | backend/app/core/participants_loader.py:224-254 | after one table the total grows by its number of targets and the counters stay consistent |
| CcdMetrics.TallyFilesFacts | backend/app/core/participants_loader.py:213-254 | over all files the counters stay consistent and the total is the number of target rows with an onset |
| CcdMetrics.NonZero | backend/app/core/participants_loader.py:260-266 | a count of zero becomes None, any other is kept |
| CcdMetrics.PercentWithin | backend/app/core/participants_loader.py:256 | a part over its whole, in percent, is between 0 and 100 |
| CcdMetrics.MeanNonNegative | backend/app/core/participants_loader.py:257 | the mean of non-negative times is not negative |
| CcdMetrics.Report | backend/app/core/participants_loader.py:256-269 | zero counts become None; the accuracy exists exactly when there are targets and lies in 0..100; the response time exists exactly when there is a smiley face and is not negative |
| CcdMetrics.CountTarget | backend/app/core/participants_loader.py:227-254 | one iteration records the target's outcome |
| CcdMetrics.CountTable | backend/app/core/participants_loader.py:224-254 | the loop over one table records its targets in row order |
| CcdMetrics.ComputeCcdMetrics | backend/app/core/participants_loader.py:189-269 | no file gives the empty metrics; otherwise the report of the consistent counters over all files |
| Participants.SubjectParsed | backend/app/core/participants_loader.py:168-176 | every pair read is well formed |
| Participants.SubjectPairs | backend/app/core/participants_loader.py:157-178 | the pairs are distinct and well formed, and a missing "eeg" directory gives none |
| Participants.DedupSnoc | backend/app/core/participants_loader.py:175-176 | one more pair is appended only when not already present |
| Participants.AddPairGood | backend/app/core/participants_loader.py:117-118 | adding a well-formed pair keeps the index good and lists the pair under its subject |
| Participants.DiscoverFilesGood | backend/app/core/participants_loader.py:109-118 | scanning a directory keeps the index good and loses no subject |
| Participants.DiscoverAllGood | backend/app/core/participants_loader.py:95-124 | every subject in the index has a non-empty list of distinct well-formed pairs |
| Participants.AddPairKeeps | backend/app/core/participants_loader.py:117-118 | adding a pair loses no listed pair |
| Participants.DiscoverFilesKeeps | backend/app/core/participants_loader.py:109-118 | scanning a directory loses no listed pair |
| Participants.DiscoverFilesFinds | backend/app/core/participants_loader.py:109-118 | a name the pattern accepts puts its pair under its subject |
| Participants.DiscoverAllFinds | backend/app/core/participants_loader.py:103-118 | every accepted name in a subject's "eeg" directory is in the index under that subject |
| Participants.DiscoverTasks | backend/app/core/participants_loader.py:95-124 | the loop builds exactly the index, and the index is good |
| Participants.HasStatusCell | backend/app/core/participants_loader.py:308-311 | true exactly when some cell of the column holds a status word |
| Participants.TaskColumnsUpTo | backend/app/core/participants_loader.py:307-311 | every task column in ascending order, exactly those holding a status word |
| Participants.FindTaskColumns | backend/app/core/participants_loader.py:307-311 | the loop collects exactly the columns that are task columns |
| Participants.CheckedRow | backend/app/core/participants_loader.py:313-346 | the checked row keeps its subject and its number of cells |
| Participants.Validated | backend/app/core/participants_loader.py:303-348 | the checked table keeps its columns and its number of rows |
| Participants.ValidatedOnlyMarksMissing | backend/app/core/participants_loader.py:318-346 | a cell either stays or was "available" and becomes "missing" |
| Participants.ValidatedAbsentSubject | backend/app/core/participants_loader.py:315-322 | with no subject directory every "available" cell becomes "missing" |
| Participants.ValidatedIndexedColumn | backend/app/core/participants_loader.py:332-346 | a "<base>_<N>" cell stays "available" exactly when the subject has the pair (base, N) |
| Participants.ValidatedPlainColumn | backend/app/core/participants_loader.py:332-346 | a column without a run suffix stays "available" exactly when the subject has some pair of that task |
| Participants.ValidatedIdempotent | backend/app/core/participants_loader.py:303-348 | checking a checked table changes nothing |
| Participants.NotTaskColumnNotAvailable | backend/app/core/participants_loader.py:308-311 | a column that is not a task column has no "available" cell |
| Participants.ListAllTasks | backend/app/core/participants_loader.py:417-431 | the names are strictly sorted, and exactly the names of task columns without their run suffix |
| Participants.Limited | backend/app/core/participants_loader.py:501-504 | a positive limit keeps the first subjects up to it; otherwise all stay |
| Participants.LimitThenSort | backend/app/core/participants_loader.py:500-508 | the result is sorted and a permutation of the limited list |
| Participants.LimitKeepsTableOrder | backend/app/core/participants_loader.py:500-508 | every subject kept is among the first "limit" rows of the table |
| Participants.LimitBeforeSortExample | backend/app/core/participants_loader.py:500-508 | with subjects ["b", "a"] and limit 1 the result is ["b"], not ["a"] |
| Participants.ParticipantManager.constructor | backend/app/core/participants_loader.py:21-31 | keeps the disk and starts with an empty pairs cache |
| Participants.ParticipantManager.SubjectTaskPairs | backend/app/core/participants_loader.py:157-178 | returns the subject's pairs on disk, cached or scanned, and caches them under (release, subject) |
| Participants.ParticipantManager.ScanPairs | backend/app/core/participants_loader.py:166-176 | the glob loop keeps the first occurrence of each pair read, in listing order |
| Participants.ParticipantManager.CheckCells | backend/app/core/participants_loader.py:327-346 | each cell becomes its checked cell |
| Participants.ParticipantManager.ValidateParticipantsFile | backend/app/core/participants_loader.py:303-348 | the table returned is the checked table |
| GridPlot.NonEmpty | backend/app/plots/grid_plot_helpers.py:25 | exactly the non-empty pieces are kept |
| GridPlot.SplitTokens | backend/app/plots/grid_plot_helpers.py:23-25 | every token is non-empty without "_", and a missing or empty label has none |
| GridPlot.ConcatSplit | backend/app/plots/grid_plot_helpers.py:25 | the pieces of a split, put together, are the string without its separators |
| GridPlot.ConcatNonEmpty | backend/app/plots/grid_plot_helpers.py:25 | dropping empty pieces does not change their concatenation |
| GridPlot.SplitTokensKeepsText | backend/app/plots/grid_plot_helpers.py:23-25 | the tokens hold every character of the label except the underscores, in order |
| GridPlot.SplitTokensOfJoin | backend/app/plots/grid_plot_helpers.py:23-25 | non-empty tokens without "_" joined with "_" split back into themselves |
| GridPlot.TokensByLabel | backend/app/plots/grid_plot_helpers.py:107 | one entry per distinct label, holding that label's tokens |
| GridPlot.MaxTokenCount | backend/app/plots/grid_plot_helpers.py:108 | the largest token count of any label, or 1 with no label |
| GridPlot.GridMode | backend/app/plots/grid_plot_helpers.py:109 | at most 3; 1 with no label; 0 exactly when every label has no token |
| GridPlot.AxisTokensMembers | backend/app/plots/grid_plot_helpers.py:33 | the tokens at index k are exactly those of the labels with more than k tokens |
| GridPlot.AxisValuesFacts | backend/app/plots/grid_plot_helpers.py:33-34 | [None] when no label has a token at index k, otherwise exactly the distinct tokens there in strictly increasing order |
| GridPlot.AxesValuesShape | backend/app/plots/grid_plot_helpers.py:28-37 | three lists: the first 3 - mode are [None], the rest are the axis values of tokens 0 .. mode - 1 |
| GridPlot.AxesLoop | backend/app/plots/grid_plot_helpers.py:31-34 | the loop builds the values of axes 0 .. n - 1 |
| GridPlot.PadLoop | backend/app/plots/grid_plot_helpers.py:35-36 | the loop pads with [None] in front up to three lists |
| GridPlot.ComputeAxesValues | backend/app/plots/grid_plot_helpers.py:28-37 | the result is the axis values padded to three lists |
| GridPlot.KeyOf | backend/app/plots/grid_plot_helpers.py:45-51 | mode 1 keys on the first token, mode 2 on the first two, any other mode on the first three; no key where the tokens run out |
| GridPlot.CellMapFails | backend/app/plots/grid_plot_helpers.py:44-51 | indexing fails exactly when some label with at least mode tokens has too few for its key |
| GridPlot.CellMapFirstWins | backend/app/plots/grid_plot_helpers.py:44-53 | a cell is mapped exactly when some label lands on it, and it maps to the first such label |
| GridPlot.MapCellsToLabels | backend/app/plots/grid_plot_helpers.py:40-53 | the loop builds exactly that map |
| GridPlot.GridModeCellMap | backend/app/plots/grid_plot_helpers.py:107-111 | with the computed grid mode the map fails exactly when the mode is 0 |
| GridPlot.Subplots | backend/app/plots/grid_plot_helpers.py:119 | the value fits the shape of the figure |
| GridPlot.ReshapeAxes | backend/app/plots/grid_plot_helpers.py:56-64 | the reshaped value has rows × cols entries |
| GridPlot.ReshapeSubplots | backend/app/plots/grid_plot_helpers.py:56-64 | reshaping puts subplot (i, j) at row i, column j |
| GridPlot.UniformLimitsContain | backend/app/plots/grid_plot_helpers.py:155-157 | every finite bound lies inside the limits, with the same pad of at least 0.05 on both sides |
| GridPlot.UniformLimitsIgnoreNonFinite | backend/app/plots/grid_plot_helpers.py:132-137 | a cell that drew nothing or gave no finite bound leaves the limits as they were |
| GridPlot.LowStep | backend/app/plots/grid_plot_helpers.py:134-135 | the running minimum after one more cell is the smallest finite lower bound so far |
| GridPlot.HighStep | backend/app/plots/grid_plot_helpers.py:136-137 | the running maximum after one more cell is the largest finite upper bound so far |
| GridPlot.PageYLimits | backend/app/plots/grid_plot_helpers.py:122-157 | the running bounds over a page's cells, then padding, give the uniform-grid limits |
| SignalSpatial.RawKernel | backend/app/pipeline/signal_spatial.py:13-19 | 2n + 2s + 1 entries |
| SignalSpatial.RawKernelSum | backend/app/pipeline/signal_spatial.py:13-20 | the unnormalised kernel sums to 2n |
| SignalSpatial.KernelWeights | backend/app/pipeline/signal_spatial.py:13-20 | the kernel is n weights 1/(2n), then 2s + 1 zeros, then n weights 1/(2n) |
| SignalSpatial.KernelSymmetric | backend/app/pipeline/signal_spatial.py:13-20 | the kernel reads the same backwards |
| SignalSpatial.KernelSum | backend/app/pipeline/signal_spatial.py:20 | the normalised kernel sums to 1 |
| SignalSpatial.Convolve | backend/app/pipeline/signal_spatial.py:22 | a "valid" convolution has len(a) - len(v) + 1 entries |
| SignalSpatial.NoiseMeanIsMean | backend/app/pipeline/signal_spatial.py:13-22 | the noise estimate is the plain mean of the n bins on each side after skipping s |
| SignalSpatial.WindowNoise | backend/app/pipeline/signal_spatial.py:20-22 | a window of the row against the kernel is the noise estimate of its centre bin |
| SignalSpatial.ConvolveIsNoiseMean | backend/app/pipeline/signal_spatial.py:21-25 | convolution output j is the noise estimate of bin j + n + s |
| SignalSpatial.DefaultNeighbours | backend/app/pipeline/signal_spatial.py:9-10 | with the defaults the noise of bin i is the mean of bins i-4, i-3, i-2, i+2, i+3, i+4 |
| SignalSpatial.SnrRow | backend/app/pipeline/signal_spatial.py:7-29 | defined exactly when the row is at least as long as the kernel; as long as the row; NaN on the n + s edge bins at each end and everywhere when n is 0 |
| SignalSpatial.SnrRowInterior | backend/app/pipeline/signal_spatial.py:26-29 | inside the edges a bin is divided by its own noise estimate |
| SignalSpatial.SnrSpectrum | backend/app/pipeline/signal_spatial.py:21-29 | defined exactly when every row is long enough, each row computed on its own |
| SignalSpatial.RowsIndependent | backend/app/pipeline/signal_spatial.py:21-25 | a row's output depends on that row alone |
| SessionSync.SharedKeysAreFilterFields | backend/app/core/filter_session_sync.py:1-7 | the shared keys are exactly the filter model's fields, in their order |
| SessionSync.Dump | backend/app/core/filter_session_sync.py:14 | the dump holds every shared key, so the lookup never misses |
| SessionSync.DumpGet | backend/app/core/filter_session_sync.py:14 | the dump holds the filter's value of each shared key |
| SessionSync.OverriddenAt | backend/app/core/filter_session_sync.py:23-24 | each written key holds the base's value; every other key keeps its own |
| SessionSync.Rebuild | backend/app/core/filter_session_sync.py:26 | the rebuilt model holds exactly its class's declared fields, read from the dict; a declared stimulus goes through the "None"-to-null validator again, so it is never the string "None" |
| SessionSync.SyncChild | backend/app/core/filter_session_sync.py:21-26 | a synchronised child is a model of the same class (its fields are given by SyncChildFields) |
| SessionSync.OverrideKeys | backend/app/core/filter_session_sync.py:23-24 | the loop writes each shared key with the base's value |
| SessionSync.SyncOne | backend/app/core/filter_session_sync.py:21-26 | dumping, overriding and rebuilding gives the synchronised child |
| SessionSync.SyncChildFields | backend/app/core/filter_session_sync.py:21-26 | each declared field is kept; a shared one takes the filter's value, any other keeps its own, and either then passes the field's validator |
| SessionSync.SyncChildIdempotent | backend/app/core/filter_session_sync.py:21-26 | synchronising twice is synchronising once |
| SessionSync.SyncChildNoShared | backend/app/core/filter_session_sync.py:21-26 | a child that declares no shared key comes back as its own rebuild: unchanged except that a "None" stimulus becomes null |
| SessionSync.SyncedUpTo | backend/app/core/filter_session_sync.py:16-26 | the loop keeps the session's attributes and their well-formedness |
| SessionSync.SyncedUpToAt | backend/app/core/filter_session_sync.py:16-26 | after the first i names, a visited present child is synchronised and every other attribute is as it was |
| SessionSync.Synced | backend/app/core/filter_session_sync.py:12-28 | normalising keeps the session's attributes and their well-formedness |
| SessionSync.SyncedAt | backend/app/core/filter_session_sync.py:16-26 | every present child named in the child list is synchronised; a None child and any other attribute stay as they were |
| SessionSync.SyncedHoldsFilter | backend/app/core/filter_session_sync.py:16-26 | after normalising, a present child holds the filter's value for each shared key it declares, its stimulus normalised ("None" becomes null) and its other fields unchanged |
| SessionSync.SyncedIdempotent | backend/app/core/filter_session_sync.py:12-28 | normalising twice is normalising once |
| SessionSync.SharedKeysPrefix | backend/app/core/filter_session_sync.py:1-7 | every shared key starts with a letter sequence no child field starts with |
| SessionSync.RevalidatedAt | backend/app/schemas/params/epoch_filter_schema.py:21-25 | rebuilding a child from its own values leaves it unchanged exactly when its stimulus is not the string "None"; that stimulus becomes null |
| SessionSync.SchemaFieldsPrefix | backend/app/schemas/session_schema.py:12-22 | no field of the six child classes starts with it |
| SessionSync.SyncedOfSchemas | backend/app/core/filter_session_sync.py:12-28 | with the session's actual child classes every present child comes back as its own rebuild (unchanged but for a "None" stimulus, which becomes null); the session is unchanged exactly when no child is changed by that |
| SessionSync.Session.constructor | backend/app/schemas/session_schema.py:12-22 | keeps the filter and the child attributes |
| SessionSync.Session.Normalize | backend/app/core/filter_session_sync.py:12-28 | with no filter it fails before any change; otherwise every child becomes its synchronised form |
| SessionSync.Session.SyncAttributes | backend/app/core/filter_session_sync.py:16-26 | the loop over the names leaves the attributes as the synchronisation of the visited names |
| TrainPredict.NonEmptyString | backend/app/schemas/train_schema.py:10-15 | a value is refused exactly when it is blank, with "<field> must not be empty."; an accepted value is kept as given |
| TrainPredict.PositiveEpochs | backend/app/schemas/train_schema.py:17-22 | accepted exactly when at least 1 and kept; otherwise "Epochs must be greater than 0." |
| TrainPredict.MinimumKfolds | backend/app/schemas/train_schema.py:24-29 | accepted exactly when at least 2 and kept; otherwise "K-folds must be greater than 1." |
| TrainPredict.Failure | backend/app/schemas/train_schema.py:10-29 | one error naming the field exactly when its validator refused |
| TrainPredict.ValidateTrain | backend/app/schemas/train_schema.py:4-29 | the request is built exactly when all four fields are valid; otherwise the errors name exactly the failing fields, in declaration order |
| TrainPredict.PrependOrdered | backend/app/schemas/train_schema.py:4-8 | an earlier field's error in front of later fields' errors keeps declaration order |
| TrainPredict.PrependFailed | backend/app/schemas/train_schema.py:10-29 | the fields listed after prepending are the new one, when it failed, and those already listed |
| TrainPredict.FailuresOrdered | backend/app/schemas/train_schema.py:4-29 | the four fields' errors are listed in declaration order |
| TrainPredict.FailuresNamed | backend/app/schemas/train_schema.py:10-29 | each field is listed exactly when its validator refused |
| TrainPredict.ValidatePredict | backend/app/schemas/predict_schema.py:3-11 | the request is built exactly when the model name is not blank, keeping the name; otherwise one error for the model name |
| TrainPredict.AcceptedIffStrippedAccepted | backend/app/schemas/train_schema.py:12-15 | a name is accepted exactly when its stripped form is, and stripping is then idempotent |
| TrainPredict.StripNoSpaceEnds | backend/app/schemas/train_schema.py:13 | a string with non-space ends is its own strip |
| TrainPredict.PaddedNameAccepted | backend/app/schemas/predict_schema.py:6-11 | a non-blank name with white space around it is accepted with the white space kept |

## Left out

- Foreign numerics are left out; their results are parameters. This covers MNE filtering, notch and resampling, Welch PSD, `Epochs` construction, `interpolate_bads`, `average`/`grand_average`/`concatenate_epochs`, NumPy statistics and asrpy's ASR. They appear as the function fields of `Numerics`, `Mne` and `Cleaner`, and the `Eeg` values they return are symbolic. Only the gating conditions around them and the bookkeeping of names, bads and annotations are modelled.
- SHA-256 (FIPS 180-4) and the JSON rendering that feeds it are the opaque `CacheKeys.Digest`: any function to 64 lower-case hex digits. It is not proved injective, and no lemma relies on it being so.
- The file system is a value: a path-to-content map with a directory set, or a directory listing for participants. The FIF, NumPy, JSON and TSV formats are reduced to well-formed or corrupt content. glob, tqdm, logging and timing are not modelled.
- IEEE floating point is modelled over reals: no rounding error, no overflow. NaN and infinities appear only where the source tests for them, as `None`. Python's `round(x, 4)` is modelled explicitly for the CCD metrics.
- Strings are sequences of characters. `strip` and the `\s` class use the full set of characters for which Python's `str.isspace()` holds. `lower` folds only the ASCII letters and digit tests accept only ASCII digits: Unicode case folding and non-ASCII digits are not modelled. `int(text)` follows PEP 515: single underscores between digits are accepted and dropped.
- Dict equality (`PyDict.SameDict`) is equality of JSON values: 1, 1.0 and True are told apart, as `json.dumps` tells them apart in the key JSON, although Python's `==` on dicts finds them equal.
- Regular expressions are modelled only by the patterns the code uses: the evoked time list, the run suffix and the BIDS file name. Each is a hand-written scanner. Other regex engine behaviour is not modelled.
- pandas `sort_values` is modelled as a stable sort on the sort key. `read_csv`'s dtype inference is not modelled; table cells are strings.
- Discovery of the release directory (`release_by_number`, `subject_data_dir` and the dataset root search) is not part of this model. The release directory is a parameter.
- `_augment_ccd_metrics`, `list_tasks` and `_subject_task_name_set` in the participants loader are not modelled. They are table plumbing around the modelled `_compute_ccd_metrics` and discovery.
- `_ccd_event_files` is not modelled. Its glob pattern interpolates the subject label unescaped, so glob metacharacters in a label would change its meaning. The event files are given to the scoring as a parameter.
- `filter_subjects_by_dto` is modelled only by its limit-then-sort tail (`Participants.LimitThenSort`). Its column filters start with `dataclasses.fields` on a pydantic model, which raises TypeError.
- `_compute_ccd_metrics` reports its mean response time under the key `ccd_response_time`, while the participants table's default column is `ccd_median_rt`. The model keeps the code's key, so that column is never filled.
- `ChannelsHelp.PickIndices` models `mne.pick_channels` with `ordered=False`: the picks come in channel order and an absent requested name is skipped. MNE versions whose default is `ordered=True` order the picks by the requested names and raise ValueError for an absent one. `ChannelsHelp.PickOrdered` models that call, and `ChannelsHelp.PickOrderedAgrees` shows that when it does not raise it picks the same channels. The helper's selection is still built on the channel-order pick, so the helper does not model that ValueError; the source does not pin the MNE version.
- `plot_snr.py` is not part of this model. It imports `compute_snr_spectrum`, which `signal_spatial.py` does not define, so that module cannot be imported.
- Figure rendering is not modelled (`draw_evoked_response`, matplotlib layout, PIL merging). The grid helpers are modelled only up to the tokens, cells, axes values, reshaped axes and y-limits they compute.
- `set_montage` and electrode positions are left out; electrodes and metadata are opaque loader results.
- HTTP and WebSocket transport, the session store and the frontend are outside the processing core.
- The code has no concurrency, and none is modelled.
- `SignalSpatial.SnrRow` is None for every row shorter than the kernel. That includes a one-sample row, which NumPy instead broadcasts against the padded noise. The result there would be a row of length 4n + 4s + 1 rather than an error.
- `SessionSync.Rebuild`: the rebuild of a child from its dumped fields runs the one validator the parameter classes declare, `normalize_none` on `stimulus`. It does not model pydantic's type coercion or validation errors. It keeps exactly the fields the child's class declares.
- `TrainPredict.ValidateTrain`: pydantic's coercion of non-string or non-integer inputs is not modelled. Fields arrive at their declared types.
- `TrainPredict.NonEmptyString` leaves the message's `{field}` placeholder to a parameter, `fieldText`. The code formats pydantic's validation-info object there, whose text is not modelled.
- `SignalCleaner.CleanMarkSpec` requires a recording with a positive sampling rate (`Recording`), which every loaded recording has.
- `SignalCleaner.CleanMarkSpec` also requires `AsrKeepsLayout`: the model assumes that asrpy returns the same channels, bads and sampling rate and loses no annotation. Which windows remove-only mode marks, and where its "bad_asr" annotations land in the sorted list, is left to the ASR function.
- The `orig_time` check MNE makes when adding two annotation sets is not modelled: both sets are taken as relative to the start of the recording.
- `Processor.Handed`: recordings are values, so the in-place change that `pre_filter` makes to the recording `get_raw()` returned is modelled by replacing the executor's memoised recording with its pre-filtered value after the call. Other aliases of that object are not modelled.
- `CacheKeys.PathFor` joins the base and the key's components with '/'. pathlib, which the cache uses, drops empty and "." segments, and an empty subject makes the sub-directory absolute so that the base is discarded. `CacheKeys.PathlibPath` models that join. `CacheKeys.PathForIsPathlib` shows the two agree when subject, task and stage are non-empty and not "." (`SegmentsKept`). `CacheKeys.EmptySubjectIgnoresBase` and `CacheKeys.DotSegmentsCollide` exhibit the other keys.
- `CacheKeys.PathInjective` is about the '/'-joined path. For the pathlib path it holds only for `SegmentsKept` keys (`CacheKeys.PathlibInjective`); `CacheKeys.DotSegmentsCollide` gives two distinct keys that share a pathlib path.
- `CacheKeys.DistinctKeysDistinctPaths` is about the '/'-joined path and, like `CacheKeys.PathInjective`, carries over to the pathlib path only for `SegmentsKept` keys.
- `Cache.LocalCache.constructor` always adds the base directory. `mkdir(exist_ok=True)` has no `parents=True`, so the source raises FileNotFoundError when the base's parent is missing, and FileExistsError when the base is a file. The model tracks only the directories the cache itself creates, not the rest of the file system. The one modelled caller, `Executor.TaskExecutor.Ensure`, passes the default base under the repository root, whose parent exists.
- `Cache.LocalCache.PathFor` follows `CacheKeys.PathFor`, so its path is the pathlib path only for `SegmentsKept` keys. A failing `mkdir` raises in the source and is not modelled.
- `Cache.LocalCache.SaveRawFiltered` always succeeds. `raw.save` has no `try` around it, so a failed write raises out of `get_filtered`; only the epochs save models a failed write.
- `Cache.LocalCache.SaveEvoked` always succeeds. `evoked.save` has no `try` around it, so a failed write raises out of `get_evoked`.
- `CcdMetrics.ComputeCcdMetrics`: event rows always carry `onset`, `value` and `feedback`. An events file without an `onset` or `value` column, or without `feedback` once a press is matched, raises KeyError in `_compute_ccd_metrics`; the model does not raise.
- `Executor.TaskExecutor.Filter` runs the corrected `Processor.FilteredStage`. On a miss of both the cleaned and the prefilter artifacts the source raises NameError (`Processor.FilteredStageAsWritten`), while the model returns the cleaned recording.
- `Executor.TaskExecutor.GetFilteredRaw` is built on the corrected `Processor.FilteredStage`: where the source raises NameError it returns a recording, and it always drops the memoised recording, which the source does only on a normal return.
- `Executor.TaskExecutor.FilteredRawReady` has the same gap as `Executor.TaskExecutor.GetFilteredRaw`.
- `Executor.TaskExecutor.GetEpochs` is built on the corrected `Processor.EpochsStage`. On a cold epochs cache for a supported task the source raises AttributeError (`Processor.EpochsStageAsWritten`), while the model runs the preprocessor.
- `Executor.TaskExecutor.EpochsReady` has the same gap as `Executor.TaskExecutor.GetEpochs`.
- `Executor.TaskExecutor.GetEvoked` is built on `Processor.EvokedStage` over the corrected epochs stage, with the same gap as `Executor.TaskExecutor.GetEpochs`.
- `Executor.TaskExecutor.EvokedReady` has the same gap as `Executor.TaskExecutor.GetEvoked`.
- `Cohort.CohortExecutor.ConsultFiltered` consults executors built on the corrected stages, so a subject whose `get_filtered_raw` would raise NameError is served a recording.
- `Cohort.CohortExecutor.GetFilteredRaw` has the same gap as `Cohort.CohortExecutor.ConsultFiltered`.
- `Cohort.CohortExecutor.ConsultEpochs` consults executors built on the corrected stages, so a subject whose `get_epochs` would raise AttributeError on a cold cache is served epochs.
- `Cohort.CohortExecutor.GetEpochs` has the same gap as `Cohort.CohortExecutor.ConsultEpochs`.
- `Cohort.CohortExecutor.ConsultEvoked` consults executors built on the corrected stages, with the same gap as `Cohort.CohortExecutor.ConsultEpochs`.
- `Cohort.CohortExecutor.GetEvoked` has the same gap as `Cohort.CohortExecutor.ConsultEvoked`.
- `Cohort.LabelUpdate` does not add numbers, booleans or null found inside a labels sidecar's list. Python adds them to the set, and `sorted` then either orders them with the rest or raises TypeError when one meets a string or null meets another value. `save_epochs` writes lists of strings only.
- `Cohort.LabelUpdate` does not cover a labels sidecar holding a JSON object, which the modelled JSON values cannot represent. Python's `update` would add the object's keys.
- `Cohort.LabelPool` and `Cohort.CohortEpochsFacts` inherit both `Cohort.LabelUpdate` gaps: their label union holds only string labels.

## Findings

| source | as written | input that shows it | evidently intended | confidence | as-written member | corrected member |
|---|---|---|---|---|---|---|
| backend/app/pipeline/task_processor.py:185 | after a prefilter-cache miss, `get_filtered` reads the saved file back through `mne.io.read_raw_fif`. The module imports only `Epochs`, `set_log_level` and `events_from_annotations` from mne, so the name `mne` is undefined and the call raises NameError. | any request for which both the cleaned and the prefilter artifacts are missing | read the prefilter artifact just saved back from the cache and clean it | not executed | Processor.FilteredStageAsWritten | Processor.FilteredStage |
| backend/app/pipeline/task_processor.py:207 | `get_epochs` tests `if cached:` on the pair returned by `load_epochs`. A miss returns `(None, None)`, a non-empty and hence true tuple, so `epochs` is None and `epochs.event_id` raises AttributeError. | a request for a task with a preprocessor whose epochs artifact is not cached | treat the load as a hit only when the epochs in the pair are not None | not executed | Processor.ColdEpochsAsWritten | Processor.ColdEpochsComputed |
| backend/app/schemas/params/epoch_filter_schema.py:29 | `EpochParams.epochs_key` merges `self.cleaning_key`, which `EpochParams` neither declares nor inherits, so reading it raises AttributeError | `EpochParams().epochs_key` | the cleaning key of the filter parameters the epoch parameters are combined with, plus tmin and tmax | not executed | EpochFacet.EpochsKeyBare | EpochFacet.EpochsKeyFacts |
| backend/app/pipeline/task_processor.py:182 | `pre_filter` filters, resamples and notches the recording it is given in place, and `get_filtered` gives it the executor's memoised recording. `get_filtered_raw` resets that memo only on a normal return and `get_epochs` and `get_evoked` never do, so a later request with another filter key pre-filters the already pre-filtered recording and caches the result under its own key. | on one executor with an empty cache, `get_filtered_raw(p)`, which saves p's prefilter artifact and raises NameError with the memo pre-filtered, then `get_filtered_raw(q)` where q differs from p in `l_freq` | pre-filter a copy, as the bad-channel detectors copy their input | not executed | Processor.RefilterAsWritten | Processor.RefilterOnCopy |

=== FILE: cache_key.dfy ===
/** The artifact cache's keys and paths (backend/app/core/cache_manager.py):
    a key names a directory `subject/task/run-<run>/stage` and a file stem
    `<16 hex digits of the params hash>-<pipeline version>`. */
module CacheKeys {
  import opened Wrappers
  import opened Text
  import opened PyDict

  /** The version the executors stamp into their keys. */
  const PIPELINE_VERSION: string := "v3"

  /** The version a `LocalCache` records when none is given. */
  const DEFAULT_CACHE_VERSION: string := "v1"

  predicate IsHexDigit(c: char) { '0' <= c <= '9' || 'a' <= c <= 'f' }

  predicate AllHex(s: string) { forall i :: 0 <= i < |s| ==> IsHexDigit(s[i]) }

  function Zeros(n: nat): (s: string)
    ensures |s| == n && AllHex(s)
  {
    seq(n, i => '0')
  }

  function ZeroDigest(d: Dict): string { Zeros(64) }

  /** `sha256(json.dumps(params, sort_keys=True, separators=(",", ":"))).hexdigest()`,
      seen through the canonical (key-sorted) entries it is applied to: 64
      lower-case hex digits. SHA-256 and the JSON rendering are not modelled. */
  type Digest = f: Dict -> string | forall d :: |f(d)| == 64 && AllHex(f(d))
    witness ZeroDigest

  /** `CacheKey`: the identity of one cached artifact. */
  datatype CacheKey = CacheKey(
    subject: string,
    task: string,
    run: Option<string>,
    stage: string,
    params: Dict,
    pipelineVer: string)

  /** `run-<run>`, or `run-none` when the run is None or the empty string. */
  function RunDir(run: Option<string>): (r: string)
    ensures r == "run-none" <==> run.None? || run.value == "" || run.value == "none"
    ensures run.Some? && run.value != "" ==> r == "run-" + run.value
  {
    match run
    case Some(x) =>
      if x != "" then
        assert ("run-" + x)[4..] == x;
        "run-" + x
      else "run-none"
    case None => "run-none"
  }

  function SubdirParts(k: CacheKey): seq<string> {
    [k.subject, k.task, RunDir(k.run), k.stage]
  }

  /** `CacheKey.subdir()`. */
  function Subdir(k: CacheKey): (r: string)
    ensures Split(r, '/') == SubdirParts(k) <== NoSlashComponents(k)
  {
    var r := Join(SubdirParts(k), '/');
    if NoSlashComponents(k) then
      SplitJoin(SubdirParts(k), '/');
      r
    else r
  }

  /** `_hash_of_dict(params)`: the first 16 hex digits of the digest of the
      canonical entries. */
  function HashPrefix(digest: Digest, params: Dict): (h: string)
    ensures |h| == 16 && AllHex(h)
    ensures forall i :: 0 <= i < 16 ==> h[i] == digest(Canonical(params))[i]
  {
    digest(Canonical(params))[..16]
  }

  /** `CacheKey.filename_stem()`. */
  function FilenameStem(k: CacheKey, digest: Digest): string {
    HashPrefix(digest, k.params) + "-" + k.pipelineVer
  }

  /** The three artifact kinds and the type tags their file names carry. */
  datatype Artifact = RawFiltered | EpochsArtifact | EvokedArtifact

  function TypeTag(a: Artifact): (t: string)
    ensures |t| == 3
  {
    match a
    case RawFiltered => "eeg"
    case EpochsArtifact => "epo"
    case EvokedArtifact => "ave"
  }

  function FileName(k: CacheKey, a: Artifact, digest: Digest): string {
    FilenameStem(k, digest) + "_" + TypeTag(a) + ".fif"
  }

  /** `LocalCache._path_for(key, type, "fif")`: `base/subdir/<stem>_<type>.fif`. */
  function PathFor(base: string, k: CacheKey, a: Artifact, digest: Digest): string {
    base + "/" + Join(SubdirParts(k) + [FileName(k, a, digest)], '/')
  }

  /** The epochs labels sidecar: `p.with_suffix(".labels.json")`. */
  function LabelsPath(base: string, k: CacheKey, digest: Digest): string {
    base + "/" + Join(SubdirParts(k) + [FilenameStem(k, digest) + "_epo.labels.json"], '/')
  }

  /** `p.with_name(p.name + ".bad")`. */
  function BadPath(p: string): string { p + ".bad" }

  /** Distinct files are quarantined under distinct names. */
  lemma BadPathInjective(p: string, q: string)
    ensures BadPath(p) == BadPath(q) ==> p == q
  {
    if BadPath(p) == BadPath(q) {
      assert p == BadPath(p)[..|p|] && q == BadPath(q)[..|q|];
    }
  }

  /** The directories `_path_for` creates: `base/subject`, …, `base/subdir`. */
  function DirsFor(base: string, k: CacheKey): (ds: set<string>)
    ensures base + "/" + Subdir(k) in ds
  {
    {base + "/" + k.subject,
     base + "/" + k.subject + "/" + k.task,
     base + "/" + k.subject + "/" + k.task + "/" + RunDir(k.run),
     base + "/" + Subdir(k)}
  }

  predicate NoSlash(s: string) { '/' !in s }

  /** Every component of the key that becomes a path segment is free of '/'. */
  predicate NoSlashComponents(k: CacheKey) {
    NoSlash(k.subject) && NoSlash(k.task) && NoSlash(k.stage) && NoSlash(k.pipelineVer)
    && (k.run.Some? ==> NoSlash(k.run.value))
  }

  // ---------- properties ----------

  /** The stem is 16 hex digits, '-', and the pipeline version. */
  lemma StemShape(k: CacheKey, digest: Digest)
    ensures var s := FilenameStem(k, digest);
      |s| == 17 + |k.pipelineVer| && AllHex(s[..16]) && s[16] == '-' && s[17..] == k.pipelineVer
  {
    var s := FilenameStem(k, digest);
    assert s[..16] == HashPrefix(digest, k.params);
  }

  /** Param dicts with the same keys holding the same JSON values (int,
      float and bool kept apart) give the same stem, whatever order their
      keys were inserted in. */
  lemma StemIgnoresInsertionOrder(k1: CacheKey, k2: CacheKey, digest: Digest)
    requires DistinctKeys(k1.params) && DistinctKeys(k2.params)
    requires SameDict(k1.params, k2.params) && k1.pipelineVer == k2.pipelineVer
    ensures FilenameStem(k1, digest) == FilenameStem(k2, digest)
  {
    CanonicalIffSameDict(k1.params, k2.params);
  }

  /** The subdir is the four components joined by '/'. */
  lemma SubdirLayout(k: CacheKey)
    ensures Subdir(k) == k.subject + "/" + k.task + "/" + RunDir(k.run) + "/" + k.stage
  {
    var p := SubdirParts(k);
    assert Join(p[3..], '/') == k.stage;
    assert Join(p[2..], '/') == RunDir(k.run) + "/" + k.stage;
    assert Join(p[1..], '/') == k.task + "/" + RunDir(k.run) + "/" + k.stage;
  }

  /** A run of None, "" or "none" lands in the same directory. */
  lemma RunNoneCollides(k: CacheKey)
    ensures Subdir(k.(run := None)) == Subdir(k.(run := Some("")))
    ensures Subdir(k.(run := None)) == Subdir(k.(run := Some("none")))
  {
  }

  lemma FileNameInjective(h1: string, v1: string, t1: string, h2: string, v2: string, t2: string)
    requires |h1| == 16 && |h2| == 16 && |t1| == 3 && |t2| == 3
    requires h1 + "-" + v1 + "_" + t1 + ".fif" == h2 + "-" + v2 + "_" + t2 + ".fif"
    ensures h1 == h2 && v1 == v2 && t1 == t2
  {
    var n := h1 + "-" + v1 + "_" + t1 + ".fif";
    var m := h2 + "-" + v2 + "_" + t2 + ".fif";
    assert |v1| == |v2|;
    assert h1 == n[..16] && h2 == m[..16];
    assert v1 == n[17..17 + |v1|] && v2 == m[17..17 + |v2|];
    assert t1 == n[18 + |v1|..21 + |v1|] && t2 == m[18 + |v2|..21 + |v2|];
  }

  /** Two artifact paths under one base coincide only when subject, task,
      run directory, stage, params hash, pipeline version and artifact kind
      all agree. */
  lemma PathInjective(base: string, k1: CacheKey, a1: Artifact, k2: CacheKey, a2: Artifact, digest: Digest)
    requires NoSlashComponents(k1) && NoSlashComponents(k2)
    requires PathFor(base, k1, a1, digest) == PathFor(base, k2, a2, digest)
    ensures k1.subject == k2.subject && k1.task == k2.task && RunDir(k1.run) == RunDir(k2.run)
    ensures k1.stage == k2.stage && k1.pipelineVer == k2.pipelineVer && a1 == a2
    ensures HashPrefix(digest, k1.params) == HashPrefix(digest, k2.params)
  {
    var p1 := SubdirParts(k1) + [FileName(k1, a1, digest)];
    var p2 := SubdirParts(k2) + [FileName(k2, a2, digest)];
    var j1 := Join(p1, '/');
    var j2 := Join(p2, '/');
    assert j1 == PathFor(base, k1, a1, digest)[|base| + 1..];
    assert j2 == PathFor(base, k2, a2, digest)[|base| + 1..];
    NoSlashInFileName(k1, a1, digest);
    NoSlashInFileName(k2, a2, digest);
    RunDirNoSlash(k1.run);
    RunDirNoSlash(k2.run);
    JoinInjective(p1, p2, '/');
    assert p1 == p2;
    assert p1[0] == k1.subject && p2[0] == k2.subject;
    assert p1[2] == RunDir(k1.run) && p2[2] == RunDir(k2.run);
    assert p1[3] == k1.stage && p2[3] == k2.stage;
    assert p1[4] == p2[4];
    FileNameInjective(HashPrefix(digest, k1.params), k1.pipelineVer, TypeTag(a1),
                      HashPrefix(digest, k2.params), k2.pipelineVer, TypeTag(a2));
  }

  /** When the 16-digit prefix separates distinct params, keys whose
      components or params differ never share a path. */
  lemma DistinctKeysDistinctPaths(base: string, k1: CacheKey, a1: Artifact, k2: CacheKey, a2: Artifact, digest: Digest)
    requires NoSlashComponents(k1) && NoSlashComponents(k2)
    requires HashPrefix(digest, k1.params) == HashPrefix(digest, k2.params) ==> SameDict(k1.params, k2.params)
    requires k1.subject != k2.subject || k1.task != k2.task || RunDir(k1.run) != RunDir(k2.run)
          || k1.stage != k2.stage || k1.pipelineVer != k2.pipelineVer || a1 != a2
          || !SameDict(k1.params, k2.params)
    ensures PathFor(base, k1, a1, digest) != PathFor(base, k2, a2, digest)
  {
    if PathFor(base, k1, a1, digest) == PathFor(base, k2, a2, digest) {
      PathInjective(base, k1, a1, k2, a2, digest);
    }
  }

  lemma RunDirNoSlash(run: Option<string>)
    requires run.Some? ==> NoSlash(run.value)
    ensures NoSlash(RunDir(run))
  {
  }

  lemma NoSlashInFileName(k: CacheKey, a: Artifact, digest: Digest)
    requires NoSlash(k.pipelineVer)
    ensures NoSlash(FileName(k, a, digest))
  {
    var h := HashPrefix(digest, k.params);
    assert forall i :: 0 <= i < |h| ==> h[i] != '/';
  }

  /** The labels sidecar, a quarantined file and an artifact file never share
      a path: they end in ".labels.json", ".bad" and ".fif". */
  lemma SidecarAndBadPathsAreNotArtifacts(base: string, k: CacheKey, a: Artifact, k2: CacheKey, digest: Digest, p: string)
    ensures LabelsPath(base, k2, digest) != PathFor(base, k, a, digest)
    ensures BadPath(p) != PathFor(base, k, a, digest)
    ensures BadPath(p) != LabelsPath(base, k2, digest)
  {
    var f := PathFor(base, k, a, digest);
    var l := LabelsPath(base, k2, digest);
    var fn := FileName(k, a, digest);
    var ln := FilenameStem(k2, digest) + "_epo.labels.json";
    JoinSnoc(SubdirParts(k), fn, '/');
    JoinSnoc(SubdirParts(k2), ln, '/');
    assert f == base + "/" + Join(SubdirParts(k), '/') + "/" + fn;
    assert l == base + "/" + Join(SubdirParts(k2), '/') + "/" + ln;
    assert fn[|fn| - 4..] == ".fif";
    assert ln[|ln| - 5..] == ".json";
    assert f[|f| - 4..] == fn[|fn| - 4..];
    assert l[|l| - 5..] == ln[|ln| - 5..];
    assert l[|l| - 4..] == "json";
    assert f[|f| - 4..] == ".fif";
    assert l[|l| - 5..] == ".json";
    assert BadPath(p)[|BadPath(p)| - 4..] == ".bad";
  }

  // ---------- pathlib's reading of the path ----------

  /** The segments pathlib keeps of a '/'-separated string: empty and "."
      segments are dropped. */
  function Kept(parts: seq<string>): (r: seq<string>)
    ensures forall i :: 0 <= i < |r| ==> r[i] != "" && r[i] != "."
  {
    if |parts| == 0 then []
    else (if parts[0] == "" || parts[0] == "." then [] else [parts[0]]) + Kept(parts[1..])
  }

  /** `(base / rel / name).as_posix()` for a base already in pathlib's form
      and a name without '/': a relative part that starts with '/' is
      absolute and replaces the base. */
  function PathlibJoin(base: string, rel: string, name: string): string {
    var tail := Join(Kept(Split(rel, '/')) + [name], '/');
    if |rel| > 0 && rel[0] == '/' then "/" + tail else base + "/" + tail
  }

  /** The path `_path_for` hands to the reader and writer, as pathlib builds it. */
  function PathlibPath(base: string, k: CacheKey, a: Artifact, digest: Digest): string {
    PathlibJoin(base, Subdir(k), FileName(k, a, digest))
  }

  /** No component of the key is a segment pathlib would drop. */
  predicate SegmentsKept(k: CacheKey) {
    k.subject != "" && k.subject != "." && k.task != "" && k.task != "." && k.stage != "" && k.stage != "."
  }

  lemma {:induction false} KeptAll(parts: seq<string>)
    requires forall i :: 0 <= i < |parts| ==> parts[i] != "" && parts[i] != "."
    ensures Kept(parts) == parts
  {
    if |parts| > 0 {
      KeptAll(parts[1..]);
    }
  }

  /** For keys whose components are free of '/', non-empty and not ".",
      the concatenated path is the one pathlib builds. */
  lemma PathForIsPathlib(base: string, k: CacheKey, a: Artifact, digest: Digest)
    requires NoSlashComponents(k) && SegmentsKept(k)
    ensures PathlibPath(base, k, a, digest) == PathFor(base, k, a, digest)
  {
    var parts := SubdirParts(k);
    var rel := Subdir(k);
    assert RunDir(k.run)[..4] == "run-";
    KeptAll(parts);
    assert Split(rel, '/') == parts;
    assert rel[0] == k.subject[0] by {
      JoinHead(parts, '/');
    }
  }

  lemma JoinHead(parts: seq<string>, sep: char)
    requires |parts| >= 2
    ensures Join(parts, sep) == parts[0] + ([sep] + Join(parts[1..], sep))
  {
  }

  /** With an empty subject the subdirectory starts with '/', so pathlib
      discards the cache's base: every base gives the same path. */
  lemma EmptySubjectIgnoresBase(b1: string, b2: string, k: CacheKey, a: Artifact, digest: Digest)
    requires k.subject == ""
    ensures PathlibPath(b1, k, a, digest) == PathlibPath(b2, k, a, digest)
    ensures PathlibPath(b1, k, a, digest)[0] == '/'
  {
    var parts := SubdirParts(k);
    assert Join(parts, '/') == "" + ['/'] + Join(parts[1..], '/');
  }

  /** A "." segment is dropped, so a key with subject "." and task t shares
      its path under pathlib with the key of subject t and task ".". */
  lemma DotSegmentsCollide(base: string, k: CacheKey, a: Artifact, digest: Digest)
    requires NoSlashComponents(k) && k.subject == "." && k.task != "." && k.task != ""
    ensures k.(subject := k.task, task := ".") != k
    ensures PathlibPath(base, k, a, digest) == PathlibPath(base, k.(subject := k.task, task := "."), a, digest)
  {
    var k2 := k.(subject := k.task, task := ".");
    var p1 := SubdirParts(k);
    var p2 := SubdirParts(k2);
    assert Split(Subdir(k), '/') == p1 && Split(Subdir(k2), '/') == p2;
    assert p1[1..][1..] == p2[1..][1..];
    assert Kept(p1) == Kept(p2) by {
      assert Kept(p1) == Kept(p1[1..]);
      assert Kept(p2[1..]) == Kept(p2[1..][1..]);
    }
    assert Subdir(k)[0] == '.' by {
      JoinHead(p1, '/');
    }
    assert Subdir(k2)[0] == k.task[0] by {
      JoinHead(p2, '/');
    }
  }

  /** Under pathlib, keys whose components are free of '/', non-empty and
      not "." share a path only when subject, task, run directory, stage,
      params hash, pipeline version and artifact kind all agree. */
  lemma PathlibInjective(base: string, k1: CacheKey, a1: Artifact, k2: CacheKey, a2: Artifact, digest: Digest)
    requires NoSlashComponents(k1) && NoSlashComponents(k2) && SegmentsKept(k1) && SegmentsKept(k2)
    requires PathlibPath(base, k1, a1, digest) == PathlibPath(base, k2, a2, digest)
    ensures k1.subject == k2.subject && k1.task == k2.task && RunDir(k1.run) == RunDir(k2.run)
    ensures k1.stage == k2.stage && k1.pipelineVer == k2.pipelineVer && a1 == a2
    ensures HashPrefix(digest, k1.params) == HashPrefix(digest, k2.params)
  {
    PathForIsPathlib(base, k1, a1, digest);
    PathForIsPathlib(base, k2, a2, digest);
    PathInjective(base, k1, a1, k2, a2, digest);
  }
}

=== FILE: ccd_metrics.dfy ===
/** `ParticipantManager._compute_ccd_metrics`
    (backend/app/core/participants_loader.py): the contrast-change-detection
    scores of one subject, from its CCD event tables. Each target row is
    matched with the first later button press before the next trial start,
    and the press's feedback decides how it is counted. Reading the tables
    is left to the caller: a table is a list of rows, in file order, and the
    files come in the sorted order of their names. */
module CcdMetrics {
  import opened Wrappers
  import opened Numbers

  /** A row as read: `onset` after `pd.to_numeric(errors="coerce")` (None
      where it is not a number), `value` as text, `feedback` as text or None
      for an empty cell. */
  datatype RawEvent = RawEvent(onset: Option<real>, value: string, feedback: Option<string>)

  /** A row that kept its onset. */
  datatype Event = Event(onset: real, value: string, feedback: Option<string>)

  // ---------- preparing a table ----------

  /** `df.dropna(subset=["onset"])`: the rows with an onset, in order. */
  function WithOnsets(rows: seq<RawEvent>): (r: seq<Event>)
    ensures |r| <= |rows|
    ensures forall e :: e in r <==> exists i :: 0 <= i < |rows| && rows[i] == RawEvent(Some(e.onset), e.value, e.feedback)
  {
    if |rows| == 0 then []
    else
      var rest := WithOnsets(rows[1..]);
      assert forall i :: 1 <= i < |rows| ==> rows[i] == rows[1..][i - 1];
      assert forall i :: 0 <= i < |rows[1..]| ==> rows[1..][i] == rows[i + 1];
      match rows[0].onset
      case Some(x) => [Event(x, rows[0].value, rows[0].feedback)] + rest
      case None => rest
  }

  ghost predicate SortedByOnset(s: seq<Event>) {
    forall i, j :: 0 <= i < j < |s| ==> s[i].onset <= s[j].onset
  }

  /** Insertion before the first row with a later or equal onset. */
  function InsertByOnset(e: Event, s: seq<Event>): seq<Event> {
    if |s| == 0 then [e]
    else if e.onset <= s[0].onset then [e] + s
    else [s[0]] + InsertByOnset(e, s[1..])
  }

  /** A row no later than every row of a sorted table can go in front. */
  lemma SortedCons(x: Event, t: seq<Event>)
    requires SortedByOnset(t)
    requires forall j :: 0 <= j < |t| ==> x.onset <= t[j].onset
    ensures SortedByOnset([x] + t)
  {
    var r := [x] + t;
    forall i, j | 0 <= i < j < |r| ensures r[i].onset <= r[j].onset {
      assert r[j] == t[j - 1];
      if i > 0 {
        assert r[i] == t[i - 1];
      }
    }
  }

  /** Inserting keeps every lower bound of the rows and the inserted row. */
  lemma {:induction false} InsertByOnsetBound(e: Event, s: seq<Event>, b: real)
    requires b <= e.onset
    requires forall j :: 0 <= j < |s| ==> b <= s[j].onset
    ensures forall j :: 0 <= j < |InsertByOnset(e, s)| ==> b <= InsertByOnset(e, s)[j].onset
    decreases |s|
  {
    if |s| > 0 && e.onset > s[0].onset {
      InsertByOnsetBound(e, s[1..], b);
    }
  }

  lemma {:induction false} InsertByOnsetFacts(e: Event, s: seq<Event>)
    requires SortedByOnset(s)
    ensures SortedByOnset(InsertByOnset(e, s))
    ensures multiset(InsertByOnset(e, s)) == multiset(s) + multiset{e}
    decreases |s|
  {
    if |s| > 0 {
      assert s == [s[0]] + s[1..];
      if e.onset <= s[0].onset {
        SortedCons(e, s);
      } else {
        InsertByOnsetFacts(e, s[1..]);
        InsertByOnsetBound(e, s[1..], s[0].onset);
        SortedCons(s[0], InsertByOnset(e, s[1..]));
      }
    }
  }

  /** `sort_values("onset")`, as a stable sort. */
  function SortByOnset(s: seq<Event>): (r: seq<Event>)
    ensures SortedByOnset(r)
    ensures multiset(r) == multiset(s)
  {
    if |s| == 0 then []
    else
      assert s == [s[0]] + s[1..];
      InsertByOnsetFacts(s[0], SortByOnset(s[1..]));
      InsertByOnset(s[0], SortByOnset(s[1..]))
  }

  /** The table the matching works on: the rows with an onset, by onset. */
  function Prepare(rows: seq<RawEvent>): (df: seq<Event>)
    ensures SortedByOnset(df)
    ensures multiset(df) == multiset(WithOnsets(rows))
  {
    SortByOnset(WithOnsets(rows))
  }

  // ---------- matching a target ----------

  predicate IsTarget(v: string) { v == "left_target" || v == "right_target" }

  predicate IsPress(v: string) { v == "left_buttonPress" || v == "right_buttonPress" }

  predicate IsTrialStart(v: string) { v == "contrastTrial_start" }

  predicate StartsWith(s: string, p: string) { |p| <= |s| && s[..|p|] == p }

  /** `val_t` and `val_p` both start with "left" or both with "right". */
  predicate SameSide(t: string, p: string) {
    (StartsWith(t, "left") && StartsWith(p, "left")) || (StartsWith(t, "right") && StartsWith(p, "right"))
  }

  /** The first trial start after row `i`: `idx_trial_starts[idx_trial_starts > ti][0]`. */
  function NextTrialStart(df: seq<Event>, i: nat, from: nat): (r: Option<nat>)
    requires i < from
    ensures r.Some? ==> from <= r.value < |df| && IsTrialStart(df[r.value].value)
    ensures r.Some? ==> forall j :: from <= j < r.value ==> !IsTrialStart(df[j].value)
    ensures r.None? ==> forall j :: from <= j < |df| ==> !IsTrialStart(df[j].value)
    decreases |df| - from
  {
    if from >= |df| then None
    else if IsTrialStart(df[from].value) then Some(from)
    else NextTrialStart(df, i, from + 1)
  }

  /** `window_end`: the onset of the next trial start, None standing for
      `np.inf`. */
  function WindowEnd(df: seq<Event>, ti: nat): (w: Option<real>)
    requires ti < |df|
  {
    match NextTrialStart(df, ti, ti + 1)
    case Some(j) => Some(df[j].onset)
    case None => None
  }

  predicate Before(x: real, end: Option<real>) { end.None? || x < end.value }

  /** A press that may answer the target at `ti`. */
  predicate Candidate(df: seq<Event>, ti: nat, end: Option<real>, j: nat)
    requires j < |df|
  {
    ti < j && IsPress(df[j].value) && Before(df[j].onset, end)
  }

  /** `cand_idx[0]`: the first row after the target that is a press with an
      onset before the window end. */
  function FirstPress(df: seq<Event>, ti: nat, end: Option<real>, from: nat): (r: Option<nat>)
    requires ti < from
    ensures r.Some? ==> from <= r.value < |df| && Candidate(df, ti, end, r.value)
    ensures r.Some? ==> forall j :: from <= j < r.value ==> !Candidate(df, ti, end, j)
    ensures r.None? ==> forall j :: from <= j < |df| ==> !Candidate(df, ti, end, j)
    decreases |df| - from
  {
    if from >= |df| then None
    else if Candidate(df, ti, end, from) then Some(from)
    else FirstPress(df, ti, end, from + 1)
  }

  /** `round(x, 4)`, on reals. */
  function Round4(x: real): real {
    RoundHalfEven(x * 10000.0) as real / 10000.0
  }

  lemma Round4Within(x: real)
    requires 0.0 <= x <= 100.0
    ensures 0.0 <= Round4(x) <= 100.0
  {
    var n := RoundHalfEven(x * 10000.0);
    assert n as real >= -(1.0 / 2.0);
    assert n as real <= 1000000.0 + 1.0 / 2.0;
  }

  lemma Round4NonNegative(x: real)
    requires 0.0 <= x
    ensures 0.0 <= Round4(x)
  {
    var n := RoundHalfEven(x * 10000.0);
    assert n as real >= -(1.0 / 2.0);
  }

  /** `round(max(0.0, p_on - t_on), 4)`: a response time, never negative. */
  function ResponseTime(tOn: real, pOn: real): (rt: real)
    ensures rt >= 0.0
  {
    var d := if pOn - tOn > 0.0 then pOn - tOn else 0.0;
    Round4NonNegative(d);
    Round4(d)
  }

  /** How one target is scored. `Unscored`: a press with some other
      feedback on the other side, which the source counts nowhere. */
  datatype Outcome = Missed | Smiley(rt: real) | Sad(rt: real) | NonTarget | Unscored

  /** The scoring of the target at row `ti`. */
  function TargetOutcome(df: seq<Event>, ti: nat): (o: Outcome)
    requires ti < |df|
    ensures o.Missed? <==> forall j :: ti < j < |df| ==> !Candidate(df, ti, WindowEnd(df, ti), j)
    ensures (o.Smiley? || o.Sad?) ==> o.rt >= 0.0
  {
    match FirstPress(df, ti, WindowEnd(df, ti), ti + 1)
    case None => Missed
    case Some(pi) =>
      var rt := ResponseTime(df[ti].onset, df[pi].onset);
      var fb := df[pi].feedback;
      if fb == Some("smiley_face") then Smiley(rt)
      else if fb == Some("sad_face") then Sad(rt)
      else if fb == Some("non_target") then NonTarget
      else if SameSide(df[ti].value, df[pi].value) then Smiley(rt)
      else Unscored
  }

  // ---------- the counters ----------

  datatype Tally = Tally(total: nat, smiley: nat, sad: nat, nonTarget: nat, miss: nat,
                         smileyRts: seq<real>, sadRts: seq<real>)

  const NoTargets := Tally(0, 0, 0, 0, 0, [], [])

  /** Every target counted once at most, one time per smiley and per sad
      face, and no negative time. */
  predicate Consistent(t: Tally) {
    t.smiley + t.sad + t.nonTarget + t.miss <= t.total
    && |t.smileyRts| == t.smiley && |t.sadRts| == t.sad
    && (forall i :: 0 <= i < |t.smileyRts| ==> t.smileyRts[i] >= 0.0)
    && (forall i :: 0 <= i < |t.sadRts| ==> t.sadRts[i] >= 0.0)
  }

  /** One more target with its outcome. */
  function Record(t: Tally, o: Outcome): Tally {
    var t1 := t.(total := t.total + 1);
    match o
    case Missed => t1.(miss := t.miss + 1)
    case Smiley(rt) => t1.(smiley := t.smiley + 1, smileyRts := t.smileyRts + [rt])
    case Sad(rt) => t1.(sad := t.sad + 1, sadRts := t.sadRts + [rt])
    case NonTarget => t1.(nonTarget := t.nonTarget + 1)
    case Unscored => t1
  }

  /** The targets among the first `k` rows of `df`, recorded in row order. */
  function TallyRows(t: Tally, df: seq<Event>, k: nat): Tally
    requires k <= |df|
  {
    if k == 0 then t
    else
      var u := TallyRows(t, df, k - 1);
      if IsTarget(df[k - 1].value) then Record(u, TargetOutcome(df, k - 1)) else u
  }

  /** The counters after every file. */
  function TallyFiles(files: seq<seq<RawEvent>>): Tally {
    if |files| == 0 then NoTargets
    else
      var df := Prepare(files[|files| - 1]);
      TallyRows(TallyFiles(files[..|files| - 1]), df, |df|)
  }

  /** The number of target rows among the first `k` rows. */
  function CountTargets(df: seq<Event>, k: nat): nat
    requires k <= |df|
  {
    if k == 0 then 0 else CountTargets(df, k - 1) + (if IsTarget(df[k - 1].value) then 1 else 0)
  }

  function TargetsInFiles(files: seq<seq<RawEvent>>): nat {
    if |files| == 0 then 0
    else
      var df := Prepare(files[|files| - 1]);
      TargetsInFiles(files[..|files| - 1]) + CountTargets(df, |df|)
  }

  lemma RecordConsistent(t: Tally, o: Outcome)
    requires Consistent(t)
    requires (o.Smiley? || o.Sad?) ==> o.rt >= 0.0
    ensures Consistent(Record(t, o))
    ensures Record(t, o).total == t.total + 1
  {
  }

  lemma {:induction false} TallyRowsFacts(t: Tally, df: seq<Event>, k: nat)
    requires k <= |df|
    requires Consistent(t)
    ensures Consistent(TallyRows(t, df, k))
    ensures TallyRows(t, df, k).total == t.total + CountTargets(df, k)
  {
    if k > 0 {
      TallyRowsFacts(t, df, k - 1);
      if IsTarget(df[k - 1].value) {
        RecordConsistent(TallyRows(t, df, k - 1), TargetOutcome(df, k - 1));
      }
    }
  }

  /** Over all files the counters stay consistent, and `total_targets` is
      the number of target rows with an onset. */
  lemma {:induction false} TallyFilesFacts(files: seq<seq<RawEvent>>)
    ensures Consistent(TallyFiles(files))
    ensures TallyFiles(files).total == TargetsInFiles(files)
  {
    if |files| > 0 {
      TallyFilesFacts(files[..|files| - 1]);
      var df := Prepare(files[|files| - 1]);
      TallyRowsFacts(TallyFiles(files[..|files| - 1]), df, |df|);
    }
  }

  // ---------- the result ----------

  datatype Metrics =
    | NoEventFiles
    | Metrics(smileyFace: Option<nat>, sadFace: Option<nat>, nonTarget: Option<nat>,
              missTarget: Option<nat>, smileyResponseTime: seq<real>, sadResponseTime: seq<real>,
              totalTargets: Option<nat>, accuracy: Option<real>, responseTime: Option<real>)

  /** `int(n) if n > 0 else None`. */
  function NonZero(n: nat): (r: Option<nat>)
    ensures r.None? <==> n == 0
    ensures r.Some? ==> r.value == n
  {
    if n > 0 then Some(n) else None
  }

  function Sum(s: seq<real>): real {
    if |s| == 0 then 0.0 else Sum(s[..|s| - 1]) + s[|s| - 1]
  }

  lemma {:induction false} SumNonNegative(s: seq<real>)
    requires forall i :: 0 <= i < |s| ==> s[i] >= 0.0
    ensures Sum(s) >= 0.0
  {
    if |s| > 0 {
      SumNonNegative(s[..|s| - 1]);
    }
  }

  lemma PercentWithin(part: nat, whole: nat)
    requires 0 < whole && part <= whole
    ensures 0.0 <= 100.0 * part as real / whole as real <= 100.0
  {
    var w := whole as real;
    assert 100.0 * part as real <= 100.0 * w;
    assert 100.0 * part as real / w <= 100.0 * w / w;
  }

  lemma MeanNonNegative(s: seq<real>)
    requires |s| > 0
    requires forall i :: 0 <= i < |s| ==> s[i] >= 0.0
    ensures Sum(s) / |s| as real >= 0.0
  {
    SumNonNegative(s);
  }

  /** The dictionary built from the counters: zero counts become None, the
      accuracy is the percentage of smiley faces among the targets and the
      response time the mean smiley-face time, both to four decimals. */
  function Report(t: Tally): (m: Metrics)
    requires Consistent(t)
    ensures m.Metrics?
    ensures m.smileyFace == NonZero(t.smiley) && m.sadFace == NonZero(t.sad)
    ensures m.nonTarget == NonZero(t.nonTarget) && m.missTarget == NonZero(t.miss)
    ensures m.totalTargets == NonZero(t.total)
    ensures m.smileyResponseTime == t.smileyRts && m.sadResponseTime == t.sadRts
    ensures m.accuracy.None? <==> t.total == 0
    ensures m.accuracy.Some? ==> 0.0 <= m.accuracy.value <= 100.0
    ensures m.responseTime.None? <==> t.smiley == 0
    ensures m.responseTime.Some? ==> m.responseTime.value >= 0.0
  {
    var acc := if t.total > 0 then
        PercentWithin(t.smiley, t.total);
        Round4Within(100.0 * t.smiley as real / t.total as real);
        Some(Round4(100.0 * t.smiley as real / t.total as real))
      else None;
    var meanRt := if |t.smileyRts| > 0 then
        MeanNonNegative(t.smileyRts);
        Round4NonNegative(Sum(t.smileyRts) / |t.smileyRts| as real);
        Some(Round4(Sum(t.smileyRts) / |t.smileyRts| as real))
      else None;
    Metrics(NonZero(t.smiley), NonZero(t.sad), NonZero(t.nonTarget), NonZero(t.miss),
            t.smileyRts, t.sadRts, NonZero(t.total), acc, meanRt)
  }

  // ---------- the loop ----------

  /** One iteration of the loop over `idx_targets`: the counters after the
      target at row `ti`. */
  method CountTarget(df: seq<Event>, ti: nat, t: Tally) returns (u: Tally)
    requires ti < |df|
    ensures u == Record(t, TargetOutcome(df, ti))
  {
    var tOn := df[ti].onset;
    var windowEnd := WindowEnd(df, ti);
    var cand := FirstPress(df, ti, windowEnd, ti + 1);
    u := t.(total := t.total + 1);
    if cand.None? {
      u := u.(miss := u.miss + 1);
      return;
    }
    var pi := cand.value;
    var pOn := df[pi].onset;
    var fb := df[pi].feedback;
    if fb == Some("smiley_face") {
      u := u.(smiley := u.smiley + 1, smileyRts := u.smileyRts + [ResponseTime(tOn, pOn)]);
    } else if fb == Some("sad_face") {
      u := u.(sad := u.sad + 1, sadRts := u.sadRts + [ResponseTime(tOn, pOn)]);
    } else if fb == Some("non_target") {
      u := u.(nonTarget := u.nonTarget + 1);
    } else if SameSide(df[ti].value, df[pi].value) {
      u := u.(smiley := u.smiley + 1, smileyRts := u.smileyRts + [ResponseTime(tOn, pOn)]);
    }
  }

  /** The loop over the targets of one prepared table. */
  method CountTable(df: seq<Event>, t: Tally) returns (u: Tally)
    ensures u == TallyRows(t, df, |df|)
  {
    u := t;
    for ti := 0 to |df|
      invariant u == TallyRows(t, df, ti)
    {
      if IsTarget(df[ti].value) {
        u := CountTarget(df, ti, u);
      }
    }
  }

  /** `_compute_ccd_metrics` over the subject's event tables. */
  method ComputeCcdMetrics(files: seq<seq<RawEvent>>) returns (m: Metrics)
    ensures |files| == 0 ==> m == NoEventFiles
    ensures |files| > 0 ==> Consistent(TallyFiles(files)) && m == Report(TallyFiles(files))
  {
    if |files| == 0 {
      return NoEventFiles;
    }
    var t := NoTargets;
    for i := 0 to |files|
      invariant t == TallyFiles(files[..i])
    {
      assert files[..i + 1][..i] == files[..i];
      t := CountTable(Prepare(files[i]), t);
    }
    assert files[..|files|] == files;
    TallyFilesFacts(files);
    m := Report(t);
  }
}

=== FILE: channel_spec.dfy ===
/** The channel-selection text of a filter request, such as
    "69-76,81-83,88,89": tokens separated by commas or white space, each an
    electrode number or a range of them, turned into names "E<n>".
    Two versions are live: the one in
    backend/app/schemas/params/base_filter_schema.py (ranges in either order,
    first occurrences kept in order) and the older one in
    backend/app/schemas/filter_schema.py (ranges low-high only, the result
    sorted as strings). */
module ChannelSpec {
  import opened Wrappers
  import opened Text

  /** Electrodes E1 to E128, the whole net. */
  const NET_SIZE: int := 128

  /** `f"E{i}"`. */
  function Name(i: int): string {
    "E" + IntToString(i)
  }

  function Names(ixs: seq<int>): (r: seq<string>)
    ensures |r| == |ixs| && forall k :: 0 <= k < |ixs| ==> r[k] == Name(ixs[k])
  {
    seq(|ixs|, k requires 0 <= k < |ixs| => Name(ixs[k]))
  }

  /** `range(lo, hi)`. */
  function Range(lo: int, hi: int): (r: seq<int>)
    ensures |r| == if hi > lo then hi - lo else 0
    ensures forall k :: 0 <= k < |r| ==> r[k] == lo + k
  {
    if hi <= lo then [] else seq(hi - lo, k requires 0 <= k < hi - lo => lo + k)
  }

  /** `[f"E{i}" for i in range(1, 129)]`. */
  function AllChannels(): (r: seq<string>)
    ensures |r| == NET_SIZE && forall k :: 0 <= k < NET_SIZE ==> r[k] == Name(k + 1)
  {
    Names(Range(1, NET_SIZE + 1))
  }

  /** `int(s)`, raising ValueError on text that is not an integer. */
  function IntOf(s: string): (r: Result<int, string>)
    ensures r.Ok? <==> ParseInt(s).Some?
  {
    match ParseInt(s)
    case None => Err("ValueError")
    case Some(v) => Ok(v)
  }

  function Min(a: int, b: int): int { if a <= b then a else b }
  function Max(a: int, b: int): int { if a <= b then b else a }

  // ---------- backend/app/schemas/params/base_filter_schema.py ----------

  /** The electrode numbers one token stands for: "a-b" (split at the first
      '-') is every number from min(a,b) to max(a,b), anything else one number. */
  function TokenIndices(t: string): Result<seq<int>, string> {
    match SplitOnce(t, '-')
    case Some((a, b)) => RangeIndices(a, b)
    case None =>
      var x :- IntOf(t);
      Ok([x])
  }

  /** The numbers from min(a,b) to max(a,b), for the two ends of a range. */
  function RangeIndices(a: string, b: string): Result<seq<int>, string> {
    var x :- IntOf(a);
    var y :- IntOf(b);
    Ok(Range(Min(x, y), Max(x, y) + 1))
  }

  /** The names of all tokens in order under a token rule, or the first
      failing token's error. */
  function ExpandWith(rule: string -> Result<seq<int>, string>, tokens: seq<string>): Result<seq<string>, string> {
    if |tokens| == 0 then Ok([])
    else
      match ExpandWith(rule, tokens[..|tokens| - 1])
      case Err(e) => Err(e)
      case Ok(init) =>
        match rule(tokens[|tokens| - 1])
        case Err(e) => Err(e)
        case Ok(last) => Ok(init + Names(last))
  }

  /** Once a prefix of the tokens fails, the whole list fails the same way. */
  lemma {:induction false} ExpandWithErr(rule: string -> Result<seq<int>, string>, tokens: seq<string>, n: nat)
    requires n <= |tokens| && ExpandWith(rule, tokens[..n]).Err?
    ensures ExpandWith(rule, tokens) == ExpandWith(rule, tokens[..n])
    decreases |tokens| - n
  {
    if n < |tokens| {
      var m := |tokens| - 1;
      if n < m {
        assert tokens[..m][..n] == tokens[..n];
        ExpandWithErr(rule, tokens[..m], n);
      } else {
        assert tokens[..m] == tokens[..n];
      }
    } else {
      assert tokens[..n] == tokens;
    }
  }

  lemma ExpandWithSnoc(rule: string -> Result<seq<int>, string>, tokens: seq<string>, t: nat, names: seq<string>)
    requires t < |tokens| && ExpandWith(rule, tokens[..t]) == Ok(names)
    ensures ExpandWith(rule, tokens[..t + 1]) ==
      match rule(tokens[t]) case Err(e) => Err(e) case Ok(ixs) => Ok(names + Names(ixs))
  {
    assert tokens[..t + 1][..t] == tokens[..t];
  }

  function ExpandAll(tokens: seq<string>): Result<seq<string>, string> {
    ExpandWith(TokenIndices, tokens)
  }

  /** `channels_list`: the whole net for blank text, otherwise the expanded
      names with repeats dropped after their first occurrence. */
  function ChannelsList(channels: string): Result<seq<string>, string> {
    if Strip(channels) == "" then Ok(AllChannels())
    else
      var names :- ExpandAll(SplitListSeps(channels));
      Ok(Dedup(names))
  }

  /** One more name through the `seen` guard keeps `out` the de-duplicated
      list of everything emitted so far. */
  lemma DedupStep(emitted: seq<string>, out: seq<string>, seen: set<string>, name: string)
    requires out == Dedup(emitted) && forall x :: x in seen <==> x in out
    ensures name in seen ==> Dedup(emitted + [name]) == out
    ensures name !in seen ==> Dedup(emitted + [name]) == out + [name]
  {
    assert (emitted + [name])[..|emitted|] == emitted;
  }

  lemma NamesSnoc(ixs: seq<int>, k: nat)
    requires k < |ixs|
    ensures Names(ixs[..k + 1]) == Names(ixs[..k]) + [Name(ixs[k])]
  {
  }

  /** The body of the inner loop of `channels_list`: each name of `ixs` is
      appended to `out` unless `seen` already holds it. */
  method AppendUnseen(out: seq<string>, seen: set<string>, ghost emitted: seq<string>, ixs: seq<int>)
    returns (out': seq<string>, seen': set<string>)
    requires out == Dedup(emitted) && forall x :: x in seen <==> x in out
    ensures out' == Dedup(emitted + Names(ixs))
    ensures forall x :: x in seen' <==> x in out'
  {
    out', seen' := out, seen;
    ghost var done := emitted;
    for k := 0 to |ixs|
      invariant done == emitted + Names(ixs[..k])
      invariant out' == Dedup(done)
      invariant forall x :: x in seen' <==> x in out'
    {
      var name := Name(ixs[k]);
      DedupStep(done, out', seen', name);
      NamesSnoc(ixs, k);
      done := done + [name];
      if name !in seen' {
        seen' := seen' + {name};
        out' := out' + [name];
      }
    }
    assert ixs[..|ixs|] == ixs;
  }

  /** `channels_list` as the source computes it: a loop over the tokens, an
      inner loop over each range, and a `seen` set guarding the appends. */
  method BuildChannelsList(channels: string) returns (r: Result<seq<string>, string>)
    ensures r == ChannelsList(channels)
  {
    if Strip(channels) == "" {
      return Ok(AllChannels());
    }
    r := ExpandUnique(SplitListSeps(channels));
  }

  /** The token loop of `channels_list`: every token's names in order, each
      kept at its first appearance, or the first failing token's error. */
  method ExpandUnique(tokens: seq<string>) returns (r: Result<seq<string>, string>)
    ensures r == (match ExpandAll(tokens) case Err(e) => Err(e) case Ok(names) => Ok(Dedup(names)))
  {
    var out: seq<string> := [];
    var seen: set<string> := {};
    ghost var emitted: seq<string> := [];
    for t := 0 to |tokens|
      invariant ExpandWith(TokenIndices, tokens[..t]) == Ok(emitted)
      invariant out == Dedup(emitted)
      invariant forall x :: x in seen <==> x in out
    {
      ExpandWithSnoc(TokenIndices, tokens, t, emitted);
      var ixs := TokenIndices(tokens[t]);
      if ixs.Err? {
        ExpandWithErr(TokenIndices, tokens, t + 1);
        return Err(ixs.error);
      }
      out, seen := AppendUnseen(out, seen, emitted, ixs.value);
      emitted := emitted + Names(ixs.value);
    }
    assert tokens[..|tokens|] == tokens;
    return Ok(out);
  }

  // ---------- properties ----------

  /** Blank or white-space-only text selects the whole net, E1 to E128 in order. */
  lemma BlankSelectsAll(channels: string)
    requires AllSpace(channels)
    ensures ChannelsList(channels) == Ok(AllChannels())
  {
    StripEmptyIffAllSpace(channels);
  }

  /** A range token names the same electrodes whichever end comes first. */
  lemma RangeEndsCommute(a: string, b: string)
    requires '-' !in a && '-' !in b
    ensures TokenIndices(a + "-" + b) == TokenIndices(b + "-" + a)
  {
    SplitOnceOf(a, b, '-');
    SplitOnceOf(b, a, '-');
    assert a + "-" + b == a + ['-'] + b;
    assert b + "-" + a == b + ['-'] + a;
    RangeIndicesCommute(a, b);
  }

  lemma RangeIndicesCommute(a: string, b: string)
    ensures RangeIndices(a, b) == RangeIndices(b, a)
  {
  }

  lemma NatStringNoDash(n: nat)
    ensures '-' !in NatToString(n) && '-' !in IntToString(n)
  {
  }

  /** "a-b" on electrode numbers is min(a,b), min(a,b)+1, ..., max(a,b). */
  lemma RangeToken(a: nat, b: nat)
    ensures TokenIndices(IntToString(a) + "-" + IntToString(b)) == Ok(Range(Min(a, b), Max(a, b) + 1))
    ensures |Range(Min(a, b), Max(a, b) + 1)| == Max(a, b) - Min(a, b) + 1
  {
    NatStringNoDash(a);
    NatStringNoDash(b);
    SplitOnceOf(IntToString(a), IntToString(b), '-');
    assert IntToString(a) + "-" + IntToString(b) == IntToString(a) + ['-'] + IntToString(b);
    ParseIntOfString(a);
    ParseIntOfString(b);
  }

  /** A plain electrode number names itself. */
  lemma PlainToken(a: nat)
    ensures TokenIndices(IntToString(a)) == Ok([a])
  {
    NatStringNoDash(a);
    ParseIntOfString(a);
  }

  /** A negative number is read as a range with an empty left end, so it is refused. */
  lemma NegativeTokenRejected(n: nat)
    requires n > 0
    ensures TokenIndices(IntToString(-(n as int))).Err?
  {
    var s := IntToString(-(n as int));
    assert s == "-" + NatToString(n);
    assert s == [] + ['-'] + NatToString(n);
    SplitOnceOf([], NatToString(n), '-');
  }

  /** Python's `int` drops an underscore between two digits, so "1_0" names E10
      under both the current and the legacy reading. */
  lemma UnderscoreToken()
    ensures IntOf("1_0") == Ok(10)
    ensures TokenIndices("1_0") == Ok([10]) && LegacyTokenIndices("1_0") == Ok([10])
    ensures Names([10]) == ["E10"]
  {
    StripNoSpace("1_0");
    assert "1" + "_" + "0" == "1_0" && "1" + "0" == "10";
    UnderscoreDropped("1", "0");
    ParseNonNegative(10);
    assert NatToString(10) == "10" by {
      assert NatToString(10) == NatToString(1) + [DigitChar(0)];
    }
    assert '-' !in "1_0";
    assert Names([10])[0] == Name(10) == "E10" by {
      assert IntToString(10) == "10";
    }
  }

  /** An empty token (from a leading or trailing separator) is refused. */
  lemma EmptyTokenRejected()
    ensures TokenIndices("").Err? && LegacyTokenIndices("").Err?
  {
  }

  lemma LastTokenError(rule: string -> Result<seq<int>, string>, tokens: seq<string>)
    requires |tokens| > 0 && rule(tokens[|tokens| - 1]).Err?
    ensures ExpandWith(rule, tokens).Err?
  {
  }

  /** Text that is not blank but ends in a comma or white space is refused. */
  lemma TrailingSeparatorRejected(channels: string)
    requires !AllSpace(channels)
    requires IsListSep(channels[|channels| - 1])
    ensures ChannelsList(channels).Err?
  {
    StripEmptyIffAllSpace(channels);
    TrailingTokenFails(channels);
  }

  lemma TrailingTokenFails(channels: string)
    requires |channels| > 0 && IsListSep(channels[|channels| - 1])
    ensures ExpandAll(SplitListSeps(channels)).Err?
    ensures LegacyExpandAll(SplitListSeps(channels)).Err?
  {
    SplitListSepsTrailing(channels);
    var tokens := SplitListSeps(channels);
    EmptyTokenRejected();
    assert ExpandAll(tokens).Err? by {
      LastTokenError(TokenIndices, tokens);
    }
    assert LegacyExpandAll(tokens).Err? by {
      LastTokenError(LegacyTokenIndices, tokens);
    }
  }

  /** The selection never repeats a name, and lists names in the order they
      first appear in the expansion. */
  lemma ChannelsListOrder(channels: string)
    requires ChannelsList(channels).Ok? && Strip(channels) != ""
    ensures var r := ChannelsList(channels).value;
      var names := ExpandAll(SplitListSeps(channels)).value;
      (forall i, j :: 0 <= i < j < |r| ==> r[i] != r[j])
      && (forall x :: x in r <==> x in names)
      && (forall i, j :: 0 <= i < j < |r| ==> IndexOf(names, r[i]) < IndexOf(names, r[j]))
  {
    DedupFirstOccurrenceOrder(ExpandAll(SplitListSeps(channels)).value);
  }

  // ---------- backend/app/schemas/filter_schema.py ----------

  /** The older token rule: "a-b" must hold exactly one '-' (a second one
      fails to unpack) and stands for a, a+1, ..., b (nothing when a > b). */
  function LegacyTokenIndices(t: string): Result<seq<int>, string> {
    if '-' in t then
      var parts := Split(t, '-');
      if |parts| != 2 then Err("ValueError")
      else
        var x :- IntOf(parts[0]);
        var y :- IntOf(parts[1]);
        Ok(Range(x, y + 1))
    else
      var x :- IntOf(t);
      Ok([x])
  }

  function LegacyExpandAll(tokens: seq<string>): Result<seq<string>, string> {
    ExpandWith(LegacyTokenIndices, tokens)
  }

  /** The older `channels_list`: the whole net only for the empty string,
      otherwise `sorted(set(...))` of the expanded names. */
  function LegacyChannelsList(channels: string): Result<seq<string>, string> {
    if channels == "" then Ok(AllChannels())
    else
      var names :- LegacyExpandAll(SplitListSeps(channels));
      Ok(SortedSet(names))
  }

  /** The inner loop of the older `channels_list`: every name of `ixs` appended. */
  method AppendNames(out: seq<string>, ixs: seq<int>) returns (out': seq<string>)
    ensures out' == out + Names(ixs)
  {
    out' := out;
    for k := 0 to |ixs|
      invariant out' == out + Names(ixs[..k])
    {
      NamesSnoc(ixs, k);
      out' := out' + [Name(ixs[k])];
    }
    assert ixs[..|ixs|] == ixs;
  }

  /** The older `channels_list` as the source computes it: appending loops,
      then `sorted(set(out))`. */
  method BuildLegacyChannelsList(channels: string) returns (r: Result<seq<string>, string>)
    ensures r == LegacyChannelsList(channels)
  {
    if channels == "" {
      return Ok(AllChannels());
    }
    var tokens := SplitListSeps(channels);
    var out: seq<string> := [];
    for t := 0 to |tokens|
      invariant ExpandWith(LegacyTokenIndices, tokens[..t]) == Ok(out)
    {
      ExpandWithSnoc(LegacyTokenIndices, tokens, t, out);
      var ixs := LegacyTokenIndices(tokens[t]);
      if ixs.Err? {
        ExpandWithErr(LegacyTokenIndices, tokens, t + 1);
        return Err(ixs.error);
      }
      out := AppendNames(out, ixs.value);
    }
    assert tokens[..|tokens|] == tokens;
    return Ok(SortedSet(out));
  }

  /** In the older rule "a-b" is a, a+1, ..., b. */
  lemma LegacyRangeToken(a: nat, b: nat)
    ensures LegacyTokenIndices(IntToString(a) + "-" + IntToString(b)) == Ok(Range(a, b + 1))
  {
    NatStringNoDash(a);
    NatStringNoDash(b);
    var s := IntToString(a) + "-" + IntToString(b);
    assert s == Join([IntToString(a), IntToString(b)], '-') by {
      assert [IntToString(a), IntToString(b)][1..] == [IntToString(b)];
    }
    SplitJoin([IntToString(a), IntToString(b)], '-');
    assert '-' in s by {
      assert s[|IntToString(a)|] == '-';
    }
    ParseIntOfString(a);
    ParseIntOfString(b);
  }

  /** In the older rule a reversed range names nothing, where the newer one
      names the same electrodes as the range written low-high. */
  lemma ReversedRangeDiffers(a: nat, b: nat)
    requires a > b
    ensures LegacyTokenIndices(IntToString(a) + "-" + IntToString(b)) == Ok([])
    ensures TokenIndices(IntToString(a) + "-" + IntToString(b)) == Ok(Range(b, a + 1))
    ensures TokenIndices(IntToString(b) + "-" + IntToString(a)) == Ok(Range(b, a + 1))
  {
    assert LegacyTokenIndices(IntToString(a) + "-" + IntToString(b)) == Ok([]) by {
      LegacyRangeToken(a, b);
    }
    assert TokenIndices(IntToString(a) + "-" + IntToString(b)) == Ok(Range(b, a + 1)) by {
      assert Min(a, b) == b && Max(a, b) == a;
      assert Range(Min(a, b), Max(a, b) + 1) == Range(b, a + 1);
      RangeToken(a, b);
    }
    RangeTokenAscending(b, a);
  }

  /** A range written low-high names every electrode from low to high. */
  lemma RangeTokenAscending(lo: nat, hi: nat)
    requires lo <= hi
    ensures TokenIndices(IntToString(lo) + "-" + IntToString(hi)) == Ok(Range(lo, hi + 1))
  {
    assert Min(lo, hi) == lo && Max(lo, hi) == hi;
    assert Range(Min(lo, hi), Max(lo, hi) + 1) == Range(lo, hi + 1);
    RangeToken(lo, hi);
  }

  /** A token with two '-' fails to unpack in the older rule, while the newer
      rule reads everything after the first '-' as the right end. */
  lemma TwoDashesRejected(a: string, b: string, c: string)
    requires '-' !in a && '-' !in b && '-' !in c
    ensures LegacyTokenIndices(a + "-" + b + "-" + c).Err?
  {
    var s := a + "-" + b + "-" + c;
    assert s == Join([a, b, c], '-') by {
      assert [a, b, c][1..] == [b, c];
      assert [b, c][1..] == [c];
      assert Join([b, c], '-') == b + ['-'] + c;
      assert Join([a, b, c], '-') == a + ['-'] + (b + ['-'] + c);
    }
    SplitJoin([a, b, c], '-');
    assert '-' in s by {
      assert s[|a|] == '-';
    }
  }

  /** Only the empty string selects the whole net in the older version; text
      of white space alone splits into empty tokens and is refused. */
  lemma WhiteSpaceDiffers(channels: string)
    requires |channels| > 0 && AllSpace(channels)
    ensures ChannelsList(channels) == Ok(AllChannels())
    ensures LegacyChannelsList(channels).Err?
  {
    BlankSelectsAll(channels);
    assert IsListSep(channels[|channels| - 1]);
    TrailingTokenFails(channels);
  }

  /** The older version sorts names as strings, so E100 comes before E69. */
  lemma LegacySortsAsStrings()
    ensures LegacyChannelsList("69,100") == Ok(["E100", "E69"])
  {
    LegacyTwoTokens();
    assert LexLess("E100", "E69");
    TwoSorted(SortedSet(["E69", "E100"]), "E100", "E69");
  }

  lemma LegacyTwoTokens()
    ensures LegacyExpandAll(SplitListSeps("69,100")) == Ok(["E69", "E100"])
  {
    ListSplitExample();
    LegacyTokenExamples();
    NameExamples();
    ExpandTwo(LegacyTokenIndices, "69", "100");
    assert ["E69"] + ["E100"] == ["E69", "E100"];
  }

  lemma ExpandTwo(rule: string -> Result<seq<int>, string>, t: string, u: string)
    requires rule(t).Ok? && rule(u).Ok?
    ensures ExpandWith(rule, [t, u]) == Ok(Names(rule(t).value) + Names(rule(u).value))
  {
    assert [t, u][..1] == [t];
    assert [t][..0] == [];
    assert [] + Names(rule(t).value) == Names(rule(t).value);
    assert ExpandWith(rule, [t]) == Ok(Names(rule(t).value));
  }

  lemma ListSplitExample()
    ensures SplitListSeps("69,100") == ["69", "100"]
  {
    assert "69,100" == "69" + [','] + "100";
    SplitListSepsComma("69", "100");
    SplitListSepsWord("100");
  }

  lemma LegacyTokenExamples()
    ensures LegacyTokenIndices("69") == Ok([69]) && LegacyTokenIndices("100") == Ok([100])
  {
    LegacyToken69();
    LegacyToken100();
  }

  lemma LegacyToken69()
    ensures LegacyTokenIndices("69") == Ok([69])
  {
    NumeralExamples();
    LegacyPlainToken(69);
  }

  lemma LegacyToken100()
    ensures LegacyTokenIndices("100") == Ok([100])
  {
    NumeralExamples();
    LegacyPlainToken(100);
  }

  lemma NameExamples()
    ensures Names([69]) == ["E69"] && Names([100]) == ["E100"]
  {
    NumeralExamples();
    assert Names([69])[0] == Name(69) == "E69";
    assert Names([100])[0] == Name(100) == "E100";
  }

  lemma NumeralExamples()
    ensures IntToString(69) == "69" && IntToString(100) == "100"
  {
    assert NatToString(69) == NatToString(6) + [DigitChar(9)];
    assert NatToString(10) == NatToString(1) + [DigitChar(0)];
    assert NatToString(100) == NatToString(10) + [DigitChar(0)];
  }

  lemma LegacyPlainToken(a: nat)
    ensures LegacyTokenIndices(IntToString(a)) == Ok([a])
  {
    NatStringNoDash(a);
    ParseIntOfString(a);
  }

  /** A strictly sorted list holding exactly two given names in order is those two. */
  lemma TwoSorted(r: seq<string>, x: string, y: string)
    requires StrictlySortedBy(r, s => s) && LexLess(x, y)
    requires forall z :: z in r <==> z == x || z == y
    ensures r == [x, y]
  {
    LexIrreflexive(x);
    LexIrreflexive(y);
    LexAsymmetric(x, y);
    assert x in r && y in r;
    var i :| 0 <= i < |r| && r[i] == x;
    var j :| 0 <= j < |r| && r[j] == y;
    assert i < j;
    assert r[0] in r;
    assert i == 0;
    forall k | 0 < k < |r|
      ensures r[k] == y
    {
      assert r[k] in r && LexLess(r[0], r[k]);
    }
    assert r[1] == y;
    assert |r| == 2;
  }
}

=== FILE: channels_helper.dfy ===
/** `ChannelsHelper` and `prepare_channels` of
    backend/app/pipeline/channels_helper.py: channel selection honouring the
    bad list, the optional µV range filter over each channel's whole trace
    with its fall-back to the unfiltered selection, and the combine branch. */
module ChannelsHelp {
  import opened Wrappers
  import opened Text
  import opened Numbers

  /** A parameter value as the helper may find it: the µV bounds come from
      request objects and may be missing, a number, a boolean, a string or
      anything else. */
  datatype PyValue = PyNone | PyFloat(f: real) | PyBool(b: bool) | PyStr(s: string) | PyOther

  /** `_to_float_or_none`. `parse` is Python's `float` applied to a string,
      None where it raises. */
  function ToFloatOrNone(x: PyValue, parse: string -> Option<real>): (r: Option<real>)
    ensures x.PyNone? || x.PyOther? || (x.PyStr? && AllSpace(x.s)) ==> r.None?
    ensures x.PyFloat? ==> r == Some(x.f)
    ensures x.PyBool? ==> r == Some(if x.b then 1.0 else 0.0)
    ensures x.PyStr? && !AllSpace(x.s) ==> r == parse(x.s)
  {
    match x
    case PyNone => None
    case PyFloat(f) => Some(f)
    case PyBool(b) => Some(if b then 1.0 else 0.0)
    case PyStr(s) => StripEmptyIffAllSpace(s); if Strip(s) == "" then None else parse(s)
    case PyOther => None
  }

  /** What the helper reads from its parameter object. */
  datatype HelperParams = HelperParams(
    channelsList: seq<string>,
    showbad: bool,
    uvMin: PyValue,
    uvMax: PyValue,
    combineChannels: bool)

  /** The MNE object being prepared: channel names, the bad list, and each
      channel's whole trace in volts (the epochs of an `Epochs` laid end to
      end); `traces` is None when the data cannot be read as a channels ×
      samples array. */
  datatype Inst = Inst(chNames: seq<string>, bads: seq<string>, traces: Option<seq<seq<real>>>)

  /** MNE data has one trace per channel and at least one sample per trace
      (`np.nanmin` raises on an empty trace, outside the helper's try block). */
  predicate Readable(inst: Inst) {
    inst.traces.Some? ==>
      |inst.traces.value| == |inst.chNames|
      && forall i :: 0 <= i < |inst.traces.value| ==> |inst.traces.value[i]| > 0
  }

  // ---------- pick_channels ----------

  /** `mne.pick_channels(ch_names, include, exclude)` over the first `n`
      channels, in channel order: a channel is picked iff it is included (an
      empty wanted list includes every channel) and not excluded. */
  function PickIndices(names: seq<string>, wanted: seq<string>, unwanted: seq<string>, n: nat): (r: seq<nat>)
    requires n <= |names|
    ensures forall k :: 0 <= k < |r| ==> r[k] < n
    ensures forall k, l :: 0 <= k < l < |r| ==> r[k] < r[l]
    ensures forall i: nat :: i in r <==> (i < n && (wanted == [] || names[i] in wanted) && names[i] !in unwanted)
  {
    if n == 0 then []
    else
      var init := PickIndices(names, wanted, unwanted, n - 1);
      if (wanted == [] || names[n - 1] in wanted) && names[n - 1] !in unwanted then init + [n - 1] else init
  }

  /** The indices of the included names that are not excluded, in the
      order of `include`, each the name's first position among the channels. */
  function OrderedPicks(names: seq<string>, incl: seq<string>, unwanted: seq<string>): (r: seq<nat>)
    requires forall w :: w in incl ==> w in names
    ensures forall k :: 0 <= k < |r| ==> r[k] < |names| && names[r[k]] !in unwanted
    ensures forall i: nat :: i in r <==> exists w :: w in incl && w !in unwanted && i == IndexOf(names, w)
  {
    if |incl| == 0 then []
    else
      var rest := OrderedPicks(names, incl[1..], unwanted);
      var w := incl[0];
      assert forall v :: v in incl <==> v == w || v in incl[1..];
      if w in unwanted then rest else [IndexOf(names, w)] + rest
  }

  /** `mne.pick_channels(ch_names, include, exclude)` with `ordered=True`,
      the default of newer MNE: the included names in their own order,
      skipping excluded ones; an included name that is not a channel raises
      ValueError. An empty include list stands for every channel. */
  function PickOrdered(names: seq<string>, wanted: seq<string>, unwanted: seq<string>): (r: Result<seq<nat>, string>)
    ensures r.Err? <==> exists w :: w in wanted && w !in names
    ensures r.Ok? ==> forall k :: 0 <= k < |r.value| ==> r.value[k] < |names| && names[r.value[k]] !in unwanted
  {
    var incl := if wanted == [] then names else wanted;
    if exists w :: w in incl && w !in names then Err("ValueError")
    else Ok(OrderedPicks(names, incl, unwanted))
  }

  /** On channels with distinct names (MNE refuses any others), an ordered
      pick that does not raise picks the same channels as `PickIndices`; only
      the order differs. */
  lemma PickOrderedAgrees(names: seq<string>, wanted: seq<string>, unwanted: seq<string>)
    requires forall i, j :: 0 <= i < j < |names| ==> names[i] != names[j]
    requires PickOrdered(names, wanted, unwanted).Ok?
    ensures forall i: nat :: i in PickOrdered(names, wanted, unwanted).value <==> i in PickIndices(names, wanted, unwanted, |names|)
  {
    var incl := if wanted == [] then names else wanted;
    var r := PickOrdered(names, wanted, unwanted).value;
    assert r == OrderedPicks(names, incl, unwanted);
    forall i: nat
      ensures i in r <==> i in PickIndices(names, wanted, unwanted, |names|)
    {
      if i < |names| && (wanted == [] || names[i] in wanted) && names[i] !in unwanted {
        var w := names[i];
        assert w in incl;
        assert IndexOf(names, w) == i;
      }
    }
  }

  /** The bad list is excluded unless `showbad` is set. */
  function Exclusions(inst: Inst, params: HelperParams): seq<string> {
    if params.showbad then [] else inst.bads
  }

  function Selection(inst: Inst, params: HelperParams): (r: seq<nat>)
    ensures forall k :: 0 <= k < |r| ==> r[k] < |inst.chNames|
  {
    PickIndices(inst.chNames, params.channelsList, Exclusions(inst, params), |inst.chNames|)
  }

  /** `[ch_names[i] for i in picks]`. */
  function NamesOf(inst: Inst, picks: seq<nat>): (names: seq<string>)
    requires forall k :: 0 <= k < |picks| ==> picks[k] < |inst.chNames|
    ensures |names| == |picks|
  {
    seq(|picks|, k requires 0 <= k < |picks| => inst.chNames[picks[k]])
  }

  // ---------- filter_by_uv ----------

  /** `a` is `b` with some elements left out, the rest in their order. */
  ghost predicate SubsequenceOf<T>(a: seq<T>, b: seq<T>)
    decreases |b|
  {
    if |a| == 0 then true
    else if |b| == 0 then false
    else (a[|a| - 1] == b[|b| - 1] && SubsequenceOf(a[..|a| - 1], b[..|b| - 1])) || SubsequenceOf(a, b[..|b| - 1])
  }

  lemma {:induction false} SubsequenceMembers<T>(a: seq<T>, b: seq<T>)
    requires SubsequenceOf(a, b)
    ensures forall x :: x in a ==> x in b
    decreases |b|
  {
    if |a| > 0 {
      if a[|a| - 1] == b[|b| - 1] && SubsequenceOf(a[..|a| - 1], b[..|b| - 1]) {
        SubsequenceMembers(a[..|a| - 1], b[..|b| - 1]);
        assert a == a[..|a| - 1] + [a[|a| - 1]];
      } else {
        SubsequenceMembers(a, b[..|b| - 1]);
      }
      assert b == b[..|b| - 1] + [b[|b| - 1]];
    }
  }

  lemma {:induction false} SubsequenceOfItself<T>(a: seq<T>)
    ensures SubsequenceOf(a, a)
    decreases |a|
  {
    if |a| > 0 {
      SubsequenceOfItself(a[..|a| - 1]);
    }
  }

  /** The elements whose flag is set, in order:
      `[idx for idx, keep in zip(picks, keep_mask) if keep]`. */
  function Where<T(!new)>(xs: seq<T>, flags: seq<bool>): (r: seq<T>)
    requires |flags| == |xs|
    ensures |r| <= |xs|
    ensures SubsequenceOf(r, xs)
    ensures forall x :: x in r <==> exists k :: 0 <= k < |xs| && flags[k] && xs[k] == x
  {
    if |xs| == 0 then []
    else
      var n := |xs| - 1;
      var init := Where(xs[..n], flags[..n]);
      assert forall k :: 0 <= k < n ==> xs[..n][k] == xs[k] && flags[..n][k] == flags[k];
      if flags[n] then
        assert (init + [xs[n]])[..|init|] == init;
        init + [xs[n]]
      else
        init
  }

  /** A channel passes when its smallest sample in µV is at least `uv_min`
      and its largest at most `uv_max`, each bound only when set; both
      bounds are inclusive. */
  predicate WithinUv(trace: seq<real>, lo: Option<real>, hi: Option<real>)
    requires |trace| > 0
  {
    (lo.None? || MinOf(trace) * 1000000.0 >= lo.value)
    && (hi.None? || MaxOf(trace) * 1000000.0 <= hi.value)
  }

  function UvFlags(traces: seq<seq<real>>, picks: seq<nat>, lo: Option<real>, hi: Option<real>): (flags: seq<bool>)
    requires forall k :: 0 <= k < |picks| ==> picks[k] < |traces| && |traces[picks[k]]| > 0
    ensures |flags| == |picks|
  {
    seq(|picks|, k requires 0 <= k < |picks| => WithinUv(traces[picks[k]], lo, hi))
  }

  /** The picks `filter_by_uv` leaves: unchanged without bounds, empty when
      nothing was picked, unchanged when the data cannot be read, otherwise
      the picks within bounds, or all of them when none is. */
  function UvSelection(inst: Inst, picks: seq<nat>, lo: Option<real>, hi: Option<real>): (r: seq<nat>)
    requires Readable(inst) && forall k :: 0 <= k < |picks| ==> picks[k] < |inst.chNames|
    ensures forall k :: 0 <= k < |r| ==> r[k] < |inst.chNames|
  {
    if lo.None? && hi.None? then picks
    else if picks == [] then []
    else if inst.traces.None? then picks
    else
      var kept := Where(picks, UvFlags(inst.traces.value, picks, lo, hi));
      assert forall k :: 0 <= k < |kept| ==> kept[k] in kept;
      if kept == [] then picks else kept
  }

  /** The filter never adds a channel or changes the order, and it never
      empties a non-empty selection. */
  lemma UvSelectionSubsequence(inst: Inst, picks: seq<nat>, lo: Option<real>, hi: Option<real>)
    requires Readable(inst) && forall k :: 0 <= k < |picks| ==> picks[k] < |inst.chNames|
    ensures SubsequenceOf(UvSelection(inst, picks, lo, hi), picks)
    ensures picks != [] ==> UvSelection(inst, picks, lo, hi) != []
  {
    SubsequenceOfItself(picks);
  }

  /** When the bounds are set, the data is readable and some picked channel
      is within them, exactly the picked channels within them remain. */
  lemma UvSelectionKeepsWithin(inst: Inst, picks: seq<nat>, lo: Option<real>, hi: Option<real>, i: nat)
    requires Readable(inst) && forall k :: 0 <= k < |picks| ==> picks[k] < |inst.chNames|
    requires (lo.Some? || hi.Some?) && inst.traces.Some?
    requires exists k :: 0 <= k < |picks| && WithinUv(inst.traces.value[picks[k]], lo, hi)
    ensures i in UvSelection(inst, picks, lo, hi) <==> i in picks && WithinUv(inst.traces.value[i], lo, hi)
  {
    var flags := UvFlags(inst.traces.value, picks, lo, hi);
    var k :| 0 <= k < |picks| && WithinUv(inst.traces.value[picks[k]], lo, hi);
    assert flags[k];
    assert picks[k] in Where(picks, flags);
  }

  /** When no picked channel is within the bounds, the selection stays as it was. */
  lemma UvSelectionFallsBack(inst: Inst, picks: seq<nat>, lo: Option<real>, hi: Option<real>)
    requires Readable(inst) && forall k :: 0 <= k < |picks| ==> picks[k] < |inst.chNames|
    requires inst.traces.Some?
    requires forall k :: 0 <= k < |picks| ==> !WithinUv(inst.traces.value[picks[k]], lo, hi)
    ensures UvSelection(inst, picks, lo, hi) == picks
  {
    var kept := Where(picks, UvFlags(inst.traces.value, picks, lo, hi));
    assert |kept| == 0 || kept[0] in kept;
  }

  /** `keep_mask`: all true, then narrowed by `&=` with each bound that is set. */
  method KeepMask(traces: seq<seq<real>>, picks: seq<nat>, lo: Option<real>, hi: Option<real>) returns (keep: seq<bool>)
    requires forall k :: 0 <= k < |picks| ==> picks[k] < |traces| && |traces[picks[k]]| > 0
    ensures keep == UvFlags(traces, picks, lo, hi)
  {
    keep := seq(|picks|, k requires 0 <= k < |picks| => true);
    if lo.Some? {
      keep := seq(|picks|, k requires 0 <= k < |picks| => keep[k] && MinOf(traces[picks[k]]) * 1000000.0 >= lo.value);
    }
    if hi.Some? {
      keep := seq(|picks|, k requires 0 <= k < |picks| => keep[k] && MaxOf(traces[picks[k]]) * 1000000.0 <= hi.value);
    }
  }

  // ---------- the helper object ----------

  class ChannelsHelper {
    const params: HelperParams
    const inst: Inst
    var picks: Option<seq<nat>>
    var pickNames: Option<seq<string>>

    /** `pick_names` is set together with `picks` and names its channels. */
    ghost predicate Valid()
      reads this
    {
      (picks.Some? <==> pickNames.Some?)
      && (picks.Some? ==>
            (forall k :: 0 <= k < |picks.value| ==> picks.value[k] < |inst.chNames|)
            && pickNames.value == NamesOf(inst, picks.value))
    }

    constructor(params: HelperParams, inst: Inst)
      ensures this.params == params && this.inst == inst
      ensures picks == None && pickNames == None
      ensures Valid()
    {
      this.params := params;
      this.inst := inst;
      picks := None;
      pickNames := None;
    }

    /** `pick_channels`. */
    method PickChannels()
      modifies this`picks, this`pickNames
      ensures picks == Some(Selection(inst, params))
      ensures Valid()
    {
      var ps := Selection(inst, params);
      picks := Some(ps);
      pickNames := Some(NamesOf(inst, ps));
    }

    /** `filter_by_uv`: selects first if nothing was selected yet, then
        narrows the keep mask by each bound that is set. */
    method FilterByUv(parse: string -> Option<real>)
      requires Valid() && Readable(inst)
      modifies this`picks, this`pickNames
      ensures Valid()
      ensures picks == Some(UvSelection(inst,
                                        if old(picks).Some? then old(picks).value else Selection(inst, params),
                                        ToFloatOrNone(params.uvMin, parse),
                                        ToFloatOrNone(params.uvMax, parse)))
    {
      var lo := ToFloatOrNone(params.uvMin, parse);
      var hi := ToFloatOrNone(params.uvMax, parse);
      if picks.None? {
        PickChannels();
      }
      var ps := picks.value;
      if lo.None? && hi.None? {
        return;
      }
      if ps == [] {
        picks := Some([]);
        pickNames := Some([]);
        return;
      }
      if inst.traces.None? {
        return;
      }
      var keep := KeepMask(inst.traces.value, ps, lo, hi);
      var kept := Where(ps, keep);
      assert forall k :: 0 <= k < |kept| ==> kept[k] in kept;
      var finalPicks := if kept != [] then kept else ps;
      picks := Some(finalPicks);
      pickNames := Some(NamesOf(inst, finalPicks));
    }
  }

  // ---------- prepare_channels ----------

  /** What `prepare_channels` returns: the selected channels averaged into
      one channel "combined", a plain copy, or a copy restricted to the picks. */
  datatype Prepared =
    | Combined(source: Inst, group: seq<string>)
    | Whole(source: Inst)
    | Picked(source: Inst, picks: seq<nat>)

  /** The channels `prepare_channels` keeps: selected, then µV-filtered. */
  function PreparedPicks(inst: Inst, params: HelperParams, parse: string -> Option<real>): (r: seq<nat>)
    requires Readable(inst)
    ensures forall k :: 0 <= k < |r| ==> r[k] < |inst.chNames|
  {
    UvSelection(inst, Selection(inst, params), ToFloatOrNone(params.uvMin, parse), ToFloatOrNone(params.uvMax, parse))
  }

  function PrepareSpec(inst: Inst, params: HelperParams, parse: string -> Option<real>): Prepared
    requires Readable(inst)
  {
    var ps := PreparedPicks(inst, params, parse);
    if params.combineChannels then
      if NamesOf(inst, ps) != [] then Combined(inst, NamesOf(inst, ps)) else Whole(inst)
    else Picked(inst, ps)
  }

  /** `prepare_channels`: a fresh helper picks, filters, and the result is
      combined or picked. */
  method PrepareChannels(inst: Inst, params: HelperParams, parse: string -> Option<real>) returns (r: Prepared)
    requires Readable(inst)
    ensures r == PrepareSpec(inst, params, parse)
  {
    var helper := new ChannelsHelper(params, inst);
    helper.PickChannels();
    helper.FilterByUv(parse);
    var ps := helper.picks.value;
    var names := helper.pickNames.value;
    if params.combineChannels {
      if names != [] {
        return Combined(inst, names);
      }
      return Whole(inst);
    }
    return Picked(inst, ps);
  }

  /** Unless `showbad` is set, no channel on the bad list survives
      preparation, and with a non-empty channel list every kept channel is
      on it; the µV filter only ever narrows the selection. */
  lemma PreparedRespectsSelection(inst: Inst, params: HelperParams, parse: string -> Option<real>, i: nat)
    requires Readable(inst) && i in PreparedPicks(inst, params, parse)
    ensures i < |inst.chNames|
    ensures !params.showbad ==> inst.chNames[i] !in inst.bads
    ensures params.channelsList != [] ==> inst.chNames[i] in params.channelsList
  {
    var sel := Selection(inst, params);
    UvSelectionSubsequence(inst, sel, ToFloatOrNone(params.uvMin, parse), ToFloatOrNone(params.uvMax, parse));
    SubsequenceMembers(PreparedPicks(inst, params, parse), sel);
  }
}

=== FILE: cohort_executor.dfy ===
/** The cohort executor of backend/app/pipeline/cohort_executor.py.
    `EEGCohortExecutor` runs every subject's executor in turn and combines
    their answers: epochs are concatenated with the union of their labels,
    evoked responses are averaged per subject and then across subjects.
    Each combined answer is memoised on first success. */
module Cohort {
  import opened Wrappers
  import opened Text
  import opened PyDict
  import opened Eeg
  import opened TaskEvents
  import opened Processor
  import opened Executor
  import opened Cache

  /** `concatenate_epochs(epochs_list)`. */
  datatype CohortEpochs = Concatenated(parts: seq<Epochs>)

  /** The `(epochs, labels)` pair the cohort returns. */
  datatype CohortPair = CohortPair(epochs: CohortEpochs, labels: seq<string>)

  // ---------- combining the executors' answers ----------

  /** The first exception raised, scanning left to right. */
  function FirstRaised<T>(rs: seq<Stage<T>>): (r: Option<string>)
    ensures r.None? <==> forall i :: 0 <= i < |rs| ==> !rs[i].Raised?
  {
    if |rs| == 0 then None
    else
      var f := FirstRaised(rs[..|rs| - 1]);
      if f.Some? then f
      else if rs[|rs| - 1].Raised? then Some(rs[|rs| - 1].error)
      else None
  }

  /** The string items of a JSON list. */
  function StringItems(items: seq<Json>): (r: seq<string>)
    ensures forall x :: x in r <==> JStr(x) in items
  {
    if |items| == 0 then []
    else
      var rest := StringItems(items[1..]);
      assert forall j :: j in items <==> j == items[0] || j in items[1..];
      if items[0].JStr? then [items[0].s] + rest else rest
  }

  /** The ValueError NumPy raises for the truth value of an array that
      holds more than one element. */
  const AMBIGUOUS_TRUTH := "ValueError: The truth value of an array with more than one element is ambiguous. Use a.any() or a.all()"

  /** `if lbls:` raises on labels that are an array of more than one element. */
  predicate AmbiguousTruth(l: Option<Labels>) {
    l.Some? && l.value.ArrayOf? && |l.value.items| > 1
  }

  /** The one-character strings iterating over `s` gives. */
  function Chars(s: string): (r: seq<string>)
    ensures forall x :: x in r <==> |x| == 1 && x[0] in s
  {
    if |s| == 0 then []
    else
      var rest := Chars(s[1..]);
      assert forall c :: c in s <==> c == s[0] || c in s[1..];
      assert forall x: string :: |x| == 1 ==> x == [x[0]];
      [[s[0]]] + rest
  }

  /** A JSON scalar that is truthy and not iterable. */
  predicate TruthyScalar(j: Json) {
    (j.JBool? && j.b) || (j.JInt? && j.i != 0) || (j.JFloat? && j.f != 0.0)
  }

  /** The TypeError `set.update` raises on a value it cannot iterate. */
  function NotIterable(j: Json): string {
    match j
    case JBool(_) => "TypeError: 'bool' object is not iterable"
    case JInt(_) => "TypeError: 'int' object is not iterable"
    case _ => "TypeError: 'float' object is not iterable"
  }

  /** The TypeError `set.update` raises on a list item that is a list. */
  const UNHASHABLE_LIST := "TypeError: unhashable type: 'list'"

  /** `if lbls: labels.update(lbls)` on one executor's labels: the labels it
      adds, or the exception it raises. Falsy labels (missing, null, false,
      zero, "", an empty list or array) add nothing; a string adds its
      characters; a list adds its string items, and raises on an item that
      is itself a list; a true or non-zero number is not iterable; a
      one-element array adds its label when that is not empty, and an array
      of more than one element has no truth value. */
  function LabelUpdate(l: Option<Labels>): (r: Result<seq<string>, string>)
    ensures l.None? ==> r == Ok([])
    ensures AmbiguousTruth(l) ==> r == Err(AMBIGUOUS_TRUTH)
    ensures l.Some? && l.value.ArrayOf? && !AmbiguousTruth(l) ==>
      r.Ok? && forall x :: x in r.value <==> x in l.value.items && x != ""
    ensures l.Some? && l.value.Listed? && l.value.json.JStr? ==>
      r.Ok? && forall x :: x in r.value <==> |x| == 1 && x[0] in l.value.json.s
    ensures l.Some? && l.value.Listed? && l.value.json.JArray? ==>
      (r.Err? <==> exists j :: j in l.value.json.items && j.JArray?)
      && (r.Err? ==> r.error == UNHASHABLE_LIST)
      && (r.Ok? ==> forall x :: x in r.value <==> JStr(x) in l.value.json.items)
    ensures l.Some? && l.value.Listed? && !l.value.json.JStr? && !l.value.json.JArray? ==>
      (r.Err? <==> TruthyScalar(l.value.json)) && (r.Ok? ==> r.value == [])
  {
    if l.None? then Ok([])
    else match l.value
      case Listed(j) =>
        (match j
         case JStr(s) => Ok(Chars(s))
         case JArray(items) =>
           if exists k :: k in items && k.JArray? then Err(UNHASHABLE_LIST) else Ok(StringItems(items))
         case _ => if TruthyScalar(j) then Err(NotIterable(j)) else Ok([]))
      case ArrayOf(items) =>
        if |items| > 1 then Err(AMBIGUOUS_TRUTH)
        else if |items| == 1 && items[0] != "" then Ok(items)
        else Ok([])
  }

  /** The labels one answer contributes once it passed `if lbls:`. */
  function LabelStrings(l: Option<Labels>): (r: seq<string>)
    ensures LabelUpdate(l).Ok? ==> r == LabelUpdate(l).value
  {
    if LabelUpdate(l).Ok? then LabelUpdate(l).value else []
  }

  /** One executor's answer as the body of the loop leaves it: an exception
      from `if lbls: labels.update(lbls)` replaces the epochs. */
  function Checked(r: Stage<EpochsPair>): (c: Stage<EpochsPair>)
    ensures c.Raised? <==> r.Raised? || (r.Ready? && LabelUpdate(r.value.labels).Err?)
    ensures r.Ready? && LabelUpdate(r.value.labels).Err? ==> c.error == LabelUpdate(r.value.labels).error
    ensures !c.Raised? || r.Raised? ==> c == r
  {
    if r.Ready? && LabelUpdate(r.value.labels).Err? then Raised(LabelUpdate(r.value.labels).error) else r
  }

  function CheckedAll(rs: seq<Stage<EpochsPair>>): (cs: seq<Stage<EpochsPair>>)
    ensures |cs| == |rs| && forall i :: 0 <= i < |rs| ==> cs[i] == Checked(rs[i])
  {
    seq(|rs|, i requires 0 <= i < |rs| => Checked(rs[i]))
  }

  /** The `(epochs, labels)` pairs of the executors that returned epochs, in order. */
  function ReadyPairs(rs: seq<Stage<EpochsPair>>): (r: seq<EpochsPair>)
    ensures |r| <= |rs|
    ensures forall q :: q in r <==> Ready(q) in rs
  {
    if |rs| == 0 then []
    else
      var init := ReadyPairs(rs[..|rs| - 1]);
      assert forall s :: s in rs <==> s in rs[..|rs| - 1] || s == rs[|rs| - 1];
      if rs[|rs| - 1].Ready? then init + [rs[|rs| - 1].value] else init
  }

  /** Every label of every pair, in order, repeats kept. */
  function LabelPool(ps: seq<EpochsPair>): (r: seq<string>)
    ensures forall x :: x in r <==> exists q :: q in ps && x in LabelStrings(q.labels)
  {
    if |ps| == 0 then []
    else
      var init := LabelPool(ps[..|ps| - 1]);
      assert forall q :: q in ps <==> q in ps[..|ps| - 1] || q == ps[|ps| - 1];
      init + LabelStrings(ps[|ps| - 1].labels)
  }

  function EpochsOf(ps: seq<EpochsPair>): seq<Epochs> {
    seq(|ps|, i requires 0 <= i < |ps| => ps[i].epochs)
  }

  /** `get_epochs` over the executors' answers: an exception stops the loop;
      with no epochs the answer is a bare None; otherwise the epochs are
      concatenated and the labels are the sorted set of all labels. */
  function CohortEpochsOutcome(rs: seq<Stage<EpochsPair>>): Stage<CohortPair> {
    match FirstRaised(rs)
    case Some(e) => Raised(e)
    case None =>
      var ps := ReadyPairs(rs);
      if |ps| == 0 then Unavailable
      else Ready(CohortPair(Concatenated(EpochsOf(ps)), SortedSet(LabelPool(ps))))
  }

  /** The cohort has epochs exactly when no executor raised and some
      executor returned epochs; the labels are then the strictly ascending
      union of the labels of the executors that returned epochs. */
  lemma CohortEpochsFacts(rs: seq<Stage<EpochsPair>>)
    ensures CohortEpochsOutcome(rs).Ready? <==>
      (forall i :: 0 <= i < |rs| ==> !rs[i].Raised?) && exists i :: 0 <= i < |rs| && rs[i].Ready?
    ensures CohortEpochsOutcome(rs).Ready? ==>
      var labels := CohortEpochsOutcome(rs).value.labels;
      StrictlySortedBy(labels, x => x)
      && forall x :: x in labels <==> exists i :: 0 <= i < |rs| && rs[i].Ready? && x in LabelStrings(rs[i].value.labels)
  {
    var ps := ReadyPairs(rs);
    if exists i :: 0 <= i < |rs| && rs[i].Ready? {
      var i :| 0 <= i < |rs| && rs[i].Ready?;
      assert rs[i] == Ready(rs[i].value);
      assert rs[i].value in ps;
    }
    if |ps| > 0 {
      assert ps[0] in ps;
      assert Ready(ps[0]) in rs;
    }
    forall x | x in LabelPool(ps)
      ensures exists i :: 0 <= i < |rs| && rs[i].Ready? && x in LabelStrings(rs[i].value.labels)
    {
      var q :| q in ps && x in LabelStrings(q.labels);
      assert Ready(q) in rs;
      var i :| 0 <= i < |rs| && rs[i] == Ready(q);
    }
    forall x, i | 0 <= i < |rs| && rs[i].Ready? && x in LabelStrings(rs[i].value.labels)
      ensures x in LabelPool(ps)
    {
      assert rs[i] == Ready(rs[i].value);
      assert rs[i].value in ps;
    }
  }

  /** When the first executor that raises or answers with labels that
      `labels.update` raises on does the latter, the cohort raises that
      exception: NumPy's ValueError for an array of several labels, a
      TypeError for a sidecar holding a number or a nested list. */
  lemma LabelUpdateRaises(rs: seq<Stage<EpochsPair>>, i: nat)
    requires i < |rs| && rs[i].Ready? && LabelUpdate(rs[i].value.labels).Err?
    requires forall j :: 0 <= j < i ==> !rs[j].Raised? && !(rs[j].Ready? && LabelUpdate(rs[j].value.labels).Err?)
    ensures CohortEpochsOutcome(CheckedAll(rs)) == Raised(LabelUpdate(rs[i].value.labels).error)
    ensures AmbiguousTruth(rs[i].value.labels) ==> CohortEpochsOutcome(CheckedAll(rs)) == Raised(AMBIGUOUS_TRUTH)
  {
    var cs := CheckedAll(rs);
    assert forall j :: 0 <= j < i ==> !cs[..i][j].Raised?;
    FirstRaisedAt(cs, i);
  }

  /** Cohort epochs come only from executors none of which raised, and none
      of whose labels `labels.update` raised on. */
  lemma CheckedReady(rs: seq<Stage<EpochsPair>>)
    ensures CohortEpochsOutcome(CheckedAll(rs)).Ready? ==>
      forall i :: 0 <= i < |rs| ==> !rs[i].Raised? && !(rs[i].Ready? && LabelUpdate(rs[i].value.labels).Err?)
  {
    var cs := CheckedAll(rs);
    if CohortEpochsOutcome(cs).Ready? {
      CohortEpochsFacts(cs);
      forall i | 0 <= i < |rs|
        ensures !rs[i].Raised? && !(rs[i].Ready? && LabelUpdate(rs[i].value.labels).Err?)
      {
        assert !cs[i].Raised?;
      }
    }
  }

  /** A prefix without an exception followed by one: that exception is the
      first of the whole sequence. */
  lemma {:induction false} FirstRaisedAt<T>(rs: seq<Stage<T>>, i: nat)
    requires i < |rs| && FirstRaised(rs[..i]).None? && rs[i].Raised?
    ensures FirstRaised(rs) == Some(rs[i].error)
    decreases |rs|
  {
    if |rs| == i + 1 {
      assert rs[..|rs| - 1] == rs[..i];
    } else {
      assert rs[..|rs| - 1][..i] == rs[..i];
      FirstRaisedAt(rs[..|rs| - 1], i);
    }
  }

  /** One more answer without an exception leaves none raised. */
  lemma FirstRaisedStep<T>(rs: seq<Stage<T>>, k: nat)
    requires k < |rs| && FirstRaised(rs[..k]).None? && !rs[k].Raised?
    ensures FirstRaised(rs[..k + 1]).None?
  {
    assert rs[..k + 1][..k] == rs[..k];
  }

  /** One more answer adds its pair when it has one. */
  lemma ReadyPairsStep(rs: seq<Stage<EpochsPair>>, k: nat)
    requires k < |rs|
    ensures ReadyPairs(rs[..k + 1]) == ReadyPairs(rs[..k]) + (if rs[k].Ready? then [rs[k].value] else [])
  {
    assert rs[..k + 1][..k] == rs[..k];
  }

  // ---------- evoked responses per subject ----------

  /** Where a subject's list sits in the per-subject dictionary; the
      dictionary's length when the subject is not in it yet. */
  function SubjectIndex(gs: seq<(string, seq<Evoked>)>, s: string): (k: nat)
    ensures k <= |gs|
    ensures forall j :: 0 <= j < k ==> gs[j].0 != s
    ensures k < |gs| ==> gs[k].0 == s
  {
    if |gs| == 0 then 0 else if gs[0].0 == s then 0 else 1 + SubjectIndex(gs[1..], s)
  }

  /** `per_subject.setdefault(subject, []).append(evk)`: the subject's list
      grows, or a new subject is added at the end. */
  function GroupAdd(gs: seq<(string, seq<Evoked>)>, s: string, e: Evoked): seq<(string, seq<Evoked>)> {
    var k := SubjectIndex(gs, s);
    if k == |gs| then gs + [(s, [e])] else gs[k := (s, gs[k].1 + [e])]
  }

  /** The subjects and responses of the executors that returned one. */
  function ReadyEvokeds(subjects: seq<string>, rs: seq<Stage<Evoked>>): (r: seq<(string, Evoked)>)
    requires |rs| <= |subjects|
    ensures |r| <= |rs|
  {
    if |rs| == 0 then []
    else
      var init := ReadyEvokeds(subjects, rs[..|rs| - 1]);
      if rs[|rs| - 1].Ready? then init + [(subjects[|rs| - 1], rs[|rs| - 1].value)] else init
  }

  /** One more answer adds its subject and response when it has one. */
  lemma ReadyEvokedsStep(subjects: seq<string>, rs: seq<Stage<Evoked>>, k: nat)
    requires k < |rs| <= |subjects|
    ensures ReadyEvokeds(subjects, rs[..k + 1])
      == ReadyEvokeds(subjects, rs[..k]) + (if rs[k].Ready? then [(subjects[k], rs[k].value)] else [])
  {
    var t := rs[..k + 1];
    assert |t| == k + 1 && t[..|t| - 1] == rs[..k] && t[|t| - 1] == rs[k];
  }

  /** The per-subject dictionary after appending every item in order. */
  function Grouped(items: seq<(string, Evoked)>): seq<(string, seq<Evoked>)> {
    if |items| == 0 then []
    else GroupAdd(Grouped(items[..|items| - 1]), items[|items| - 1].0, items[|items| - 1].1)
  }

  lemma GroupedSnoc(items: seq<(string, Evoked)>, x: (string, Evoked))
    ensures Grouped(items + [x]) == GroupAdd(Grouped(items), x.0, x.1)
  {
    assert (items + [x])[..|items|] == items;
  }

  function GroupSubjects(gs: seq<(string, seq<Evoked>)>): seq<string> {
    seq(|gs|, i requires 0 <= i < |gs| => gs[i].0)
  }

  function ItemSubjects(items: seq<(string, Evoked)>): seq<string> {
    seq(|items|, i requires 0 <= i < |items| => items[i].0)
  }

  /** The responses of one subject, in order. */
  function EvokedsOf(items: seq<(string, Evoked)>, s: string): seq<Evoked> {
    if |items| == 0 then []
    else EvokedsOf(items[..|items| - 1], s) + (if items[|items| - 1].0 == s then [items[|items| - 1].1] else [])
  }

  /** A subject with a response among the items is one of their subjects. */
  lemma {:induction false} EvokedsOfSubject(items: seq<(string, Evoked)>, s: string)
    requires EvokedsOf(items, s) != []
    ensures s in ItemSubjects(items)
  {
    var init := items[..|items| - 1];
    assert ItemSubjects(items) == ItemSubjects(init) + [items[|items| - 1].0];
    if items[|items| - 1].0 != s {
      EvokedsOfSubject(init, s);
    }
  }

  /** Appending one item adds its subject to the first-seen order unless
      it is already there. */
  lemma DedupSnoc(items: seq<(string, Evoked)>)
    requires |items| > 0
    ensures var init := items[..|items| - 1];
      var d := Dedup(ItemSubjects(init));
      var s := items[|items| - 1].0;
      Dedup(ItemSubjects(items)) == if s in ItemSubjects(init) then d else d + [s]
  {
    var init := items[..|items| - 1];
    assert ItemSubjects(items)[..|items| - 1] == ItemSubjects(init);
  }

  /** Adding a response adds its subject at the end unless it is there. */
  lemma GroupAddSubjects(gs: seq<(string, seq<Evoked>)>, s: string, e: Evoked)
    ensures GroupSubjects(GroupAdd(gs, s, e)) == if s in GroupSubjects(gs) then GroupSubjects(gs) else GroupSubjects(gs) + [s]
  {
    var k := SubjectIndex(gs, s);
    if k < |gs| {
      assert GroupSubjects(gs)[k] == s;
    } else {
      assert forall j :: 0 <= j < |gs| ==> GroupSubjects(gs)[j] != s;
    }
  }

  /** With distinct subjects, adding a response extends that subject's
      list only. */
  lemma GroupAddMembers(gs: seq<(string, seq<Evoked>)>, s: string, e: Evoked)
    requires forall i, j :: 0 <= i < j < |gs| ==> gs[i].0 != gs[j].0
    ensures var g := GroupAdd(gs, s, e);
      forall j :: 0 <= j < |g| ==>
        g[j].1 == if g[j].0 == s then (if j < |gs| then gs[j].1 else []) + [e] else gs[j].1
  {
  }

  /** The groups come in first-seen order of their subjects, one group per
      subject. */
  lemma {:induction false} GroupedSubjects(items: seq<(string, Evoked)>)
    ensures GroupSubjects(Grouped(items)) == Dedup(ItemSubjects(items))
  {
    if |items| > 0 {
      var init := items[..|items| - 1];
      GroupedSubjects(init);
      DedupSnoc(items);
      GroupAddSubjects(Grouped(init), items[|items| - 1].0, items[|items| - 1].1);
    }
  }

  /** Each group holds exactly its subject's responses, in order. */
  lemma {:induction false} GroupedMembers(items: seq<(string, Evoked)>)
    ensures forall j :: 0 <= j < |Grouped(items)| ==> Grouped(items)[j].1 == EvokedsOf(items, Grouped(items)[j].0)
  {
    if |items| > 0 {
      var init := items[..|items| - 1];
      var s, e := items[|items| - 1].0, items[|items| - 1].1;
      GroupedMembers(init);
      GroupedSubjects(init);
      var gs := Grouped(init);
      assert forall i, j :: 0 <= i < j < |gs| ==> gs[i].0 != gs[j].0 by {
        forall i, j | 0 <= i < j < |gs| ensures gs[i].0 != gs[j].0 {
          assert GroupSubjects(gs)[i] == gs[i].0 && GroupSubjects(gs)[j] == gs[j].0;
        }
      }
      GroupAddMembers(gs, s, e);
      GroupAddSubjects(gs, s, e);
      var g := Grouped(items);
      forall j | 0 <= j < |g|
        ensures g[j].1 == EvokedsOf(items, g[j].0)
      {
        if j >= |gs| {
          assert g[j].0 == s && s !in GroupSubjects(gs);
          assert s !in ItemSubjects(init) by {
            assert GroupSubjects(gs) == Dedup(ItemSubjects(init));
          }
          if EvokedsOf(init, s) != [] {
            EvokedsOfSubject(init, s);
          }
        }
      }
    }
  }

  /** Every group holds at least one response. */
  lemma {:induction false} GroupsNonEmpty(items: seq<(string, Evoked)>)
    ensures forall j :: 0 <= j < |Grouped(items)| ==> |Grouped(items)[j].1| > 0
  {
    if |items| > 0 {
      GroupsNonEmpty(items[..|items| - 1]);
    }
  }

  /** `grand_average(v) if len(v) > 1 else v[0]`. */
  function Combine(v: seq<Evoked>): Evoked
    requires |v| > 0
  {
    if |v| > 1 then GrandAverage(v) else v[0]
  }

  /** One response per subject, in the dictionary's order. */
  function PerSubject(gs: seq<(string, seq<Evoked>)>): (r: seq<Evoked>)
    requires forall j :: 0 <= j < |gs| ==> |gs[j].1| > 0
    ensures |r| == |gs|
  {
    seq(|gs|, i requires 0 <= i < |gs| => Combine(gs[i].1))
  }

  /** `get_evoked` over the executors' answers: one response per subject,
      then one across subjects; a bare None when there is none. */
  function CohortEvokedOutcome(subjects: seq<string>, rs: seq<Stage<Evoked>>): Stage<Evoked>
    requires |subjects| == |rs|
  {
    match FirstRaised(rs)
    case Some(e) => Raised(e)
    case None =>
      var gs := Grouped(ReadyEvokeds(subjects, rs));
      GroupsNonEmpty(ReadyEvokeds(subjects, rs));
      var evs := PerSubject(gs);
      if |evs| == 0 then Unavailable else Ready(Combine(evs))
  }

  /** One executor answering, alone: its response is returned as is. */
  lemma SingleEvokedKept(s: string, e1: Evoked)
    ensures CohortEvokedOutcome([s], [Ready(e1)]) == Ready(e1)
  {
    assert [Ready(e1)][..0] == [];
    assert ReadyEvokeds([s], [Ready(e1)]) == [(s, e1)];
    assert [(s, e1)][..0] == [];
    assert Grouped([(s, e1)]) == [(s, [e1])];
  }

  /** Two answers for one subject: their grand average is returned. */
  lemma SameSubjectAveraged(s: string, e1: Evoked, e2: Evoked)
    ensures CohortEvokedOutcome([s, s], [Ready(e1), Ready(e2)]) == Ready(GrandAverage([e1, e2]))
  {
    assert [Ready(e1), Ready(e2)][..1] == [Ready(e1)] && [Ready(e1)][..0] == [];
    assert ReadyEvokeds([s, s], [Ready(e1)]) == [(s, e1)];
    assert ReadyEvokeds([s, s], [Ready(e1), Ready(e2)]) == [(s, e1), (s, e2)];
    assert [(s, e1), (s, e2)][..1] == [(s, e1)] && [(s, e1)][..0] == [];
    assert Grouped([(s, e1)]) == [(s, [e1])];
    assert SubjectIndex([(s, [e1])], s) == 0;
    assert [e1] + [e2] == [e1, e2];
    assert Grouped([(s, e1), (s, e2)]) == [(s, [e1, e2])];
  }

  // ---------- the cohort object ----------

  /** `pd.concat(tables)`: columns joined, rows one table after the other;
      with no table, an empty frame. */
  function ConcatTables(ts: seq<EventTable>): (t: EventTable)
    ensures forall c :: c in t.columns <==> exists i :: 0 <= i < |ts| && c in ts[i].columns
    ensures |t.rows| == RowCount(ts)
  {
    if |ts| == 0 then EventTable({}, [])
    else
      var init := ConcatTables(ts[..|ts| - 1]);
      assert forall i :: 0 <= i < |ts| - 1 ==> ts[..|ts| - 1][i] == ts[i];
      EventTable(init.columns + ts[|ts| - 1].columns, init.rows + ts[|ts| - 1].rows)
  }

  function RowCount(ts: seq<EventTable>): nat {
    if |ts| == 0 then 0 else RowCount(ts[..|ts| - 1]) + |ts[|ts| - 1].rows|
  }

  /** The tables that are there, in order. */
  function PresentTables(ts: seq<Option<EventTable>>): seq<EventTable> {
    if |ts| == 0 then []
    else PresentTables(ts[..|ts| - 1]) + (if ts[|ts| - 1].Some? then [ts[|ts| - 1].value] else [])
  }

  /** The `per_subject` dictionary of `get_evoked`, built one response at
      a time. */
  method GroupBySubject(items: seq<(string, Evoked)>) returns (groups: seq<(string, seq<Evoked>)>)
    ensures groups == Grouped(items)
  {
    groups := [];
    for i := 0 to |items|
      invariant groups == Grouped(items[..i])
    {
      GroupedSnoc(items[..i], items[i]);
      assert items[..i + 1] == items[..i] + [items[i]];
      groups := GroupAdd(groups, items[i].0, items[i].1);
    }
    assert items[..|items|] == items;
  }

  /** Everything an executor's stage methods read: its cache configuration,
      request, cleaner, MNE calls, memoised inputs and cache contents. */
  datatype Snapshot = Snapshot(conf: CacheConf, task: TaskRequest, cleaner: Cleaner, mne: Mne, inputs: Inputs, disk: Disk)

  ghost function Snap(e: TaskExecutor): Snapshot
    reads e, e.cache
  {
    Snapshot(e.CacheConfig(), e.task, e.env.cleaner, e.env.mne, e.CurrentInputs(), e.CacheState())
  }

  /** What an executor in state `s` answers to `get_epochs`. */
  function EpochsAnswer(s: Snapshot, p: StageParams, fs: FsOutcomes): Stage<EpochsPair> {
    EpochsStage(s.conf, s.task, p, s.cleaner, s.mne, s.inputs, fs, s.disk).out
  }

  /** What an executor in state `s` answers to `get_evoked`. */
  function EvokedAnswer(s: Snapshot, p: StageParams, fs: FsOutcomes): Stage<Evoked> {
    EvokedStage(s.conf, s.task, p, s.cleaner, s.mne, s.inputs, fs, s.disk).out
  }

  /** What an executor in state `s` answers to `get_filtered_raw`. */
  function FilteredAnswer(s: Snapshot, p: StageParams, renameOk: bool): Raw {
    FilteredStage(s.conf, s.task, p, s.cleaner, s.inputs.raw, renameOk, s.disk).raw
  }

  function EpochsAnswers(ss: seq<Snapshot>, p: StageParams, fs: FsOutcomes): seq<Stage<EpochsPair>> {
    seq(|ss|, i requires 0 <= i < |ss| => EpochsAnswer(ss[i], p, fs))
  }

  function EvokedAnswers(ss: seq<Snapshot>, p: StageParams, fs: FsOutcomes): seq<Stage<Evoked>> {
    seq(|ss|, i requires 0 <= i < |ss| => EvokedAnswer(ss[i], p, fs))
  }

  function FilteredAnswers(ss: seq<Snapshot>, p: StageParams, renameOk: bool): seq<Raw> {
    seq(|ss|, i requires 0 <= i < |ss| => FilteredAnswer(ss[i], p, renameOk))
  }

  /** The executors are distinct objects with their own caches, and each
      is in a consistent state. */
  ghost predicate ExecutorsValid(executors: seq<TaskExecutor>)
    reads executors
  {
    (forall i, j :: 0 <= i < j < |executors| ==>
       executors[i] != executors[j] && (executors[i].cache == null || executors[i].cache != executors[j].cache))
    && forall i :: 0 <= i < |executors| ==> executors[i].Valid()
  }

  class CohortExecutor {
    const executors: seq<TaskExecutor>
    /** `concatenate_raws`. */
    const concatRaws: seq<Raw> -> Raw

    var filteredRaw: Option<Raw>
    var epochs: Option<CohortEpochs>
    var labels: Option<seq<string>>
    var evoked: Option<Evoked>
    var events: Option<EventTable>

    ghost function Caches(): set<object>
      reads executors
    {
      set e | e in executors && e.cache != null :: e.cache as object
    }

    ghost predicate Valid()
      reads this, executors
    {
      ExecutorsValid(executors)
    }

    constructor(executors: seq<TaskExecutor>, concatRaws: seq<Raw> -> Raw)
      ensures this.executors == executors && this.concatRaws == concatRaws
      ensures filteredRaw.None? && epochs.None? && labels.None? && evoked.None? && events.None?
    {
      this.executors := executors;
      this.concatRaws := concatRaws;
      filteredRaw, epochs, labels, evoked, events := None, None, None, None, None;
    }

    /** The state of every executor. */
    ghost function Snaps(): seq<Snapshot>
      reads executors, Caches()
    {
      seq(|executors|, i requires 0 <= i < |executors| reads executors, Caches() => Snap(executors[i]))
    }

    /** What each executor's `get_event` would return now. */
    ghost function EventInputs(): seq<Option<EventTable>>
      reads executors
    {
      seq(|executors|, i requires 0 <= i < |executors| reads executors => executors[i].CurrentInputs().table)
    }

    function Subjects(): seq<string> {
      seq(|executors|, i requires 0 <= i < |executors| => executors[i].task.subject)
    }

    /** One element of the `events` comprehension: `get_event()` in the
        filter and again for the element; the second call is a memo hit. */
    method EventAt(i: nat) returns (t: Option<EventTable>)
      requires Valid() && i < |executors|
      modifies executors[i]
      ensures Valid()
      ensures t == old(executors[i].CurrentInputs().table)
      ensures forall j :: 0 <= j < |executors| && j != i ==> executors[j].CurrentInputs() == old(executors[j].CurrentInputs())
    {
      var e := executors[i];
      t := e.GetEvent();
      if t.Some? {
        t := e.GetEvent();
      }
    }

    /** The `events` property: the tables of the executors that have one,
        concatenated once and then memoised. */
    method Events() returns (r: EventTable)
      requires Valid()
      modifies this, executors
      ensures Valid()
      ensures old(events).Some? ==> r == old(events).value
      ensures old(events).None? ==> r == ConcatTables(PresentTables(old(EventInputs())))
      ensures events == Some(r)
    {
      if events.Some? {
        return events.value;
      }
      ghost var ins := EventInputs();
      var tables: seq<EventTable> := [];
      for i := 0 to |executors|
        invariant Valid()
        invariant tables == PresentTables(ins[..i])
        invariant forall j :: i <= j < |executors| ==> executors[j].CurrentInputs().table == ins[j]
      {
        var t := EventAt(i);
        if t.Some? {
          tables := tables + [t.value];
        }
        assert ins[..i + 1][..i] == ins[..i];
      }
      assert ins[..|executors|] == ins;
      r := ConcatTables(tables);
      events := Some(r);
    }

    /** The `electrodes` property: the first executor's, or None. */
    method Electrodes() returns (r: Option<Json>)
      requires Valid()
      modifies executors
      ensures |executors| == 0 ==> r.None?
      ensures |executors| > 0 ==> r == (if old(executors[0].electrodes).Some? then old(executors[0].electrodes) else executors[0].data.electrodes)
    {
      if |executors| == 0 {
        return None;
      }
      r := executors[0].Electrodes();
    }

    /** The `metadata` property: the first executor's, or None. */
    method Metadata() returns (r: Option<Json>)
      requires Valid()
      modifies executors
      ensures |executors| == 0 ==> r.None?
      ensures |executors| > 0 ==> r == (if old(executors[0].metadata).Some? then old(executors[0].metadata) else executors[0].data.metadata)
    {
      if |executors| == 0 {
        return None;
      }
      r := executors[0].Metadata();
    }

    /** The `channels` property: the first executor's, or None. */
    method Channels() returns (r: Option<Json>)
      requires Valid()
      modifies executors
      ensures |executors| == 0 ==> r.None?
      ensures |executors| > 0 ==> r == (if old(executors[0].channels).Some? then old(executors[0].channels) else executors[0].data.channels)
    {
      if |executors| == 0 {
        return None;
      }
      r := executors[0].Channels();
    }

    /** One executor's `get_filtered_raw`; its answer is then cached, so
        asking again gives the same recording. */
    method FilteredOnce(i: nat, p: StageParams, renameOk: bool) returns (r: Raw)
      requires Valid() && i < |executors|
      modifies executors[i], executors[i].cache
      ensures Valid()
      ensures r == FilteredAnswer(old(Snap(executors[i])), p, renameOk) && r == FilteredAnswer(Snap(executors[i]), p, renameOk)
      ensures executors[i].filteredCalls == old(executors[i].filteredCalls) + 1
      ensures old(executors[i].cache) != null ==> executors[i].cache == old(executors[i].cache)
      ensures old(executors[i].cache) == null ==> fresh(executors[i].cache)
      ensures forall j :: 0 <= j < |executors| && j != i ==>
        executors[j].cache == old(executors[j].cache) && executors[j].filteredCalls == old(executors[j].filteredCalls)
        && Snap(executors[j]) == old(Snap(executors[j]))
    {
      ghost var s0 := Snap(executors[i]);
      r := executors[i].GetFilteredRaw(p, renameOk);
      FilteredTwiceHits(s0.conf, s0.task, p, s0.cleaner, s0.inputs.raw, Snap(executors[i]).inputs.raw, renameOk, renameOk, s0.disk);
    }

    /** One element of the `get_filtered_raw` comprehension: asked in the
        filter and again for the element; the second call is a cleaned-cache
        hit and returns what the first returned. */
    method FilteredAt(i: nat, p: StageParams, renameOk: bool) returns (r: Raw)
      requires Valid() && i < |executors|
      modifies executors[i], executors[i].cache
      ensures Valid()
      ensures r == FilteredAnswer(old(Snap(executors[i])), p, renameOk)
      ensures forall j :: 0 <= j < |executors| ==>
        executors[j].filteredCalls == old(executors[j].filteredCalls) + (if j == i then 2 else 0)
        && (j != i ==> executors[j].cache == old(executors[j].cache) && Snap(executors[j]) == old(Snap(executors[j])))
    {
      var first := FilteredOnce(i, p, renameOk);
      r := FilteredOnce(i, p, renameOk);
    }

    /** The comprehension of `get_filtered_raw`: every executor's filtered
        recording, each executor asked twice. */
    method ConsultFiltered(p: StageParams, renameOk: bool) returns (raws: seq<Raw>)
      requires Valid()
      modifies executors, Caches()
      ensures Valid()
      ensures raws == FilteredAnswers(old(Snaps()), p, renameOk)
      ensures forall i :: 0 <= i < |executors| ==> executors[i].filteredCalls == old(executors[i].filteredCalls) + 2
    {
      ghost var snaps := Snaps();
      ghost var outs := FilteredAnswers(snaps, p, renameOk);
      raws := [];
      for i := 0 to |executors|
        invariant Valid()
        invariant |raws| == i && forall j :: 0 <= j < i ==> raws[j] == outs[j]
        invariant forall j :: 0 <= j < |executors| ==>
          executors[j].filteredCalls == old(executors[j].filteredCalls) + (if j < i then 2 else 0)
          && (i <= j ==> executors[j].cache == old(executors[j].cache) && Snap(executors[j]) == snaps[j])
      {
        var raw := FilteredAt(i, p, renameOk);
        raws := raws + [raw];
      }
    }

    /** `get_filtered_raw`: the memo whatever the params; otherwise the
        executors' filtered recordings concatenated, None when there is no
        executor. */
    method GetFilteredRaw(p: StageParams, renameOk: bool) returns (r: Option<Raw>)
      requires Valid()
      modifies this, executors, Caches()
      ensures Valid()
      ensures old(filteredRaw).Some? ==> r == old(filteredRaw)
      ensures old(filteredRaw).None? ==>
        r == (if |executors| == 0 then None else Some(concatRaws(FilteredAnswers(old(Snaps()), p, renameOk))))
      ensures old(filteredRaw).None? ==>
        forall i :: 0 <= i < |executors| ==> executors[i].filteredCalls == old(executors[i].filteredCalls) + 2
    {
      if filteredRaw.Some? {
        return filteredRaw;
      }
      var raws := ConsultFiltered(p, renameOk);
      if |raws| == 0 {
        return None;
      }
      filteredRaw := Some(concatRaws(raws));
      r := filteredRaw;
    }

    /** One executor's `get_epochs`. */
    method EpochsAt(i: nat, p: StageParams, fs: FsOutcomes) returns (res: Stage<EpochsPair>)
      requires Valid() && i < |executors|
      modifies executors[i], executors[i].cache
      ensures Valid()
      ensures res == EpochsAnswer(old(Snap(executors[i])), p, fs)
      ensures forall j :: 0 <= j < |executors| && j != i ==>
        executors[j].cache == old(executors[j].cache) && Snap(executors[j]) == old(Snap(executors[j]))
    {
      res := executors[i].GetEpochs(p, fs);
    }

    /** The loop of `get_epochs`: every executor in turn until one raises or
        `if lbls: labels.update(lbls)` raises on its labels; the first
        exception, or the pairs of the executors that answered. */
    method ConsultEpochs(p: StageParams, fs: FsOutcomes) returns (raised: Option<string>, pairs: seq<EpochsPair>)
      requires Valid()
      modifies executors, Caches()
      ensures Valid()
      ensures raised == FirstRaised(CheckedAll(EpochsAnswers(old(Snaps()), p, fs)))
      ensures raised.None? ==> pairs == ReadyPairs(CheckedAll(EpochsAnswers(old(Snaps()), p, fs)))
    {
      ghost var outs := CheckedAll(EpochsAnswers(Snaps(), p, fs));
      ghost var snaps := Snaps();
      pairs := [];
      for i := 0 to |executors|
        invariant Valid()
        invariant FirstRaised(outs[..i]).None? && pairs == ReadyPairs(outs[..i])
        invariant forall j :: i <= j < |executors| ==>
          executors[j].cache == old(executors[j].cache) && Snap(executors[j]) == snaps[j]
      {
        var res := EpochsAt(i, p, fs);
        if res.Ready? && LabelUpdate(res.value.labels).Err? {
          res := Raised(LabelUpdate(res.value.labels).error);
        }
        assert res == outs[i];
        if res.Raised? {
          FirstRaisedAt(outs, i);
          return Some(res.error), pairs;
        }
        FirstRaisedStep(outs, i);
        ReadyPairsStep(outs, i);
        if res.Ready? {
          pairs := pairs + [res.value];
        }
      }
      assert outs[..|executors|] == outs;
      raised := None;
    }

    /** `get_epochs`: the memo whatever the params; otherwise every executor
        in turn, each answer passed through `if lbls: labels.update(lbls)`,
        combined by `CohortEpochsOutcome`, memoised when there are epochs. */
    method GetEpochs(p: StageParams, fs: FsOutcomes) returns (out: Stage<CohortPair>)
      requires Valid()
      modifies this, executors, Caches()
      ensures Valid()
      ensures old(epochs).Some? && old(labels).Some? ==>
        out == Ready(CohortPair(old(epochs).value, old(labels).value)) && epochs == old(epochs)
      ensures old(epochs).None? || old(labels).None? ==> out == CohortEpochsOutcome(CheckedAll(EpochsAnswers(old(Snaps()), p, fs)))
      ensures out.Ready? ==> epochs == Some(out.value.epochs) && labels == Some(out.value.labels)
    {
      if epochs.Some? && labels.Some? {
        return Ready(CohortPair(epochs.value, labels.value));
      }
      var raised, pairs := ConsultEpochs(p, fs);
      if raised.Some? {
        return Raised(raised.value);
      }
      if |pairs| == 0 {
        return Unavailable;
      }
      var c := Concatenated(EpochsOf(pairs));
      var ls := SortedSet(LabelPool(pairs));
      epochs, labels := Some(c), Some(ls);
      out := Ready(CohortPair(c, ls));
    }

    /** One executor's `get_evoked`. */
    method EvokedAt(i: nat, p: StageParams, fs: FsOutcomes) returns (res: Stage<Evoked>)
      requires Valid() && i < |executors|
      modifies executors[i], executors[i].cache
      ensures Valid()
      ensures res == EvokedAnswer(old(Snap(executors[i])), p, fs)
      ensures forall j :: 0 <= j < |executors| && j != i ==>
        executors[j].cache == old(executors[j].cache) && Snap(executors[j]) == old(Snap(executors[j]))
    {
      res := executors[i].GetEvoked(p, fs);
    }

    /** The loop of `get_evoked`: every executor in turn until one raises;
        the first exception, or the subjects and responses of the executors
        that answered. */
    method ConsultEvoked(p: StageParams, fs: FsOutcomes) returns (raised: Option<string>, items: seq<(string, Evoked)>)
      requires Valid()
      modifies executors, Caches()
      ensures Valid()
      ensures raised == FirstRaised(EvokedAnswers(old(Snaps()), p, fs))
      ensures raised.None? ==> items == ReadyEvokeds(Subjects(), EvokedAnswers(old(Snaps()), p, fs))
    {
      ghost var outs := EvokedAnswers(Snaps(), p, fs);
      ghost var snaps := Snaps();
      var subjects := Subjects();
      items := [];
      for i := 0 to |executors|
        invariant Valid()
        invariant FirstRaised(outs[..i]).None?
        invariant items == ReadyEvokeds(subjects, outs[..i])
        invariant forall j :: i <= j < |executors| ==>
          executors[j].cache == old(executors[j].cache) && Snap(executors[j]) == snaps[j]
      {
        var res := EvokedAt(i, p, fs);
        assert res == outs[i];
        if res.Raised? {
          FirstRaisedAt(outs, i);
          return Some(res.error), items;
        }
        FirstRaisedStep(outs, i);
        ReadyEvokedsStep(subjects, outs, i);
        if res.Ready? {
          items := items + [(subjects[i], res.value)];
        }
      }
      assert outs[..|executors|] == outs;
      raised := None;
    }

    /** `get_evoked`: the memo whatever the params; otherwise every executor
        in turn, grouped per subject and combined by `CohortEvokedOutcome`,
        memoised when there is a response. */
    method GetEvoked(p: StageParams, fs: FsOutcomes) returns (out: Stage<Evoked>)
      requires Valid()
      modifies this, executors, Caches()
      ensures Valid()
      ensures old(evoked).Some? ==> out == Ready(old(evoked).value) && evoked == old(evoked)
      ensures old(evoked).None? ==> out == CohortEvokedOutcome(Subjects(), EvokedAnswers(old(Snaps()), p, fs))
      ensures out.Ready? ==> evoked == Some(out.value)
    {
      if evoked.Some? {
        return Ready(evoked.value);
      }
      var raised, items := ConsultEvoked(p, fs);
      if raised.Some? {
        return Raised(raised.value);
      }
      var groups := GroupBySubject(items);
      GroupsNonEmpty(items);
      var evs := PerSubject(groups);
      if |evs| == 0 {
        return Unavailable;
      }
      evoked := Some(Combine(evs));
      out := Ready(evoked.value);
    }
  }
}

=== FILE: constants.dfy ===
/** The event-code tables (backend/app/pipeline/constants.py): the 24
    surround-suppression conditions numbered in the order of the Cartesian
    product background × foreground × stimulus, and the resting-state and
    contrast-change-detection codes. */
module EventCodes {
  import opened Wrappers
  import opened Text
  import opened Numbers

  const BACKGROUND: seq<int> := [0, 1]
  const FOREGROUND: seq<real> := [0.0, 0.3, 0.6, 1.0]
  const STIM: seq<int> := [1, 2, 3]

  const RESTING_STATE_EVENT_ID: map<string, int> := map["open" := 1, "close" := 2]
  const CCD_EVENT_ID: map<string, int> := map["trial_start" := 1]

  /** `f"{x:.1f}"` for a non-negative real: rounded to tenths, ties to even. */
  function OneDecimal(x: real): (s: string)
    requires x >= 0.0
    ensures |s| >= 3 && s[|s| - 2] == '.'
  {
    var t: nat := RoundHalfEven(x * 10.0);
    NatToString(t / 10) + "." + [DigitChar(t % 10)]
  }

  /** `f"bg{b}_fg{f:.1f}_stim{s}"` for the indices of b, f and s. */
  function Label(bi: nat, fi: nat, si: nat): string
    requires bi < |BACKGROUND| && fi < |FOREGROUND| && si < |STIM|
  {
    "bg" + IntToString(BACKGROUND[bi]) + "_fg" + OneDecimal(FOREGROUND[fi]) + "_stim" + IntToString(STIM[si])
  }

  /** The entries of `EVENT_ID`, in the order the comprehension inserts them:
      entry i is the i-th tuple of `itertools.product` and has code i + 1. */
  function EventIdEntries(): (es: seq<(string, int)>)
    ensures |es| == 24
    ensures forall i :: 0 <= i < 24 ==> es[i] == (Label(i / 12, (i / 3) % 4, i % 3), i + 1)
  {
    seq(24, i requires 0 <= i < 24 => (Label(i / 12, (i / 3) % 4, i % 3), i + 1))
  }

  /** The position of the first entry with key `k`, or `|es|` when there is none. */
  function KeyIndex(es: seq<(string, int)>, k: string): (i: nat)
    ensures i <= |es| && (i < |es| ==> es[i].0 == k)
    ensures forall j :: 0 <= j < i ==> es[j].0 != k
  {
    if |es| == 0 then 0
    else if es[0].0 == k then 0
    else 1 + KeyIndex(es[1..], k)
  }

  /** Looking a key up in an association list: the value of its first entry. */
  function FindCode(es: seq<(string, int)>, k: string): (r: Option<int>)
    ensures r.None? <==> forall j :: 0 <= j < |es| ==> es[j].0 != k
  {
    var i := KeyIndex(es, k);
    if i < |es| then Some(es[i].1) else None
  }

  /** `EVENT_ID[label]`, None when the label is not a key. */
  function EventCode(tag: string): Option<int> {
    FindCode(EventIdEntries(), tag)
  }

  // ---------- the shape of the labels ----------

  const BG_TEXT: seq<char> := ['0', '1']
  const FG_TEXT: seq<string> := ["0.0", "0.3", "0.6", "1.0"]
  const STIM_TEXT: seq<char> := ['1', '2', '3']

  /** Every label reads `bg<0|1>_fg<0.0|0.3|0.6|1.0>_stim<1|2|3>`. */
  lemma LabelShape(bi: nat, fi: nat, si: nat)
    requires bi < 2 && fi < 4 && si < 3
    ensures Label(bi, fi, si) == "bg" + [BG_TEXT[bi]] + "_fg" + FG_TEXT[fi] + "_stim" + [STIM_TEXT[si]]
  {
    SmallIntText(BACKGROUND[bi]);
    SmallIntText(STIM[si]);
    ForegroundText(fi);
  }

  lemma SmallIntText(n: int)
    requires 0 <= n < 10
    ensures IntToString(n) == [DigitChar(n)]
  {
  }

  lemma ForegroundText(fi: nat)
    requires fi < 4
    ensures OneDecimal(FOREGROUND[fi]) == FG_TEXT[fi]
  {
    if fi == 0 {
      assert RoundHalfEven(0.0) == 0;
    } else if fi == 1 {
      assert RoundHalfEven(3.0) == 3;
    } else if fi == 2 {
      assert RoundHalfEven(6.0) == 6;
    } else {
      assert RoundHalfEven(10.0) == 10;
      assert NatToString(1) == "1";
    }
  }

  /** Where the parts of a label sit. */
  lemma LabelLayout(c: char, t: string, d: char)
    requires |t| == 3
    ensures var l := "bg" + [c] + "_fg" + t + "_stim" + [d];
      |l| == 15 && l[2] == c && l[6] == t[0] && l[8] == t[2] && l[14] == d
  {
  }

  /** Different conditions get different labels. */
  lemma LabelInjective(b1: nat, f1: nat, s1: nat, b2: nat, f2: nat, s2: nat)
    requires b1 < 2 && f1 < 4 && s1 < 3 && b2 < 2 && f2 < 4 && s2 < 3
    requires Label(b1, f1, s1) == Label(b2, f2, s2)
    ensures b1 == b2 && f1 == f2 && s1 == s2
  {
    LabelShape(b1, f1, s1);
    LabelShape(b2, f2, s2);
    LabelLayout(BG_TEXT[b1], FG_TEXT[f1], STIM_TEXT[s1]);
    LabelLayout(BG_TEXT[b2], FG_TEXT[f2], STIM_TEXT[s2]);
    TablesInjective(b1, f1, s1, b2, f2, s2);
  }

  lemma TablesInjective(b1: nat, f1: nat, s1: nat, b2: nat, f2: nat, s2: nat)
    requires b1 < 2 && f1 < 4 && s1 < 3 && b2 < 2 && f2 < 4 && s2 < 3
    requires BG_TEXT[b1] == BG_TEXT[b2] && STIM_TEXT[s1] == STIM_TEXT[s2]
    requires FG_TEXT[f1][0] == FG_TEXT[f2][0] && FG_TEXT[f1][2] == FG_TEXT[f2][2]
    ensures b1 == b2 && f1 == f2 && s1 == s2
  {
  }

  /** The labels of `EVENT_ID` are pairwise distinct, so it has 24 keys. */
  lemma EntriesDistinct(i: int, j: int)
    requires 0 <= i < 24 && 0 <= j < 24 && EventIdEntries()[i].0 == EventIdEntries()[j].0
    ensures i == j
  {
    Decompose(i);
    Decompose(j);
    var es := EventIdEntries();
    assert es[i].0 == Label(i / 12, (i / 3) % 4, i % 3);
    assert es[j].0 == Label(j / 12, (j / 3) % 4, j % 3);
    LabelInjective(i / 12, (i / 3) % 4, i % 3, j / 12, (j / 3) % 4, j % 3);
  }

  /** An entry index is the mixed-radix number of its three condition indices. */
  lemma Decompose(i: int)
    requires 0 <= i < 24
    ensures i / 12 < 2 && (i / 3) % 4 < 4 && i % 3 < 3
    ensures i == 12 * (i / 12) + 3 * ((i / 3) % 4) + i % 3
  {
  }

  lemma Compose(bi: nat, fi: nat, si: nat)
    requires bi < 2 && fi < 4 && si < 3
    ensures var i := 12 * bi + 3 * fi + si; i < 24 && i / 12 == bi && (i / 3) % 4 == fi && i % 3 == si
  {
  }

  /** The code of condition (b, f, s) is 12·b + 3·f + s + 1: the codes are
      exactly 1..24 in product order. */
  lemma EventCodeOf(bi: nat, fi: nat, si: nat)
    requires bi < 2 && fi < 4 && si < 3
    ensures EventCode(Label(bi, fi, si)) == Some(12 * bi + 3 * fi + si + 1)
  {
    var es := EventIdEntries();
    var i := 12 * bi + 3 * fi + si;
    Compose(bi, fi, si);
    assert es[i].0 == Label(bi, fi, si);
    var j := KeyIndex(es, Label(bi, fi, si));
    EntriesDistinct(i, j);
  }

  /** Every code is in 1..24, and every code in 1..24 belongs to exactly one label. */
  lemma CodesAreOneTo24(tag: string)
    ensures EventCode(tag).Some? ==> 1 <= EventCode(tag).value <= 24
    ensures EventCode(tag).Some? <==> exists bi: nat, fi: nat, si: nat :: bi < 2 && fi < 4 && si < 3 && tag == Label(bi, fi, si)
  {
    var es := EventIdEntries();
    if EventCode(tag).Some? {
      var j := KeyIndex(es, tag);
      assert EventCode(tag).value == j + 1;
      assert tag == Label(j / 12, (j / 3) % 4, j % 3);
    }
    if exists bi: nat, fi: nat, si: nat :: bi < 2 && fi < 4 && si < 3 && tag == Label(bi, fi, si) {
      var bi: nat, fi: nat, si: nat :| bi < 2 && fi < 4 && si < 3 && tag == Label(bi, fi, si);
      EventCodeOf(bi, fi, si);
    }
  }
}

=== FILE: eeg.dfy ===
/** The MNE objects the pipeline passes around, reduced to what the modelled
    code reads or writes. Raw recordings keep their channel data as reals;
    epochs and evoked responses are symbolic records of how they were built,
    since their construction (MNE `Epochs`, `average`, `grand_average`,
    `interpolate_bads`) is foreign numerics. */
module Eeg {
  import opened Wrappers

  /** An MNE annotation: onset and duration in seconds, and a description. */
  datatype Annotation = Annotation(onset: real, duration: real, description: string)

  /** The order MNE keeps annotations in: by onset, then by duration. */
  predicate AnnLe(a: Annotation, b: Annotation) {
    a.onset < b.onset || (a.onset == b.onset && a.duration <= b.duration)
  }

  predicate AnnSorted(s: seq<Annotation>) {
    forall i, j :: 0 <= i < j < |s| ==> AnnLe(s[i], s[j])
  }

  /** Places `a` after every annotation that sorts no later than it, as a
      stable sort places an element that came last. */
  function InsertAnn(s: seq<Annotation>, a: Annotation): (r: seq<Annotation>)
    ensures |r| == |s| + 1
    ensures multiset(r) == multiset(s) + multiset{a}
  {
    if |s| == 0 then [a]
    else if AnnLe(s[|s| - 1], a) then s + [a]
    else
      var init := s[..|s| - 1];
      assert s == init + [s[|s| - 1]];
      InsertAnn(init, a) + [s[|s| - 1]]
  }

  /** Inserting into a sorted list keeps it sorted. */
  lemma {:induction false} InsertAnnSorted(s: seq<Annotation>, a: Annotation)
    requires AnnSorted(s)
    ensures AnnSorted(InsertAnn(s, a))
  {
    if |s| > 0 {
      var last := s[|s| - 1];
      var init := s[..|s| - 1];
      if AnnLe(last, a) {
        var r := s + [a];
        forall i, j | 0 <= i < j < |r|
          ensures AnnLe(r[i], r[j])
        {
          if j == |s| && i < |s| - 1 {
            assert AnnLe(s[i], last);
          }
        }
      } else {
        assert AnnSorted(init);
        InsertAnnSorted(init, a);
        var m := InsertAnn(init, a);
        var r := m + [last];
        assert r == InsertAnn(s, a);
        forall i | 0 <= i < |m|
          ensures AnnLe(m[i], last)
        {
          assert m[i] in multiset(m);
          if m[i] != a {
            assert m[i] in multiset(init);
            var k :| 0 <= k < |init| && init[k] == m[i];
            assert AnnLe(s[k], s[|s| - 1]);
          }
        }
        forall i, j | 0 <= i < j < |r|
          ensures AnnLe(r[i], r[j])
        {
          if j < |m| {
            assert AnnLe(m[i], m[j]);
          }
        }
      }
    }
  }

  /** A stable insertion sort by (onset, duration), MNE's `Annotations._sort`. */
  function SortAnns(s: seq<Annotation>): (r: seq<Annotation>)
    ensures |r| == |s|
    ensures multiset(r) == multiset(s)
    ensures AnnSorted(r)
  {
    if |s| == 0 then []
    else
      var init := s[..|s| - 1];
      assert s == init + [s[|s| - 1]];
      InsertAnnSorted(SortAnns(init), s[|s| - 1]);
      InsertAnn(SortAnns(init), s[|s| - 1])
  }

  /** `Annotations + Annotations`: the two lists joined, then sorted stably. */
  function AddAnnotations(before: seq<Annotation>, added: seq<Annotation>): (r: seq<Annotation>)
    ensures |r| == |before| + |added|
    ensures multiset(r) == multiset(before) + multiset(added)
    ensures AnnSorted(r)
  {
    SortAnns(before + added)
  }

  /** Sorting leaves an already sorted list as it is (the sort is stable). */
  lemma {:induction false} SortSortedUnchanged(s: seq<Annotation>)
    requires AnnSorted(s)
    ensures SortAnns(s) == s
  {
    if |s| > 0 {
      var init := s[..|s| - 1];
      assert AnnSorted(init);
      SortSortedUnchanged(init);
      assert s == init + [s[|s| - 1]];
    }
  }

  /** Adding annotations that all sort no earlier than the last existing one
      (the existing ones sorted, as MNE keeps them) appends them in their order. */
  lemma AddLaterAppends(before: seq<Annotation>, added: seq<Annotation>)
    requires AnnSorted(before + added)
    ensures AddAnnotations(before, added) == before + added
  {
    SortSortedUnchanged(before + added);
  }

  /** `mne.io.Raw`: channel names and types, the channels × samples data,
      the `info` fields the code reads, and the annotations. */
  datatype Raw = Raw(
    chNames: seq<string>,
    isEeg: seq<bool>,
    data: seq<seq<real>>,
    sfreq: real,
    highpass: real,
    lowpass: Option<real>,
    bads: seq<string>,
    annotations: seq<Annotation>)
  {
    /** One flag per channel and one row of data per channel. */
    predicate Shaped() {
      |isEeg| == |chNames| && |data| == |chNames|
    }
  }

  /** One row of an MNE events array: sample, previous value, event code. */
  datatype Event = Event(sample: int, prev: int, code: int)

  /** What was done to an epochs object after it was built. */
  datatype EpochsStep =
    | InterpolateBads
    | ApplyBaseline(start: Option<real>, stop: real)
    | SelectCondition(condition: string)

  /** `mne.Epochs(raw, events, event_id, tmin, tmax)` and what followed. */
  datatype Epochs = Epochs(
    source: Raw,
    events: seq<Event>,
    eventId: map<string, int>,
    tmin: real,
    tmax: real,
    bads: seq<string>,
    steps: seq<EpochsStep>)

  /** `mne.Epochs(...)`: the new object starts with the recording's bad channels. */
  function MakeEpochs(raw: Raw, events: seq<Event>, eventId: map<string, int>, tmin: real, tmax: real): (e: Epochs)
    ensures e.bads == raw.bads && e.steps == [] && e.events == events
  {
    Epochs(raw, events, eventId, tmin, tmax, raw.bads, [])
  }

  /** `epochs.interpolate_bads(reset_bads=True)`: the bad list is emptied. */
  function InterpolateEpochs(e: Epochs): (r: Epochs)
    ensures r.bads == [] && r.steps == e.steps + [InterpolateBads]
  {
    e.(bads := [], steps := e.steps + [InterpolateBads])
  }

  /** The events whose code is `code`, in their order. */
  function EventsWithCode(events: seq<Event>, code: int): (r: seq<Event>)
    ensures |r| <= |events|
    ensures forall x :: x in r <==> x in events && x.code == code
  {
    if |events| == 0 then []
    else
      var rest := EventsWithCode(events[1..], code);
      assert forall x :: x in events <==> x == events[0] || x in events[1..];
      if events[0].code == code then [events[0]] + rest else rest
  }

  /** `epochs[condition]`: only the epochs of that condition remain, and the
      event map keeps just that condition. */
  function PickCondition(e: Epochs, condition: string): (r: Epochs)
    requires condition in e.eventId
    ensures r.eventId == map[condition := e.eventId[condition]]
    ensures forall x :: x in r.events <==> x in e.events && x.code == e.eventId[condition]
    ensures r.bads == e.bads && r.steps == e.steps + [SelectCondition(condition)]
  {
    e.(events := EventsWithCode(e.events, e.eventId[condition]),
       eventId := map[condition := e.eventId[condition]],
       steps := e.steps + [SelectCondition(condition)])
  }

  /** `epochs.apply_baseline((None, 0.0))`: baseline from the start to time 0. */
  function BaselineToZero(e: Epochs): (r: Epochs)
    ensures r.events == e.events && r.eventId == e.eventId && r.bads == e.bads
    ensures r.steps == e.steps + [ApplyBaseline(None, 0.0)]
  {
    e.(steps := e.steps + [ApplyBaseline(None, 0.0)])
  }

  /** An evoked response: the average of some epochs, or a grand average. */
  datatype Evoked =
    | Average(epochs: Epochs)
    | GrandAverage(parts: seq<Evoked>)
}

=== FILE: epoch_params.dfy ===
/** The epoching facet (backend/app/schemas/params/epoch_filter_schema.py):
    the epoch window, the stimulus choice with its "None" normalisation, and
    the two keys that extend the cleaning key: the epochs key (window) and
    the evoked key (window and stimulus). */
module EpochFacet {
  import opened Wrappers
  import opened PyDict
  import opened FilterFacet

  /** `EpochParams`. `stimulus` is None or one of the literal options. */
  datatype EpochParams = EpochParams(tmin: real, tmax: real, stimulus: Option<string>)

  /** The literal options the stimulus field declares. */
  const STIMULUS_OPTIONS: seq<string> := ["None", "open", "close"]

  /** The declared defaults. The default stimulus is the string "None": a
      default is not passed through the field validator, so it is never
      normalised to None. */
  const EPOCH_DEFAULTS: EpochParams := EpochParams(-2.0, 0.0, Some("None"))

  /** `normalize_none`: the string "None" becomes null; anything else passes. */
  function NormalizeNone(v: Json): (r: Json)
    ensures r != JStr("None")
    ensures v != JStr("None") ==> r == v
    ensures v == JStr("None") ==> r == JNull
  {
    if v == JStr("None") then JNull else v
  }

  /** `Optional[Literal["None", "open", "close"]]` validation of a given value. */
  function StimulusOf(v: Json): (r: Result<Option<string>, string>)
    ensures r.Ok? <==> v == JNull || (v.JStr? && v.s in STIMULUS_OPTIONS)
    ensures r.Ok? ==> (v == JNull ==> r.value == None) && (v.JStr? ==> r.value == Some(v.s))
  {
    match v
    case JNull => Ok(None)
    case JStr(s) => if s in STIMULUS_OPTIONS then Ok(Some(s)) else Err("literal_error")
    case _ => Err("literal_error")
  }

  /** The stimulus a validated request holds: a given value is normalised,
      then validated; a missing one takes the default unvalidated. */
  function StimulusField(given: Option<Json>): Result<Option<string>, string> {
    match given
    case None => Ok(EPOCH_DEFAULTS.stimulus)
    case Some(v) => StimulusOf(NormalizeNone(v))
  }

  /** A stimulus that was given ends up None, "open" or "close", never the
      string "None"; it is accepted exactly when it is null or an option. */
  lemma GivenStimulus(v: Json)
    ensures StimulusField(Some(v)).Ok? <==> v == JNull || (v.JStr? && v.s in STIMULUS_OPTIONS)
    ensures StimulusField(Some(v)).Ok? ==>
      StimulusField(Some(v)).value in {None, Some("open"), Some("close")}
  {
  }

  /** `EpochParams(**d)`: each field from `d` or its default. Unknown fields
      are ignored (the class keeps pydantic's default `extra` policy). */
  function EpochFromFields(d: Dict): (r: Result<EpochParams, string>)
    ensures r.Ok? <==> (RealSlot(Get(d, "tmin"), -2.0).Some? && RealSlot(Get(d, "tmax"), 0.0).Some?
                        && StimulusField(Get(d, "stimulus")).Ok?)
  {
    var tmin := RealSlot(Get(d, "tmin"), EPOCH_DEFAULTS.tmin);
    var tmax := RealSlot(Get(d, "tmax"), EPOCH_DEFAULTS.tmax);
    if tmin.None? || tmax.None? then Err("type_error")
    else
      var stimulus :- StimulusField(Get(d, "stimulus"));
      Ok(EpochParams(tmin.value, tmax.value, stimulus))
  }

  /** With nothing given the request has the defaults, stimulus "None" included;
      the explicit "None" is normalised to None. */
  lemma EpochDefaults()
    ensures EpochFromFields([]) == Ok(EPOCH_DEFAULTS)
    ensures EpochFromFields([("stimulus", JStr("None"))]) == Ok(EPOCH_DEFAULTS.(stimulus := None))
  {
  }

  // ---------- keys ----------

  function StimulusJson(s: Option<string>): (j: Json)
    ensures s.None? <==> j == JNull
  {
    match s
    case None => JNull
    case Some(x) => JStr(x)
  }

  /** `epochs_key` on a bare `EpochParams`: the class declares no
      `cleaning_key`, so reading it raises AttributeError. */
  function EpochsKeyBare(e: EpochParams): (r: Result<Dict, string>)
    ensures r.Err?
  {
    Err("AttributeError: cleaning_key")
  }

  /** A request that carries both the filtering and the epoching fields, as
      a class inheriting both facets does; `epochs_key` is usable only there. */
  datatype EpochRequest = EpochRequest(filter: FilterParams, epoch: EpochParams)

  function WindowEntries(e: EpochParams): Dict {
    [("tmin", JFloat(e.tmin)), ("tmax", JFloat(e.tmax))]
  }

  /** `epochs_key`: the cleaning key with tmin and tmax set. */
  function EpochsKey(r: EpochRequest): Dict {
    Merge(CleaningKey(r.filter), WindowEntries(r.epoch))
  }

  /** `evoked_key`: the epochs key with the stimulus set. */
  function EvokedKey(r: EpochRequest): Dict {
    Merge(EpochsKey(r), [("stimulus", StimulusJson(r.epoch.stimulus))])
  }

  /** The epochs key holds the window and otherwise exactly the cleaning key. */
  lemma EpochsKeyFacts(r: EpochRequest)
    ensures DistinctKeys(EpochsKey(r))
    ensures Get(EpochsKey(r), "tmin") == Some(JFloat(r.epoch.tmin))
    ensures Get(EpochsKey(r), "tmax") == Some(JFloat(r.epoch.tmax))
    ensures forall k :: k != "tmin" && k != "tmax" ==> Get(EpochsKey(r), k) == Get(CleaningKey(r.filter), k)
    ensures "stimulus" !in Keys(EpochsKey(r))
  {
    CleaningKeyFacts(r.filter);
    MergeDistinct(CleaningKey(r.filter), WindowEntries(r.epoch));
    forall k ensures Get(EpochsKey(r), k) ==
      if k == "tmin" then Some(JFloat(r.epoch.tmin))
      else if k == "tmax" then Some(JFloat(r.epoch.tmax))
      else Get(CleaningKey(r.filter), k)
    {
      MergeGet(CleaningKey(r.filter), WindowEntries(r.epoch), k);
    }
    assert Get(EpochsKey(r), "stimulus") == None;
  }

  /** The evoked key holds the stimulus and otherwise exactly the epochs key. */
  lemma EvokedKeyFacts(r: EpochRequest)
    ensures DistinctKeys(EvokedKey(r))
    ensures Get(EvokedKey(r), "stimulus") == Some(StimulusJson(r.epoch.stimulus))
    ensures forall k :: k != "stimulus" ==> Get(EvokedKey(r), k) == Get(EpochsKey(r), k)
  {
    EpochsKeyFacts(r);
    var s := [("stimulus", StimulusJson(r.epoch.stimulus))];
    MergeDistinct(EpochsKey(r), s);
    forall k ensures Get(EvokedKey(r), k) == if k == "stimulus" then Some(StimulusJson(r.epoch.stimulus)) else Get(EpochsKey(r), k) {
      MergeGet(EpochsKey(r), s, k);
    }
  }

  /** filter key ⊆ cleaning key ⊆ epochs key ⊆ evoked key: every entry of a
      key is present, with the same value, in the next one. */
  lemma KeyChain(r: EpochRequest, k: string)
    ensures Get(FilterKey(r.filter), k).Some? ==> Get(CleaningKey(r.filter), k) == Get(FilterKey(r.filter), k)
    ensures Get(CleaningKey(r.filter), k).Some? ==> Get(EpochsKey(r), k) == Get(CleaningKey(r.filter), k)
    ensures Get(EpochsKey(r), k).Some? ==> Get(EvokedKey(r), k) == Get(EpochsKey(r), k)
  {
    CleaningKeyFacts(r.filter);
    EpochsKeyFacts(r);
    EvokedKeyFacts(r);
    CleaningKeyHasNoWindow(r.filter);
  }

  /** The cleaning key never names a window field. */
  lemma CleaningKeyHasNoWindow(p: FilterParams)
    ensures Get(CleaningKey(p), "tmin") == None && Get(CleaningKey(p), "tmax") == None
  {
    CleaningKeyFacts(p);
    assert "tmin" !in FILTER_KEY_NAMES && "tmax" !in FILTER_KEY_NAMES;
    assert "tmin" !in CLEAN_NAMES && "tmax" !in CLEAN_NAMES;
  }

  /** Requests that differ only in the stimulus share the epochs key (and so
      the cached epochs) but not the evoked key. */
  lemma StimulusOnlyInEvokedKey(r: EpochRequest, s: Option<string>)
    requires s != r.epoch.stimulus
    ensures EpochsKey(r.(epoch := r.epoch.(stimulus := s))) == EpochsKey(r)
    ensures EvokedKey(r.(epoch := r.epoch.(stimulus := s))) != EvokedKey(r)
  {
    var r' := r.(epoch := r.epoch.(stimulus := s));
    EvokedKeyFacts(r);
    EvokedKeyFacts(r');
    assert StimulusJson(s) != StimulusJson(r.epoch.stimulus);
  }

  /** Epochs keys are equal exactly when the cleaning-relevant fields and the
      window are equal. */
  lemma EpochsKeyIff(r: EpochRequest, q: EpochRequest)
    ensures EpochsKey(r) == EpochsKey(q) <==>
      SameCleaning(r.filter, q.filter) && r.epoch.tmin == q.epoch.tmin && r.epoch.tmax == q.epoch.tmax
  {
    if EpochsKey(r) == EpochsKey(q) {
      EpochsKeyFacts(r);
      EpochsKeyFacts(q);
      SameCleaningKeyFromEpochs(r, q);
    }
    CleaningKeyIff(r.filter, q.filter);
  }

  /** Equal epochs keys come from equal cleaning keys: the window entries are
      taken off again by looking every other key up. */
  lemma SameCleaningKeyFromEpochs(r: EpochRequest, q: EpochRequest)
    requires EpochsKey(r) == EpochsKey(q)
    ensures CleaningKey(r.filter) == CleaningKey(q.filter)
  {
    EpochsKeyFacts(r);
    EpochsKeyFacts(q);
    CleaningKeyHasNoWindow(r.filter);
    CleaningKeyHasNoWindow(q.filter);
    CleaningKeyFacts(r.filter);
    CleaningKeyFacts(q.filter);
    forall k ensures Get(CleaningKey(r.filter), k) == Get(CleaningKey(q.filter), k) {
    }
    SameCleaningKeys(r.filter, q.filter);
  }

  /** Two cleaning keys that agree on every lookup are the same list of entries,
      since both are built in the same fixed order. */
  lemma SameCleaningKeys(p: FilterParams, q: FilterParams)
    requires forall k :: Get(CleaningKey(p), k) == Get(CleaningKey(q), k)
    ensures CleaningKey(p) == CleaningKey(q)
  {
    CleaningKeyFacts(p);
    CleaningKeyFacts(q);
    FilterKeyDetermines(p, q);
    forall i | 0 <= i < |CLEAN_NAMES| ensures CleanValues(p)[i] == CleanValues(q)[i] {
      assert Get(CleaningKey(p), CLEAN_NAMES[i]) == Get(CleaningKey(q), CLEAN_NAMES[i]);
    }
    assert Get(CleaningKey(p), REMOVE_ONLY_NAME) == Get(CleaningKey(q), REMOVE_ONLY_NAME);
    CleaningKeyIff(p, q);
  }

  /** A request left at the default stimulus and one that sends "None" both
      mean no stimulus, yet only the first keeps the string "None", so their
      evoked keys differ while their epochs keys agree. */
  lemma DefaultStimulusKeyed(f: FilterParams)
    ensures var dflt := EpochRequest(f, EpochFromFields([]).value);
      var sent := EpochRequest(f, EpochFromFields([("stimulus", JStr("None"))]).value);
      EpochsKey(dflt) == EpochsKey(sent) && EvokedKey(dflt) != EvokedKey(sent)
  {
    EpochDefaults();
    StimulusOnlyInEvokedKey(EpochRequest(f, EPOCH_DEFAULTS), None);
  }
}

=== FILE: evoked_params.dfy ===
/** The evoked facets (backend/app/schemas/params/evoked_filter_schema.py):
    the plotting options of an evoked request and the topomap time list,
    read from free text with the pattern `[-+]?\d*\.?\d+`. */
module EvokedFacet {
  import opened Wrappers
  import opened Text
  import opened PyDict
  import opened EpochFacet

  // ---------- plotting options ----------

  /** `Literal[False, True, "only"]`. */
  datatype Gfp = GfpFalse | GfpTrue | GfpOnly

  /** `Literal["per-plot", "uniform-grid"]`. */
  datatype ScaleMode = PerPlot | UniformGrid

  /** `EvokedParams`: the epoch fields and the plotting options. */
  datatype EvokedParams = EvokedParams(
    epoch: EpochParams,
    spatialColors: bool,
    gfp: Option<Gfp>,
    averageLine: bool,
    scaleMode: Option<ScaleMode>)

  const EVOKED_DEFAULTS: EvokedParams :=
    EvokedParams(EPOCH_DEFAULTS, true, Some(GfpFalse), true, Some(PerPlot))

  /** The `gfp` field: absent gives False; null, False, True and "only" are accepted. */
  function GfpOf(v: Option<Json>): Result<Option<Gfp>, string> {
    match v
    case None => Ok(Some(GfpFalse))
    case Some(JNull) => Ok(None)
    case Some(JBool(b)) => Ok(Some(if b then GfpTrue else GfpFalse))
    case Some(JStr(s)) => if s == "only" then Ok(Some(GfpOnly)) else Err("literal_error")
    case Some(_) => Err("literal_error")
  }

  /** The `scale_mode` field: absent gives "per-plot"; null and the two modes are accepted. */
  function ScaleModeOf(v: Option<Json>): Result<Option<ScaleMode>, string> {
    match v
    case None => Ok(Some(PerPlot))
    case Some(JNull) => Ok(None)
    case Some(JStr(s)) =>
      if s == "per-plot" then Ok(Some(PerPlot))
      else if s == "uniform-grid" then Ok(Some(UniformGrid))
      else Err("literal_error")
    case Some(_) => Err("literal_error")
  }

  /** The accepted `gfp` values are exactly null, the two booleans and "only". */
  lemma GfpDomain(v: Json)
    ensures GfpOf(Some(v)).Ok? <==> v == JNull || v.JBool? || v == JStr("only")
    ensures GfpOf(None) == Ok(Some(GfpFalse))
  {
  }

  /** The accepted `scale_mode` values are exactly null and the two modes. */
  lemma ScaleModeDomain(v: Json)
    ensures ScaleModeOf(Some(v)).Ok? <==> v == JNull || v == JStr("per-plot") || v == JStr("uniform-grid")
    ensures ScaleModeOf(None) == Ok(Some(PerPlot))
  {
  }

  // ---------- numbers in text ----------

  /** The length of the run of ASCII digits at the front of `s`. */
  function DigitRun(s: string): (n: nat)
    ensures n <= |s| && AllDigits(s[..n])
    ensures n < |s| ==> !IsDigit(s[n])
  {
    if |s| > 0 && IsDigit(s[0]) then
      var n := 1 + DigitRun(s[1..]);
      assert s[..n] == [s[0]] + s[1..][..n - 1];
      n
    else 0
  }

  function Pow10(k: nat): (p: nat)
    ensures p >= 1
  {
    if k == 0 then 1 else 10 * Pow10(k - 1)
  }

  /** The value of a digit string read after a decimal point. */
  function Fraction(d: string): real
    requires AllDigits(d)
  {
    DigitsValue(d) as real / Pow10(|d|) as real
  }

  /** A match of `\d*\.?\d+` at the front of `s`, as (length, value): digits,
      a point and digits when a digit follows the point, otherwise the
      leading digits alone. */
  function UnsignedAt(s: string): (r: Option<(nat, real)>)
    ensures r.Some? ==> 1 <= r.value.0 <= |s|
  {
    var d1 := DigitRun(s);
    if d1 + 1 < |s| && s[d1] == '.' && IsDigit(s[d1 + 1]) then
      var d2 := DigitRun(s[d1 + 1..]);
      Some((d1 + 1 + d2, DigitsValue(s[..d1]) as real + Fraction(s[d1 + 1..][..d2])))
    else if d1 > 0 then Some((d1, DigitsValue(s[..d1]) as real))
    else None
  }

  /** A match of `[-+]?\d*\.?\d+` at the front of `s`, with `float()` of it. */
  function NumberAt(s: string): (r: Option<(nat, real)>)
    ensures r.Some? ==> 1 <= r.value.0 <= |s|
  {
    if |s| > 0 && (s[0] == '-' || s[0] == '+') then
      match UnsignedAt(s[1..])
      case None => None
      case Some((n, v)) => Some((n + 1, if s[0] == '-' then -v else v))
    else UnsignedAt(s)
  }

  /** `[float(x) for x in re.findall(r"[-+]?\d*\.?\d+", s)]`: matches taken
      left to right, the scan resuming after each match. */
  function FindNumbers(s: string): seq<real>
    decreases |s|
  {
    if |s| == 0 then []
    else
      match NumberAt(s)
      case Some((n, v)) => [v] + FindNumbers(s[n..])
      case None => FindNumbers(s[1..])
  }

  /** A character no number can run through. */
  predicate Blocks(c: char) {
    !IsDigit(c) && c != '.' && c != '-' && c != '+'
  }

  lemma {:induction false} DigitRunExtend(a: string, t: string)
    requires |t| > 0 && !IsDigit(t[0])
    ensures DigitRun(a + t) == DigitRun(a)
    decreases |a|
  {
    if |a| > 0 {
      assert (a + t)[1..] == a[1..] + t;
      DigitRunExtend(a[1..], t);
    }
  }

  lemma UnsignedAtExtend(a: string, t: string)
    requires |t| > 0 && Blocks(t[0])
    ensures UnsignedAt(a + t) == UnsignedAt(a)
  {
    var s := a + t;
    DigitRunExtend(a, t);
    var d1 := DigitRun(a);
    assert s[..d1] == a[..d1];
    if d1 + 1 < |a| && a[d1] == '.' && IsDigit(a[d1 + 1]) {
      FractionAtExtend(a, t, d1);
    } else if d1 + 1 == |a| && a[d1] == '.' {
      assert s[d1 + 1] == t[0];
    } else if d1 == |a| {
      assert s[d1] == t[0];
    }
  }

  /** The digits after the point are the same run once `t` is appended. */
  lemma FractionAtExtend(a: string, t: string, d1: nat)
    requires |t| > 0 && Blocks(t[0])
    requires d1 + 1 < |a|
    ensures DigitRun((a + t)[d1 + 1..]) == DigitRun(a[d1 + 1..])
    ensures (a + t)[d1 + 1..][..DigitRun(a[d1 + 1..])] == a[d1 + 1..][..DigitRun(a[d1 + 1..])]
  {
    var s := a + t;
    assert s[d1 + 1..] == a[d1 + 1..] + t;
    DigitRunExtend(a[d1 + 1..], t);
  }

  lemma NumberAtExtend(a: string, t: string)
    requires |t| > 0 && Blocks(t[0])
    ensures NumberAt(a + t) == NumberAt(a)
  {
    if |a| > 0 && (a[0] == '-' || a[0] == '+') {
      assert (a + t)[1..] == a[1..] + t;
      UnsignedAtExtend(a[1..], t);
    } else if |a| == 0 {
      assert a + t == t;
    } else {
      UnsignedAtExtend(a, t);
    }
  }

  /** A separator that no number runs through splits the scan: the numbers
      of `a`, then those of `b`, in order, repeats kept. */
  lemma FindNumbersSplit(a: string, c: char, b: string)
    requires Blocks(c)
    ensures FindNumbers(a + [c] + b) == FindNumbers(a) + FindNumbers(b)
  {
    var s := a + [c] + b;
    assert s[..|a|] == a && s[|a| + 1..] == b;
    FindNumbersSplitAt(s, |a|);
  }

  lemma {:induction false} FindNumbersSplitAt(s: string, k: nat)
    requires k < |s| && Blocks(s[k])
    ensures FindNumbers(s) == FindNumbers(s[..k]) + FindNumbers(s[k + 1..])
    decreases k
  {
    if k == 0 {
      BlockedStart(s[0], s[1..]);
      assert s == [s[0]] + s[1..];
    } else {
      var a := s[..k];
      assert s == a + s[k..];
      NumberAtExtend(a, s[k..]);
      var n := if NumberAt(a).Some? then NumberAt(a).value.0 else 1;
      var r := s[n..];
      assert r[..k - n] == a[n..] && r[k - n + 1..] == s[k + 1..] && r[k - n] == s[k];
      FindNumbersSplitAt(r, k - n);
      SplitStep(s, a, n, FindNumbers(s[k + 1..]));
    }
  }

  /** When the scans of `s` and `a` take the same first step, and what
      follows that step in `s` yields the numbers after it in `a` and then
      `tail`, the whole of `s` yields those of `a` and then `tail`. */
  lemma SplitStep(s: string, a: string, n: nat, tail: seq<real>)
    requires |a| > 0 && |s| > 0 && NumberAt(s) == NumberAt(a)
    requires n == if NumberAt(a).Some? then NumberAt(a).value.0 else 1
    requires n <= |s| && FindNumbers(s[n..]) == FindNumbers(a[n..]) + tail
    ensures FindNumbers(s) == FindNumbers(a) + tail
  {
    FindNumbersStep(s);
    FindNumbersStep(a);
  }

  /** One step of `re.findall`: a match is taken, or the scan moves on one character. */
  lemma FindNumbersStep(s: string)
    requires |s| > 0
    ensures FindNumbers(s) ==
      if NumberAt(s).Some? then [NumberAt(s).value.1] + FindNumbers(s[NumberAt(s).value.0..])
      else [] + FindNumbers(s[1..])
  {
  }

  lemma BlockedStart(c: char, b: string)
    requires Blocks(c)
    ensures FindNumbers([c] + b) == FindNumbers(b)
  {
    var s := [c] + b;
    assert s[1..] == b;
    assert DigitRun(s) == 0;
    assert NumberAt(s) == None;
  }

  lemma {:induction false} DigitRunAll(s: string)
    requires AllDigits(s)
    ensures DigitRun(s) == |s|
    decreases |s|
  {
    if |s| > 0 {
      DigitRunAll(s[1..]);
    }
  }

  /** `str(n)` of a natural number is read back as the number. */
  lemma FindNumbersOfNat(n: nat)
    ensures FindNumbers(NatToString(n)) == [n as real]
  {
    var s := NatToString(n);
    DigitRunAll(s);
    DigitsValueOfNat(n);
    assert IsDigit(s[0]);
    assert s[..|s|] == s;
    assert s[|s|..] == [];
  }

  /** Text without digits holds no number. */
  lemma {:induction false} FindNumbersNoDigits(s: string)
    requires forall i :: 0 <= i < |s| ==> !IsDigit(s[i])
    ensures FindNumbers(s) == []
    decreases |s|
  {
    if |s| > 0 {
      assert DigitRun(s) == 0;
      if |s| > 1 {
        assert DigitRun(s[1..]) == 0;
      }
      FindNumbersNoDigits(s[1..]);
    }
  }

  // ---------- the time list ----------

  /** `[t for t in values if tmin <= t <= tmax]`. */
  function InWindow(ts: seq<real>, lo: real, hi: real): (r: seq<real>)
    ensures forall i :: 0 <= i < |r| ==> lo <= r[i] <= hi
    ensures |r| <= |ts|
  {
    if |ts| == 0 then []
    else (if lo <= ts[0] <= hi then [ts[0]] else []) + InWindow(ts[1..], lo, hi)
  }

  /** The filter works piecewise, so it keeps the order of the times. */
  lemma {:induction false} InWindowAppend(a: seq<real>, b: seq<real>, lo: real, hi: real)
    ensures InWindow(a + b, lo, hi) == InWindow(a, lo, hi) + InWindow(b, lo, hi)
    decreases |a|
  {
    if |a| == 0 {
      assert a + b == b;
    } else {
      assert (a + b)[1..] == a[1..] + b;
      InWindowAppend(a[1..], b, lo, hi);
    }
  }

  /** Each time inside the window is kept as often as it occurs; the others are dropped. */
  lemma {:induction false} InWindowCounts(ts: seq<real>, lo: real, hi: real, x: real)
    ensures multiset(InWindow(ts, lo, hi))[x] == if lo <= x <= hi then multiset(ts)[x] else 0
    decreases |ts|
  {
    if |ts| > 0 {
      InWindowCounts(ts[1..], lo, hi, x);
      assert ts == [ts[0]] + ts[1..];
    }
  }

  /** What `resolved_times` returns: a keyword or a list of times. */
  datatype Times = Keyword(word: string) | Values(times: seq<real>)

  /** `resolved_times`: "auto" or "peak" in any case and with any surrounding
      white space; otherwise the numbers in the text that fall in the epoch
      window, or "auto" when there are none. */
  function ResolvedTimes(times: string, tmin: real, tmax: real): Times {
    var s := Lower(Strip(times));
    if s == "auto" || s == "peak" then Keyword(s)
    else
      var values := InWindow(FindNumbers(times), tmin, tmax);
      if |values| == 0 then Keyword("auto") else Values(values)
  }

  /** The keywords come back normalised; any list is non-empty, inside the
      window and in the order of the text; an empty list becomes "auto". */
  lemma ResolvedTimesFacts(times: string, tmin: real, tmax: real)
    ensures var r := ResolvedTimes(times, tmin, tmax);
      (r.Keyword? ==> r.word == "auto" || r.word == "peak")
      && (r == Keyword("peak") <==> Lower(Strip(times)) == "peak")
      && (r.Values? ==> |r.times| > 0 && (forall i :: 0 <= i < |r.times| ==> tmin <= r.times[i] <= tmax)
                        && r.times == InWindow(FindNumbers(times), tmin, tmax))
      && (Lower(Strip(times)) != "auto" && Lower(Strip(times)) != "peak" ==>
            (r == Keyword("auto") <==> InWindow(FindNumbers(times), tmin, tmax) == []))
  {
  }

  /** Times written as natural numbers between separators come back in
      order, kept when inside the window. */
  lemma TwoTimes(a: nat, c: char, b: nat, tmin: real, tmax: real)
    requires Blocks(c) && !IsSpace(c)
    requires tmin <= a as real <= tmax && tmin <= b as real <= tmax
    ensures ResolvedTimes(NatToString(a) + [c] + NatToString(b), tmin, tmax) == Values([a as real, b as real])
  {
    var s := NatToString(a) + [c] + NatToString(b);
    FindNumbersSplit(NatToString(a), c, NatToString(b));
    FindNumbersOfNat(a);
    FindNumbersOfNat(b);
    assert InWindow([b as real], tmin, tmax) == [b as real];
    InWindowAppend([a as real], [b as real], tmin, tmax);
    assert [a as real] + [b as real] == [a as real, b as real];
    NotKeyword(s);
  }

  /** Text that starts with a digit is neither keyword. */
  lemma NotKeyword(s: string)
    requires |s| > 0 && IsDigit(s[0])
    ensures Lower(Strip(s)) != "auto" && Lower(Strip(s)) != "peak"
  {
    assert !IsSpace(s[0]);
    var t := TrimLeft(s);
    assert t == s;
    var u := TrimRight(t);
    if |u| > 0 {
      assert u[0] == s[0];
      assert Lower(u)[0] == s[0];
    }
  }
}

=== FILE: filter_params.dfy ===
/** The filtering facet (backend/app/schemas/params/base_filter_schema.py):
    the fields a filter request carries, the cache keys derived from them,
    and validation that rejects unknown fields. */
module FilterFacet {
  import opened Wrappers
  import opened PyDict

  /** `FilterParams`, one field per declared attribute. */
  datatype FilterParams = FilterParams(
    lFreq: real,
    hFreq: real,
    notch: Option<real>,
    resampleFs: real,
    channels: string,
    combineChannels: Option<bool>,
    uvMin: Option<real>,
    uvMax: Option<real>,
    cleanFlatlineSec: Option<real>,
    cleanHfNoiseSdMax: Option<real>,
    cleanCorrMin: Option<real>,
    cleanAsrMaxStd: Option<real>,
    cleanPowerMinSd: Option<real>,
    cleanPowerMaxSd: Option<real>,
    cleanMaxOutboundPct: Option<real>,
    cleanWindowSec: Option<real>,
    cleanAsrRemoveOnly: Option<bool>)

  /** The declared defaults: every cleaning step off, no notch, no µV bounds. */
  const DEFAULTS: FilterParams := FilterParams(
    4.0, 30.0, None, 100.0, "69-76,81-83,88,89", Some(false), None, None,
    None, None, None, None, None, None, None, None, Some(false))

  const FILTER_KEY_NAMES: seq<string> := ["l_freq", "h_freq", "notch", "resample_fs"]

  const CLEAN_NAMES: seq<string> := [
    "clean_flatline_sec", "clean_hf_noise_sd_max", "clean_corr_min", "clean_asr_max_std",
    "clean_power_min_sd", "clean_power_max_sd", "clean_max_outbound_pct", "clean_window_sec"]

  const REMOVE_ONLY_NAME: string := "clean_asr_remove_only"

  /** Every declared field; anything else is refused. */
  const FIELD_NAMES: seq<string> :=
    FILTER_KEY_NAMES + ["channels", "combine_channels", "uv_min", "uv_max"] + CLEAN_NAMES + [REMOVE_ONLY_NAME]

  function OptJson(o: Option<real>): Json {
    match o
    case Some(x) => JFloat(x)
    case None => JNull
  }

  /** `filter_key`: exactly the four filtering fields. */
  function FilterKey(p: FilterParams): (d: Dict)
    ensures Keys(d) == FILTER_KEY_NAMES
  {
    [("l_freq", JFloat(p.lFreq)), ("h_freq", JFloat(p.hFreq)),
     ("notch", OptJson(p.notch)), ("resample_fs", JFloat(p.resampleFs))]
  }

  /** The cleaning fields in the order `cleaning_key` visits them. */
  function CleanValues(p: FilterParams): (fs: seq<(string, Option<real>)>)
    ensures |fs| == |CLEAN_NAMES| && forall i :: 0 <= i < |fs| ==> fs[i].0 == CLEAN_NAMES[i]
  {
    [("clean_flatline_sec", p.cleanFlatlineSec), ("clean_hf_noise_sd_max", p.cleanHfNoiseSdMax),
     ("clean_corr_min", p.cleanCorrMin), ("clean_asr_max_std", p.cleanAsrMaxStd),
     ("clean_power_min_sd", p.cleanPowerMinSd), ("clean_power_max_sd", p.cleanPowerMaxSd),
     ("clean_max_outbound_pct", p.cleanMaxOutboundPct), ("clean_window_sec", p.cleanWindowSec)]
  }

  /** The entries `key[name] = val` adds for the fields that are not None. */
  function PresentEntries(fs: seq<(string, Option<real>)>): Dict {
    if |fs| == 0 then []
    else
      var last := fs[|fs| - 1];
      PresentEntries(fs[..|fs| - 1]) + (if last.1.Some? then [(last.0, JFloat(last.1.value))] else [])
  }

  function RemoveOnlyEntry(p: FilterParams): Dict {
    if p.cleanAsrRemoveOnly == Some(true) then [(REMOVE_ONLY_NAME, JBool(true))] else []
  }

  /** `cleaning_key`: the filter key, then each cleaning number that is set,
      then the remove-only flag when it is true. */
  function CleaningKey(p: FilterParams): Dict {
    FilterKey(p) + PresentEntries(CleanValues(p)) + RemoveOnlyEntry(p)
  }

  /** `cleaning_key` as the source computes it: a loop of conditional inserts. */
  method BuildCleaningKey(p: FilterParams) returns (key: Dict)
    ensures key == CleaningKey(p)
  {
    key := FilterKey(p);
    var fields := CleanValues(p);
    var i := 0;
    while i < |fields|
      invariant 0 <= i <= |fields|
      invariant key == FilterKey(p) + PresentEntries(fields[..i])
    {
      assert fields[..i + 1][..i] == fields[..i];
      if fields[i].1.Some? {
        key := key + [(fields[i].0, JFloat(fields[i].1.value))];
      }
      i := i + 1;
    }
    assert fields[..i] == fields;
    if p.cleanAsrRemoveOnly == Some(true) {
      key := key + [(REMOVE_ONLY_NAME, JBool(true))];
    }
  }

  // ---------- properties of the keys ----------

  /** What a `key[name] = val` for an optional number stores: nothing for None. */
  function Present(o: Option<real>): (r: Option<Json>)
    ensures r.None? <==> o.None?
  {
    if o.Some? then Some(JFloat(o.value)) else None
  }

  /** The value the last pair named `k` carries (None when no pair is named `k`). */
  function Lookup(fs: seq<(string, Option<real>)>, k: string): Option<real> {
    if |fs| == 0 then None
    else if fs[|fs| - 1].0 == k then fs[|fs| - 1].1
    else Lookup(fs[..|fs| - 1], k)
  }

  predicate DistinctNames(fs: seq<(string, Option<real>)>) {
    forall i, j :: 0 <= i < j < |fs| ==> fs[i].0 != fs[j].0
  }

  /** The conditional inserts store exactly the present values, once each. */
  lemma {:induction false} PresentEntriesGet(fs: seq<(string, Option<real>)>)
    requires DistinctNames(fs)
    ensures DistinctKeys(PresentEntries(fs))
    ensures forall k :: Get(PresentEntries(fs), k) == Present(Lookup(fs, k))
    decreases |fs|
  {
    if |fs| > 0 {
      var init := fs[..|fs| - 1];
      var last := fs[|fs| - 1];
      PresentEntriesGet(init);
      var pe := PresentEntries(init);
      assert Lookup(init, last.0) == None by {
        LookupAbsent(init, last.0);
      }
      var tail: Dict := if last.1.Some? then [(last.0, JFloat(last.1.value))] else [];
      assert PresentEntries(fs) == pe + tail;
      forall k ensures Get(pe + tail, k) == Present(Lookup(fs, k)) {
        GetAppend(pe, tail, k);
      }
      assert forall k :: k in Keys(pe) ==> Get(pe, k).Some?;
      DistinctAppend(pe, tail);
    }
  }

  lemma {:induction false} LookupAbsent(fs: seq<(string, Option<real>)>, k: string)
    requires forall i :: 0 <= i < |fs| ==> fs[i].0 != k
    ensures Lookup(fs, k) == None
    decreases |fs|
  {
    if |fs| > 0 {
      LookupAbsent(fs[..|fs| - 1], k);
    }
  }

  /** Three dicts with pairwise disjoint keys, concatenated. */
  lemma ThreeParts(a: Dict, b: Dict, c: Dict)
    requires DistinctKeys(a) && DistinctKeys(b) && DistinctKeys(c)
    requires forall k :: k in Keys(a) ==> k !in Keys(b) && k !in Keys(c)
    requires forall k :: k in Keys(b) ==> k !in Keys(c)
    ensures DistinctKeys(a + b + c)
    ensures forall k :: Get(a + b + c, k) ==
                        if k in Keys(a) then Get(a, k) else if k in Keys(b) then Get(b, k) else Get(c, k)
  {
    DistinctAppend(a, b);
    forall k | k in Keys(a + b) ensures k !in Keys(c) {
      GetAppend(a, b, k);
    }
    DistinctAppend(a + b, c);
    forall k ensures Get(a + b + c, k) ==
      if k in Keys(a) then Get(a, k) else if k in Keys(b) then Get(b, k) else Get(c, k)
    {
      GetAppend(a, b, k);
      GetAppend(a + b, c, k);
    }
  }

  lemma CleanNames(p: FilterParams)
    ensures DistinctNames(CleanValues(p))
    ensures forall k :: k in FILTER_KEY_NAMES ==> k !in CLEAN_NAMES && k != REMOVE_ONLY_NAME
    ensures REMOVE_ONLY_NAME !in CLEAN_NAMES
  {
  }

  /** The cleaning numbers that are set, each under its own name. */
  lemma CleanEntriesGet(p: FilterParams)
    ensures DistinctKeys(PresentEntries(CleanValues(p)))
    ensures forall i :: 0 <= i < |CLEAN_NAMES| ==>
      Get(PresentEntries(CleanValues(p)), CLEAN_NAMES[i]) == Present(CleanValues(p)[i].1)
    ensures forall k :: k !in CLEAN_NAMES ==> Get(PresentEntries(CleanValues(p)), k) == None
  {
    var fs := CleanValues(p);
    CleanNames(p);
    PresentEntriesGet(fs);
    forall i | 0 <= i < |CLEAN_NAMES| ensures Lookup(fs, CLEAN_NAMES[i]) == fs[i].1 {
      LookupDistinct(fs, i);
    }
    forall k | k !in CLEAN_NAMES ensures Lookup(fs, k) == None {
      LookupAbsent(fs, k);
    }
  }

  /** `cleaning_key` holds all of `filter_key`, each cleaning number exactly
      when it is set, `clean_asr_remove_only` exactly when it is true, and
      nothing else; no key appears twice. */
  lemma CleaningKeyFacts(p: FilterParams)
    ensures DistinctKeys(CleaningKey(p))
    ensures forall k :: k in FILTER_KEY_NAMES ==> Get(CleaningKey(p), k) == Get(FilterKey(p), k)
    ensures forall i :: 0 <= i < |CLEAN_NAMES| ==>
      Get(CleaningKey(p), CLEAN_NAMES[i]) == Present(CleanValues(p)[i].1)
    ensures Get(CleaningKey(p), REMOVE_ONLY_NAME) ==
      if p.cleanAsrRemoveOnly == Some(true) then Some(JBool(true)) else None
    ensures forall k :: k !in FILTER_KEY_NAMES && k !in CLEAN_NAMES && k != REMOVE_ONLY_NAME ==>
      Get(CleaningKey(p), k) == None
  {
    var fk := FilterKey(p);
    var pe := PresentEntries(CleanValues(p));
    var ro := RemoveOnlyEntry(p);
    CleanNames(p);
    CleanEntriesGet(p);
    assert forall k :: k in Keys(pe) ==> k in CLEAN_NAMES by {
      forall k | k in Keys(pe) ensures k in CLEAN_NAMES {
        assert Get(pe, k).Some?;
      }
    }
    assert Keys(ro) == if p.cleanAsrRemoveOnly == Some(true) then [REMOVE_ONLY_NAME] else [];
    ThreeParts(fk, pe, ro);
  }

  lemma {:induction false} LookupDistinct(fs: seq<(string, Option<real>)>, i: nat)
    requires DistinctNames(fs) && i < |fs|
    ensures Lookup(fs, fs[i].0) == fs[i].1
    decreases |fs|
  {
    if i < |fs| - 1 {
      LookupDistinct(fs[..|fs| - 1], i);
    }
  }

  /** The cache-relevant part of the parameters: the four filter fields, the
      eight cleaning numbers and whether remove-only ASR is on. */
  predicate SameCleaning(p: FilterParams, q: FilterParams) {
    p.lFreq == q.lFreq && p.hFreq == q.hFreq && p.notch == q.notch && p.resampleFs == q.resampleFs
    && CleanValues(p) == CleanValues(q)
    && (p.cleanAsrRemoveOnly == Some(true)) == (q.cleanAsrRemoveOnly == Some(true))
  }

  /** Two parameter sets give the same `cleaning_key` exactly when they agree on
      the cache-relevant fields. */
  lemma CleaningKeyIff(p: FilterParams, q: FilterParams)
    ensures CleaningKey(p) == CleaningKey(q) <==> SameCleaning(p, q)
  {
    if CleaningKey(p) == CleaningKey(q) {
      CleaningKeyDetermines(p, q);
    }
  }

  lemma CleaningKeyDetermines(p: FilterParams, q: FilterParams)
    requires CleaningKey(p) == CleaningKey(q)
    ensures SameCleaning(p, q)
  {
    CleaningKeyFacts(p);
    CleaningKeyFacts(q);
    FilterKeyDetermines(p, q);
    forall i | 0 <= i < |CLEAN_NAMES| ensures CleanValues(p)[i] == CleanValues(q)[i] {
      assert Present(CleanValues(p)[i].1) == Present(CleanValues(q)[i].1);
    }
  }

  lemma FilterKeyDetermines(p: FilterParams, q: FilterParams)
    requires forall k :: k in FILTER_KEY_NAMES ==> Get(FilterKey(p), k) == Get(FilterKey(q), k)
    ensures p.lFreq == q.lFreq && p.hFreq == q.hFreq && p.notch == q.notch && p.resampleFs == q.resampleFs
  {
    FilterKeyGet(p);
    FilterKeyGet(q);
    assert "notch" in FILTER_KEY_NAMES;
    assert OptJson(p.notch) == OptJson(q.notch);
    if p.notch.Some? != q.notch.Some? {
      assert false;
    }
  }

  lemma FilterKeyGet(p: FilterParams)
    ensures Get(FilterKey(p), "l_freq") == Some(JFloat(p.lFreq))
    ensures Get(FilterKey(p), "h_freq") == Some(JFloat(p.hFreq))
    ensures Get(FilterKey(p), "notch") == Some(OptJson(p.notch))
    ensures Get(FilterKey(p), "resample_fs") == Some(JFloat(p.resampleFs))
  {
    var d := FilterKey(p);
    assert DistinctKeys(d);
    GetAt(d, 0);
    GetAt(d, 1);
    GetAt(d, 2);
    GetAt(d, 3);
  }

  /** `filter_key` changes exactly when one of the four filter fields does. */
  lemma FilterKeyIff(p: FilterParams, q: FilterParams)
    ensures FilterKey(p) == FilterKey(q) <==>
      p.lFreq == q.lFreq && p.hFreq == q.hFreq && p.notch == q.notch && p.resampleFs == q.resampleFs
  {
    if FilterKey(p) == FilterKey(q) {
      FilterKeyDetermines(p, q);
    }
  }

  /** The channel selection and the µV bounds never reach either key. */
  lemma KeysIgnoreChannelFields(p: FilterParams, channels: string, combine: Option<bool>, uvMin: Option<real>, uvMax: Option<real>)
    ensures var q := p.(channels := channels, combineChannels := combine, uvMin := uvMin, uvMax := uvMax);
      FilterKey(q) == FilterKey(p) && CleaningKey(q) == CleaningKey(p)
  {
    var q := p.(channels := channels, combineChannels := combine, uvMin := uvMin, uvMax := uvMax);
    CleaningKeyIff(p, q);
    FilterKeyIff(p, q);
  }

  // ---------- construction: declared fields only ----------

  /** The value given for each declared field, in declaration order. */
  function Slots(d: Dict): (v: seq<Option<Json>>)
    ensures |v| == |FIELD_NAMES|
    ensures forall i :: 0 <= i < |FIELD_NAMES| ==> v[i] == Get(d, FIELD_NAMES[i])
  {
    seq(|FIELD_NAMES|, i requires 0 <= i < |FIELD_NAMES| => Get(d, FIELD_NAMES[i]))
  }

  /** A float field accepts a JSON number; a missing one takes its default. */
  function RealSlot(v: Option<Json>, dflt: real): Option<real> {
    match v
    case None => Some(dflt)
    case Some(JFloat(x)) => Some(x)
    case Some(JInt(i)) => Some(i as real)
    case Some(_) => None
  }

  /** An `Optional[float]` field also accepts null. */
  function OptRealSlot(v: Option<Json>, dflt: Option<real>): Option<Option<real>> {
    match v
    case None => Some(dflt)
    case Some(JNull) => Some(None)
    case Some(JFloat(x)) => Some(Some(x))
    case Some(JInt(i)) => Some(Some(i as real))
    case Some(_) => None
  }

  function OptBoolSlot(v: Option<Json>, dflt: Option<bool>): Option<Option<bool>> {
    match v
    case None => Some(dflt)
    case Some(JNull) => Some(None)
    case Some(JBool(b)) => Some(Some(b))
    case Some(_) => None
  }

  function StrSlot(v: Option<Json>, dflt: string): Option<string> {
    match v
    case None => Some(dflt)
    case Some(JStr(s)) => Some(s)
    case Some(_) => None
  }

  predicate OnlyDeclared(d: Dict) {
    forall i :: 0 <= i < |d| ==> d[i].0 in FIELD_NAMES
  }

  /** Every declared field that is given has the field's type. */
  predicate WellTyped(v: seq<Option<Json>>)
    requires |v| == |FIELD_NAMES|
  {
    RealSlot(v[0], DEFAULTS.lFreq).Some? && RealSlot(v[1], DEFAULTS.hFreq).Some?
    && OptRealSlot(v[2], DEFAULTS.notch).Some? && RealSlot(v[3], DEFAULTS.resampleFs).Some?
    && StrSlot(v[4], DEFAULTS.channels).Some? && OptBoolSlot(v[5], DEFAULTS.combineChannels).Some?
    && OptRealSlot(v[6], None).Some? && OptRealSlot(v[7], None).Some?
    && OptRealSlot(v[8], None).Some? && OptRealSlot(v[9], None).Some?
    && OptRealSlot(v[10], None).Some? && OptRealSlot(v[11], None).Some?
    && OptRealSlot(v[12], None).Some? && OptRealSlot(v[13], None).Some?
    && OptRealSlot(v[14], None).Some? && OptRealSlot(v[15], None).Some?
    && OptBoolSlot(v[16], DEFAULTS.cleanAsrRemoveOnly).Some?
  }

  /** The parameters a well-typed slot vector describes. */
  function FromSlots(v: seq<Option<Json>>): FilterParams
    requires |v| == |FIELD_NAMES| && WellTyped(v)
  {
    FilterParams(
      RealSlot(v[0], DEFAULTS.lFreq).value, RealSlot(v[1], DEFAULTS.hFreq).value,
      OptRealSlot(v[2], DEFAULTS.notch).value, RealSlot(v[3], DEFAULTS.resampleFs).value,
      StrSlot(v[4], DEFAULTS.channels).value, OptBoolSlot(v[5], DEFAULTS.combineChannels).value,
      OptRealSlot(v[6], None).value, OptRealSlot(v[7], None).value,
      OptRealSlot(v[8], None).value, OptRealSlot(v[9], None).value,
      OptRealSlot(v[10], None).value, OptRealSlot(v[11], None).value,
      OptRealSlot(v[12], None).value, OptRealSlot(v[13], None).value,
      OptRealSlot(v[14], None).value, OptRealSlot(v[15], None).value,
      OptBoolSlot(v[16], DEFAULTS.cleanAsrRemoveOnly).value)
  }

  /** `FilterParams(**d)`: an undeclared field is refused (`extra = "forbid"`),
      a field of the wrong type is refused, a missing field takes its default. */
  function FromFields(d: Dict): (r: Result<FilterParams, string>)
    ensures r.Ok? <==> OnlyDeclared(d) && WellTyped(Slots(d))
    ensures !OnlyDeclared(d) ==> r == Err("extra_forbidden")
  {
    if !OnlyDeclared(d) then Err("extra_forbidden")
    else if !WellTyped(Slots(d)) then Err("type_error")
    else Ok(FromSlots(Slots(d)))
  }

  function OptBoolJson(o: Option<bool>): Json {
    if o.Some? then JBool(o.value) else JNull
  }

  /** `model_dump()`: every field under its declared name. */
  function ToFields(p: FilterParams): (d: Dict)
    ensures Keys(d) == FIELD_NAMES
  {
    [("l_freq", JFloat(p.lFreq)), ("h_freq", JFloat(p.hFreq)), ("notch", OptJson(p.notch)),
     ("resample_fs", JFloat(p.resampleFs)), ("channels", JStr(p.channels)),
     ("combine_channels", OptBoolJson(p.combineChannels)),
     ("uv_min", OptJson(p.uvMin)), ("uv_max", OptJson(p.uvMax)),
     ("clean_flatline_sec", OptJson(p.cleanFlatlineSec)),
     ("clean_hf_noise_sd_max", OptJson(p.cleanHfNoiseSdMax)),
     ("clean_corr_min", OptJson(p.cleanCorrMin)), ("clean_asr_max_std", OptJson(p.cleanAsrMaxStd)),
     ("clean_power_min_sd", OptJson(p.cleanPowerMinSd)), ("clean_power_max_sd", OptJson(p.cleanPowerMaxSd)),
     ("clean_max_outbound_pct", OptJson(p.cleanMaxOutboundPct)),
     ("clean_window_sec", OptJson(p.cleanWindowSec)),
     (REMOVE_ONLY_NAME, OptBoolJson(p.cleanAsrRemoveOnly))]
  }

  /** No fields at all gives the declared defaults. */
  lemma FromNoFields()
    ensures FromFields([]) == Ok(DEFAULTS)
  {
    var v := Slots([]);
    assert forall i :: 0 <= i < |v| ==> v[i] == None;
  }

  /** Dumping the parameters and validating the dump gives them back. */
  lemma FromFieldsOfDump(p: FilterParams)
    ensures FromFields(ToFields(p)) == Ok(p)
  {
    var d := ToFields(p);
    var v := Slots(d);
    DumpDistinct(p);
    forall i | 0 <= i < |FIELD_NAMES| ensures v[i] == Some(d[i].1) {
      GetAt(d, i);
    }
    assert OnlyDeclared(d) by {
      forall i | 0 <= i < |d| ensures d[i].0 in FIELD_NAMES {
        assert d[i].0 == Keys(d)[i];
      }
    }
    FromSlotsOfDump(p, v);
  }

  lemma FromSlotsOfDump(p: FilterParams, v: seq<Option<Json>>)
    requires |v| == |FIELD_NAMES|
    requires forall i :: 0 <= i < |FIELD_NAMES| ==> v[i] == Some(ToFields(p)[i].1)
    ensures WellTyped(v) && FromSlots(v) == p
  {
    DumpSlots(p, v);
    OptJsonSlot(p.notch, DEFAULTS.notch);
    OptJsonSlot(p.uvMin, None);
    OptJsonSlot(p.uvMax, None);
    OptJsonSlot(p.cleanFlatlineSec, None);
    OptJsonSlot(p.cleanHfNoiseSdMax, None);
    OptJsonSlot(p.cleanCorrMin, None);
    OptJsonSlot(p.cleanAsrMaxStd, None);
    OptJsonSlot(p.cleanPowerMinSd, None);
    OptJsonSlot(p.cleanPowerMaxSd, None);
    OptJsonSlot(p.cleanMaxOutboundPct, None);
    OptJsonSlot(p.cleanWindowSec, None);
    OptBoolJsonSlot(p.combineChannels, DEFAULTS.combineChannels);
    OptBoolJsonSlot(p.cleanAsrRemoveOnly, DEFAULTS.cleanAsrRemoveOnly);
  }

  /** The slot values of a dump, one field at a time. */
  lemma DumpSlots(p: FilterParams, v: seq<Option<Json>>)
    requires |v| == |FIELD_NAMES|
    requires forall i :: 0 <= i < |FIELD_NAMES| ==> v[i] == Some(ToFields(p)[i].1)
    ensures v[0] == Some(JFloat(p.lFreq)) && v[1] == Some(JFloat(p.hFreq))
    ensures v[2] == Some(OptJson(p.notch)) && v[3] == Some(JFloat(p.resampleFs))
    ensures v[4] == Some(JStr(p.channels)) && v[5] == Some(OptBoolJson(p.combineChannels))
    ensures v[6] == Some(OptJson(p.uvMin)) && v[7] == Some(OptJson(p.uvMax))
    ensures v[8] == Some(OptJson(p.cleanFlatlineSec)) && v[9] == Some(OptJson(p.cleanHfNoiseSdMax))
    ensures v[10] == Some(OptJson(p.cleanCorrMin)) && v[11] == Some(OptJson(p.cleanAsrMaxStd))
    ensures v[12] == Some(OptJson(p.cleanPowerMinSd)) && v[13] == Some(OptJson(p.cleanPowerMaxSd))
    ensures v[14] == Some(OptJson(p.cleanMaxOutboundPct)) && v[15] == Some(OptJson(p.cleanWindowSec))
    ensures v[16] == Some(OptBoolJson(p.cleanAsrRemoveOnly))
  {
  }

  lemma OptJsonSlot(o: Option<real>, dflt: Option<real>)
    ensures OptRealSlot(Some(OptJson(o)), dflt) == Some(o)
  {
  }

  lemma OptBoolJsonSlot(o: Option<bool>, dflt: Option<bool>)
    ensures OptBoolSlot(Some(OptBoolJson(o)), dflt) == Some(o)
  {
  }

  lemma DumpDistinct(p: FilterParams)
    ensures DistinctKeys(ToFields(p))
  {
  }

  lemma GetAt(d: Dict, i: nat)
    requires DistinctKeys(d) && i < |d|
    ensures Get(d, d[i].0) == Some(d[i].1)
  {
    EntryOfDistinct(d, d[i]);
  }
}

=== FILE: grid_plot.dfy ===
/** The token-grid helpers of backend/app/plots/grid_plot_helpers.py:
    condition labels split at '_' into up to three tokens (page, column,
    row), the axis values of the grid, the cell-to-label map, the reshaping
    of Matplotlib's axes, and the shared y-range of a uniform grid. */
module GridPlot {
  import opened Wrappers
  import opened Text
  import opened Numbers

  // ---------- tokens ----------

  /** The pieces that are not empty, in order. */
  function NonEmpty(parts: seq<string>): (r: seq<string>)
    ensures forall t :: t in r <==> t in parts && t != ""
    ensures |r| <= |parts|
  {
    if |parts| == 0 then []
    else (if parts[0] == "" then [] else [parts[0]]) + NonEmpty(parts[1..])
  }

  /** `split_tokens`: `(label or '').split('_')` without the empty pieces. */
  function SplitTokens(name: Option<string>): (r: seq<string>)
    ensures forall k :: 0 <= k < |r| ==> r[k] != "" && '_' !in r[k]
    ensures name.None? || name == Some("") ==> r == []
  {
    var parts := Split(name.GetOr(""), '_');
    assert name.None? || name == Some("") ==> parts == [""];
    assert forall x :: x in parts ==> '_' !in x;
    var r := NonEmpty(parts);
    assert forall k :: 0 <= k < |r| ==> r[k] in r;
    r
  }

  /** The strings one after another. */
  function Concat(parts: seq<string>): string {
    if |parts| == 0 then "" else parts[0] + Concat(parts[1..])
  }

  /** The string with every `c` removed. */
  function Without(s: string, c: char): (r: string)
    ensures c !in r
  {
    if |s| == 0 then "" else (if s[0] == c then "" else [s[0]]) + Without(s[1..], c)
  }

  lemma {:induction false} ConcatSplit(s: string, sep: char)
    ensures Concat(Split(s, sep)) == Without(s, sep)
    decreases |s|
  {
    if |s| > 0 {
      ConcatSplit(s[1..], sep);
      var rest := Split(s[1..], sep);
      if s[0] != sep {
        assert Concat(rest) == rest[0] + Concat(rest[1..]);
        assert Concat(Split(s, sep)) == ([s[0]] + rest[0]) + Concat(rest[1..]);
      }
    }
  }

  lemma {:induction false} ConcatNonEmpty(parts: seq<string>)
    ensures Concat(NonEmpty(parts)) == Concat(parts)
    decreases |parts|
  {
    if |parts| > 0 {
      ConcatNonEmpty(parts[1..]);
      assert NonEmpty(parts) == (if parts[0] == "" then [] else [parts[0]]) + NonEmpty(parts[1..]);
      if parts[0] != "" {
        assert ([parts[0]] + NonEmpty(parts[1..]))[1..] == NonEmpty(parts[1..]);
      } else {
        assert [] + NonEmpty(parts[1..]) == NonEmpty(parts[1..]);
      }
    }
  }

  /** The tokens hold every character of the label except the underscores, in order. */
  lemma SplitTokensKeepsText(name: string)
    ensures Concat(SplitTokens(Some(name))) == Without(name, '_')
  {
    ConcatSplit(name, '_');
    ConcatNonEmpty(Split(name, '_'));
  }

  lemma {:induction false} NonEmptyAll(parts: seq<string>)
    requires forall k :: 0 <= k < |parts| ==> parts[k] != ""
    ensures NonEmpty(parts) == parts
    decreases |parts|
  {
    if |parts| > 0 {
      NonEmptyAll(parts[1..]);
      assert [parts[0]] + parts[1..] == parts;
    }
  }

  /** Non-empty, underscore-free tokens joined with '_' split back into themselves. */
  lemma SplitTokensOfJoin(tokens: seq<string>)
    requires |tokens| >= 1
    requires forall k :: 0 <= k < |tokens| ==> tokens[k] != "" && '_' !in tokens[k]
    ensures SplitTokens(Some(Join(tokens, '_'))) == tokens
  {
    SplitJoin(tokens, '_');
    NonEmptyAll(tokens);
  }

  // ---------- tokens by label ----------

  /** `tokens_by_label`: the dictionary's items, label and tokens, in insertion order. */
  type Table = seq<(string, seq<string>)>

  /** `{label: split_tokens(label) for label in available_labels}`: repeated
      labels keep their first position. */
  function TokensByLabel(labels: seq<string>): (t: Table)
    ensures forall x :: (exists i :: 0 <= i < |t| && t[i].0 == x) <==> x in labels
    ensures forall i, j :: 0 <= i < j < |t| ==> t[i].0 != t[j].0
    ensures forall i :: 0 <= i < |t| ==> t[i].1 == SplitTokens(Some(t[i].0))
  {
    var d := Dedup(labels);
    var t := seq(|d|, i requires 0 <= i < |d| => (d[i], SplitTokens(Some(d[i]))));
    forall x | x in d
      ensures exists i :: 0 <= i < |t| && t[i].0 == x
    {
      var i :| 0 <= i < |d| && d[i] == x;
      assert t[i].0 == x;
    }
    assert forall i :: 0 <= i < |t| ==> t[i].0 in d;
    t
  }

  /** `max((len(tokens) ...), default=1)`. */
  function MaxTokenCount(t: Table): (m: nat)
    ensures forall i :: 0 <= i < |t| ==> |t[i].1| <= m
    ensures |t| > 0 ==> exists i :: 0 <= i < |t| && |t[i].1| == m
    ensures |t| == 0 ==> m == 1
  {
    if |t| == 0 then 1
    else if |t| == 1 then |t[0].1|
    else
      var m := MaxTokenCount(t[1..]);
      assert forall i :: 1 <= i < |t| ==> t[i] == t[1..][i - 1];
      if |t[0].1| > m then |t[0].1| else m
  }

  /** `grid_mode = min(max_token_count, 3)`. */
  function GridMode(t: Table): (mode: nat)
    ensures mode <= 3
    ensures |t| == 0 ==> mode == 1
    ensures mode == 0 <==> |t| > 0 && forall i :: 0 <= i < |t| ==> |t[i].1| == 0
    ensures forall i :: 0 <= i < |t| && |t[i].1| < mode ==> |t[i].1| < 3
    ensures |t| > 0 ==> exists i :: 0 <= i < |t| && |t[i].1| >= mode
  {
    var m := MaxTokenCount(t);
    if m < 3 then m else 3
  }

  // ---------- axis values ----------

  /** Token `k` of every label with more than `k` tokens, in table order. */
  function AxisTokens(t: Table, k: nat): seq<string> {
    if |t| == 0 then []
    else (if |t[0].1| > k then [t[0].1[k]] else []) + AxisTokens(t[1..], k)
  }

  lemma {:induction false} AxisTokensMembers(t: Table, k: nat)
    ensures forall x :: x in AxisTokens(t, k) <==> exists i :: 0 <= i < |t| && |t[i].1| > k && t[i].1[k] == x
    decreases |t|
  {
    if |t| > 0 {
      AxisTokensMembers(t[1..], k);
      assert forall i :: 1 <= i < |t| ==> t[i] == t[1..][i - 1];
    }
  }

  /** Wraps each string in Some. */
  function Somes(v: seq<string>): seq<Option<string>> {
    if |v| == 0 then [] else [Some(v[0])] + Somes(v[1..])
  }

  lemma {:induction false} SomesAt(v: seq<string>)
    ensures |Somes(v)| == |v| && forall j :: 0 <= j < |v| ==> Somes(v)[j] == Some(v[j])
    decreases |v|
  {
    if |v| > 0 {
      SomesAt(v[1..]);
    }
  }

  /** The values of axis `k`: `sorted({...})`, or `[None]` when no label has a token there. */
  function AxisValues(t: Table, k: nat): seq<Option<string>> {
    var v := SortedSet(AxisTokens(t, k));
    if |v| == 0 then [None] else Somes(v)
  }

  /** Axis `k` is `[None]` when no label has more than `k` tokens; otherwise it
      holds, in strictly increasing order, exactly the distinct tokens at index `k`. */
  lemma AxisValuesFacts(t: Table, k: nat)
    ensures var r := AxisValues(t, k);
      ((forall i :: 0 <= i < |t| ==> |t[i].1| <= k) ==> r == [None]) &&
      ((exists i :: 0 <= i < |t| && |t[i].1| > k) ==>
        |r| >= 1 &&
        (forall j :: 0 <= j < |r| ==> r[j].Some?) &&
        (forall a, b :: 0 <= a < b < |r| ==> LexLess(r[a].value, r[b].value)) &&
        (forall x :: Some(x) in r <==> exists i :: 0 <= i < |t| && |t[i].1| > k && t[i].1[k] == x))
  {
    var tokens := AxisTokens(t, k);
    AxisTokensMembers(t, k);
    var v := SortedSet(tokens);
    assert forall i :: 0 <= i < |t| && |t[i].1| > k ==> t[i].1[k] in v;
    if |v| > 0 {
      var r := Somes(v);
      SomesAt(v);
      assert v[0] in tokens;
      forall x ensures Some(x) in r <==> x in v {
        if x in v {
          var j :| 0 <= j < |v| && v[j] == x;
          assert r[j] == Some(x);
        }
      }
    }
  }

  /** `n` lists `[None]`. */
  function Nones(n: nat): (r: seq<seq<Option<string>>>)
    ensures |r| == n && forall j :: 0 <= j < n ==> r[j] == [None]
  {
    if n == 0 then [] else [[None]] + Nones(n - 1)
  }

  /** The values of axes 0 .. n - 1, in order. */
  function AxesUpTo(t: Table, n: nat): (r: seq<seq<Option<string>>>)
    ensures |r| == n
  {
    if n == 0 then [] else AxesUpTo(t, n - 1) + [AxisValues(t, n - 1)]
  }

  lemma {:induction false} AxesUpToAt(t: Table, n: nat, k: nat)
    requires k < n
    ensures AxesUpTo(t, n)[k] == AxisValues(t, k)
  {
    if k < n - 1 {
      AxesUpToAt(t, n - 1, k);
      assert AxesUpTo(t, n)[k] == AxesUpTo(t, n - 1)[k];
    }
  }

  /** What `compute_axes_values` returns: one list per token index below
      `mode`, preceded by as many `[None]` as make three lists. */
  function AxesValues(t: Table, mode: int): seq<seq<Option<string>>>
  {
    var n := if mode < 0 then 0 else mode;
    PadToThree(AxesUpTo(t, n))
  }

  /** The shape of the axes: three lists; the first `3 - mode` are `[None]`,
      and list `3 - mode + k` holds the values of token `k`, so every list
      is non-empty. */
  lemma AxesValuesShape(t: Table, mode: nat)
    requires mode <= 3
    ensures var r := AxesValues(t, mode);
      |r| == 3 &&
      (forall j :: 0 <= j < 3 - mode ==> r[j] == [None]) &&
      (forall k :: 0 <= k < mode ==> r[3 - mode + k] == AxisValues(t, k))
  {
    var r := AxesValues(t, mode);
    var axes := AxesUpTo(t, mode);
    var pad := Nones(3 - mode);
    assert r == pad + axes;
    forall j | 0 <= j < 3 - mode
      ensures r[j] == [None]
    {
      assert r[j] == pad[j];
    }
    forall k | 0 <= k < mode
      ensures r[3 - mode + k] == AxisValues(t, k)
    {
      assert r[3 - mode + k] == axes[k];
      AxesUpToAt(t, mode, k);
    }
  }

  /** The loop over `range(mode)` in `compute_axes_values`. */
  method AxesLoop(t: Table, n: nat) returns (r: seq<seq<Option<string>>>)
    ensures r == AxesUpTo(t, n)
  {
    r := [];
    var k := 0;
    while k < n
      invariant 0 <= k <= n
      invariant r == AxesUpTo(t, k)
    {
      var values := AxisValues(t, k);
      r := r + [values];
      k := k + 1;
    }
  }

  /** As many `[None]` in front of `axes` as make three lists. */
  function PadToThree(axes: seq<seq<Option<string>>>): seq<seq<Option<string>>> {
    Nones(if |axes| < 3 then 3 - |axes| else 0) + axes
  }

  /** The `while len(axes_values) < 3: axes_values.insert(0, [None])` loop. */
  method PadLoop(axes: seq<seq<Option<string>>>) returns (r: seq<seq<Option<string>>>)
    ensures r == PadToThree(axes)
    ensures |r| >= 3
  {
    r := axes;
    ghost var pads := 0;
    while |r| < 3
      invariant |r| == |axes| + pads
      invariant pads <= (if |axes| < 3 then 3 - |axes| else 0)
      invariant r == Nones(pads) + axes
      decreases 3 - |r|
    {
      assert [[None]] + (Nones(pads) + axes) == Nones(pads + 1) + axes;
      r := [[None]] + r;
      pads := pads + 1;
    }
  }

  /** `compute_axes_values`: the loop over `range(mode)`, then the `[None]`
      inserts at the front until there are three lists. */
  method ComputeAxesValues(t: Table, mode: int) returns (r: seq<seq<Option<string>>>)
    ensures r == AxesValues(t, mode)
    ensures |r| >= 3
  {
    var n := if mode < 0 then 0 else mode;
    r := AxesLoop(t, n);
    r := PadLoop(r);
  }

  // ---------- cells ----------

  /** A cell of the grid: (page, column, row). */
  type Key = (Option<string>, Option<string>, Option<string>)

  /** The cell key of a label's tokens; None where the source indexes past
      the end of `tokens` (IndexError). */
  function KeyOf(tokens: seq<string>, mode: int): (k: Option<Key>)
    ensures k.None? <==> mode != 1 && mode != 2 && |tokens| < 3
    ensures k.Some? && mode == 1 ==> k.value.0.None? && k.value.1.None? && k.value.2 == Some(tokens[0])
    ensures k.Some? && mode == 2 ==> k.value.0.None? && k.value.1 == Some(tokens[0]) && k.value.2 == Some(tokens[1])
    ensures k.Some? && mode != 1 && mode != 2 ==> k.value == (Some(tokens[0]), Some(tokens[1]), Some(tokens[2]))
    requires |tokens| >= mode
  {
    if mode == 1 then Some((None, None, Some(tokens[0])))
    else if mode == 2 then Some((None, Some(tokens[0]), Some(tokens[1])))
    else if |tokens| >= 3 then Some((Some(tokens[0]), Some(tokens[1]), Some(tokens[2])))
    else None
  }

  /** Entry `i` takes part in the map and lands on cell `k`. */
  predicate Hits(t: Table, i: nat, mode: int, k: Key)
    requires i < |t|
  {
    |t[i].1| >= mode && KeyOf(t[i].1, mode) == Some(k)
  }

  /** Entry `i` takes part in the map but has too few tokens for a key. */
  predicate Fails(t: Table, i: nat, mode: int)
    requires i < |t|
  {
    |t[i].1| >= mode && KeyOf(t[i].1, mode).None?
  }

  /** What `map_cells_to_labels` returns over the first |t| items; None
      when it raises IndexError. */
  function CellMap(t: Table, mode: int): Option<map<Key, string>>
  {
    if |t| == 0 then Some(map[])
    else
      var m := CellMap(t[..|t| - 1], mode);
      var last := t[|t| - 1];
      if m.None? || |last.1| < mode then m
      else match KeyOf(last.1, mode)
        case None => None
        case Some(k) => Some(if k in m.value then m.value else m.value[k := last.0])
  }

  /** The map is missing exactly when some label taking part has too few tokens. */
  lemma {:induction false} CellMapFails(t: Table, mode: int)
    ensures CellMap(t, mode).None? <==> exists i :: 0 <= i < |t| && Fails(t, i, mode)
    decreases |t|
  {
    if |t| > 0 {
      var init := t[..|t| - 1];
      var n := |t| - 1;
      CellMapFails(init, mode);
      assert forall i :: 0 <= i < n ==> init[i] == t[i];
      assert forall i :: 0 <= i < n ==> (Fails(init, i, mode) <==> Fails(t, i, mode));
      if CellMap(init, mode).None? {
        var i :| 0 <= i < n && Fails(init, i, mode);
        assert Fails(t, i, mode);
      } else if Fails(t, n, mode) {
        assert CellMap(t, mode).None?;
      } else {
        assert CellMap(t, mode).Some?;
      }
    }
  }

  /** A cell is in the map exactly when some label with at least `mode`
      tokens has that key, and it maps to the first such label. */
  lemma {:induction false} CellMapFirstWins(t: Table, mode: int, k: Key)
    requires CellMap(t, mode).Some?
    ensures var m := CellMap(t, mode).value;
      (k in m <==> exists i :: 0 <= i < |t| && Hits(t, i, mode, k)) &&
      (k in m ==> exists i :: 0 <= i < |t| && Hits(t, i, mode, k) && m[k] == t[i].0 &&
                    forall j :: 0 <= j < i ==> !Hits(t, j, mode, k))
    decreases |t|
  {
    if |t| > 0 {
      var n := |t| - 1;
      var init := t[..n];
      assert forall i :: 0 <= i < n ==> init[i] == t[i];
      assert forall i :: 0 <= i < n ==> (Hits(init, i, mode, k) <==> Hits(t, i, mode, k));
      assert CellMap(init, mode).Some?;
      CellMapFirstWins(init, mode, k);
      var m0 := CellMap(init, mode).value;
      var m := CellMap(t, mode).value;
      if k in m0 {
        var i :| 0 <= i < n && Hits(init, i, mode, k) && m0[k] == init[i].0 &&
                 forall j :: 0 <= j < i ==> !Hits(init, j, mode, k);
        assert Hits(t, i, mode, k);
        assert m[k] == m0[k];
      } else if Hits(t, n, mode, k) {
        assert m == m0[k := t[n].0];
      } else {
        assert k !in m;
      }
    }
  }

  /** `map_cells_to_labels`: the loop over the items with `setdefault`. */
  method MapCellsToLabels(t: Table, mode: int) returns (r: Option<map<Key, string>>)
    ensures r == CellMap(t, mode)
  {
    var m: map<Key, string> := map[];
    var i := 0;
    while i < |t|
      invariant 0 <= i <= |t|
      invariant CellMap(t[..i], mode) == Some(m)
    {
      assert t[..i + 1][..i] == t[..i];
      var (name, tokens) := t[i];
      if |tokens| >= mode {
        var key := KeyOf(tokens, mode);
        assert CellMap(t[..i + 1], mode) == (if key.None? then None else Some(if key.value in m then m else m[key.value := name]));
        if key.None? {
          CellMapFails(t[..i + 1], mode);
          CellMapFails(t, mode);
          assert Fails(t, i, mode);
          return None;
        }
        if key.value !in m {
          m := m[key.value := name];
        }
      }
      i := i + 1;
    }
    assert t[..i] == t;
    return Some(m);
  }

  /** With the grid mode `render_label_grid` computes, the map is built unless
      every label has zero tokens (mode 0, where `tokens[0]` raises IndexError). */
  lemma GridModeCellMap(t: Table)
    ensures CellMap(t, GridMode(t)).None? <==> GridMode(t) == 0
  {
    var mode := GridMode(t);
    CellMapFails(t, mode);
    if mode == 0 {
      assert Fails(t, 0, mode);
    }
  }

  // ---------- axes arrays ----------

  /** What `plt.subplots(rows, cols)` returns with its default squeezing: a
      single Axes, a one-dimensional array, or a two-dimensional one. */
  datatype Axes<A> = Single(a: A) | Line(items: seq<A>) | Grid(cells: seq<seq<A>>)

  /** The squeezed value for a `rows` × `cols` figure. */
  predicate Fits<A>(axes: Axes<A>, rows: nat, cols: nat) {
    match axes
    case Single(_) => rows == 1 && cols == 1
    case Line(items) =>
      (rows == 1 && cols != 1 && |items| == cols) || (rows != 1 && cols == 1 && |items| == rows)
    case Grid(cells) =>
      rows != 1 && cols != 1 && |cells| == rows && forall i :: 0 <= i < rows ==> |cells[i]| == cols
  }

  /** `plt.subplots`: subplot (i, j) is `ax(i, j)`. */
  function Subplots<A>(rows: nat, cols: nat, ax: (nat, nat) -> A): (axes: Axes<A>)
    requires rows >= 1 && cols >= 1
    ensures Fits(axes, rows, cols)
  {
    if rows == 1 && cols == 1 then Single(ax(0, 0))
    else if rows == 1 then Line(seq(cols, j requires 0 <= j => ax(0, j)))
    else if cols == 1 then Line(seq(rows, i requires 0 <= i => ax(i, 0)))
    else Grid(seq(rows, i requires 0 <= i => seq(cols, j requires 0 <= j => ax(i, j))))
  }

  /** `[[axis] for axis in axes]`. */
  function Column<A>(items: seq<A>): (r: seq<seq<A>>)
    ensures |r| == |items| && forall i :: 0 <= i < |items| ==> r[i] == [items[i]]
  {
    if |items| == 0 then [] else [[items[0]]] + Column(items[1..])
  }

  /** `reshape_axes_array`. */
  function ReshapeAxes<A>(axes: Axes<A>, rows: nat, cols: nat): (r: seq<seq<A>>)
    requires rows >= 1 && cols >= 1 && Fits(axes, rows, cols)
    ensures |r| == rows && forall i :: 0 <= i < rows ==> |r[i]| == cols
  {
    if rows == 1 && cols == 1 then [[axes.a]]
    else if rows == 1 then [axes.items]
    else if cols == 1 then Column(axes.items)
    else axes.cells
  }

  /** Reshaping what `plt.subplots` returned puts subplot (i, j) at row i, column j. */
  lemma ReshapeSubplots<A>(rows: nat, cols: nat, ax: (nat, nat) -> A)
    requires rows >= 1 && cols >= 1
    ensures var r := ReshapeAxes(Subplots(rows, cols, ax), rows, cols);
      forall i, j :: 0 <= i < rows && 0 <= j < cols ==> r[i][j] == ax(i, j)
  {
  }

  // ---------- the y-range of a uniform grid ----------

  /** What `per_cell_draw` returned for a drawn cell: its (min, max), each
      None when it is None, NaN or infinite. */
  datatype Bound = Bound(lo: Option<real>, hi: Option<real>)

  /** The finite lower bounds among the cells, in order. */
  function FiniteLows(bs: seq<Option<Bound>>): seq<real> {
    if |bs| == 0 then []
    else
      var last := bs[|bs| - 1];
      FiniteLows(bs[..|bs| - 1]) + (if last.Some? && last.value.lo.Some? then [last.value.lo.value] else [])
  }

  /** The finite upper bounds among the cells, in order. */
  function FiniteHighs(bs: seq<Option<Bound>>): seq<real> {
    if |bs| == 0 then []
    else
      var last := bs[|bs| - 1];
      FiniteHighs(bs[..|bs| - 1]) + (if last.Some? && last.value.hi.Some? then [last.value.hi.value] else [])
  }

  function Max(a: real, b: real): real { if a >= b then a else b }

  /** The y-limits a page of a uniform grid gets: the smallest finite lower
      bound and the largest finite upper bound, each padded by
      0.05 · max(1, |ymax − ymin|); None when the scale mode is not
      'uniform-grid' or either side has no finite bound. */
  function UniformLimits(scaleMode: string, bs: seq<Option<Bound>>): Option<(real, real)> {
    var lows := FiniteLows(bs);
    var highs := FiniteHighs(bs);
    if scaleMode == "uniform-grid" && |lows| > 0 && |highs| > 0 then
      var lo := MinOf(lows);
      var hi := MaxOf(highs);
      var pad := 0.05 * Max(1.0, Abs(hi - lo));
      Some((lo - pad, hi + pad))
    else None
  }

  /** Every finite bound lies inside the limits, and both sides get the
      same pad of at least 0.05. */
  lemma UniformLimitsContain(scaleMode: string, bs: seq<Option<Bound>>)
    requires UniformLimits(scaleMode, bs).Some?
    ensures var (yLo, yHi) := UniformLimits(scaleMode, bs).value;
      var lo := MinOf(FiniteLows(bs));
      var hi := MaxOf(FiniteHighs(bs));
      lo - yLo == yHi - hi >= 0.05 &&
      (forall x :: x in FiniteLows(bs) ==> yLo + 0.05 <= x) &&
      (forall x :: x in FiniteHighs(bs) ==> x <= yHi - 0.05)
  {
    var lows := FiniteLows(bs);
    var highs := FiniteHighs(bs);
    assert forall x :: x in lows ==> MinOf(lows) <= x by {
      forall x | x in lows ensures MinOf(lows) <= x {
        var i :| 0 <= i < |lows| && lows[i] == x;
      }
    }
    assert forall x :: x in highs ==> x <= MaxOf(highs) by {
      forall x | x in highs ensures x <= MaxOf(highs) {
        var i :| 0 <= i < |highs| && highs[i] == x;
      }
    }
  }

  lemma FiniteSnoc(bs: seq<Option<Bound>>, b: Option<Bound>)
    ensures FiniteLows(bs + [b]) == FiniteLows(bs) + (if b.Some? && b.value.lo.Some? then [b.value.lo.value] else [])
    ensures FiniteHighs(bs + [b]) == FiniteHighs(bs) + (if b.Some? && b.value.hi.Some? then [b.value.hi.value] else [])
  {
    assert (bs + [b])[..|bs|] == bs;
  }

  /** A cell whose bounds are both non-finite, or which drew nothing, leaves
      the limits as they were. */
  lemma UniformLimitsIgnoreNonFinite(scaleMode: string, bs: seq<Option<Bound>>, b: Option<Bound>)
    requires b.None? || (b.value.lo.None? && b.value.hi.None?)
    ensures UniformLimits(scaleMode, bs + [b]) == UniformLimits(scaleMode, bs)
  {
    FiniteSnoc(bs, b);
    assert FiniteLows(bs) + [] == FiniteLows(bs);
    assert FiniteHighs(bs) + [] == FiniteHighs(bs);
  }

  lemma MinOfSnoc(s: seq<real>, x: real)
    requires |s| > 0
    ensures MinOf(s + [x]) == if MinOf(s) <= x then MinOf(s) else x
  {
    assert (s + [x])[..|s|] == s;
  }

  lemma MaxOfSnoc(s: seq<real>, x: real)
    requires |s| > 0
    ensures MaxOf(s + [x]) == if MaxOf(s) >= x then MaxOf(s) else x
  {
    assert (s + [x])[..|s|] == s;
  }

  /** The running `y_min` after one more cell, as `render_label_grid` updates it. */
  function NextMin(yMin: Option<real>, d: Option<real>): Option<real> {
    if d.None? then yMin
    else if yMin.None? then d
    else Some(if yMin.value <= d.value then yMin.value else d.value)
  }

  /** The running `y_max` after one more cell. */
  function NextMax(yMax: Option<real>, d: Option<real>): Option<real> {
    if d.None? then yMax
    else if yMax.None? then d
    else Some(if yMax.value >= d.value then yMax.value else d.value)
  }

  /** The smallest finite lower bound so far, None before the first. */
  function LowSoFar(bs: seq<Option<Bound>>): Option<real> {
    var lows := FiniteLows(bs);
    if |lows| == 0 then None else Some(MinOf(lows))
  }

  /** The largest finite upper bound so far, None before the first. */
  function HighSoFar(bs: seq<Option<Bound>>): Option<real> {
    var highs := FiniteHighs(bs);
    if |highs| == 0 then None else Some(MaxOf(highs))
  }

  lemma LowStep(bs: seq<Option<Bound>>, b: Option<Bound>)
    ensures LowSoFar(bs + [b]) == NextMin(LowSoFar(bs), if b.Some? then b.value.lo else None)
  {
    FiniteSnoc(bs, b);
    var lows := FiniteLows(bs);
    if b.Some? && b.value.lo.Some? {
      if |lows| > 0 {
        MinOfSnoc(lows, b.value.lo.value);
      } else {
        assert lows + [b.value.lo.value] == [b.value.lo.value];
      }
    } else {
      assert lows + [] == lows;
    }
  }

  lemma HighStep(bs: seq<Option<Bound>>, b: Option<Bound>)
    ensures HighSoFar(bs + [b]) == NextMax(HighSoFar(bs), if b.Some? then b.value.hi else None)
  {
    FiniteSnoc(bs, b);
    var highs := FiniteHighs(bs);
    if b.Some? && b.value.hi.Some? {
      if |highs| > 0 {
        MaxOfSnoc(highs, b.value.hi.value);
      } else {
        assert highs + [b.value.hi.value] == [b.value.hi.value];
      }
    } else {
      assert highs + [] == highs;
    }
  }

  /** The running `y_min`/`y_max` of `render_label_grid` over one page's cells,
      then the uniform-grid padding. */
  method PageYLimits(scaleMode: string, bs: seq<Option<Bound>>) returns (r: Option<(real, real)>)
    ensures r == UniformLimits(scaleMode, bs)
  {
    var yMin: Option<real> := None;
    var yMax: Option<real> := None;
    var i := 0;
    while i < |bs|
      invariant 0 <= i <= |bs|
      invariant yMin == LowSoFar(bs[..i]) && yMax == HighSoFar(bs[..i])
    {
      assert bs[..i + 1] == bs[..i] + [bs[i]];
      LowStep(bs[..i], bs[i]);
      HighStep(bs[..i], bs[i]);
      if bs[i].Some? {
        var Bound(dmin, dmax) := bs[i].value;
        if dmin.Some? {
          yMin := if yMin.None? then dmin else Some(if yMin.value <= dmin.value then yMin.value else dmin.value);
        }
        if dmax.Some? {
          yMax := if yMax.None? then dmax else Some(if yMax.value >= dmax.value then yMax.value else dmax.value);
        }
      }
      i := i + 1;
    }
    assert bs[..i] == bs;
    if scaleMode == "uniform-grid" && yMin.Some? && yMax.Some? {
      var pad := 0.05 * Max(1.0, Abs(yMax.value - yMin.value));
      r := Some((yMin.value - pad, yMax.value + pad));
    } else {
      r := None;
    }
  }
}

=== FILE: legacy_params.dfy ===
/** The older parameter schemas (backend/app/schemas/filter_schema.py), which
    the stage processor imports: every cleaning step on by default, a 60 Hz
    notch, no remove-only ASR flag, exact-match time keywords and a
    post-construction hook on the PSD parameters. Each part is related to
    its counterpart in the newer facets. */
module LegacyFacet {
  import opened Wrappers
  import opened Text
  import opened PyDict
  import opened FilterFacet
  import opened EpochFacet
  import opened EvokedFacet

  /** The older `FilterParams`. */
  datatype LegacyFilterParams = LegacyFilterParams(
    lFreq: real,
    hFreq: real,
    notch: Option<real>,
    resampleFs: real,
    channels: string,
    uvMin: Option<real>,
    uvMax: Option<real>,
    cleanFlatlineSec: Option<real>,
    cleanHfNoiseSdMax: Option<real>,
    cleanCorrMin: Option<real>,
    cleanAsrMaxStd: Option<real>,
    cleanPowerMinSd: Option<real>,
    cleanPowerMaxSd: Option<real>,
    cleanMaxOutboundPct: Option<real>,
    cleanWindowSec: Option<real>)

  /** The declared defaults: a 60 Hz notch, ±100 µV bounds, every cleaning step on. */
  const LEGACY_DEFAULTS: LegacyFilterParams := LegacyFilterParams(
    4.0, 30.0, Some(60.0), 100.0, "69-76,81-83,88,89", Some(-100.0), Some(100.0),
    Some(5.0), Some(4.0), Some(0.8), Some(20.0), Some(-100.0), Some(7.0), Some(25.0), Some(0.5))

  /** The same fields in the newer schema, with the given remove-only flag and
      no channel combining. */
  function Lift(p: LegacyFilterParams, removeOnly: Option<bool>): FilterParams {
    FilterParams(p.lFreq, p.hFreq, p.notch, p.resampleFs, p.channels, None, p.uvMin, p.uvMax,
      p.cleanFlatlineSec, p.cleanHfNoiseSdMax, p.cleanCorrMin, p.cleanAsrMaxStd,
      p.cleanPowerMinSd, p.cleanPowerMaxSd, p.cleanMaxOutboundPct, p.cleanWindowSec, removeOnly)
  }

  /** The older `filter_key`: the same four entries as the newer one. */
  function LegacyFilterKey(p: LegacyFilterParams): (d: Dict)
    ensures Keys(d) == FILTER_KEY_NAMES
  {
    [("l_freq", JFloat(p.lFreq)), ("h_freq", JFloat(p.hFreq)),
     ("notch", OptJson(p.notch)), ("resample_fs", JFloat(p.resampleFs))]
  }

  function LegacyCleanValues(p: LegacyFilterParams): seq<(string, Option<real>)> {
    [("clean_flatline_sec", p.cleanFlatlineSec), ("clean_hf_noise_sd_max", p.cleanHfNoiseSdMax),
     ("clean_corr_min", p.cleanCorrMin), ("clean_asr_max_std", p.cleanAsrMaxStd),
     ("clean_power_min_sd", p.cleanPowerMinSd), ("clean_power_max_sd", p.cleanPowerMaxSd),
     ("clean_max_outbound_pct", p.cleanMaxOutboundPct), ("clean_window_sec", p.cleanWindowSec)]
  }

  /** The older `cleaning_key`: the filter key, then each cleaning number that is set. */
  function LegacyCleaningKey(p: LegacyFilterParams): Dict {
    LegacyFilterKey(p) + PresentEntries(LegacyCleanValues(p))
  }

  /** The older `cleaning_key` as the source computes it: a loop of conditional inserts. */
  method BuildLegacyCleaningKey(p: LegacyFilterParams) returns (key: Dict)
    ensures key == LegacyCleaningKey(p)
  {
    key := LegacyFilterKey(p);
    var fields := LegacyCleanValues(p);
    for i := 0 to |fields|
      invariant key == LegacyFilterKey(p) + PresentEntries(fields[..i])
    {
      assert fields[..i + 1][..i] == fields[..i];
      if fields[i].1.Some? {
        key := key + [(fields[i].0, JFloat(fields[i].1.value))];
      }
    }
    assert fields[..|fields|] == fields;
  }

  /** The two filter keys agree field for field. */
  lemma FilterKeysAgree(p: LegacyFilterParams, ro: Option<bool>)
    ensures LegacyFilterKey(p) == FilterKey(Lift(p, ro))
  {
  }

  /** The older cleaning key is the newer one of the same fields exactly when
      remove-only ASR is not switched on; it never holds that flag. */
  lemma CleaningKeysAgree(p: LegacyFilterParams, ro: Option<bool>)
    ensures LegacyCleaningKey(p) == CleaningKey(Lift(p, ro)) <==> ro != Some(true)
    ensures Get(LegacyCleaningKey(p), REMOVE_ONLY_NAME) == None
  {
    var q := Lift(p, ro);
    assert LegacyCleanValues(p) == CleanValues(q);
    CleaningKeyFacts(q);
    CleaningKeyFacts(Lift(p, None));
    assert LegacyCleaningKey(p) == CleaningKey(Lift(p, None));
    if ro == Some(true) {
      assert |CleaningKey(q)| == |LegacyCleaningKey(p)| + 1;
    }
  }

  /** Left at their defaults, the two schemas key different cleaning: the
      older one holds the 60 Hz notch and every cleaning number, the newer
      one no notch and no cleaning number. */
  lemma DefaultKeysDiffer()
    ensures Get(LegacyCleaningKey(LEGACY_DEFAULTS), "notch") == Some(JFloat(60.0))
    ensures Get(CleaningKey(DEFAULTS), "notch") == Some(JNull)
    ensures forall i :: 0 <= i < |CLEAN_NAMES| ==>
      Get(LegacyCleaningKey(LEGACY_DEFAULTS), CLEAN_NAMES[i]).Some? && Get(CleaningKey(DEFAULTS), CLEAN_NAMES[i]) == None
  {
    LegacyDefaultKey();
    NewDefaultKey();
  }

  lemma LegacyDefaultKey()
    ensures Get(LegacyCleaningKey(LEGACY_DEFAULTS), "notch") == Some(JFloat(60.0))
    ensures forall i :: 0 <= i < |CLEAN_NAMES| ==> Get(LegacyCleaningKey(LEGACY_DEFAULTS), CLEAN_NAMES[i]).Some?
  {
    var q := Lift(LEGACY_DEFAULTS, None);
    CleaningKeysAgree(LEGACY_DEFAULTS, None);
    CleaningKeyFacts(q);
    FilterKeyGet(q);
    assert "notch" in FILTER_KEY_NAMES;
    CleanValuesSet(q);
  }

  lemma NewDefaultKey()
    ensures Get(CleaningKey(DEFAULTS), "notch") == Some(JNull)
    ensures forall i :: 0 <= i < |CLEAN_NAMES| ==> Get(CleaningKey(DEFAULTS), CLEAN_NAMES[i]) == None
  {
    CleaningKeyFacts(DEFAULTS);
    FilterKeyGet(DEFAULTS);
    assert "notch" in FILTER_KEY_NAMES;
    CleanValuesUnset(DEFAULTS);
  }

  lemma CleanValuesSet(p: FilterParams)
    requires p.cleanFlatlineSec.Some? && p.cleanHfNoiseSdMax.Some? && p.cleanCorrMin.Some?
      && p.cleanAsrMaxStd.Some? && p.cleanPowerMinSd.Some? && p.cleanPowerMaxSd.Some?
      && p.cleanMaxOutboundPct.Some? && p.cleanWindowSec.Some?
    ensures forall i :: 0 <= i < |CLEAN_NAMES| ==> CleanValues(p)[i].1.Some?
  {
    var cv := CleanValues(p);
    forall i | 0 <= i < |CLEAN_NAMES| ensures cv[i].1.Some? {
      if i < 4 {
        assert i == 0 || i == 1 || i == 2 || i == 3;
      } else {
        assert i == 4 || i == 5 || i == 6 || i == 7;
      }
    }
  }

  lemma CleanValuesUnset(p: FilterParams)
    requires p.cleanFlatlineSec.None? && p.cleanHfNoiseSdMax.None? && p.cleanCorrMin.None?
      && p.cleanAsrMaxStd.None? && p.cleanPowerMinSd.None? && p.cleanPowerMaxSd.None?
      && p.cleanMaxOutboundPct.None? && p.cleanWindowSec.None?
    ensures forall i :: 0 <= i < |CLEAN_NAMES| ==> CleanValues(p)[i].1.None?
  {
    var cv := CleanValues(p);
    forall i | 0 <= i < |CLEAN_NAMES| ensures cv[i].1.None? {
      if i < 4 {
        assert i == 0 || i == 1 || i == 2 || i == 3;
      } else {
        assert i == 4 || i == 5 || i == 6 || i == 7;
      }
    }
  }

  // ---------- epochs ----------

  /** The older `EpochParams`: the filter fields, the window and a free-text stimulus. */
  datatype LegacyEpochParams = LegacyEpochParams(
    filter: LegacyFilterParams, tmin: real, tmax: real, stimulus: Option<string>)

  /** The older `epochs_key`: the cleaning key with tmin and tmax set. */
  function LegacyEpochsKey(e: LegacyEpochParams): Dict {
    Merge(LegacyCleaningKey(e.filter), [("tmin", JFloat(e.tmin)), ("tmax", JFloat(e.tmax))])
  }

  /** Without remove-only ASR the two epochs keys of the same fields are equal,
      whatever the stimulus. */
  lemma EpochsKeysAgree(e: LegacyEpochParams, s: Option<string>)
    ensures LegacyEpochsKey(e) == EpochsKey(EpochRequest(Lift(e.filter, None), EpochParams(e.tmin, e.tmax, s)))
  {
    CleaningKeysAgree(e.filter, None);
  }

  // ---------- PSD ----------

  /** The older `PSDParams`, whose construction hook fills in the band. */
  class LegacyPsdParams {
    var lFreq: real
    var hFreq: real
    var fmin: Option<real>
    var fmax: Option<real>

    constructor (lFreq: real, hFreq: real, fmin: Option<real>, fmax: Option<real>)
      ensures this.lFreq == lFreq && this.hFreq == hFreq && this.fmin == fmin && this.fmax == fmax
    {
      this.lFreq, this.hFreq, this.fmin, this.fmax := lFreq, hFreq, fmin, fmax;
    }

    /** `model_post_init`: a missing fmin becomes l_freq and a missing fmax
        becomes h_freq; given bounds are kept. */
    method PostInit()
      modifies this
      ensures fmin == (if old(fmin).None? then Some(lFreq) else old(fmin))
      ensures fmax == (if old(fmax).None? then Some(hFreq) else old(fmax))
      ensures lFreq == old(lFreq) && hFreq == old(hFreq)
    {
      if fmin.None? {
        fmin := Some(lFreq);
      }
      if fmax.None? {
        fmax := Some(hFreq);
      }
    }
  }

  /** After the hook both bounds are set, and a second run changes nothing. */
  method PsdBand(lFreq: real, hFreq: real, fmin: Option<real>, fmax: Option<real>) returns (lo: real, hi: real)
    ensures lo == (if fmin.Some? then fmin.value else lFreq)
    ensures hi == (if fmax.Some? then fmax.value else hFreq)
  {
    var p := new LegacyPsdParams(lFreq, hFreq, fmin, fmax);
    p.PostInit();
    var once := (p.fmin, p.fmax);
    p.PostInit();
    assert (p.fmin, p.fmax) == once;
    lo, hi := p.fmin.value, p.fmax.value;
  }

  // ---------- evoked topomap times ----------

  /** The older `resolved_times`: only the exact strings "auto" and "peak"
      are keywords; otherwise as in the newer version. */
  function LegacyResolvedTimes(times: string, tmin: real, tmax: real): Times {
    if times == "auto" || times == "peak" then Keyword(times)
    else
      var values := InWindow(FindNumbers(times), tmin, tmax);
      if |values| == 0 then Keyword("auto") else Values(values)
  }

  /** The two versions agree on the exact keywords and on any text that is not
      a keyword in either spelling. */
  lemma ResolvedTimesAgree(times: string, tmin: real, tmax: real)
    requires times == "auto" || times == "peak" ||
      (Lower(Strip(times)) != "auto" && Lower(Strip(times)) != "peak")
    ensures LegacyResolvedTimes(times, tmin, tmax) == ResolvedTimes(times, tmin, tmax)
  {
    if times == "auto" {
      KeywordAuto();
    } else if times == "peak" {
      KeywordPeak();
    }
  }

  lemma KeywordAuto()
    ensures Lower(Strip("auto")) == "auto"
  {
    StripNoSpace("auto");
    assert Lower("auto") == "auto";
  }

  lemma KeywordPeak()
    ensures Lower(Strip("peak")) == "peak"
  {
    StripNoSpace("peak");
    assert Lower("peak") == "peak";
  }

  /** A keyword written with capitals or surrounding spaces is honoured only
      by the newer version; the older one finds no number in it and falls
      back to "auto". */
  lemma KeywordSpellingDiffers(times: string, tmin: real, tmax: real)
    requires Lower(Strip(times)) == "peak" && times != "peak"
    ensures ResolvedTimes(times, tmin, tmax) == Keyword("peak")
    ensures LegacyResolvedTimes(times, tmin, tmax) == Keyword("auto")
  {
    NoDigitsInKeyword(times);
    FindNumbersNoDigits(times);
  }

  /** Text that strips and lower-cases to "peak" holds no digit. */
  lemma NoDigitsInKeyword(times: string)
    requires Lower(Strip(times)) == "peak"
    ensures forall i :: 0 <= i < |times| ==> !IsDigit(times[i])
  {
    var a, b := StripBounds(times);
    var t := Strip(times);
    forall i | 0 <= i < |times| ensures !IsDigit(times[i]) {
      if i < a {
        assert times[..a][i] == times[i];
      } else if i >= b {
        assert times[b..][i - b] == times[i];
      } else {
        assert t[i - a] == times[i];
        assert Lower(t)[i - a] == LowerChar(times[i]);
      }
    }
  }
}

=== FILE: local_cache.dfy ===
/** `LocalCache` (backend/app/core/cache_manager.py): a file store under a
    base directory holding filtered recordings, epochs with a labels
    sidecar, and evoked responses. The file system is a map from path to
    content; whether a file parses as the expected artifact is read off its
    content. Whether a rename, an unlink or an epochs write succeeds is
    decided by the environment and passed in. */
module Cache {
  import opened Wrappers
  import opened PyDict
  import opened CacheKeys
  import opened Eeg

  /** What a file holds. `Unreadable` stands for a truncated or foreign file. */
  datatype Content =
    | RawFile(raw: Raw)
    | EpochsFile(epochs: Epochs)
    | EvokedFile(evokeds: seq<Evoked>)
    | LabelsFile(labels: Json)
    | Unreadable

  type Store = map<string, Content>

  /** `mne.io.read_raw_fif` succeeds only on a stored recording. */
  function ParseRaw(c: Content): Option<Raw> {
    if c.RawFile? then Some(c.raw) else None
  }

  /** `mne.read_epochs` succeeds only on stored epochs. */
  function ParseEpochs(c: Content): Option<Epochs> {
    if c.EpochsFile? then Some(c.epochs) else None
  }

  /** `mne.read_evokeds` succeeds only on a stored list of evoked responses. */
  function ParseEvokeds(c: Content): Option<seq<Evoked>> {
    if c.EvokedFile? then Some(c.evokeds) else None
  }

  /** `json.load` on the labels sidecar. */
  function ParseLabels(c: Content): Option<Json> {
    if c.LabelsFile? then Some(c.labels) else None
  }

  /** `src.rename(dst)`: the content moves, replacing whatever `dst` held. */
  function Rename(files: Store, src: string, dst: string): (r: Store)
    requires src in files
    ensures src != dst ==> src !in r
    ensures dst in r && r[dst] == files[src]
    ensures forall q :: q != src && q != dst ==> (q in r <==> q in files) && (q in files ==> r[q] == files[q])
  {
    (files - {src})[dst := files[src]]
  }

  // ---------- filtered recordings ----------

  /** What `load_raw_filtered` returns for the file at `p`. */
  function LoadRawResult(files: Store, p: string): Option<Raw> {
    if p in files then ParseRaw(files[p]) else None
  }

  /** The store after `load_raw_filtered`: an unreadable file is renamed to
      `<p>.bad` when the rename succeeds, and left alone otherwise. */
  function LoadRawStore(files: Store, p: string, renameOk: bool): Store {
    if p in files && ParseRaw(files[p]).None? && renameOk then Rename(files, p, BadPath(p))
    else files
  }

  /** The store after `save_raw_filtered(raw, key)`: the file is overwritten. */
  function SaveRawStore(files: Store, p: string, raw: Raw): Store {
    files[p := RawFile(raw)]
  }

  // ---------- epochs and their labels sidecar ----------

  /** Reading the sidecar: absent gives no labels; present but not JSON fails. */
  function ReadLabels(files: Store, lp: string): Result<Option<Json>, string> {
    if lp !in files then Ok(None)
    else match ParseLabels(files[lp])
      case Some(j) => Ok(Some(j))
      case None => Err("JSONDecodeError")
  }

  /** The read inside `load_epochs` fails: the epochs or the sidecar do not parse. */
  predicate EpochsReadFails(files: Store, p: string, lp: string) {
    p in files && (ParseEpochs(files[p]).None? || ReadLabels(files, lp).Err?)
  }

  /** What `load_epochs` returns: `(epochs, labels)` or `(None, None)`. */
  function LoadEpochsResult(files: Store, p: string, lp: string): (Option<Epochs>, Option<Json>) {
    if p !in files || EpochsReadFails(files, p, lp) then (None, None)
    else (ParseEpochs(files[p]), ReadLabels(files, lp).value)
  }

  /** The store after `load_epochs`. On a failed read the epochs file is
      renamed to `.bad`; if that worked, the sidecar is renamed to `.bad`,
      or unlinked when its rename fails. */
  function LoadEpochsStore(files: Store, p: string, lp: string, renameOk: bool, labelsRenameOk: bool, unlinkOk: bool): Store {
    if !EpochsReadFails(files, p, lp) || !renameOk then files
    else
      var moved := Rename(files, p, BadPath(p));
      if lp in moved && lp != p then
        if labelsRenameOk then Rename(moved, lp, BadPath(lp))
        else if unlinkOk then moved - {lp}
        else moved
      else moved
  }

  /** The store after `save_epochs(epochs, key, labels)`. A failed write
      leaves the store as it was; labels are written only when given. */
  function SaveEpochsStore(files: Store, p: string, lp: string, epochs: Epochs, labels: Option<Json>, writeOk: bool): Store {
    if !writeOk then files
    else if labels.Some? then files[p := EpochsFile(epochs)][lp := LabelsFile(labels.value)]
    else files[p := EpochsFile(epochs)]
  }

  // ---------- evoked responses ----------

  /** What `load_evoked` returns: the first stored response, or None. */
  function LoadEvokedResult(files: Store, p: string): Option<Evoked> {
    if p !in files then None
    else match ParseEvokeds(files[p])
      case Some(list) => if |list| > 0 then Some(list[0]) else None
      case None => None
  }

  /** The store after `save_evoked(evoked, key)`. */
  function SaveEvokedStore(files: Store, p: string, evoked: Evoked): Store {
    files[p := EvokedFile([evoked])]
  }

  /** The cache object: its base directory, the version it stamps into keys,
      the digest it names files by, and the file system it works on. */
  class LocalCache {
    const base: string
    const pipelineVer: string
    const digest: Digest
    var files: Store
    var dirs: set<string>

    /** `LocalCache(base_dir, pipeline_ver)`: the base directory is created. */
    constructor(base: string, pipelineVer: string, digest: Digest, files: Store, dirs: set<string>)
      ensures this.base == base && this.pipelineVer == pipelineVer && this.digest == digest
      ensures this.files == files && this.dirs == dirs + {base}
    {
      this.base := base;
      this.pipelineVer := pipelineVer;
      this.digest := digest;
      this.files := files;
      this.dirs := dirs + {base};
    }

    function Path(k: CacheKey, a: Artifact): string
      reads this
    {
      CacheKeys.PathFor(base, k, a, digest)
    }

    function Labels(k: CacheKey): string
      reads this
    {
      LabelsPath(base, k, digest)
    }

    /** `_path_for`: the key's directory chain now exists. */
    method PathFor(k: CacheKey, a: Artifact) returns (p: string)
      modifies this`dirs
      ensures p == Path(k, a)
      ensures dirs == old(dirs) + DirsFor(base, k)
    {
      dirs := dirs + DirsFor(base, k);
      p := CacheKeys.PathFor(base, k, a, digest);
    }

    method LoadRawFiltered(k: CacheKey, renameOk: bool) returns (r: Option<Raw>)
      modifies this
      ensures r == LoadRawResult(old(files), Path(k, RawFiltered))
      ensures files == LoadRawStore(old(files), Path(k, RawFiltered), renameOk)
      ensures dirs == old(dirs) + DirsFor(base, k)
    {
      var p := PathFor(k, RawFiltered);
      if p !in files {
        return None;
      }
      var parsed := ParseRaw(files[p]);
      if parsed.Some? {
        return parsed;
      }
      if renameOk {
        files := Rename(files, p, BadPath(p));
      }
      return None;
    }

    method SaveRawFiltered(raw: Raw, k: CacheKey) returns (p: string)
      modifies this
      ensures p == Path(k, RawFiltered)
      ensures files == SaveRawStore(old(files), p, raw)
      ensures dirs == old(dirs) + DirsFor(base, k)
    {
      p := PathFor(k, RawFiltered);
      files := files[p := RawFile(raw)];
    }

    method LoadEpochs(k: CacheKey, renameOk: bool, labelsRenameOk: bool, unlinkOk: bool)
      returns (epochs: Option<Epochs>, labels: Option<Json>)
      modifies this
      ensures (epochs, labels) == LoadEpochsResult(old(files), Path(k, EpochsArtifact), Labels(k))
      ensures files == LoadEpochsStore(old(files), Path(k, EpochsArtifact), Labels(k), renameOk, labelsRenameOk, unlinkOk)
      ensures dirs == old(dirs) + DirsFor(base, k)
    {
      var p := PathFor(k, EpochsArtifact);
      var lp := LabelsPath(base, k, digest);
      if p !in files {
        return None, None;
      }
      var parsed := ParseEpochs(files[p]);
      var read := ReadLabels(files, lp);
      if parsed.Some? && read.Ok? {
        return parsed, read.value;
      }
      // quarantine and report a miss
      if renameOk {
        files := Rename(files, p, BadPath(p));
        if lp in files && lp != p {
          if labelsRenameOk {
            files := Rename(files, lp, BadPath(lp));
          } else if unlinkOk {
            files := files - {lp};
          }
        }
      }
      return None, None;
    }

    method SaveEpochs(e: Epochs, k: CacheKey, labels: Option<Json>, writeOk: bool) returns (p: string)
      modifies this
      ensures p == Path(k, EpochsArtifact)
      ensures files == SaveEpochsStore(old(files), p, Labels(k), e, labels, writeOk)
      ensures dirs == old(dirs) + DirsFor(base, k)
    {
      p := PathFor(k, EpochsArtifact);
      if !writeOk {
        return;
      }
      files := files[p := EpochsFile(e)];
      if labels.Some? {
        files := files[LabelsPath(base, k, digest) := LabelsFile(labels.value)];
      }
    }

    method LoadEvoked(k: CacheKey) returns (r: Option<Evoked>)
      modifies this`dirs
      ensures r == LoadEvokedResult(files, Path(k, EvokedArtifact))
      ensures dirs == old(dirs) + DirsFor(base, k)
    {
      var p := PathFor(k, EvokedArtifact);
      if p !in files {
        return None;
      }
      match ParseEvokeds(files[p])
      case Some(list) =>
        r := if |list| > 0 then Some(list[0]) else None;
      case None =>
        r := None;
    }

    method SaveEvoked(e: Evoked, k: CacheKey) returns (p: string)
      modifies this
      ensures p == Path(k, EvokedArtifact)
      ensures files == SaveEvokedStore(old(files), p, e)
      ensures dirs == old(dirs) + DirsFor(base, k)
    {
      p := PathFor(k, EvokedArtifact);
      files := files[p := EvokedFile([e])];
    }
  }

  // ---------- properties of the store transitions ----------

  /** A missing file is a miss, for every artifact, and loading it leaves
      the files as they were. */
  lemma LoadMissIsNoop(files: Store, p: string, lp: string, renameOk: bool, labelsRenameOk: bool, unlinkOk: bool)
    requires p !in files
    ensures LoadRawResult(files, p) == None && LoadRawStore(files, p, renameOk) == files
    ensures LoadEpochsResult(files, p, lp) == (None, None)
    ensures LoadEpochsStore(files, p, lp, renameOk, labelsRenameOk, unlinkOk) == files
    ensures LoadEvokedResult(files, p) == None
  {
  }

  /** Saving a recording and loading it back gives the recording; the load
      then changes nothing. */
  lemma RawRoundTrip(files: Store, p: string, raw: Raw, renameOk: bool)
    ensures LoadRawResult(SaveRawStore(files, p, raw), p) == Some(raw)
    ensures LoadRawStore(SaveRawStore(files, p, raw), p, renameOk) == SaveRawStore(files, p, raw)
  {
  }

  /** Saving an evoked response and loading it back gives the response. */
  lemma EvokedRoundTrip(files: Store, p: string, evoked: Evoked)
    ensures LoadEvokedResult(SaveEvokedStore(files, p, evoked), p) == Some(evoked)
  {
  }

  /** Saving epochs with labels and loading them back gives both. */
  lemma EpochsRoundTrip(files: Store, p: string, lp: string, e: Epochs, labels: Json)
    requires lp != p
    ensures LoadEpochsResult(SaveEpochsStore(files, p, lp, e, Some(labels), true), p, lp) == (Some(e), Some(labels))
  {
    var s := SaveEpochsStore(files, p, lp, e, Some(labels), true);
    assert s[p] == EpochsFile(e) && s[lp] == LabelsFile(labels);
  }

  /** Saving under one path does not change what another path loads. */
  lemma SaveLeavesOtherPaths(files: Store, p: string, q: string, lp: string, raw: Raw, evoked: Evoked)
    requires q != p
    ensures LoadRawResult(SaveRawStore(files, p, raw), q) == LoadRawResult(files, q)
    ensures LoadEvokedResult(SaveEvokedStore(files, p, evoked), q) == LoadEvokedResult(files, q)
  {
  }

  /** An unreadable recording is moved to `<p>.bad` when the rename works,
      so the next load is a miss; when the rename fails it stays in place.
      Either way the load reports a miss. */
  lemma RawQuarantine(files: Store, p: string, renameOk: bool)
    requires p in files && ParseRaw(files[p]).None?
    ensures LoadRawResult(files, p) == None
    ensures renameOk ==> (p !in LoadRawStore(files, p, renameOk)
      && LoadRawStore(files, p, renameOk)[BadPath(p)] == files[p])
    ensures !renameOk ==> LoadRawStore(files, p, renameOk) == files
  {
    assert p != BadPath(p) by { assert |BadPath(p)| == |p| + 4; }
  }

  /** An unreadable evoked file is never moved or removed. */
  lemma EvokedNotQuarantined(files: Store, p: string)
    requires p in files && ParseEvokeds(files[p]).None?
    ensures LoadEvokedResult(files, p) == None
  {
  }

  /** An epochs file that does not parse, or whose sidecar is not JSON, is
      moved to `.bad`; the sidecar goes to `.bad` too, or is deleted when
      that rename fails. */
  lemma EpochsQuarantine(files: Store, p: string, lp: string, labelsRenameOk: bool, unlinkOk: bool)
    requires EpochsReadFails(files, p, lp) && lp != p
    requires lp != BadPath(p) && p != BadPath(lp)
    ensures LoadEpochsResult(files, p, lp) == (None, None)
    ensures var s := LoadEpochsStore(files, p, lp, true, labelsRenameOk, unlinkOk);
      p !in s && s[BadPath(p)] == files[p]
      && (lp in files && labelsRenameOk ==> lp !in s && s[BadPath(lp)] == files[lp])
      && (lp in files && !labelsRenameOk && unlinkOk ==> lp !in s)
  {
    assert p != BadPath(p) by { assert |BadPath(p)| == |p| + 4; }
    assert lp != BadPath(lp) by { assert |BadPath(lp)| == |lp| + 4; }
    BadPathInjective(lp, p);
  }

  /** A failed epochs write changes nothing (and `save_epochs` still returns the path). */
  lemma FailedEpochsWriteIsNoop(files: Store, p: string, lp: string, e: Epochs, labels: Option<Json>)
    ensures SaveEpochsStore(files, p, lp, e, labels, false) == files
  {
  }

  /** Saving epochs without labels keeps an older sidecar, whose labels the
      next load returns next to the new epochs. */
  lemma StaleLabelsSurvive(files: Store, p: string, lp: string, e1: Epochs, e2: Epochs, old_labels: Json)
    requires lp != p
    ensures var s := SaveEpochsStore(SaveEpochsStore(files, p, lp, e1, Some(old_labels), true), p, lp, e2, None, true);
      LoadEpochsResult(s, p, lp) == (Some(e2), Some(old_labels))
  {
    var s1 := SaveEpochsStore(files, p, lp, e1, Some(old_labels), true);
    var s := SaveEpochsStore(s1, p, lp, e2, None, true);
    assert s[p] == EpochsFile(e2) && s[lp] == LabelsFile(old_labels);
  }
}

=== FILE: numbers.dfy ===
/** The integer conversions of reals that the pipeline takes from Python and
    NumPy: `round` (ties to even, as both `round` and `np.round` do),
    `np.floor` and `np.ceil`. Reals are mathematical, not IEEE doubles. */
module Numbers {

  /** `round(x)` / `np.round(x)`: the nearest integer, ties to the even one. */
  function RoundHalfEven(x: real): (n: int)
    ensures -(1.0 / 2.0) <= n as real - x <= 1.0 / 2.0
    ensures (n as real - x == 1.0 / 2.0 || x - n as real == 1.0 / 2.0) ==> n % 2 == 0
  {
    var f := x.Floor;
    var d := x - f as real;
    if d < 1.0 / 2.0 then f
    else if d > 1.0 / 2.0 then f + 1
    else if f % 2 == 0 then f else f + 1
  }

  /** No integer is closer to `x` than its rounding. */
  lemma RoundIsNearest(x: real, m: int)
    ensures Abs(RoundHalfEven(x) as real - x) <= Abs(m as real - x)
  {
    var n := RoundHalfEven(x);
    if m < n {
      assert m as real <= n as real - 1.0;
    } else if m > n {
      assert m as real >= n as real + 1.0;
    }
  }

  /** `round(sec * sfreq)`: a duration in seconds as a number of samples. */
  function Samples(sec: real, sfreq: real): (n: int)
    ensures -(1.0 / 2.0) <= n as real - sec * sfreq <= 1.0 / 2.0
  {
    RoundHalfEven(sec * sfreq)
  }

  function Abs(x: real): (r: real)
    ensures r >= 0.0 && (r == x || r == -x)
  {
    if x < 0.0 then -x else x
  }

  /** `np.floor` as an integer. */
  function Floor(x: real): (n: int)
    ensures n as real <= x < n as real + 1.0
  {
    x.Floor
  }

  /** `np.ceil` as an integer. */
  function Ceil(x: real): (n: int)
    ensures n as real - 1.0 < x <= n as real
  {
    -((-x).Floor)
  }

  /** The largest and smallest of a non-empty sequence (`max`/`min`, `np.nanmax`/`np.nanmin` without NaN). */
  function MaxOf(s: seq<real>): (m: real)
    requires |s| > 0
    ensures forall i :: 0 <= i < |s| ==> s[i] <= m
    ensures exists i :: 0 <= i < |s| && s[i] == m
  {
    if |s| == 1 then s[0]
    else
      var m := MaxOf(s[..|s| - 1]);
      if s[|s| - 1] > m then s[|s| - 1] else m
  }

  function MinOf(s: seq<real>): (m: real)
    requires |s| > 0
    ensures forall i :: 0 <= i < |s| ==> m <= s[i]
    ensures exists i :: 0 <= i < |s| && s[i] == m
  {
    if |s| == 1 then s[0]
    else
      var m := MinOf(s[..|s| - 1]);
      if s[|s| - 1] < m then s[|s| - 1] else m
  }
}

=== FILE: participants.dfy ===
/** `ParticipantManager` of backend/app/core/participants_loader.py: which
    (task, run) pairs each subject has on disk, the check of a release's
    participants table against those files, the task names the table
    offers, and the subject limit of a cohort query. The file system is a
    fixed `Disk` value: the directories that exist and, for each `eeg`
    directory, its file names in the order `glob` yields them. */
module Participants {
  import opened Wrappers
  import opened Text
  import opened TaskNames

  datatype Disk = Disk(dirs: set<string>, listings: map<string, seq<string>>)

  function SubjectDir(releaseDir: string, subject: string): string {
    releaseDir + "/" + subject
  }

  function EegDir(releaseDir: string, subject: string): string {
    SubjectDir(releaseDir, subject) + "/eeg"
  }

  predicate Distinct<T(==)>(s: seq<T>) {
    forall i, j :: 0 <= i < j < |s| ==> s[i] != s[j]
  }

  /** A pair as the patterns read it: a non-empty task without "_", and a
      run of digits when there is one. */
  predicate WellFormedPair(p: Pair) {
    p.0 != "" && '_' !in p.0 && (p.1.Some? ==> p.1.value != "" && AllDigits(p.1.value))
  }

  // ---------- _subject_task_pairs ----------

  /** The pairs read from the names that match the subject's pattern, in
      listing order, repeats included. */
  function SubjectParsed(subject: string, files: seq<string>): (ps: seq<Pair>)
    ensures forall p :: p in ps ==> WellFormedPair(p)
  {
    if |files| == 0 then []
    else
      var init := SubjectParsed(subject, files[..|files| - 1]);
      match SubjectPair(subject, files[|files| - 1])
      case Some(p) => init + [p]
      case None => init
  }

  /** What `_subject_task_pairs` finds on disk: the distinct pairs in
      first-seen order, or none when the `eeg` directory does not exist. */
  function SubjectPairs(disk: Disk, releaseDir: string, subject: string): (ps: seq<Pair>)
    ensures Distinct(ps)
    ensures forall p :: p in ps ==> WellFormedPair(p)
    ensures EegDir(releaseDir, subject) !in disk.listings ==> ps == []
  {
    var dir := EegDir(releaseDir, subject);
    if dir in disk.listings then Dedup(SubjectParsed(subject, disk.listings[dir])) else []
  }

  /** One more parsed pair: `if pair not in out: out.append(pair)`. */
  lemma DedupSnoc(ps: seq<Pair>, p: Pair)
    ensures Dedup(ps + [p]) == if p in Dedup(ps) then Dedup(ps) else Dedup(ps) + [p]
  {
    assert (ps + [p])[..|ps|] == ps;
  }

  // ---------- _discover_tasks ----------

  /** A subject directory as the scan sees it: its name and, when it has
      an `eeg` directory, the names in it. */
  datatype SubjectEntry = SubjectEntry(name: string, eeg: Option<seq<string>>)

  /** `if pair not in task_map[subj]: task_map[subj].append(pair)`. */
  function AddPair(m: map<string, seq<Pair>>, subject: string, p: Pair): map<string, seq<Pair>> {
    var listed := if subject in m then m[subject] else [];
    if p in listed then m else m[subject := listed + [p]]
  }

  /** The index after the names `files` of one subject's `eeg` directory. */
  function DiscoverFiles(m: map<string, seq<Pair>>, subject: string, files: seq<string>): map<string, seq<Pair>> {
    if |files| == 0 then m
    else
      var m1 := DiscoverFiles(m, subject, files[..|files| - 1]);
      match DiscoverPair(files[|files| - 1])
      case Some(p) => AddPair(m1, subject, p)
      case None => m1
  }

  /** The index `_discover_tasks` builds from the subject directories. */
  function DiscoverAll(entries: seq<SubjectEntry>): map<string, seq<Pair>> {
    if |entries| == 0 then map[]
    else
      var m := DiscoverAll(entries[..|entries| - 1]);
      var e := entries[|entries| - 1];
      match e.eeg
      case Some(files) => DiscoverFiles(m, e.name, files)
      case None => m
  }

  /** Every subject in the index has at least one pair, no pair twice, and
      only pairs the pattern can produce. */
  ghost predicate GoodIndex(m: map<string, seq<Pair>>) {
    forall s :: s in m ==> |m[s]| > 0 && Distinct(m[s]) && forall p :: p in m[s] ==> WellFormedPair(p)
  }

  lemma AddPairGood(m: map<string, seq<Pair>>, subject: string, p: Pair)
    requires GoodIndex(m) && WellFormedPair(p)
    ensures GoodIndex(AddPair(m, subject, p))
    ensures subject in AddPair(m, subject, p) && p in AddPair(m, subject, p)[subject]
  {
  }

  lemma {:induction false} DiscoverFilesGood(m: map<string, seq<Pair>>, subject: string, files: seq<string>)
    requires GoodIndex(m)
    ensures GoodIndex(DiscoverFiles(m, subject, files))
    ensures m.Keys <= DiscoverFiles(m, subject, files).Keys
    decreases |files|
  {
    if |files| > 0 {
      DiscoverFilesGood(m, subject, files[..|files| - 1]);
      var m1 := DiscoverFiles(m, subject, files[..|files| - 1]);
      match DiscoverPair(files[|files| - 1])
      case Some(p) => AddPairGood(m1, subject, p);
      case None =>
    }
  }

  /** The task index is always good: a subject is listed only with a
      non-empty list of distinct, well-formed pairs. */
  lemma {:induction false} DiscoverAllGood(entries: seq<SubjectEntry>)
    ensures GoodIndex(DiscoverAll(entries))
    decreases |entries|
  {
    if |entries| > 0 {
      DiscoverAllGood(entries[..|entries| - 1]);
      var e := entries[|entries| - 1];
      if e.eeg.Some? {
        DiscoverFilesGood(DiscoverAll(entries[..|entries| - 1]), e.name, e.eeg.value);
      }
    }
  }

  /** Adding a pair loses no pair already listed. */
  lemma AddPairKeeps(m: map<string, seq<Pair>>, subject: string, p: Pair, s: string, q: Pair)
    requires s in m && q in m[s]
    ensures s in AddPair(m, subject, p) && q in AddPair(m, subject, p)[s]
  {
  }

  lemma {:induction false} DiscoverFilesKeeps(m: map<string, seq<Pair>>, subject: string, files: seq<string>, s: string, q: Pair)
    requires s in m && q in m[s]
    ensures s in DiscoverFiles(m, subject, files) && q in DiscoverFiles(m, subject, files)[s]
    decreases |files|
  {
    if |files| > 0 {
      DiscoverFilesKeeps(m, subject, files[..|files| - 1], s, q);
      var m1 := DiscoverFiles(m, subject, files[..|files| - 1]);
      match DiscoverPair(files[|files| - 1])
      case Some(p) => AddPairKeeps(m1, subject, p, s, q);
      case None =>
    }
  }

  /** A file the pattern accepts puts its pair under its subject. */
  lemma {:induction false} DiscoverFilesFinds(m: map<string, seq<Pair>>, subject: string, files: seq<string>, k: nat)
    requires k < |files| && DiscoverPair(files[k]).Some?
    ensures subject in DiscoverFiles(m, subject, files)
    ensures DiscoverPair(files[k]).value in DiscoverFiles(m, subject, files)[subject]
    decreases |files|
  {
    var m1 := DiscoverFiles(m, subject, files[..|files| - 1]);
    if k < |files| - 1 {
      assert files[..|files| - 1][k] == files[k];
      DiscoverFilesFinds(m, subject, files[..|files| - 1], k);
      match DiscoverPair(files[|files| - 1])
      case Some(p) => AddPairKeeps(m1, subject, p, subject, DiscoverPair(files[k]).value);
      case None =>
    }
  }

  /** Every pair the pattern accepts in a subject's `eeg` directory is in
      the index under that subject's directory name. */
  lemma {:induction false} DiscoverAllFinds(entries: seq<SubjectEntry>, i: nat, k: nat)
    requires i < |entries| && entries[i].eeg.Some? && k < |entries[i].eeg.value|
    requires DiscoverPair(entries[i].eeg.value[k]).Some?
    ensures entries[i].name in DiscoverAll(entries)
    ensures DiscoverPair(entries[i].eeg.value[k]).value in DiscoverAll(entries)[entries[i].name]
    decreases |entries|
  {
    var init := entries[..|entries| - 1];
    var e := entries[|entries| - 1];
    var q := DiscoverPair(entries[i].eeg.value[k]).value;
    if i == |entries| - 1 {
      DiscoverFilesFinds(DiscoverAll(init), e.name, e.eeg.value, k);
    } else {
      assert init[i] == entries[i];
      DiscoverAllFinds(init, i, k);
      if e.eeg.Some? {
        DiscoverFilesKeeps(DiscoverAll(init), e.name, e.eeg.value, entries[i].name, q);
      }
    }
  }

  /** `_discover_tasks`: the loop over subject directories and their files. */
  method DiscoverTasks(entries: seq<SubjectEntry>) returns (m: map<string, seq<Pair>>)
    ensures m == DiscoverAll(entries)
    ensures GoodIndex(m)
  {
    m := map[];
    for i := 0 to |entries|
      invariant m == DiscoverAll(entries[..i])
    {
      assert entries[..i + 1][..i] == entries[..i];
      var e := entries[i];
      if e.eeg.Some? {
        var files := e.eeg.value;
        ghost var m0 := m;
        for k := 0 to |files|
          invariant m == DiscoverFiles(m0, e.name, files[..k])
        {
          assert files[..k + 1][..k] == files[..k];
          var pair := DiscoverPair(files[k]);
          if pair.Some? {
            var subj := e.name;
            var listed := if subj in m then m[subj] else [];
            if pair.value !in listed {
              m := m[subj := listed + [pair.value]];
            }
          }
        }
        assert files[..|files|] == files;
      }
    }
    assert entries[..|entries|] == entries;
    DiscoverAllGood(entries);
  }

  // ---------- the participants table ----------

  /** A cell of a participants table: missing, a string, or any other
      value (a number or a flag), whose text is never a status word. */
  datatype Cell = Null | Str(s: string) | Other

  /** A row: `str(row["participant_id"])` and the cells, one per column. */
  datatype Row = Row(pid: string, cells: seq<Cell>)

  datatype Table = Table(columns: seq<string>, rows: seq<Row>)

  predicate WellFormed(t: Table) {
    forall r :: 0 <= r < |t.rows| ==> |t.rows[r].cells| == |t.columns|
  }

  predicate IsStatus(s: string) {
    s == "available" || s == "unavailable" || s == "caution" || s == "missing"
  }

  /** A non-null cell whose lower-cased text is a status word. */
  predicate StatusCell(c: Cell) { c.Str? && IsStatus(Lower(c.s)) }

  /** `str(row[c]).lower() == "available"`. */
  predicate Available(c: Cell) { c.Str? && Lower(c.s) == "available" }

  /** Some row of column `j` holds a status word. */
  function HasStatusCell(rows: seq<Row>, j: nat): (b: bool)
    requires forall r :: 0 <= r < |rows| ==> j < |rows[r].cells|
    ensures b <==> exists r :: 0 <= r < |rows| && StatusCell(rows[r].cells[j])
  {
    if |rows| == 0 then false
    else
      assert forall r :: 1 <= r < |rows| ==> rows[1..][r - 1] == rows[r];
      StatusCell(rows[0].cells[j]) || HasStatusCell(rows[1..], j)
  }

  /** A task column: one where some cell is a status word. */
  predicate IsTaskColumn(t: Table, j: nat)
    requires WellFormed(t) && j < |t.columns|
  {
    HasStatusCell(t.rows, j)
  }

  /** The task columns among the first `n`, in column order. */
  function TaskColumnsUpTo(t: Table, n: nat): (cs: seq<nat>)
    requires WellFormed(t) && n <= |t.columns|
    ensures forall k :: 0 <= k < |cs| ==> cs[k] < n
    ensures forall j :: 0 <= j < n ==> (j in cs <==> IsTaskColumn(t, j))
    ensures forall a, b :: 0 <= a < b < |cs| ==> cs[a] < cs[b]
  {
    if n == 0 then []
    else
      var init := TaskColumnsUpTo(t, n - 1);
      if IsTaskColumn(t, n - 1) then init + [n - 1] else init
  }

  /** The loop that collects `task_cols`. */
  method FindTaskColumns(t: Table) returns (cs: seq<nat>)
    requires WellFormed(t)
    ensures cs == TaskColumnsUpTo(t, |t.columns|)
  {
    cs := [];
    for j := 0 to |t.columns|
      invariant cs == TaskColumnsUpTo(t, j)
    {
      if HasStatusCell(t.rows, j) {
        cs := cs + [j];
      }
    }
  }

  /** Whether the subject's files back an "available" cell of column `col`:
      `<base>_<N>` needs the pair (base, N), any other column some pair of
      task `col`. */
  predicate HasMatch(pairs: seq<Pair>, col: string) {
    var (base, idx) := ColumnSplit(col);
    if idx.Some? then (base, idx) in pairs
    else exists p :: p in pairs && p.0 == base
  }

  /** The checked cell: an "available" cell becomes "missing" when the
      subject directory is absent or no file backs it. */
  function CheckedCell(present: bool, pairs: seq<Pair>, col: string, c: Cell): Cell {
    if Available(c) && (!present || !HasMatch(pairs, col)) then Str("missing") else c
  }

  /** The pairs `_validate_participants_file` consults for a row. */
  function RowPairs(disk: Disk, releaseDir: string, pid: string): seq<Pair> {
    if SubjectDir(releaseDir, pid) in disk.dirs then SubjectPairs(disk, releaseDir, pid) else []
  }

  function CheckedRow(disk: Disk, releaseDir: string, columns: seq<string>, row: Row): (r: Row)
    requires |row.cells| == |columns|
    ensures r.pid == row.pid && |r.cells| == |row.cells|
  {
    var present := SubjectDir(releaseDir, row.pid) in disk.dirs;
    var pairs := RowPairs(disk, releaseDir, row.pid);
    Row(row.pid, seq(|row.cells|, j requires 0 <= j < |row.cells| => CheckedCell(present, pairs, columns[j], row.cells[j])))
  }

  /** The table `_validate_participants_file` returns. */
  function Validated(disk: Disk, releaseDir: string, t: Table): (v: Table)
    requires WellFormed(t)
    ensures v.columns == t.columns && |v.rows| == |t.rows| && WellFormed(v)
  {
    Table(t.columns, seq(|t.rows|, r requires 0 <= r < |t.rows| => CheckedRow(disk, releaseDir, t.columns, t.rows[r])))
  }

  /** Only "available" cells change, and only to "missing". */
  lemma ValidatedOnlyMarksMissing(disk: Disk, releaseDir: string, t: Table, r: nat, j: nat)
    requires WellFormed(t) && r < |t.rows| && j < |t.columns|
    ensures var c := t.rows[r].cells[j];
      var v := Validated(disk, releaseDir, t).rows[r].cells[j];
      v == c || (Available(c) && v == Str("missing"))
  {
  }

  /** When the subject directory is absent every "available" cell of its
      row becomes "missing". */
  lemma ValidatedAbsentSubject(disk: Disk, releaseDir: string, t: Table, r: nat, j: nat)
    requires WellFormed(t) && r < |t.rows| && j < |t.columns|
    requires SubjectDir(releaseDir, t.rows[r].pid) !in disk.dirs
    requires Available(t.rows[r].cells[j])
    ensures Validated(disk, releaseDir, t).rows[r].cells[j] == Str("missing")
  {
  }

  /** A column `<base>_<N>` of a present subject stays "available" exactly
      when the subject has the file of task `base` and run `N`. */
  lemma ValidatedIndexedColumn(disk: Disk, releaseDir: string, t: Table, r: nat, j: nat, base: string, n: string)
    requires WellFormed(t) && r < |t.rows| && j < |t.columns|
    requires t.columns[j] == base + "_" + n && n != "" && AllDigits(n)
    requires SubjectDir(releaseDir, t.rows[r].pid) in disk.dirs
    requires Available(t.rows[r].cells[j])
    ensures Validated(disk, releaseDir, t).rows[r].cells[j] == t.rows[r].cells[j]
      <==> (base, Some(n)) in SubjectPairs(disk, releaseDir, t.rows[r].pid)
  {
    ColumnSplitOf(base, n);
  }

  /** A column without a `_<digits>` suffix stays "available" exactly when
      the subject has some file of that task, whatever its run. */
  lemma ValidatedPlainColumn(disk: Disk, releaseDir: string, t: Table, r: nat, j: nat)
    requires WellFormed(t) && r < |t.rows| && j < |t.columns|
    requires RunSuffixAt(t.columns[j]).None?
    requires SubjectDir(releaseDir, t.rows[r].pid) in disk.dirs
    requires Available(t.rows[r].cells[j])
    ensures Validated(disk, releaseDir, t).rows[r].cells[j] == t.rows[r].cells[j]
      <==> exists p :: p in SubjectPairs(disk, releaseDir, t.rows[r].pid) && p.0 == t.columns[j]
  {
  }

  /** Checking a checked table changes nothing. */
  lemma ValidatedIdempotent(disk: Disk, releaseDir: string, t: Table)
    requires WellFormed(t)
    ensures Validated(disk, releaseDir, Validated(disk, releaseDir, t)) == Validated(disk, releaseDir, t)
  {
    var v := Validated(disk, releaseDir, t);
    assert Lower("missing") == "missing";
    forall r | 0 <= r < |v.rows|
      ensures CheckedRow(disk, releaseDir, v.columns, v.rows[r]) == v.rows[r]
    {
      assert v.rows[r].pid == t.rows[r].pid;
    }
  }

  /** A cell of a column that is not a task column is never "available". */
  lemma NotTaskColumnNotAvailable(t: Table, r: nat, j: nat)
    requires WellFormed(t) && r < |t.rows| && j < |t.columns|
    requires !IsTaskColumn(t, j)
    ensures !Available(t.rows[r].cells[j])
  {
    var c := t.rows[r].cells[j];
    assert Available(c) ==> StatusCell(c);
  }

  // ---------- list_all_tasks ----------

  /** `list_all_tasks`: the task columns' names without their `_<digits>`
      suffix, without repeats, sorted. */
  method ListAllTasks(t: Table) returns (r: seq<string>)
    requires WellFormed(t)
    ensures StrictlySortedBy(r, x => x)
    ensures forall x :: x in r <==> exists j :: 0 <= j < |t.columns| && IsTaskColumn(t, j) && StripRunSuffix(t.columns[j]) == x
  {
    var cols := FindTaskColumns(t);
    var merged: seq<string> := [];
    for k := 0 to |cols|
      invariant forall x :: x in merged <==> exists i :: 0 <= i < k && StripRunSuffix(t.columns[cols[i]]) == x
    {
      merged := merged + [StripRunSuffix(t.columns[cols[k]])];
    }
    r := SortedSet(merged);
    forall x | x in r
      ensures exists j :: 0 <= j < |t.columns| && IsTaskColumn(t, j) && StripRunSuffix(t.columns[j]) == x
    {
      var i :| 0 <= i < |cols| && StripRunSuffix(t.columns[cols[i]]) == x;
      assert cols[i] in cols;
    }
    forall x | exists j :: 0 <= j < |t.columns| && IsTaskColumn(t, j) && StripRunSuffix(t.columns[j]) == x
      ensures x in r
    {
      var j :| 0 <= j < |t.columns| && IsTaskColumn(t, j) && StripRunSuffix(t.columns[j]) == x;
      assert j in cols;
      var i :| 0 <= i < |cols| && cols[i] == j;
    }
  }

  // ---------- the limit of filter_subjects_by_dto ----------

  /** `subjects[:limit]` when `limit` is a positive number, else all. */
  function Limited(subjects: seq<string>, limit: Option<int>): (r: seq<string>)
    ensures limit.Some? && limit.value > 0 ==> r == subjects[..if limit.value < |subjects| then limit.value else |subjects|]
    ensures !(limit.Some? && limit.value > 0) ==> r == subjects
  {
    if limit.Some? && limit.value > 0 then
      subjects[..if limit.value < |subjects| then limit.value else |subjects|]
    else subjects
  }

  /** The end of `filter_subjects_by_dto`: cut to the limit, then sort. */
  function LimitThenSort(subjects: seq<string>, limit: Option<int>): (r: seq<string>)
    ensures SortedBy(r, x => x)
    ensures multiset(r) == multiset(Limited(subjects, limit))
  {
    SortByFacts(Limited(subjects, limit), x => x);
    SortBy(Limited(subjects, limit), x => x)
  }

  /** The subjects kept are the first `limit` in table order, not the
      `limit` smallest identifiers. */
  lemma LimitKeepsTableOrder(subjects: seq<string>, n: int, x: string)
    requires n > 0
    requires x in LimitThenSort(subjects, Some(n))
    ensures exists i :: 0 <= i < n && i < |subjects| && subjects[i] == x
  {
    assert x in multiset(Limited(subjects, Some(n)));
  }

  lemma LimitBeforeSortExample()
    ensures LimitThenSort(["b", "a"], Some(1)) == ["b"]
  {
    assert Limited(["b", "a"], Some(1)) == ["b"];
  }

  // ---------- the manager and its pairs cache ----------

  class ParticipantManager {
    const disk: Disk
    /** `__pairs_cache`, keyed by (release directory, subject). */
    var pairsCache: map<(string, string), seq<Pair>>

    /** Every cached list is what the disk holds. */
    ghost predicate Valid()
      reads this`pairsCache
    {
      forall k :: k in pairsCache ==> pairsCache[k] == SubjectPairs(disk, k.0, k.1)
    }

    constructor(disk: Disk)
      ensures this.disk == disk && pairsCache == map[] && Valid()
    {
      this.disk := disk;
      pairsCache := map[];
    }

    /** `_subject_task_pairs`: the cached list when there is one; otherwise
        scan the `eeg` directory, keep the first occurrence of each pair,
        and cache the result. */
    method SubjectTaskPairs(subject: string, releaseDir: string) returns (out: seq<Pair>)
      requires Valid()
      modifies this`pairsCache
      ensures Valid()
      ensures out == SubjectPairs(disk, releaseDir, subject)
      ensures pairsCache == old(pairsCache)[(releaseDir, subject) := out]
    {
      var key := (releaseDir, subject);
      if key in pairsCache {
        out := pairsCache[key];
        assert pairsCache == pairsCache[key := out];
        return;
      }
      var eegDir := EegDir(releaseDir, subject);
      if eegDir !in disk.listings {
        pairsCache := pairsCache[key := []];
        return [];
      }
      out := ScanPairs(subject, disk.listings[eegDir]);
      pairsCache := pairsCache[key := out];
    }

    /** The glob loop of `_subject_task_pairs`. */
    static method ScanPairs(subject: string, files: seq<string>) returns (out: seq<Pair>)
      ensures out == Dedup(SubjectParsed(subject, files))
    {
      out := [];
      for i := 0 to |files|
        invariant out == Dedup(SubjectParsed(subject, files[..i]))
      {
        assert files[..i + 1][..i] == files[..i];
        var m := SubjectPair(subject, files[i]);
        if m.Some? {
          DedupSnoc(SubjectParsed(subject, files[..i]), m.value);
          if m.value !in out {
            out := out + [m.value];
          }
        }
      }
      assert files[..|files|] == files;
    }

    /** The loop over one row's task columns. */
    method CheckCells(columns: seq<string>, cells: seq<Cell>, taskCols: seq<nat>, present: bool, pairs: seq<Pair>)
      returns (out: seq<Cell>)
      requires |cells| == |columns|
      requires forall k :: 0 <= k < |taskCols| ==> taskCols[k] < |cells|
      requires forall a, b :: 0 <= a < b < |taskCols| ==> taskCols[a] < taskCols[b]
      requires forall j :: 0 <= j < |cells| && j !in taskCols ==> !Available(cells[j])
      ensures |out| == |cells|
      ensures forall j :: 0 <= j < |cells| ==> out[j] == CheckedCell(present, pairs, columns[j], cells[j])
    {
      out := cells;
      for k := 0 to |taskCols|
        invariant |out| == |cells|
        invariant forall j :: 0 <= j < |cells| ==>
          out[j] == if j in taskCols[..k] then CheckedCell(present, pairs, columns[j], cells[j]) else cells[j]
      {
        var j := taskCols[k];
        assert taskCols[..k + 1] == taskCols[..k] + [j];
        assert j !in taskCols[..k] by {
          assert forall a :: 0 <= a < k ==> taskCols[a] < j;
        }
        if Available(cells[j]) {
          if !present {
            out := out[j := Str("missing")];
          } else {
            var (base, idx) := ColumnSplit(columns[j]);
            var hasMatch := if idx.Some? then (base, idx) in pairs else exists p | p in pairs :: p.0 == base;
            if !hasMatch {
              out := out[j := Str("missing")];
            }
          }
        }
      }
      assert taskCols[..|taskCols|] == taskCols;
    }

    /** `_validate_participants_file` on a table already read. */
    method ValidateParticipantsFile(t: Table, releaseDir: string) returns (v: Table)
      requires Valid() && WellFormed(t)
      modifies this`pairsCache
      ensures Valid()
      ensures v == Validated(disk, releaseDir, t)
    {
      var taskCols := FindTaskColumns(t);
      forall r, j | 0 <= r < |t.rows| && 0 <= j < |t.columns| && j !in taskCols
        ensures !Available(t.rows[r].cells[j])
      {
        NotTaskColumnNotAvailable(t, r, j);
      }
      var rows := t.rows;
      for r := 0 to |t.rows|
        invariant Valid()
        invariant |rows| == |t.rows|
        invariant forall i :: 0 <= i < r ==> rows[i] == CheckedRow(disk, releaseDir, t.columns, t.rows[i])
      {
        var row := t.rows[r];
        var present := SubjectDir(releaseDir, row.pid) in disk.dirs;
        var pairs: seq<Pair> := [];
        if present {
          pairs := SubjectTaskPairs(row.pid, releaseDir);
        }
        var cells := CheckCells(t.columns, row.cells, taskCols, present, pairs);
        rows := rows[r := Row(row.pid, cells)];
      }
      v := Table(t.columns, rows);
    }
  }
}

=== FILE: pydict.dfy ===
/** Python dictionaries with string keys, as the parameter facets build them:
    entries in insertion order, `d[k] = v` overriding in place, `{**a, **b}`
    merging, and the key-sorted order `json.dumps(..., sort_keys=True)` uses. */
module PyDict {
  import opened Wrappers
  import opened Text

  /** The JSON-representable values the parameter dictionaries hold. An `int`
      and a `float` are kept apart because `json.dumps` renders `1` and `1.0`
      differently. */
  datatype Json =
    | JNull
    | JBool(b: bool)
    | JInt(i: int)
    | JFloat(f: real)
    | JStr(s: string)
    | JArray(items: seq<Json>)

  type Entry = (string, Json)

  /** A dict: its entries in insertion order. */
  type Dict = seq<Entry>

  function EntryKey(e: Entry): string { e.0 }

  predicate DistinctKeys(d: Dict) {
    forall i, j :: 0 <= i < j < |d| ==> d[i].0 != d[j].0
  }

  function Keys(d: Dict): (ks: seq<string>)
    ensures |ks| == |d|
    ensures forall i :: 0 <= i < |d| ==> ks[i] == d[i].0
  {
    seq(|d|, i requires 0 <= i < |d| => d[i].0)
  }

  /** `d.get(k)`. */
  function Get(d: Dict, k: string): (r: Option<Json>)
    ensures r.None? <==> k !in Keys(d)
  {
    if |d| == 0 then None
    else if d[0].0 == k then Some(d[0].1)
    else
      var r := Get(d[1..], k);
      assert Keys(d) == [d[0].0] + Keys(d[1..]);
      r
  }

  /** The same keys holding the same JSON values, with int, float and bool
      kept apart. This is finer than Python's `==` on dicts, where 1, 1.0
      and True are equal; `json.dumps` tells them apart, as this does. */
  ghost predicate SameDict(a: Dict, b: Dict) {
    forall k :: Get(a, k) == Get(b, k)
  }

  /** `d[k] = v` (and `{**d, k: v}`): a present key keeps its position, a
      new key goes last. */
  function Set(d: Dict, k: string, v: Json): Dict {
    if |d| == 0 then [(k, v)]
    else if d[0].0 == k then [(k, v)] + d[1..]
    else [d[0]] + Set(d[1..], k, v)
  }

  lemma {:induction false} SetShape(d: Dict, k: string, v: Json)
    ensures |d| <= |Set(d, k, v)| <= |d| + 1
    ensures forall i :: 0 <= i < |d| ==> Set(d, k, v)[i].0 == d[i].0
    ensures |Set(d, k, v)| == |d| + 1 ==> k !in Keys(d) && Set(d, k, v)[|d|] == (k, v)
    ensures forall i :: 0 <= i < |Set(d, k, v)| ==> Set(d, k, v)[i].0 == k || Set(d, k, v)[i].0 in Keys(d)
  {
    if |d| > 0 && d[0].0 != k {
      SetShape(d[1..], k, v);
      assert Keys(d) == [d[0].0] + Keys(d[1..]);
    }
  }

  /** After `d[k] = v`, `k` maps to `v`. */
  lemma {:induction false} SetGetSame(d: Dict, k: string, v: Json)
    ensures Get(Set(d, k, v), k) == Some(v)
  {
    if |d| > 0 && d[0].0 != k {
      SetGetSame(d[1..], k, v);
    }
  }

  /** After `d[k] = v`, every other key maps to what it did before. */
  lemma {:induction false} SetGetOther(d: Dict, k: string, v: Json, k': string)
    requires k' != k
    ensures Get(Set(d, k, v), k') == Get(d, k')
  {
    if |d| > 0 && d[0].0 != k {
      SetGetOther(d[1..], k, v, k');
    }
  }

  lemma SetDistinct(d: Dict, k: string, v: Json)
    requires DistinctKeys(d)
    ensures DistinctKeys(Set(d, k, v))
  {
    SetShape(d, k, v);
    var r := Set(d, k, v);
    forall i, j | 0 <= i < j < |r| ensures r[i].0 != r[j].0 {
      if j == |d| {
        assert r[i].0 == d[i].0;
      }
    }
  }

  lemma SetGet(d: Dict, k: string, v: Json)
    ensures Get(Set(d, k, v), k) == Some(v)
    ensures forall k' :: k' != k ==> Get(Set(d, k, v), k') == Get(d, k')
    ensures DistinctKeys(d) ==> DistinctKeys(Set(d, k, v))
  {
    SetGetSame(d, k, v);
    forall k' | k' != k ensures Get(Set(d, k, v), k') == Get(d, k') {
      SetGetOther(d, k, v, k');
    }
    if DistinctKeys(d) {
      SetDistinct(d, k, v);
    }
  }

  /** A lookup in a concatenation finds the first part's entry first. */
  lemma {:induction false} GetAppend(a: Dict, b: Dict, k: string)
    ensures Get(a + b, k) == if Get(a, k).Some? then Get(a, k) else Get(b, k)
    decreases |a|
  {
    if |a| > 0 {
      assert (a + b)[0] == a[0];
      assert (a + b)[1..] == a[1..] + b;
      GetAppend(a[1..], b, k);
    } else {
      assert a + b == b;
    }
  }

  /** Concatenating dicts with disjoint key sets keeps keys distinct. */
  lemma DistinctAppend(a: Dict, b: Dict)
    requires DistinctKeys(a) && DistinctKeys(b)
    requires forall k :: k in Keys(a) ==> k !in Keys(b)
    ensures DistinctKeys(a + b)
  {
    var c := a + b;
    forall i, j | 0 <= i < j < |c| ensures c[i].0 != c[j].0 {
      if j < |a| {
        assert c[i] == a[i] && c[j] == a[j];
      } else if i >= |a| {
        assert c[i] == b[i - |a|] && c[j] == b[j - |a|];
      } else {
        assert c[i].0 == Keys(a)[i] && Keys(a)[i] in Keys(a);
        assert c[j].0 == Keys(b)[j - |a|] && Keys(b)[j - |a|] in Keys(b);
      }
    }
  }

  /** `{**d, **e}`: the entries of `e` set into `d` one after another. */
  function Merge(d: Dict, e: Dict): Dict
    decreases |e|
  {
    if |e| == 0 then d else Merge(Set(d, e[0].0, e[0].1), e[1..])
  }

  /** A key of `e` takes its value from `e`; any other key keeps its value in `d`. */
  lemma {:induction false} MergeGet(d: Dict, e: Dict, k: string)
    requires DistinctKeys(e)
    ensures Get(Merge(d, e), k) == if Get(e, k).Some? then Get(e, k) else Get(d, k)
    decreases |e|
  {
    if |e| > 0 {
      var d' := Set(d, e[0].0, e[0].1);
      var t := e[1..];
      assert DistinctKeys(t) by {
        forall i, j | 0 <= i < j < |t| ensures t[i].0 != t[j].0 {
          assert t[i] == e[i + 1] && t[j] == e[j + 1];
        }
      }
      MergeGet(d', t, k);
      assert Merge(d, e) == Merge(d', t);
      if k == e[0].0 {
        SetGetSame(d, k, e[0].1);
        assert k !in Keys(t) by {
          forall i | 0 <= i < |t| ensures Keys(t)[i] != k {
            assert t[i] == e[i + 1];
          }
        }
      } else {
        assert Get(e, k) == Get(t, k);
        SetGetOther(d, e[0].0, e[0].1, k);
      }
    }
  }

  lemma {:induction false} MergeDistinct(d: Dict, e: Dict)
    requires DistinctKeys(d)
    ensures DistinctKeys(Merge(d, e))
    decreases |e|
  {
    if |e| > 0 {
      SetDistinct(d, e[0].0, e[0].1);
      MergeDistinct(Set(d, e[0].0, e[0].1), e[1..]);
    }
  }

  /** A dict with the given keys only, in the given order: a comprehension
      `{k: d[k] for k in ks if k in d}`. */
  function Restrict(d: Dict, ks: seq<string>): (r: Dict)
    ensures forall k :: Get(r, k) == if k in ks then Get(d, k) else None
    ensures DistinctKeys(r)
  {
    if |ks| == 0 then []
    else
      var rest := Restrict(d, ks[..|ks| - 1]);
      var k := ks[|ks| - 1];
      assert forall x :: x in ks <==> x in ks[..|ks| - 1] || x == k;
      match Get(d, k)
      case None => rest
      case Some(v) => SetGet(rest, k, v); Set(rest, k, v)
  }

  // ---------- canonical order ----------

  /** The entries in the order `json.dumps(d, sort_keys=True)` writes them. */
  function Canonical(d: Dict): Dict {
    SortBy(d, EntryKey)
  }

  lemma {:induction false} EntryOfDistinct(d: Dict, x: Entry)
    requires DistinctKeys(d)
    ensures x in d <==> Get(d, x.0) == Some(x.1)
  {
    if |d| > 0 {
      if d[0].0 == x.0 {
        if x in d {
          var i :| 0 <= i < |d| && d[i] == x;
          assert i == 0;
        }
      } else {
        EntryOfDistinct(d[1..], x);
        assert d == [d[0]] + d[1..];
      }
    }
  }

  lemma DistinctKeysDistinctEntries(d: Dict)
    requires DistinctKeys(d)
    ensures forall i, j :: 0 <= i < j < |d| ==> d[i] != d[j]
  {
  }

  /** Two dicts equal in Python hold the same multiset of entries. */
  lemma SameDictSameEntries(a: Dict, b: Dict)
    requires DistinctKeys(a) && DistinctKeys(b)
    requires SameDict(a, b)
    ensures multiset(a) == multiset(b)
  {
    DistinctKeysDistinctEntries(a);
    DistinctKeysDistinctEntries(b);
    forall x: Entry ensures multiset(a)[x] == multiset(b)[x] {
      DistinctMultiplicity(a, x);
      DistinctMultiplicity(b, x);
      EntryOfDistinct(a, x);
      EntryOfDistinct(b, x);
      assert Get(a, x.0) == Get(b, x.0);
    }
  }

  lemma KeyOrderIsStrict(s: Dict)
    requires SortedBy(s, EntryKey)
    requires DistinctKeys(s)
    ensures StrictlySortedBy(s, EntryKey)
  {
  }

  /** With distinct keys, a lookup is decided by the multiset of entries. */
  lemma GetFromEntries(a: Dict, b: Dict, k: string)
    requires DistinctKeys(a) && DistinctKeys(b)
    requires multiset(a) == multiset(b)
    ensures Get(a, k).Some? ==> Get(b, k) == Get(a, k)
  {
    if Get(a, k).Some? {
      var x := (k, Get(a, k).value);
      EntryOfDistinct(a, x);
      EntryOfDistinct(b, x);
      assert x in multiset(a);
    }
  }

  /** The canonical entries are the dict's entries, strictly ordered by key. */
  lemma CanonicalFacts(d: Dict)
    requires DistinctKeys(d)
    ensures multiset(Canonical(d)) == multiset(d)
    ensures StrictlySortedBy(Canonical(d), EntryKey)
    ensures DistinctKeys(Canonical(d))
    ensures SameDict(Canonical(d), d)
  {
    var c := Canonical(d);
    SortByFacts(d, EntryKey);
    DistinctKeysDistinctEntries(d);
    DistinctMultiplicityAll(d);
    DistinctPermutation(c, d);
    forall i, j | 0 <= i < j < |c| ensures c[i].0 != c[j].0 {
      assert c[i] in multiset(d) && c[j] in multiset(d);
      var i' :| 0 <= i' < |d| && d[i'] == c[i];
      var j' :| 0 <= j' < |d| && d[j'] == c[j];
      assert i' != j';
    }
    KeyOrderIsStrict(c);
    forall k ensures Get(c, k) == Get(d, k) {
      GetFromEntries(c, d, k);
      GetFromEntries(d, c, k);
    }
  }

  /** Two dicts have the same canonical entries exactly when Python finds
      them equal, whatever order their keys were inserted in. */
  lemma CanonicalIffSameDict(a: Dict, b: Dict)
    requires DistinctKeys(a) && DistinctKeys(b)
    ensures Canonical(a) == Canonical(b) <==> SameDict(a, b)
  {
    CanonicalFacts(a);
    CanonicalFacts(b);
    if SameDict(a, b) {
      SameDictSameEntries(a, b);
      StrictlySortedUnique(Canonical(a), Canonical(b), EntryKey);
    }
  }
}

=== FILE: session_sync.dfy ===
/** `normalize_session` of backend/app/core/filter_session_sync.py: copying
    the session's filter settings into each of its per-view parameter
    models. A child model is its declared field names and its values; it is
    rebuilt from a dict, and pydantic's default (`extra = "ignore"`) drops
    the dict's undeclared keys. Rebuilding runs the class's field validators
    again: a child declaring `stimulus` is an `EpochParams` or a class built
    on it, whose `normalize_none` turns the string "None" into null. The helpers below take the key list and the
    attribute list as parameters; the session passes `FILTER_SHARED_KEYS`
    and `CHILD_SCHEMAS`. */
module SessionSync {
  import opened Wrappers
  import opened PyDict
  import opened FilterFacet
  import EpochFacet

  /** `FILTER_SHARED_KEYS`. */
  const SHARED_KEYS: seq<string> := [
    "l_freq", "h_freq", "notch", "resample_fs", "channels", "combine_channels",
    "uv_min", "uv_max", "clean_flatline_sec", "clean_hf_noise_sd_max",
    "clean_corr_min", "clean_asr_max_std", "clean_power_min_sd",
    "clean_power_max_sd", "clean_max_outbound_pct", "clean_window_sec",
    "clean_asr_remove_only"]

  /** `CHILD_SCHEMAS`: the session attributes holding a child model. */
  const CHILD_SCHEMAS: seq<string> := ["epochs", "time", "psd", "evoked", "topomap", "table"]

  /** A child parameter model: the fields its class declares and their values. */
  datatype Child = Child(declared: set<string>, values: map<string, Json>)

  /** A pydantic instance holds exactly its declared fields. */
  predicate WellFormed(c: Child) {
    c.values.Keys == c.declared
  }

  /** The shared keys are exactly the filter model's fields, in the same order. */
  lemma SharedKeysAreFilterFields()
    ensures SHARED_KEYS == FIELD_NAMES
  {
  }

  /** `base.model_dump()` as a mapping from field name to value; it holds
      every shared key, so `base_dict[key]` never misses. */
  function Dump(p: FilterParams): (m: map<string, Json>)
    ensures forall k :: k in SHARED_KEYS ==> k in m
  {
    var d := ToFields(p);
    assert Keys(d) == FIELD_NAMES;
    SharedKeysAreFilterFields();
    map k | k in Keys(d) :: Get(d, k).value
  }

  /** `Dump` holds what `model_dump()` lists. */
  lemma DumpGet(p: FilterParams, k: string)
    requires k in SHARED_KEYS
    ensures Get(ToFields(p), k) == Some(Dump(p)[k])
  {
  }

  /** `d` after `d[key] = base[key]` for each of `keys` in turn. */
  function Overridden(d: map<string, Json>, base: map<string, Json>, keys: seq<string>): map<string, Json>
    requires forall k :: k in keys ==> k in base
  {
    if |keys| == 0 then d
    else
      var last := keys[|keys| - 1];
      Overridden(d, base, keys[..|keys| - 1])[last := base[last]]
  }

  /** Each written key holds the base's value; every other key of `d` keeps its own. */
  lemma {:induction false} OverriddenAt(d: map<string, Json>, base: map<string, Json>, keys: seq<string>, k: string)
    requires forall k :: k in keys ==> k in base
    ensures Overridden(d, base, keys).Keys == d.Keys + set k | k in keys
    ensures k in keys ==> Overridden(d, base, keys)[k] == base[k]
    ensures k !in keys && k in d ==> Overridden(d, base, keys)[k] == d[k]
    decreases |keys|
  {
    if |keys| > 0 {
      var init := keys[..|keys| - 1];
      assert keys == init + [keys[|keys| - 1]];
      OverriddenAt(d, base, init, k);
    }
  }

  /** The field whose "before" validator `normalize_none` runs on construction. */
  const STIMULUS_FIELD := "stimulus"

  /** The value field `f` holds after validation of `v`. */
  function Validated(f: string, v: Json): Json {
    if f == STIMULUS_FIELD then EpochFacet.NormalizeNone(v) else v
  }

  /** `type(child)(**d)`: declared fields are read from `d` and validated,
      other keys ignored; a rebuilt child never holds the string "None" as
      its stimulus. */
  function Rebuild(c: Child, d: map<string, Json>): (r: Child)
    requires c.declared <= d.Keys
    ensures WellFormed(r) && r.declared == c.declared
    ensures forall f :: f in c.declared && f != STIMULUS_FIELD ==> r.values[f] == d[f]
    ensures STIMULUS_FIELD in c.declared ==>
      r.values[STIMULUS_FIELD] != JStr("None") &&
      (d[STIMULUS_FIELD] != JStr("None") ==> r.values[STIMULUS_FIELD] == d[STIMULUS_FIELD])
  {
    Child(c.declared, map f | f in c.declared :: Validated(f, d[f]))
  }

  /** `type(child)(**child.model_dump())`: the child rebuilt from its own
      values, so only its validators act. */
  function Revalidated(c: Child): (r: Child)
    requires WellFormed(c)
  {
    Rebuild(c, c.values)
  }

  /** Rebuilding a child from its own values changes nothing unless its
      stimulus is the string "None", which becomes null. */
  lemma RevalidatedAt(c: Child)
    requires WellFormed(c)
    ensures STIMULUS_FIELD !in c.declared || c.values[STIMULUS_FIELD] != JStr("None") <==> Revalidated(c) == c
    ensures STIMULUS_FIELD in c.declared && c.values[STIMULUS_FIELD] == JStr("None") ==>
      Revalidated(c) == Child(c.declared, c.values[STIMULUS_FIELD := JNull])
  {
    var r := Revalidated(c);
    if STIMULUS_FIELD in c.declared && c.values[STIMULUS_FIELD] == JStr("None") {
      assert r.values[STIMULUS_FIELD] != c.values[STIMULUS_FIELD];
      assert r.values == c.values[STIMULUS_FIELD := JNull];
    } else {
      assert r.values == c.values;
    }
  }

  /** What one pass of the loop makes of a present child. */
  function SyncChild(c: Child, base: map<string, Json>, keys: seq<string>): (r: Child)
    requires WellFormed(c) && forall k :: k in keys ==> k in base
    ensures WellFormed(r) && r.declared == c.declared
  {
    OverriddenAt(c.values, base, keys, "");
    Rebuild(c, Overridden(c.values, base, keys))
  }

  // ---------- one child ----------

  /** `for key in FILTER_SHARED_KEYS: child_dict[key] = base_dict[key]`. */
  method OverrideKeys(childDict: map<string, Json>, base: map<string, Json>, keys: seq<string>) returns (d: map<string, Json>)
    requires forall k :: k in keys ==> k in base
    ensures d == Overridden(childDict, base, keys)
  {
    d := childDict;
    var i := 0;
    while i < |keys|
      invariant 0 <= i <= |keys|
      invariant d == Overridden(childDict, base, keys[..i])
    {
      var key := keys[i];
      d := d[key := base[key]];
      assert keys[..i + 1][..i] == keys[..i];
      i := i + 1;
    }
    assert keys[..i] == keys;
  }

  /** The body of the outer loop on a present child: dump it, write the
      keys, rebuild it. */
  method SyncOne(child: Child, base: map<string, Json>, keys: seq<string>) returns (r: Child)
    requires WellFormed(child) && forall k :: k in keys ==> k in base
    ensures r == SyncChild(child, base, keys)
  {
    var childDict := OverrideKeys(child.values, base, keys);
    OverriddenAt(child.values, base, keys, "");
    r := Rebuild(child, childDict);
  }

  /** A synchronised child keeps its declared fields; a written one takes
      the base's value, any other keeps its own, and either then passes the
      field's validator (only a "None" stimulus changes, to null). */
  lemma SyncChildFields(c: Child, base: map<string, Json>, keys: seq<string>, f: string)
    requires WellFormed(c) && (forall k :: k in keys ==> k in base) && f in c.declared
    ensures f in SyncChild(c, base, keys).values
    ensures f in keys ==> SyncChild(c, base, keys).values[f] == Validated(f, base[f])
    ensures f !in keys ==> SyncChild(c, base, keys).values[f] == Validated(f, c.values[f])
  {
    OverriddenAt(c.values, base, keys, f);
  }

  /** Synchronising a child twice is synchronising it once. */
  lemma SyncChildIdempotent(c: Child, base: map<string, Json>, keys: seq<string>)
    requires WellFormed(c) && forall k :: k in keys ==> k in base
    ensures SyncChild(SyncChild(c, base, keys), base, keys) == SyncChild(c, base, keys)
  {
    var once := SyncChild(c, base, keys);
    var twice := SyncChild(once, base, keys);
    forall f | f in c.declared
      ensures twice.values[f] == once.values[f]
    {
      SyncChildFields(c, base, keys, f);
      SyncChildFields(once, base, keys, f);
    }
  }

  /** A child that declares none of the keys comes back as its own rebuild:
    unchanged, except that a "None" stimulus becomes null. */
  lemma SyncChildNoShared(c: Child, base: map<string, Json>, keys: seq<string>)
    requires WellFormed(c) && forall k :: k in keys ==> k in base
    requires forall f :: f in c.declared ==> f !in keys
    ensures SyncChild(c, base, keys) == Revalidated(c)
  {
    var r := SyncChild(c, base, keys);
    forall f | f in c.declared
      ensures r.values[f] == Revalidated(c).values[f]
    {
      SyncChildFields(c, base, keys, f);
    }
  }

  // ---------- the whole session ----------

  predicate AllWellFormed(children: map<string, Option<Child>>) {
    forall name :: name in children && children[name].Some? ==> WellFormed(children[name].value)
  }

  /** The session's attributes after the loop has visited the first `i` of
      `names`: each visit reads the attribute as it is now, skips it when
      absent or None, and otherwise stores the rebuilt child. */
  function SyncedUpTo(children: map<string, Option<Child>>, base: map<string, Json>, keys: seq<string>, names: seq<string>, i: nat): (r: map<string, Option<Child>>)
    requires i <= |names| && AllWellFormed(children) && forall k :: k in keys ==> k in base
    ensures r.Keys == children.Keys && AllWellFormed(r)
  {
    if i == 0 then children
    else
      var prev := SyncedUpTo(children, base, keys, names, i - 1);
      var name := names[i - 1];
      if name in prev && prev[name].Some? then prev[name := Some(SyncChild(prev[name].value, base, keys))]
      else prev
  }

  /** After visiting the first `i` names, a visited present child is
      synchronised (once, even if its name came up twice, since that is
      idempotent) and every other attribute is as it was. */
  lemma {:induction false} SyncedUpToAt(children: map<string, Option<Child>>, base: map<string, Json>, keys: seq<string>, names: seq<string>, i: nat, name: string)
    requires i <= |names| && AllWellFormed(children) && (forall k :: k in keys ==> k in base) && name in children
    ensures name !in names[..i] || children[name].None? ==> SyncedUpTo(children, base, keys, names, i)[name] == children[name]
    ensures name in names[..i] && children[name].Some? ==>
      SyncedUpTo(children, base, keys, names, i)[name] == Some(SyncChild(children[name].value, base, keys))
  {
    if i > 0 {
      SyncedUpToAt(children, base, keys, names, i - 1, name);
      assert name in names[..i] <==> name in names[..i - 1] || name == names[i - 1] by {
        assert names[..i] == names[..i - 1] + [names[i - 1]];
      }
      if name == names[i - 1] && children[name].Some? {
        SyncChildIdempotent(children[name].value, base, keys);
      }
    }
  }

  /** The attributes after `normalize_session` with filter `p`. */
  function Synced(children: map<string, Option<Child>>, p: FilterParams): (r: map<string, Option<Child>>)
    requires AllWellFormed(children)
    ensures r.Keys == children.Keys && AllWellFormed(r)
  {
    SyncedUpTo(children, Dump(p), SHARED_KEYS, CHILD_SCHEMAS, |CHILD_SCHEMAS|)
  }

  /** Every present child named in `CHILD_SCHEMAS` is normalised; a None
      child and any other attribute are left as they were. */
  lemma SyncedAt(children: map<string, Option<Child>>, p: FilterParams, name: string)
    requires AllWellFormed(children) && name in children
    ensures children[name].None? ==> Synced(children, p)[name].None?
    ensures name !in CHILD_SCHEMAS ==> Synced(children, p)[name] == children[name]
    ensures name in CHILD_SCHEMAS && children[name].Some? ==>
      Synced(children, p)[name] == Some(SyncChild(children[name].value, Dump(p), SHARED_KEYS))
  {
    SyncedUpToAt(children, Dump(p), SHARED_KEYS, CHILD_SCHEMAS, |CHILD_SCHEMAS|, name);
    assert CHILD_SCHEMAS[..|CHILD_SCHEMAS|] == CHILD_SCHEMAS;
  }

  /** After normalising, every present child holds the filter's value for
      each shared key its class declares, and its other fields validated
      again (unchanged but for a "None" stimulus, which becomes null). */
  lemma SyncedHoldsFilter(children: map<string, Option<Child>>, p: FilterParams, name: string, f: string)
    requires AllWellFormed(children)
    requires name in children && name in CHILD_SCHEMAS && children[name].Some?
    requires f in children[name].value.declared
    ensures Synced(children, p)[name].Some?
    ensures f in Synced(children, p)[name].value.values
    ensures f in SHARED_KEYS ==> Synced(children, p)[name].value.values[f] == Dump(p)[f]
    ensures f !in SHARED_KEYS && f != STIMULUS_FIELD ==>
      Synced(children, p)[name].value.values[f] == children[name].value.values[f]
    ensures f == STIMULUS_FIELD ==>
      Synced(children, p)[name].value.values[f] == EpochFacet.NormalizeNone(children[name].value.values[f])
  {
    SyncedAt(children, p, name);
    SyncChildFields(children[name].value, Dump(p), SHARED_KEYS, f);
    if f in SHARED_KEYS {
      SharedKeysPrefix(f);
      assert !SharedPrefix(STIMULUS_FIELD);
    }
  }

  /** Normalising a session twice is normalising it once. */
  lemma SyncedIdempotent(children: map<string, Option<Child>>, p: FilterParams)
    requires AllWellFormed(children)
    ensures Synced(Synced(children, p), p) == Synced(children, p)
  {
    var once := Synced(children, p);
    forall name | name in children
      ensures Synced(once, p)[name] == once[name]
    {
      SyncedAt(children, p, name);
      SyncedAt(once, p, name);
      if name in CHILD_SCHEMAS && children[name].Some? {
        SyncChildIdempotent(children[name].value, Dump(p), SHARED_KEYS);
      }
    }
  }

  // ---------- the child classes of the session ----------

  /** The fields `EpochParams` declares. */
  const EPOCH_FIELDS: set<string> := {"tmin", "tmax", "stimulus"}

  /** The fields of the six child classes, by session attribute. */
  function SchemaFields(name: string): (fs: set<string>)
    requires name in CHILD_SCHEMAS
  {
    match name
    case "epochs" => EPOCH_FIELDS
    case "time" => {"duration", "start", "n_channels"}
    case "psd" => {"fmin", "fmax", "average", "dB", "spatial_colors"}
    case "evoked" => EPOCH_FIELDS + {"spatial_colors", "gfp", "average_line", "scale_mode"}
    case "topomap" => EPOCH_FIELDS + {"times"}
    case _ => {"rows", "table_type"}
  }

  /** The leading letters every shared key has and no child field has. */
  predicate SharedPrefix(k: string) {
    |k| >= 2 && (k[0] in {'l', 'h', 'c', 'u'} || (k[0] == 'n' && k[1] == 'o') || (k[0] == 'r' && k[1] == 'e'))
  }

  lemma SharedKeysPrefix(k: string)
    requires k in SHARED_KEYS
    ensures SharedPrefix(k)
  {
  }

  lemma SchemaFieldsPrefix(name: string, f: string)
    requires name in CHILD_SCHEMAS && f in SchemaFields(name)
    ensures !SharedPrefix(f)
  {
  }

  /** With the session's actual child classes the copied filter values are
      dropped when each child is rebuilt: a child comes back as its own
      rebuild, unchanged except that a "None" stimulus becomes null. So
      normalising changes nothing exactly when no present child holds the
      string "None" as its stimulus. */
  lemma SyncedOfSchemas(children: map<string, Option<Child>>, p: FilterParams)
    requires AllWellFormed(children)
    requires forall name :: name in children && name in CHILD_SCHEMAS && children[name].Some? ==>
      children[name].value.declared == SchemaFields(name)
    ensures forall name :: name in children && name in CHILD_SCHEMAS && children[name].Some? ==>
      Synced(children, p)[name] == Some(Revalidated(children[name].value))
    ensures Synced(children, p) == children <==>
      forall name :: name in children && name in CHILD_SCHEMAS && children[name].Some? ==>
        Revalidated(children[name].value) == children[name].value
  {
    forall name | name in children
      ensures name in CHILD_SCHEMAS && children[name].Some? ==> Synced(children, p)[name] == Some(Revalidated(children[name].value))
      ensures !(name in CHILD_SCHEMAS && children[name].Some?) ==> Synced(children, p)[name] == children[name]
    {
      SyncedAt(children, p, name);
      if name in CHILD_SCHEMAS && children[name].Some? {
        var c := children[name].value;
        forall f | f in c.declared
          ensures f !in SHARED_KEYS
        {
          SchemaFieldsPrefix(name, f);
          if f in SHARED_KEYS {
            SharedKeysPrefix(f);
          }
        }
        SyncChildNoShared(c, Dump(p), SHARED_KEYS);
      }
    }
  }

  /** `PipelineSession`: the filter model and the other attributes by name. */
  class Session {
    var filter: Option<FilterParams>
    var children: map<string, Option<Child>>

    constructor(filter: Option<FilterParams>, children: map<string, Option<Child>>)
      ensures this.filter == filter && this.children == children
    {
      this.filter := filter;
      this.children := children;
    }

    /** Every child the session holds is a well-formed model. */
    predicate Valid()
      reads this
    {
      AllWellFormed(children)
    }

    /** `normalize_session(session)`: with no filter `base.model_dump()` raises
        before anything is touched; otherwise each present child in
        `CHILD_SCHEMAS` is rebuilt with the filter's shared values, and the
        filter itself is left alone. */
    method Normalize() returns (r: Result<(), string>)
      requires Valid()
      modifies this
      ensures Valid() && filter == old(filter)
      ensures old(filter).None? ==> r == Err("AttributeError") && children == old(children)
      ensures old(filter).Some? ==> r == Ok(()) && children == Synced(old(children), old(filter).value)
    {
      if filter.None? {
        return Err("AttributeError");
      }
      var baseDict := Dump(filter.value);
      SyncAttributes(baseDict, SHARED_KEYS, CHILD_SCHEMAS);
      return Ok(());
    }

    /** The loop of `normalize_session` over the attribute names `names`:
        `getattr(session, name, None)`, skip None, else `setattr` the rebuilt child. */
    method SyncAttributes(base: map<string, Json>, keys: seq<string>, names: seq<string>)
      requires Valid() && forall k :: k in keys ==> k in base
      modifies this`children
      ensures children == SyncedUpTo(old(children), base, keys, names, |names|)
    {
      var start := children;
      var i := 0;
      while i < |names|
        invariant 0 <= i <= |names|
        invariant children == SyncedUpTo(start, base, keys, names, i)
      {
        var name := names[i];
        if name in children && children[name].Some? {
          var synced := SyncOne(children[name].value, base, keys);
          children := children[name := Some(synced)];
        }
        i := i + 1;
      }
    }
  }
}

=== FILE: signal_cleaner.dfy ===
/** The bad-channel and bad-window rules of backend/app/pipeline/signal_cleaner.py
    (`EEGCleaner`). The decisions are modelled exactly over mathematical reals;
    what MNE, NumPy and asrpy compute (band power, the median trace,
    correlation, square roots, filtering, ASR) is a parameter (`Numerics`).
    NaN is `None` wherever the code can produce it. */
module SignalCleaner {
  import opened Wrappers
  import opened Text
  import opened Numbers
  import opened Eeg
  import opened FilterFacet

  /** The foreign numerics the cleaner calls.
      - `sqrt`: `np.sqrt` inside `np.nanstd`;
      - `keep(raw, j)`: sample `j` survives `reject_by_annotation='omit'`;
      - `bandPower(raw, ch, fmin, fmax)`: the Welch band power of one channel
        (or the RMS fallback when the PSD fails), None for NaN;
      - `medianTrace`: `np.nanmedian(data, axis=0)`;
      - `absCorr(x, ref)`: `abs(np.corrcoef(x, ref)[0, 1])`, None for NaN;
      - `asr(raw, cutoff, windowSec, removeOnly)`: `_apply_asr` past its gate;
      - `bandpass`, `resample`, `notchFilter`: the MNE filters of `pre_filter`. */
  datatype Numerics = Numerics(
    sqrt: real -> real,
    keep: (Raw, nat) -> bool,
    bandPower: (Raw, nat, real, real) -> Option<real>,
    medianTrace: seq<seq<real>> -> seq<real>,
    absCorr: (seq<real>, seq<real>) -> Option<real>,
    asr: (Raw, real, Option<real>, bool) -> Raw,
    bandpass: (Raw, real, real) -> Raw,
    resample: (Raw, real) -> Raw,
    notchFilter: (Raw, real) -> Raw)

  /** What MNE guarantees of a recording: one name, type and data row per
      channel, rows of equal length, and a positive sampling rate. */
  predicate Recording(raw: Raw) {
    raw.Shaped() && raw.sfreq > 0.0
    && forall i, j :: 0 <= i < |raw.data| && 0 <= j < |raw.data| ==> |raw.data[i]| == |raw.data[j]|
  }

  /** asrpy works on a copy: channel names, types, bad marks and sampling
      rate come back as they were, the recording keeps its shape, and no
      annotation is lost (remove-only mode adds "bad_asr" ones to them). */
  ghost predicate AsrKeepsLayout(num: Numerics) {
    forall r: Raw, c: real, w: Option<real>, ro: bool {:trigger num.asr(r, c, w, ro)} :: r.Shaped() ==>
      var o := num.asr(r, c, w, ro);
      o.Shaped() && o.chNames == r.chNames && o.isEeg == r.isEeg && o.bads == r.bads && o.sfreq == r.sfreq
      && multiset(r.annotations) <= multiset(o.annotations)
  }

  // ---------- channel picks and data ----------

  /** `mne.pick_types(info, eeg=True)` over the first `n` channels: the EEG
      channels not marked bad (bads are excluded by default), ascending. */
  function PicksUpTo(raw: Raw, n: nat): (r: seq<nat>)
    requires raw.Shaped() && n <= |raw.chNames|
    ensures forall k :: 0 <= k < |r| ==> r[k] < n
    ensures forall k, l :: 0 <= k < l < |r| ==> r[k] < r[l]
    ensures forall i: nat :: i in r <==> (i < n && raw.isEeg[i] && raw.chNames[i] !in raw.bads)
  {
    if n == 0 then []
    else
      var init := PicksUpTo(raw, n - 1);
      if raw.isEeg[n - 1] && raw.chNames[n - 1] !in raw.bads then init + [n - 1] else init
  }

  function EegPicks(raw: Raw): (r: seq<nat>)
    requires raw.Shaped()
    ensures forall k :: 0 <= k < |r| ==> r[k] < |raw.chNames|
  {
    PicksUpTo(raw, |raw.chNames|)
  }

  /** The samples of one row that survive the annotation mask, in order. */
  function Kept(num: Numerics, raw: Raw, x: seq<real>): (r: seq<real>)
    ensures |r| <= |x|
  {
    if |x| == 0 then []
    else
      var init := Kept(num, raw, x[..|x| - 1]);
      if num.keep(raw, |x| - 1) then init + [x[|x| - 1]] else init
  }

  /** Rows of equal length keep equally many samples. */
  lemma {:induction false} KeptLength(num: Numerics, raw: Raw, x: seq<real>, y: seq<real>)
    requires |x| == |y|
    ensures |Kept(num, raw, x)| == |Kept(num, raw, y)|
    decreases |x|
  {
    if |x| > 0 {
      KeptLength(num, raw, x[..|x| - 1], y[..|y| - 1]);
    }
  }

  /** `raw.get_data(picks=picks, reject_by_annotation='omit')`. */
  function PickedData(num: Numerics, raw: Raw, picks: seq<nat>): (rows: seq<seq<real>>)
    requires forall k :: 0 <= k < |picks| ==> picks[k] < |raw.data|
    ensures |rows| == |picks|
  {
    seq(|picks|, k requires 0 <= k < |picks| => Kept(num, raw, raw.data[picks[k]]))
  }

  /** The rows of a recording's data all keep the same number of samples. */
  lemma PickedDataRectangular(num: Numerics, raw: Raw, picks: seq<nat>)
    requires Recording(raw) && forall k :: 0 <= k < |picks| ==> picks[k] < |raw.data|
    ensures var rows := PickedData(num, raw, picks);
      forall k :: 0 <= k < |rows| ==> |rows[k]| == |rows[0]|
  {
    var rows := PickedData(num, raw, picks);
    forall k | 0 <= k < |rows| ensures |rows[k]| == |rows[0]| {
      KeptLength(num, raw, raw.data[picks[k]], raw.data[picks[0]]);
    }
  }

  /** The names of the picked channels whose flag is set, in pick order. */
  function FlaggedNames(raw: Raw, picks: seq<nat>, flags: seq<bool>): (r: seq<string>)
    requires |flags| == |picks| && forall k :: 0 <= k < |picks| ==> picks[k] < |raw.chNames|
    ensures |r| <= |flags|
    ensures forall x :: x in r <==> exists k :: 0 <= k < |picks| && flags[k] && raw.chNames[picks[k]] == x
  {
    if |picks| == 0 then []
    else
      var n := |picks| - 1;
      var init := FlaggedNames(raw, picks[..n], flags[..n]);
      assert forall k :: 0 <= k < n ==> picks[..n][k] == picks[k] && flags[..n][k] == flags[k];
      if flags[n] then init + [raw.chNames[picks[n]]] else init
  }

  // ---------- _safe_zscore ----------

  function Sum(v: seq<real>): real {
    if |v| == 0 then 0.0 else Sum(v[..|v| - 1]) + v[|v| - 1]
  }

  /** The values that are not NaN, in order (what `np.nanmean` averages). */
  function Present(xs: seq<Option<real>>): (v: seq<real>)
    ensures |v| <= |xs|
  {
    if |xs| == 0 then []
    else
      var init := Present(xs[..|xs| - 1]);
      if xs[|xs| - 1].Some? then init + [xs[|xs| - 1].value] else init
  }

  /** `np.nanmean`. */
  function NanMean(xs: seq<Option<real>>): Option<real> {
    var v := Present(xs);
    if |v| == 0 then None else Some(Sum(v) / |v| as real)
  }

  function SquaredDeviations(v: seq<real>, mu: real): (r: seq<real>)
    ensures |r| == |v|
  {
    if |v| == 0 then []
    else SquaredDeviations(v[..|v| - 1], mu) + [(v[|v| - 1] - mu) * (v[|v| - 1] - mu)]
  }

  /** `np.nanstd` (population): the square root of the mean squared deviation. */
  function NanStd(num: Numerics, xs: seq<Option<real>>): Option<real> {
    var v := Present(xs);
    if |v| == 0 then None
    else
      var mu := Sum(v) / |v| as real;
      Some(num.sqrt(Sum(SquaredDeviations(v, mu)) / |v| as real))
  }

  /** `(x - mu) / sd` elementwise, NaN staying NaN. */
  function Standardised(xs: seq<Option<real>>, mu: real, sd: real): (z: seq<Option<real>>)
    requires sd != 0.0
    ensures |z| == |xs|
  {
    if |xs| == 0 then []
    else
      var x := xs[|xs| - 1];
      Standardised(xs[..|xs| - 1], mu, sd) + [if x.Some? then Some((x.value - mu) / sd) else None]
  }

  /** `_safe_zscore`: a zero standard deviation becomes NaN before the
      division, so every score is then NaN and none is infinite. */
  function SafeZScore(num: Numerics, xs: seq<Option<real>>): (z: seq<Option<real>>)
    ensures |z| == |xs|
  {
    var mu := NanMean(xs);
    var sd := NanStd(num, xs);
    if mu.None? || sd.None? || sd.value == 0.0 then seq(|xs|, i requires 0 <= i < |xs| => None)
    else Standardised(xs, mu.value, sd.value)
  }

  /** The shift-and-scale applied to the values that are present. */
  function Shifted(v: seq<real>, mu: real, sd: real): (r: seq<real>)
    requires sd != 0.0
    ensures |r| == |v|
  {
    if |v| == 0 then [] else Shifted(v[..|v| - 1], mu, sd) + [(v[|v| - 1] - mu) / sd]
  }

  lemma {:induction false} PresentStandardised(xs: seq<Option<real>>, mu: real, sd: real)
    requires sd != 0.0
    ensures Present(Standardised(xs, mu, sd)) == Shifted(Present(xs), mu, sd)
    decreases |xs|
  {
    if |xs| > 0 {
      var n := |xs| - 1;
      var z := Standardised(xs, mu, sd);
      PresentStandardised(xs[..n], mu, sd);
      assert z[..n] == Standardised(xs[..n], mu, sd);
      var v := Present(xs[..n]);
      if xs[n].Some? {
        assert Present(xs) == v + [xs[n].value];
        assert Shifted(v + [xs[n].value], mu, sd) == Shifted(v, mu, sd) + [(xs[n].value - mu) / sd] by {
          assert (v + [xs[n].value])[..|v|] == v;
        }
      }
    }
  }

  lemma {:induction false} SumShifted(v: seq<real>, mu: real, sd: real)
    requires sd != 0.0
    ensures Sum(Shifted(v, mu, sd)) == (Sum(v) - |v| as real * mu) / sd
    decreases |v|
  {
    if |v| > 0 {
      var n := |v| - 1;
      SumShifted(v[..n], mu, sd);
      var s := Shifted(v, mu, sd);
      assert s == Shifted(v[..n], mu, sd) + [(v[n] - mu) / sd];
      assert Sum(s) == Sum(s[..n]) + s[n];
      assert Sum(v) == Sum(v[..n]) + v[n];
      ShiftStep(Sum(v[..n]), v[n], n as real, mu, sd);
    }
  }

  lemma ShiftStep(total: real, x: real, n: real, mu: real, sd: real)
    requires sd != 0.0
    ensures (total - n * mu) / sd + (x - mu) / sd == (total + x - (n + 1.0) * mu) / sd
  {
    assert (n + 1.0) * mu == n * mu + mu;
  }

  /** Where the standard deviation is not zero, the scores that are not NaN
      sum to zero: the scores are centred on the mean of the present values. */
  lemma ZScoresCentred(num: Numerics, xs: seq<Option<real>>)
    requires NanStd(num, xs).Some? && NanStd(num, xs).value != 0.0
    ensures Sum(Present(SafeZScore(num, xs))) == 0.0
  {
    var v := Present(xs);
    var len := |v| as real;
    var mu := Sum(v) / len;
    var sd := NanStd(num, xs).value;
    assert Present(SafeZScore(num, xs)) == Shifted(v, mu, sd) by {
      assert NanMean(xs) == Some(mu);
      assert SafeZScore(num, xs) == Standardised(xs, mu, sd);
      PresentStandardised(xs, mu, sd);
    }
    CentredSum(v, sd);
  }

  /** Shifting by the mean and scaling leaves values that sum to zero. */
  lemma CentredSum(v: seq<real>, sd: real)
    requires |v| > 0 && sd != 0.0
    ensures Sum(Shifted(v, Sum(v) / |v| as real, sd)) == 0.0
  {
    SumShifted(v, Sum(v) / |v| as real, sd);
    MeanCancels(Sum(v), |v| as real, sd);
  }

  lemma MeanCancels(total: real, len: real, sd: real)
    requires len > 0.0 && sd != 0.0
    ensures (total - len * (total / len)) / sd == 0.0
  {
    assert len * (total / len) == total;
  }

  /** A zero standard deviation makes every score NaN; otherwise a score is
      NaN exactly where the input is. */
  lemma ZScoreNaN(num: Numerics, xs: seq<Option<real>>, i: nat)
    requires i < |xs|
    ensures NanStd(num, xs).Some? && NanStd(num, xs).value == 0.0 ==> SafeZScore(num, xs)[i].None?
    ensures NanStd(num, xs).Some? && NanStd(num, xs).value != 0.0 ==>
      (SafeZScore(num, xs)[i].Some? <==> xs[i].Some?)
  {
    if NanStd(num, xs).Some? && NanStd(num, xs).value != 0.0 {
      StandardisedAt(xs, NanMean(xs).value, NanStd(num, xs).value, i);
    }
  }

  lemma {:induction false} StandardisedAt(xs: seq<Option<real>>, mu: real, sd: real, i: nat)
    requires sd != 0.0 && i < |xs|
    ensures Standardised(xs, mu, sd)[i] == if xs[i].Some? then Some((xs[i].value - mu) / sd) else None
    decreases |xs|
  {
    if i < |xs| - 1 {
      StandardisedAt(xs[..|xs| - 1], mu, sd, i);
    }
  }

  // ---------- marking bad channels ----------

  /** `raw.info['bads'] = sorted(set(old + names))` on a copy when any channel
      was flagged; the recording itself otherwise. Marks only grow: the new
      list is the sorted union of the old marks and the flagged names, and
      nothing but the marks changes. */
  function WithBads(raw: Raw, names: seq<string>): (r: Raw)
    ensures r == raw.(bads := r.bads)
    ensures forall x :: x in r.bads <==> x in raw.bads || x in names
    ensures names != [] ==> StrictlySortedBy(r.bads, x => x)
  {
    if names == [] then raw else raw.(bads := SortedSet(raw.bads + names))
  }

  // ---------- _mark_bad_flatline_channels ----------

  /** `nanmax - nanmin == 0` over the window of `n` samples starting at `w`. */
  predicate FlatWindow(x: seq<real>, w: nat, n: nat)
    requires 0 < n && w + n <= |x|
  {
    MaxOf(x[w..w + n]) - MinOf(x[w..w + n]) == 0.0
  }

  /** A window is flat exactly when all its samples are equal. */
  lemma FlatWindowConstant(x: seq<real>, w: nat, n: nat)
    requires 0 < n && w + n <= |x|
    ensures FlatWindow(x, w, n) <==> forall i :: w <= i < w + n ==> x[i] == x[w]
  {
    var s := x[w..w + n];
    assert forall i :: w <= i < w + n ==> x[i] == s[i - w];
  }

  /** One channel's verdict: it has at least `n` samples and some window of
      `n` consecutive samples is flat. */
  predicate HasFlatRun(x: seq<real>, n: nat)
    requires n > 0
  {
    n <= |x| && exists w :: 0 <= w <= |x| - n && FlatWindow(x, w, n)
  }

  /** `round(flat_sec * sfreq)` when the detector is on and that is more than
      one sample; None when the detector does nothing. */
  function FlatRunLength(raw: Raw, p: FilterParams): (n: Option<nat>)
    ensures n.Some? ==> p.cleanFlatlineSec.Some? && p.cleanFlatlineSec.value > 0.0 && n.value > 1
    ensures n.Some? ==> n.value == Samples(p.cleanFlatlineSec.value, raw.sfreq)
  {
    if p.cleanFlatlineSec.None? || p.cleanFlatlineSec.value <= 0.0 then None
    else
      var k := Samples(p.cleanFlatlineSec.value, raw.sfreq);
      if k <= 1 then None else Some(k as nat)
  }

  function FlatFlags(num: Numerics, raw: Raw, picks: seq<nat>, n: nat): (flags: seq<bool>)
    requires n > 0 && forall k :: 0 <= k < |picks| ==> picks[k] < |raw.data|
    ensures |flags| == |picks|
  {
    var rows := PickedData(num, raw, picks);
    seq(|picks|, k requires 0 <= k < |picks| => HasFlatRun(rows[k], n))
  }

  /** `_mark_bad_flatline_channels`. */
  function Flatline(num: Numerics, raw: Raw, p: FilterParams): (r: Raw)
    requires raw.Shaped()
    ensures r == raw.(bads := r.bads)
    ensures forall x :: x in raw.bads ==> x in r.bads
    ensures FlatRunLength(raw, p).None? || EegPicks(raw) == [] ==> r == raw
  {
    var n := FlatRunLength(raw, p);
    var picks := EegPicks(raw);
    if n.None? || picks == [] then raw
    else WithBads(raw, FlaggedNames(raw, picks, FlatFlags(num, raw, picks, n.value)))
  }

  /** The marks after the flatline detector: the old ones plus the name of
      every EEG channel whose kept samples contain a flat run of `n`. */
  lemma FlatlineMarks(num: Numerics, raw: Raw, p: FilterParams, name: string)
    requires raw.Shaped() && FlatRunLength(raw, p).Some?
    ensures name in Flatline(num, raw, p).bads <==>
      name in raw.bads
      || exists i :: 0 <= i < |raw.chNames| && raw.chNames[i] == name && raw.isEeg[i]
                     && HasFlatRun(Kept(num, raw, raw.data[i]), FlatRunLength(raw, p).value)
  {
    var n := FlatRunLength(raw, p).value;
    var picks := EegPicks(raw);
    var flags := FlatFlags(num, raw, picks, n);
    var flat := (i: nat) => i < |raw.data| && HasFlatRun(Kept(num, raw, raw.data[i]), n);
    assert forall k :: 0 <= k < |picks| ==> flags[k] == flat(picks[k]);
    if picks != [] {
      assert Flatline(num, raw, p) == WithBads(raw, FlaggedNames(raw, picks, flags));
    }
    MarksByChannel(raw, flags, flat, name);
    assert (exists i :: 0 <= i < |raw.chNames| && raw.chNames[i] == name && raw.isEeg[i] && flat(i))
       <==> (exists i :: 0 <= i < |raw.chNames| && raw.chNames[i] == name && raw.isEeg[i]
                         && HasFlatRun(Kept(num, raw, raw.data[i]), n));
  }

  /** When each picked channel's flag is a property of the channel itself,
      the marks after `WithBads` are the old ones plus every EEG channel
      with that property (a channel already marked needs no pick). */
  lemma MarksByChannel(raw: Raw, flags: seq<bool>, flag: nat -> bool, name: string)
    requires raw.Shaped() && |flags| == |EegPicks(raw)|
    requires forall k :: 0 <= k < |flags| ==> flags[k] == flag(EegPicks(raw)[k])
    ensures name in WithBads(raw, FlaggedNames(raw, EegPicks(raw), flags)).bads <==>
      name in raw.bads
      || exists i :: 0 <= i < |raw.chNames| && raw.chNames[i] == name && raw.isEeg[i] && flag(i)
  {
    var picks := EegPicks(raw);
    if exists i :: 0 <= i < |raw.chNames| && raw.chNames[i] == name && raw.isEeg[i] && flag(i) {
      var i :| 0 <= i < |raw.chNames| && raw.chNames[i] == name && raw.isEeg[i] && flag(i);
      if name !in raw.bads {
        assert i in picks;
        var k :| 0 <= k < |picks| && picks[k] == i;
        assert flags[k];
      }
    }
  }

  /** A channel with fewer kept samples than the run length is never flat. */
  lemma ShortChannelNotFlat(x: seq<real>, n: nat)
    requires 0 < n && |x| < n
    ensures !HasFlatRun(x, n)
  {
  }

  /** The loop of `_mark_bad_flatline_channels`: one verdict per picked channel,
      the flagged names collected in pick order. */
  method MarkFlatlineChannels(num: Numerics, raw: Raw, p: FilterParams) returns (r: Raw)
    requires raw.Shaped()
    ensures r == Flatline(num, raw, p)
  {
    var n := FlatRunLength(raw, p);
    var picks := EegPicks(raw);
    if n.None? || picks == [] {
      return raw;
    }
    var badNames := FlatNames(num, raw, picks, n.value);
    r := WithBads(raw, badNames);
  }

  method FlatNames(num: Numerics, raw: Raw, picks: seq<nat>, n: nat) returns (badNames: seq<string>)
    requires n > 0 && |raw.data| == |raw.chNames| && forall k :: 0 <= k < |picks| ==> picks[k] < |raw.data|
    ensures badNames == FlaggedNames(raw, picks, FlatFlags(num, raw, picks, n))
  {
    var rows := PickedData(num, raw, picks);
    ghost var flags := FlatFlags(num, raw, picks, n);
    badNames := [];
    for k := 0 to |picks|
      invariant badNames == FlaggedNames(raw, picks[..k], flags[..k])
    {
      assert picks[..k + 1][..k] == picks[..k] && flags[..k + 1][..k] == flags[..k];
      if HasFlatRun(rows[k], n) {
        badNames := badNames + [raw.chNames[picks[k]]];
      }
    }
    assert picks[..|picks|] == picks && flags[..|flags|] == flags;
  }

  // ---------- _mark_bad_highfreq_noise_channels ----------

  /** The band `[max(30, highpass), min(100, lowpass)]`, a missing lowpass
      being infinite; None when the upper edge is not above the lower edge
      plus one hertz. */
  function HfBand(raw: Raw): (b: Option<(real, real)>)
    ensures b.Some? <==> Min(100.0, if raw.lowpass.Some? then raw.lowpass.value else 100.0)
                         > Max(30.0, raw.highpass) + 1.0
    ensures b.Some? ==> b.value.0 == Max(30.0, raw.highpass) && b.value.0 >= 30.0
    ensures b.Some? ==> b.value.1 <= 100.0 && (raw.lowpass.Some? ==> b.value.1 <= raw.lowpass.value)
  {
    var fmin := if raw.highpass > 30.0 then raw.highpass else 30.0;
    var fmax := if raw.lowpass.Some? && raw.lowpass.value < 100.0 then raw.lowpass.value else 100.0;
    if fmax <= fmin + 1.0 then None else Some((fmin, fmax))
  }

  function Max(a: real, b: real): real { if a >= b then a else b }
  function Min(a: real, b: real): real { if a <= b then a else b }

  /** The z-scores of the picked channels' band power. */
  function HfScores(num: Numerics, raw: Raw, picks: seq<nat>, fmin: real, fmax: real): (z: seq<Option<real>>)
    ensures |z| == |picks|
  {
    SafeZScore(num, seq(|picks|, k requires 0 <= k < |picks| => num.bandPower(raw, picks[k], fmin, fmax)))
  }

  /** The gate of the hf-noise detector: its threshold when it is on. */
  function HfThreshold(p: FilterParams): Option<real> {
    if p.cleanHfNoiseSdMax.Some? && p.cleanHfNoiseSdMax.value > 0.0 then p.cleanHfNoiseSdMax else None
  }

  /** `_mark_bad_highfreq_noise_channels`. */
  function HfNoise(num: Numerics, raw: Raw, p: FilterParams): (r: Raw)
    requires raw.Shaped()
    ensures r == raw.(bads := r.bads)
    ensures forall x :: x in raw.bads ==> x in r.bads
    ensures HfThreshold(p).None? || EegPicks(raw) == [] || HfBand(raw).None? ==> r == raw
  {
    var hf := HfThreshold(p);
    var picks := EegPicks(raw);
    var band := HfBand(raw);
    if hf.None? || picks == [] || band.None? then raw
    else
      var z := HfScores(num, raw, picks, band.value.0, band.value.1);
      WithBads(raw, FlaggedNames(raw, picks, seq(|picks|, k requires 0 <= k < |picks| => z[k].Some? && z[k].value > hf.value)))
  }

  /** The marks after the hf-noise detector: the old ones plus the EEG
      channels whose band-power z-score is strictly above the threshold (a
      NaN score never is). */
  lemma HfNoiseMarks(num: Numerics, raw: Raw, p: FilterParams, name: string)
    requires raw.Shaped() && HfThreshold(p).Some? && HfBand(raw).Some?
    ensures var picks := EegPicks(raw);
      var z := HfScores(num, raw, picks, HfBand(raw).value.0, HfBand(raw).value.1);
      name in HfNoise(num, raw, p).bads <==>
        name in raw.bads
        || exists k :: 0 <= k < |picks| && raw.chNames[picks[k]] == name && z[k].Some? && z[k].value > HfThreshold(p).value
  {
    var picks := EegPicks(raw);
    if picks != [] {
      var z := HfScores(num, raw, picks, HfBand(raw).value.0, HfBand(raw).value.1);
      var flags := seq(|picks|, k requires 0 <= k < |picks| => z[k].Some? && z[k].value > HfThreshold(p).value);
    }
  }

  /** With a positive spread, a positive z-score means a value above the mean:
      every channel the hf-noise detector flags has more band power than the
      average picked channel. */
  lemma PositiveScoreAboveMean(num: Numerics, xs: seq<Option<real>>, i: nat)
    requires i < |xs| && NanStd(num, xs).Some? && NanStd(num, xs).value > 0.0
    requires SafeZScore(num, xs)[i].Some? && SafeZScore(num, xs)[i].value > 0.0
    ensures xs[i].Some? && xs[i].value > NanMean(xs).value
  {
    var mu := NanMean(xs).value;
    var sd := NanStd(num, xs).value;
    StandardisedAt(xs, mu, sd, i);
    assert SafeZScore(num, xs) == Standardised(xs, mu, sd);
    if xs[i].value <= mu {
      NonPositiveRatio(xs[i].value - mu, sd);
    }
  }

  lemma NonPositiveRatio(a: real, b: real)
    requires a <= 0.0 && b > 0.0
    ensures a / b <= 0.0
  {
  }

  // ---------- _mark_bad_lowcorr_channels ----------

  /** One channel's correlation with the median trace: 1.0 below ten samples,
      otherwise the absolute Pearson correlation (None for NaN). */
  function CorrOf(num: Numerics, x: seq<real>, ref: seq<real>): Option<real> {
    if |x| < 10 then Some(1.0) else num.absCorr(x, ref)
  }

  /** The loop filling `corrs`. */
  method Correlations(num: Numerics, rows: seq<seq<real>>, ref: seq<real>) returns (corrs: seq<Option<real>>)
    ensures |corrs| == |rows|
    ensures forall k :: 0 <= k < |rows| ==> corrs[k] == CorrOf(num, rows[k], ref)
  {
    corrs := [];
    for i := 0 to |rows|
      invariant |corrs| == i
      invariant forall k :: 0 <= k < i ==> corrs[k] == CorrOf(num, rows[k], ref)
    {
      var x := rows[i];
      if |x| < 10 {
        corrs := corrs + [Some(1.0)];
        continue;
      }
      corrs := corrs + [num.absCorr(x, ref)];
    }
  }

  /** The gate of the low-correlation detector: its threshold when `0 < corr_min <= 1`. */
  function CorrThreshold(p: FilterParams): (c: Option<real>)
    ensures c.Some? ==> 0.0 < c.value <= 1.0
  {
    if p.cleanCorrMin.Some? && 0.0 < p.cleanCorrMin.value <= 1.0 then p.cleanCorrMin else None
  }

  function LowCorrFlags(num: Numerics, raw: Raw, picks: seq<nat>, cmin: real): (flags: seq<bool>)
    requires forall k :: 0 <= k < |picks| ==> picks[k] < |raw.data|
    ensures |flags| == |picks|
  {
    var rows := PickedData(num, raw, picks);
    var ref := num.medianTrace(rows);
    seq(|picks|, k requires 0 <= k < |picks| =>
      var c := CorrOf(num, rows[k], ref); c.Some? && c.value < cmin)
  }

  /** `_mark_bad_lowcorr_channels`. */
  function LowCorr(num: Numerics, raw: Raw, p: FilterParams): (r: Raw)
    requires raw.Shaped()
    ensures r == raw.(bads := r.bads)
    ensures forall x :: x in raw.bads ==> x in r.bads
    ensures CorrThreshold(p).None? || |EegPicks(raw)| < 3 ==> r == raw
  {
    var cmin := CorrThreshold(p);
    var picks := EegPicks(raw);
    if cmin.None? || |picks| < 3 then raw
    else WithBads(raw, FlaggedNames(raw, picks, LowCorrFlags(num, raw, picks, cmin.value)))
  }

  /** The marks after the low-correlation detector: the old ones plus the EEG
      channels whose correlation with the median trace is below the threshold;
      a channel with fewer than ten kept samples is never one of them. */
  lemma LowCorrMarks(num: Numerics, raw: Raw, p: FilterParams, name: string)
    requires raw.Shaped() && CorrThreshold(p).Some? && |EegPicks(raw)| >= 3
    ensures var picks := EegPicks(raw);
      var rows := PickedData(num, raw, picks);
      var ref := num.medianTrace(rows);
      name in LowCorr(num, raw, p).bads <==>
        name in raw.bads
        || exists k :: 0 <= k < |picks| && raw.chNames[picks[k]] == name && 10 <= |rows[k]|
                       && num.absCorr(rows[k], ref).Some? && num.absCorr(rows[k], ref).value < CorrThreshold(p).value
  {
    var picks := EegPicks(raw);
    var flags := LowCorrFlags(num, raw, picks, CorrThreshold(p).value);
  }

  /** A channel with fewer than ten kept samples counts as perfectly
      correlated, and no threshold the gate admits flags it. */
  lemma ShortChannelNotLowCorr(num: Numerics, x: seq<real>, ref: seq<real>, cmin: real)
    requires |x| < 10 && cmin <= 1.0
    ensures var c := CorrOf(num, x, ref); c == Some(1.0) && !(c.value < cmin)
  {
  }

  /** The loop of `_mark_bad_lowcorr_channels`, built on `Correlations`. */
  method MarkLowCorrChannels(num: Numerics, raw: Raw, p: FilterParams) returns (r: Raw)
    requires raw.Shaped()
    ensures r == LowCorr(num, raw, p)
  {
    var cmin := CorrThreshold(p);
    var picks := EegPicks(raw);
    if cmin.None? || |picks| < 3 {
      return raw;
    }
    var rows := PickedData(num, raw, picks);
    var corrs := Correlations(num, rows, num.medianTrace(rows));
    var flags := seq(|picks|, k requires 0 <= k < |picks| => corrs[k].Some? && corrs[k].value < cmin.value);
    assert flags == LowCorrFlags(num, raw, picks, cmin.value);
    r := WithBads(raw, FlaggedNames(raw, picks, flags));
  }

  // ---------- _mark_bad_windows_by_power ----------

  /** `max(1, round(window_sec * sfreq))`. */
  function WindowLength(raw: Raw, sec: real): (win: nat)
    ensures win >= 1 && (win > 1 ==> win == Samples(sec, raw.sfreq))
  {
    var k := Samples(sec, raw.sfreq);
    if k < 1 then 1 else k
  }

  function SumSquares(x: seq<real>): real {
    if |x| == 0 then 0.0 else SumSquares(x[..|x| - 1]) + x[|x| - 1] * x[|x| - 1]
  }

  /** The mean power of each window of `win` samples, sliding by one sample. */
  function WindowPowers(x: seq<real>, win: nat): (pw: seq<Option<real>>)
    requires 0 < win <= |x|
    ensures |pw| == |x| - win + 1
  {
    seq(|x| - win + 1, w requires 0 <= w < |x| - win + 1 => Some(SumSquares(x[w..w + win]) / win as real))
  }

  /** `lower <= z <= upper`, a missing bound being infinite; NaN is never in band. */
  predicate InBand(z: Option<real>, lower: Option<real>, upper: Option<real>) {
    z.Some? && (lower.None? || lower.value <= z.value) && (upper.None? || z.value <= upper.value)
  }

  /** How many of the channels' scores are in band at window `w`. */
  function InBandCount(zs: seq<seq<Option<real>>>, w: nat, lower: Option<real>, upper: Option<real>): (c: nat)
    ensures c <= |zs|
  {
    if |zs| == 0 then 0
    else
      var last := zs[|zs| - 1];
      InBandCount(zs[..|zs| - 1], w, lower, upper) + (if w < |last| && InBand(last[w], lower, upper) then 1 else 0)
  }

  /** `100 * (1 - mean(ok))`: the percentage of channels out of band. */
  function OutPct(inBand: nat, nCh: nat): real
    requires 0 < nCh
  {
    100.0 * (1.0 - inBand as real / nCh as real)
  }

  /** The windows before `m` whose out-of-band percentage is strictly above `thr`. */
  function BadWindows(zs: seq<seq<Option<real>>>, m: nat, lower: Option<real>, upper: Option<real>, thr: real): (ws: seq<nat>)
    requires |zs| > 0
    ensures forall k :: 0 <= k < |ws| ==> ws[k] < m
    ensures forall k, l :: 0 <= k < l < |ws| ==> ws[k] < ws[l]
    ensures forall w: nat :: w in ws <==> (w < m && OutPct(InBandCount(zs, w, lower, upper), |zs|) > thr)
  {
    if m == 0 then []
    else
      var init := BadWindows(zs, m - 1, lower, upper, thr);
      if OutPct(InBandCount(zs, m - 1, lower, upper), |zs|) > thr then init + [m - 1] else init
  }

  /** One "bad_power" annotation per flagged window. */
  function PowerAnnotations(ws: seq<nat>, win: nat, sfreq: real): (anns: seq<Annotation>)
    requires sfreq > 0.0
    ensures |anns| == |ws|
    ensures forall k :: 0 <= k < |ws| ==>
      anns[k] == Annotation(ws[k] as real / sfreq, win as real / sfreq, "bad_power")
  {
    seq(|ws|, k requires 0 <= k < |ws| => Annotation(ws[k] as real / sfreq, win as real / sfreq, "bad_power"))
  }

  /** The per-channel z-scores of the window powers. */
  function PowerScores(num: Numerics, rows: seq<seq<real>>, win: nat): (zs: seq<seq<Option<real>>>)
    requires 0 < win && forall c :: 0 <= c < |rows| ==> win <= |rows[c]|
    ensures |zs| == |rows|
  {
    seq(|rows|, c requires 0 <= c < |rows| => SafeZScore(num, WindowPowers(rows[c], win)))
  }

  /** The threshold, 25 when unset. */
  function OutboundThreshold(p: FilterParams): real {
    if p.cleanMaxOutboundPct.None? then 25.0 else p.cleanMaxOutboundPct.value
  }

  /** The windows the power detector flags, None when it does nothing (off,
      no EEG picks, or fewer kept samples than one window). */
  function PowerBadWindows(num: Numerics, raw: Raw, p: FilterParams): (r: Option<(seq<nat>, nat)>)
    requires raw.Shaped()
    ensures r.Some? ==> r.value.1 >= 1 && p.cleanWindowSec.Some? && p.cleanWindowSec.value > 0.0
  {
    if p.cleanWindowSec.None? || p.cleanWindowSec.value <= 0.0 then None
    else
      var win := WindowLength(raw, p.cleanWindowSec.value);
      var picks := EegPicks(raw);
      if picks == [] then None
      else
        var rows := PickedData(num, raw, picks);
        if |rows[0]| < win || exists c :: 0 <= c < |rows| && |rows[c]| < win then None
        else
          var zs := PowerScores(num, rows, win);
          Some((BadWindows(zs, |rows[0]| - win + 1, p.cleanPowerMinSd, p.cleanPowerMaxSd, OutboundThreshold(p)), win))
  }

  /** `_mark_bad_windows_by_power`: flagged windows become annotations added
      to the existing ones (MNE's `+`, which keeps them sorted); nothing else
      changes. */
  function PowerWindows(num: Numerics, raw: Raw, p: FilterParams): (r: Raw)
    requires raw.Shaped() && raw.sfreq > 0.0
    ensures r == raw.(annotations := r.annotations)
    ensures multiset(raw.annotations) <= multiset(r.annotations)
    ensures |raw.annotations| < |r.annotations| ==> PowerBadWindows(num, raw, p).Some? && AnnSorted(r.annotations)
    ensures forall x :: multiset(raw.annotations)[x] < multiset(r.annotations)[x] ==>
      PowerBadWindows(num, raw, p).Some? && x.description == "bad_power"
      && x.duration == PowerBadWindows(num, raw, p).value.1 as real / raw.sfreq
  {
    var bw := PowerBadWindows(num, raw, p);
    if bw.None? || bw.value.0 == [] then raw
    else
      var added := PowerAnnotations(bw.value.0, bw.value.1, raw.sfreq);
      assert forall x :: x in multiset(added) ==> x.description == "bad_power" && x.duration == bw.value.1 as real / raw.sfreq;
      raw.(annotations := AddAnnotations(raw.annotations, added))
  }

  /** The annotations added are exactly the flagged windows, each starting at
      its window index over the sampling rate, and the result is sorted. */
  lemma PowerWindowOnsets(num: Numerics, raw: Raw, p: FilterParams)
    requires raw.Shaped() && raw.sfreq > 0.0 && PowerBadWindows(num, raw, p).Some?
    ensures var ws := PowerBadWindows(num, raw, p).value.0;
      var r := PowerWindows(num, raw, p);
      var win := PowerBadWindows(num, raw, p).value.1;
      |r.annotations| == |raw.annotations| + |ws|
      && multiset(r.annotations) == multiset(raw.annotations) + multiset(PowerAnnotations(ws, win, raw.sfreq))
      && (ws != [] ==> AnnSorted(r.annotations))
  {
  }

  /** A percentage out of band never exceeds 100, so a threshold of 100 or
      more flags no window. */
  lemma FullThresholdFlagsNothing(zs: seq<seq<Option<real>>>, m: nat, lower: Option<real>, upper: Option<real>, thr: real)
    requires |zs| > 0 && thr >= 100.0
    ensures BadWindows(zs, m, lower, upper, thr) == []
  {
  }

  /** Raising the threshold can only unflag windows. */
  lemma ThresholdMonotone(zs: seq<seq<Option<real>>>, m: nat, lower: Option<real>, upper: Option<real>, t1: real, t2: real)
    requires |zs| > 0 && t1 <= t2
    ensures forall w :: w in BadWindows(zs, m, lower, upper, t2) ==> w in BadWindows(zs, m, lower, upper, t1)
  {
  }

  /** A window is flagged exactly when strictly more than `thr` percent of the
      channels are out of band. */
  lemma OutPctMeaning(inBand: nat, nCh: nat, thr: real)
    requires 0 < nCh && inBand <= nCh
    ensures OutPct(inBand, nCh) > thr <==> 100.0 * (nCh - inBand) as real > thr * nCh as real
  {
    var n := nCh as real;
    var q := inBand as real / n;
    assert q * n == inBand as real;
    assert OutPct(inBand, nCh) * n == 100.0 * (nCh - inBand) as real;
  }

  // ---------- _apply_asr ----------

  /** The gate of `_apply_asr`: past it, asrpy is called with the cutoff, the
      window length and remove-only mode (set only by an explicit true).
      Without a positive cutoff or without EEG channels the recording is
      returned as it is; with an ASR that keeps the layout, the channels,
      bad marks and rate always stay and no annotation is lost. */
  function Asr(num: Numerics, raw: Raw, p: FilterParams): (r: Raw)
    requires raw.Shaped()
    ensures p.cleanAsrMaxStd.None? || p.cleanAsrMaxStd.value <= 0.0 || EegPicks(raw) == [] ==> r == raw
    ensures AsrKeepsLayout(num) ==>
      r.Shaped() && r.chNames == raw.chNames && r.isEeg == raw.isEeg && r.bads == raw.bads && r.sfreq == raw.sfreq
      && multiset(raw.annotations) <= multiset(r.annotations)
  {
    if p.cleanAsrMaxStd.None? || p.cleanAsrMaxStd.value <= 0.0 || EegPicks(raw) == [] then raw
    else num.asr(raw, p.cleanAsrMaxStd.value, p.cleanWindowSec, p.cleanAsrRemoveOnly == Some(true))
  }

  // ---------- pre_filter ----------

  /** The channels, their types, the bad marks and the annotations of `o`
      are those of `r`. */
  predicate SameLayout(o: Raw, r: Raw) {
    o.chNames == r.chNames && o.isEeg == r.isEeg && o.bads == r.bads && o.annotations == r.annotations
  }

  /** MNE's filters of `pre_filter` change only the samples: band-pass and
      notch keep the rate, resampling sets it to the target, and none of
      them touches channels, bad marks or annotations. */
  ghost predicate FilterStepsKeep(num: Numerics) {
    (forall r: Raw, lo: real, hi: real {:trigger num.bandpass(r, lo, hi)} ::
       SameLayout(num.bandpass(r, lo, hi), r) && num.bandpass(r, lo, hi).sfreq == r.sfreq)
    && (forall r: Raw, fs: real {:trigger num.resample(r, fs)} ::
       SameLayout(num.resample(r, fs), r) && num.resample(r, fs).sfreq == fs)
    && (forall r: Raw, f: real {:trigger num.notchFilter(r, f)} ::
       SameLayout(num.notchFilter(r, f), r) && num.notchFilter(r, f).sfreq == r.sfreq)
  }

  /** `pre_filter`: band-pass always; resample only to a positive target that
      differs from the current rate by more than 1e-6; notch only at a
      positive frequency. With filters that change only the samples, the
      result keeps the channels, bad marks and annotations, and its rate is
      the target exactly when resampling happened. */
  function PreFilter(num: Numerics, raw: Raw, p: FilterParams): (r: Raw)
    ensures FilterStepsKeep(num) ==>
      SameLayout(r, raw) && r.sfreq == (if p.resampleFs > 0.0 && Abs(raw.sfreq - p.resampleFs) > 0.000001 then p.resampleFs else raw.sfreq)
  {
    var f := num.bandpass(raw, p.lFreq, p.hFreq);
    var g := if p.resampleFs > 0.0 && Abs(f.sfreq - p.resampleFs) > 0.000001 then num.resample(f, p.resampleFs) else f;
    if p.notch.Some? && p.notch.value > 0.0 then num.notchFilter(g, p.notch.value) else g
  }

  /** `pre_filter` reads only the four fields of the filter key: parameter
      sets with the same filter key filter a recording alike. */
  lemma PreFilterByFilterKey(num: Numerics, raw: Raw, p: FilterParams, q: FilterParams)
    requires FilterKey(p) == FilterKey(q)
    ensures PreFilter(num, raw, p) == PreFilter(num, raw, q)
  {
    FilterKeyIff(p, q);
  }

  /** Without a positive resampling target away from the current rate and
      without a positive notch, `pre_filter` is the band-pass alone. */
  lemma PreFilterBandpassOnly(num: Numerics, raw: Raw, p: FilterParams)
    requires p.resampleFs <= 0.0 || Abs(num.bandpass(raw, p.lFreq, p.hFreq).sfreq - p.resampleFs) <= 0.000001
    requires p.notch.None? || p.notch.value <= 0.0
    ensures PreFilter(num, raw, p) == num.bandpass(raw, p.lFreq, p.hFreq)
  {
  }

  // ---------- clean_mark ----------

  /** `clean_mark`: flatline, hf-noise, low correlation, ASR, power windows. */
  function CleanMarkSpec(num: Numerics, raw: Raw, p: FilterParams): (r: Raw)
    requires raw.Shaped() && raw.sfreq > 0.0 && AsrKeepsLayout(num)
  {
    var a := Flatline(num, raw, p);
    var b := HfNoise(num, a, p);
    var c := LowCorr(num, b, p);
    var d := Asr(num, c, p);
    PowerWindows(num, d, p)
  }

  /** `clean_mark` threading the recording through the five steps. */
  method CleanMark(num: Numerics, raw: Raw, p: FilterParams) returns (r: Raw)
    requires raw.Shaped() && raw.sfreq > 0.0 && AsrKeepsLayout(num)
    ensures r == CleanMarkSpec(num, raw, p)
  {
    r := MarkFlatlineChannels(num, raw, p);
    r := HfNoise(num, r, p);
    r := MarkLowCorrChannels(num, r, p);
    r := Asr(num, r, p);
    r := PowerWindows(num, r, p);
  }

  /** Through the whole of `clean_mark` the channels and the sampling rate
      stay, and no bad mark and no annotation is dropped. */
  lemma CleanMarkKeeps(num: Numerics, raw: Raw, p: FilterParams)
    requires raw.Shaped() && raw.sfreq > 0.0 && AsrKeepsLayout(num)
    ensures var r := CleanMarkSpec(num, raw, p);
      r.chNames == raw.chNames && r.isEeg == raw.isEeg && r.sfreq == raw.sfreq
      && (forall x :: x in raw.bads ==> x in r.bads)
      && multiset(raw.annotations) <= multiset(r.annotations)
  {
    var c := LowCorr(num, HfNoise(num, Flatline(num, raw, p), p), p);
    ChannelMarkersKeep(num, raw, p);
    var d := Asr(num, c, p);
    var r := PowerWindows(num, d, p);
    assert multiset(c.annotations) <= multiset(d.annotations) <= multiset(r.annotations);
  }

  /** The three channel detectors together change only the marks and keep the old ones. */
  lemma ChannelMarkersKeep(num: Numerics, raw: Raw, p: FilterParams)
    requires raw.Shaped()
    ensures var c := LowCorr(num, HfNoise(num, Flatline(num, raw, p), p), p);
      c == raw.(bads := c.bads) && forall x :: x in raw.bads ==> x in c.bads
  {
  }

  /** The fields `clean_mark` reads. */
  predicate SameCleanFields(p: FilterParams, q: FilterParams) {
    p.cleanFlatlineSec == q.cleanFlatlineSec && p.cleanHfNoiseSdMax == q.cleanHfNoiseSdMax
    && p.cleanCorrMin == q.cleanCorrMin && p.cleanAsrMaxStd == q.cleanAsrMaxStd
    && p.cleanPowerMinSd == q.cleanPowerMinSd && p.cleanPowerMaxSd == q.cleanPowerMaxSd
    && p.cleanMaxOutboundPct == q.cleanMaxOutboundPct && p.cleanWindowSec == q.cleanWindowSec
    && (p.cleanAsrRemoveOnly == Some(true)) == (q.cleanAsrRemoveOnly == Some(true))
  }

  lemma CleanFieldsOfKey(p: FilterParams, q: FilterParams)
    requires CleaningKey(p) == CleaningKey(q)
    ensures SameCleanFields(p, q)
  {
    CleaningKeyIff(p, q);
    var cp, cq := CleanValues(p), CleanValues(q);
    assert cp[0].1 == cq[0].1 && cp[1].1 == cq[1].1 && cp[2].1 == cq[2].1 && cp[3].1 == cq[3].1;
    assert cp[4].1 == cq[4].1 && cp[5].1 == cq[5].1 && cp[6].1 == cq[6].1 && cp[7].1 == cq[7].1;
  }

  lemma ChannelStepsByFields(num: Numerics, raw: Raw, p: FilterParams, q: FilterParams)
    requires raw.Shaped() && SameCleanFields(p, q)
    ensures Flatline(num, raw, p) == Flatline(num, raw, q)
    ensures HfNoise(num, raw, p) == HfNoise(num, raw, q)
    ensures LowCorr(num, raw, p) == LowCorr(num, raw, q)
  {
    assert FlatRunLength(raw, p) == FlatRunLength(raw, q);
    assert HfThreshold(p) == HfThreshold(q);
    assert CorrThreshold(p) == CorrThreshold(q);
  }

  lemma WindowStepsByFields(num: Numerics, raw: Raw, p: FilterParams, q: FilterParams)
    requires raw.Shaped() && raw.sfreq > 0.0 && SameCleanFields(p, q)
    ensures Asr(num, raw, p) == Asr(num, raw, q)
    ensures PowerWindows(num, raw, p) == PowerWindows(num, raw, q)
  {
    assert PowerBadWindows(num, raw, p) == PowerBadWindows(num, raw, q);
  }

  /** `clean_mark` reads only the cleaning fields: parameter sets with the
      same cleaning key mark a recording alike. */
  lemma CleanMarkByCleaningKey(num: Numerics, raw: Raw, p: FilterParams, q: FilterParams)
    requires raw.Shaped() && raw.sfreq > 0.0 && AsrKeepsLayout(num)
    requires CleaningKey(p) == CleaningKey(q)
    ensures CleanMarkSpec(num, raw, p) == CleanMarkSpec(num, raw, q)
  {
    CleanFieldsOfKey(p, q);
    var a := Flatline(num, raw, p);
    ChannelStepsByFields(num, raw, p, q);
    var b := HfNoise(num, a, p);
    ChannelStepsByFields(num, a, p, q);
    var c := LowCorr(num, b, p);
    ChannelStepsByFields(num, b, p, q);
    var d := Asr(num, c, p);
    WindowStepsByFields(num, c, p, q);
    WindowStepsByFields(num, d, p, q);
  }
}

=== FILE: signal_spatial.dfy ===
/** `snr_spectrum` of backend/app/pipeline/signal_spatial.py: the signal-to-
    noise ratio of a power spectrum, each bin divided by the mean of its
    neighbouring bins. A spectrum is a sequence of rows (the leading axes
    flattened), each a sequence of finite reals; an output entry is None
    where NumPy produces NaN or an infinity. */
module SignalSpatial {
  import opened Wrappers

  // ---------- sums and products ----------

  function Sum(x: seq<real>): real {
    if |x| == 0 then 0.0 else x[0] + Sum(x[1..])
  }

  /** `np.dot` of two equally long vectors. */
  function Dot(x: seq<real>, y: seq<real>): real
    requires |x| == |y|
  {
    if |x| == 0 then 0.0 else x[0] * y[0] + Dot(x[1..], y[1..])
  }

  /** `n` copies of `c` (`np.ones`, `np.zeros`). */
  function Const(n: nat, c: real): (r: seq<real>)
    ensures |r| == n && forall i :: 0 <= i < n ==> r[i] == c
  {
    if n == 0 then [] else [c] + Const(n - 1, c)
  }

  function Reverse(v: seq<real>): (r: seq<real>)
    ensures |r| == |v| && forall i :: 0 <= i < |v| ==> r[i] == v[|v| - 1 - i]
  {
    if |v| == 0 then [] else Reverse(v[1..]) + [v[0]]
  }

  /** Every entry divided by `d` (`kernel /= kernel.sum()`). */
  function Divided(v: seq<real>, d: real): (r: seq<real>)
    requires d != 0.0
    ensures |r| == |v|
  {
    if |v| == 0 then [] else [v[0] / d] + Divided(v[1..], d)
  }

  lemma {:induction false} DividedAt(v: seq<real>, d: real, i: nat)
    requires d != 0.0 && i < |v|
    ensures Divided(v, d)[i] == v[i] / d
    decreases |v|
  {
    if i > 0 {
      DividedAt(v[1..], d, i - 1);
    }
  }

  lemma {:induction false} SumConcat(a: seq<real>, b: seq<real>)
    ensures Sum(a + b) == Sum(a) + Sum(b)
    decreases |a|
  {
    if |a| > 0 {
      assert (a + b)[1..] == a[1..] + b;
      SumConcat(a[1..], b);
    } else {
      assert a + b == b;
    }
  }

  lemma {:induction false} SumConst(n: nat, c: real)
    ensures Sum(Const(n, c)) == n as real * c
    decreases n
  {
    if n > 0 {
      SumConst(n - 1, c);
      assert Const(n, c)[1..] == Const(n - 1, c);
    }
  }

  lemma {:induction false} DotConcat(x1: seq<real>, x2: seq<real>, y1: seq<real>, y2: seq<real>)
    requires |x1| == |y1| && |x2| == |y2|
    ensures Dot(x1 + x2, y1 + y2) == Dot(x1, y1) + Dot(x2, y2)
    decreases |x1|
  {
    if |x1| > 0 {
      assert (x1 + x2)[1..] == x1[1..] + x2;
      assert (y1 + y2)[1..] == y1[1..] + y2;
      DotConcat(x1[1..], x2, y1[1..], y2);
    } else {
      assert x1 + x2 == x2 && y1 + y2 == y2;
    }
  }

  /** A dot product with a constant vector is that constant times the sum. */
  lemma {:induction false} DotConst(x: seq<real>, c: real)
    ensures Dot(x, Const(|x|, c)) == c * Sum(x)
    decreases |x|
  {
    if |x| > 0 {
      assert Const(|x|, c)[1..] == Const(|x| - 1, c);
      DotConst(x[1..], c);
    }
  }

  // ---------- the kernel ----------

  /** `np.concatenate((np.ones(n), np.zeros(2 * s + 1), np.ones(n)))`. */
  function RawKernel(n: nat, s: nat): (k: seq<real>)
    ensures |k| == 2 * n + 2 * s + 1
  {
    Const(n, 1.0) + Const(2 * s + 1, 0.0) + Const(n, 1.0)
  }

  lemma RawKernelSum(n: nat, s: nat)
    ensures Sum(RawKernel(n, s)) == 2.0 * n as real
  {
    SumConcat(Const(n, 1.0) + Const(2 * s + 1, 0.0), Const(n, 1.0));
    SumConcat(Const(n, 1.0), Const(2 * s + 1, 0.0));
    SumConst(n, 1.0);
    SumConst(2 * s + 1, 0.0);
  }

  /** The kernel normalised by its sum; it exists when `n >= 1` (with
      `n == 0` the sum is zero and every weight is NaN). */
  function Kernel(n: nat, s: nat): (k: seq<real>)
    requires n >= 1
    ensures |k| == 2 * n + 2 * s + 1
  {
    var raw := RawKernel(n, s);
    RawKernelSum(n, s);
    Divided(raw, Sum(raw))
  }

  /** The weight `1/(2n)` every non-zero kernel entry gets. */
  function Weight(n: nat): real
    requires n >= 1
  {
    1.0 / (2.0 * n as real)
  }

  /** Normalising gives `n` weights 1/(2n), then 2s + 1 zeros, then `n` weights 1/(2n). */
  lemma KernelWeights(n: nat, s: nat)
    requires n >= 1
    ensures Kernel(n, s) == Const(n, Weight(n)) + Const(2 * s + 1, 0.0) + Const(n, Weight(n))
  {
    var k := Kernel(n, s);
    var raw := RawKernel(n, s);
    var parts := Const(n, Weight(n)) + Const(2 * s + 1, 0.0) + Const(n, Weight(n));
    RawKernelSum(n, s);
    forall i | 0 <= i < |k|
      ensures k[i] == parts[i]
    {
      DividedAt(raw, Sum(raw), i);
      assert k[i] == raw[i] / (2.0 * n as real);
      if i < n || i >= n + 2 * s + 1 {
        assert raw[i] == 1.0 && parts[i] == Weight(n);
      } else {
        assert raw[i] == 0.0 && parts[i] == 0.0;
      }
    }
  }

  /** The kernel reads the same backwards. */
  lemma KernelSymmetric(n: nat, s: nat)
    requires n >= 1
    ensures var k := Kernel(n, s);
      (forall i :: 0 <= i < |k| ==> k[i] == k[|k| - 1 - i]) && Reverse(k) == k
  {
    KernelWeights(n, s);
    var k := Kernel(n, s);
    forall i | 0 <= i < |k|
      ensures k[i] == k[|k| - 1 - i]
    {
      if i < n || i >= n + 2 * s + 1 {
        assert k[i] == Weight(n) && k[|k| - 1 - i] == Weight(n);
      } else {
        assert k[i] == 0.0 && k[|k| - 1 - i] == 0.0;
      }
    }
  }

  /** The kernel's weights sum to 1. */
  lemma KernelSum(n: nat, s: nat)
    requires n >= 1
    ensures Sum(Kernel(n, s)) == 1.0
  {
    var w := Weight(n);
    KernelWeights(n, s);
    SumConcat(Const(n, w) + Const(2 * s + 1, 0.0), Const(n, w));
    SumConcat(Const(n, w), Const(2 * s + 1, 0.0));
    SumConst(n, w);
    SumConst(2 * s + 1, 0.0);
    assert Sum(Kernel(n, s)) == 2.0 * n as real * w;
  }

  // ---------- the valid convolution ----------

  /** `np.convolve(a, v, mode="valid")` when `a` is at least as long as `v`:
      entry `j` is the dot product of `a[j..j + |v|]` with `v` reversed. */
  function Convolve(a: seq<real>, v: seq<real>): (r: seq<real>)
    requires 1 <= |v| <= |a|
    ensures |r| == |a| - |v| + 1
  {
    seq(|a| - |v| + 1, j requires 0 <= j <= |a| - |v| => Dot(a[j..j + |v|], Reverse(v)))
  }

  /** The noise estimate for bin `i`: the `n` bins on each side of `i`,
      after skipping `s` neighbours, each weighted by the kernel's 1/(2n). */
  function NoiseMean(a: seq<real>, i: nat, n: nat, s: nat): real
    requires n >= 1 && n + s <= i && i + s + n < |a|
  {
    Weight(n) * Sum(a[i - n - s..i - s]) + Weight(n) * Sum(a[i + s + 1..i + s + 1 + n])
  }

  lemma HalfMean(x: real, y: real, n: nat)
    requires n >= 1
    ensures Weight(n) * x + Weight(n) * y == (x + y) / (2.0 * n as real)
  {
    var d := 2.0 * n as real;
    assert Weight(n) * x + Weight(n) * y == Weight(n) * (x + y);
    assert (x + y) / d == (x + y) * (1.0 / d);
  }

  /** The noise estimate is the plain mean of those 2n bins. */
  lemma NoiseMeanIsMean(a: seq<real>, i: nat, n: nat, s: nat)
    requires n >= 1 && n + s <= i && i + s + n < |a|
    ensures NoiseMean(a, i, n, s) == (Sum(a[i - n - s..i - s]) + Sum(a[i + s + 1..i + s + 1 + n])) / (2.0 * n as real)
  {
    HalfMean(Sum(a[i - n - s..i - s]), Sum(a[i + s + 1..i + s + 1 + n]), n);
  }

  lemma {:induction false} DotZeros(x: seq<real>)
    ensures Dot(x, Const(|x|, 0.0)) == 0.0
    decreases |x|
  {
    if |x| > 0 {
      assert Const(|x|, 0.0)[1..] == Const(|x| - 1, 0.0);
      DotZeros(x[1..]);
    }
  }

  /** Weights `c`, then zeros, then `c` again pick out the two outer blocks. */
  lemma DotBlocks(w1: seq<real>, w2: seq<real>, w3: seq<real>, c: real)
    ensures Dot((w1 + w2) + w3, (Const(|w1|, c) + Const(|w2|, 0.0)) + Const(|w3|, c)) == c * Sum(w1) + c * Sum(w3)
  {
    var ones1 := Const(|w1|, c);
    var zeros := Const(|w2|, 0.0);
    var ones3 := Const(|w3|, c);
    DotConcat(w1 + w2, w3, ones1 + zeros, ones3);
    DotConcat(w1, w2, ones1, zeros);
    DotConst(w1, c);
    DotZeros(w2);
    DotConst(w3, c);
  }

  /** Against the kernel, a window of the row weighs its first `n` and last
      `n` entries by 1/(2n) and ignores the middle. */
  lemma WindowBlocks(win: seq<real>, k: seq<real>, n: nat, s: nat, c: real)
    requires |win| == 2 * n + 2 * s + 1 && k == (Const(n, c) + Const(2 * s + 1, 0.0)) + Const(n, c)
    ensures Dot(win, k) == c * Sum(win[..n]) + c * Sum(win[n + 2 * s + 1..])
  {
    var w1 := win[..n];
    var w2 := win[n..n + 2 * s + 1];
    var w3 := win[n + 2 * s + 1..];
    ThreeBlocks(win, n, n + 2 * s + 1);
    DotBlocks(w1, w2, w3, c);
  }

  lemma ThreeBlocks(x: seq<real>, i: nat, j: nat)
    requires i <= j <= |x|
    ensures x == (x[..i] + x[i..j]) + x[j..]
  {
  }

  lemma WindowWeights(win: seq<real>, n: nat, s: nat)
    requires n >= 1 && |win| == 2 * n + 2 * s + 1
    ensures Dot(win, Kernel(n, s)) == Weight(n) * Sum(win[..n]) + Weight(n) * Sum(win[n + 2 * s + 1..])
  {
    KernelWeights(n, s);
    WindowBlocks(win, Kernel(n, s), n, s, Weight(n));
  }

  /** The window of the row that ends `n + s` bins after bin `i`, against
      the kernel, is the noise estimate of bin `i`. */
  lemma WindowNoise(a: seq<real>, n: nat, s: nat, i: nat)
    requires n >= 1 && n + s <= i && i + s + n < |a|
    ensures Dot(a[i - n - s..i + s + n + 1], Kernel(n, s)) == NoiseMean(a, i, n, s)
  {
    var win := a[i - n - s..i + s + n + 1];
    WindowWeights(win, n, s);
    assert win[..n] == a[i - n - s..i - s];
    assert win[n + 2 * s + 1..] == a[i + s + 1..i + s + 1 + n];
  }

  /** Convolving with the kernel gives, at output `j`, the noise mean of bin `j + n + s`. */
  lemma ConvolveIsNoiseMean(a: seq<real>, n: nat, s: nat, j: nat)
    requires n >= 1 && |a| >= 2 * n + 2 * s + 1 && j <= |a| - (2 * n + 2 * s + 1)
    ensures Convolve(a, Kernel(n, s))[j] == NoiseMean(a, j + n + s, n, s)
  {
    var k := Kernel(n, s);
    KernelSymmetric(n, s);
    assert Convolve(a, k)[j] == Dot(a[j..j + |k|], k);
    WindowNoise(a, n, s, j + n + s);
  }

  /** With the defaults (three neighbours, one skipped) the noise of bin `i`
      is the mean of bins i-4, i-3, i-2 and i+2, i+3, i+4. */
  lemma DefaultNeighbours(a: seq<real>, i: nat)
    requires 4 <= i && i + 4 < |a|
    ensures NoiseMean(a, i, 3, 1) == (a[i - 4] + a[i - 3] + a[i - 2] + a[i + 2] + a[i + 3] + a[i + 4]) / 6.0
  {
    NoiseMeanIsMean(a, i, 3, 1);
    Sum3(a[i - 4..i - 1]);
    Sum3(a[i + 2..i + 5]);
  }

  lemma Sum3(x: seq<real>)
    requires |x| == 3
    ensures Sum(x) == x[0] + x[1] + x[2]
  {
    assert x[1..][1..][1..] == [];
    assert Sum(x[1..][1..]) == x[2];
    assert Sum(x[1..]) == x[1] + x[2];
  }

  // ---------- the ratio ----------

  /** `x / y` in floating point: not finite when `y` is zero. */
  function Ratio(x: real, y: real): Option<real> {
    if y == 0.0 then None else Some(x / y)
  }

  /** `snr_spectrum` on one row: None where NumPy raises (an empty row, or a
      row shorter than the kernel, whose padded noise no longer has the
      row's length). The first and last `n + s` bins have no noise estimate. */
  function SnrRow(a: seq<real>, n: nat, s: nat): (r: Option<seq<Option<real>>>)
    ensures r.Some? <==> |a| >= 2 * n + 2 * s + 1
    ensures r.Some? ==> |r.value| == |a|
    ensures r.Some? ==> forall i :: 0 <= i < |a| && (i < n + s || i >= |a| - n - s) ==> r.value[i].None?
    ensures r.Some? && n == 0 ==> forall i :: 0 <= i < |a| ==> r.value[i].None?
  {
    var K := 2 * n + 2 * s + 1;
    var e := n + s;
    if |a| < K then None
    else if n == 0 then Some(seq(|a|, _ => None))
    else
      var noise := Convolve(a, Kernel(n, s));
      Some(seq(|a|, i requires 0 <= i < |a| => if i < e || i >= |a| - e then None else Ratio(a[i], noise[i - e])))
  }

  /** Inside the edges, bin `i` is divided by its noise estimate. */
  lemma SnrRowInterior(a: seq<real>, n: nat, s: nat, i: nat)
    requires n >= 1 && n + s <= i && i + n + s < |a|
    ensures SnrRow(a, n, s).Some? && SnrRow(a, n, s).value[i] == Ratio(a[i], NoiseMean(a, i, n, s))
  {
    ConvolveIsNoiseMean(a, n, s, i - (n + s));
  }

  /** `snr_spectrum`: every row along the last axis on its own; None when a row raises. */
  function SnrSpectrum(psd: seq<seq<real>>, n: nat, s: nat): (r: Option<seq<seq<Option<real>>>>)
    ensures r.Some? <==> forall k :: 0 <= k < |psd| ==> |psd[k]| >= 2 * n + 2 * s + 1
    ensures r.Some? ==> |r.value| == |psd| && forall k :: 0 <= k < |psd| ==> Some(r.value[k]) == SnrRow(psd[k], n, s)
  {
    if |psd| == 0 then Some([])
    else
      var first := SnrRow(psd[0], n, s);
      var rest := SnrSpectrum(psd[1..], n, s);
      assert forall k :: 1 <= k < |psd| ==> psd[k] == psd[1..][k - 1];
      if first.None? || rest.None? then None else Some([first.value] + rest.value)
  }

  /** A row's output depends on that row alone. */
  lemma RowsIndependent(psd: seq<seq<real>>, other: seq<seq<real>>, n: nat, s: nat, k: nat)
    requires k < |psd| && k < |other| && psd[k] == other[k]
    requires SnrSpectrum(psd, n, s).Some? && SnrSpectrum(other, n, s).Some?
    ensures SnrSpectrum(psd, n, s).value[k] == SnrSpectrum(other, n, s).value[k]
  {
  }
}

=== FILE: task_events.dfy ===
/** The event selection of the three task preprocessors
    (backend/app/pipeline/task_processor.py): which rows of the events
    table or which annotation events become epochs, under which codes, and
    with which labels. `mne.events_from_annotations` and `Raw.crop` are
    foreign and passed in. */
module TaskEvents {
  import opened Wrappers
  import opened Text
  import opened Numbers
  import opened Eeg
  import opened EventCodes

  /** The three supported tasks, looked up by exact name. */
  datatype TaskKind = SurroundSupp | RestingState | ContrastChangeDetection

  /** `TASK_PREPROCESSORS.get(task)`. */
  function Preprocessor(task: string): (k: Option<TaskKind>)
    ensures k.Some? <==> task in {"surroundSupp", "RestingState", "contrastChangeDetection"}
  {
    if task == "surroundSupp" then Some(SurroundSupp)
    else if task == "RestingState" then Some(RestingState)
    else if task == "contrastChangeDetection" then Some(ContrastChangeDetection)
    else None
  }

  /** One row of the events table as the preprocessors read it. `foreground`
      is the text the cell renders as in an f-string. */
  datatype EventRow = EventRow(value: string, onset: Option<real>, background: int, foreground: string, stimulusCond: int)

  /** The events table: its column names and its rows. */
  datatype EventTable = EventTable(columns: set<string>, rows: seq<EventRow>)

  /** The foreign MNE calls the preprocessors make. */
  datatype Mne = Mne(
    crop: (Raw, Option<real>, Option<real>) -> Raw,
    eventsFromAnnotations: Raw -> (seq<Event>, map<string, int>))

  /** What a preprocessor hands to `mne.Epochs`: the recording, the events,
      the event-id table, and the labels it returns beside the epochs. */
  datatype Prepared = Prepared(raw: Raw, events: seq<Event>, eventId: map<string, int>, labels: seq<string>)

  /** The number of samples of a recording. */
  function NTimes(raw: Raw): nat {
    if |raw.data| == 0 then 0 else |raw.data[0]|
  }

  // ---------- surround suppression ----------

  /** `f"bg{int(background)}_fg{foreground_contrast}_stim{int(stimulus_cond)}"`. */
  function RowLabel(r: EventRow): string {
    "bg" + IntToString(r.background) + "_fg" + r.foreground + "_stim" + IntToString(r.stimulusCond)
  }

  /** A selected stimulus onset: its sample and its condition label. */
  datatype Selected = Selected(sample: int, tag: string)

  function SampleOf(r: EventRow, sfreq: real): int
    requires r.onset.Some?
  {
    RoundHalfEven(r.onset.value * sfreq)
  }

  /** A row survives the filters: a "stim_ON" row with an onset whose window
      `[sample + tminSamp, sample + tmaxSamp]` lies inside the recording. */
  predicate Kept(r: EventRow, sfreq: real, tminSamp: int, tmaxSamp: int, nTimes: int) {
    r.value == "stim_ON" && r.onset.Some?
    && SampleOf(r, sfreq) + tminSamp >= 0 && SampleOf(r, sfreq) + tmaxSamp < nTimes
  }

  /** The surviving rows, in table order. */
  function SelectStim(rows: seq<EventRow>, sfreq: real, tminSamp: int, tmaxSamp: int, nTimes: int): (sel: seq<Selected>)
    ensures |sel| <= |rows|
  {
    if |rows| == 0 then []
    else
      var rest := SelectStim(rows[1..], sfreq, tminSamp, tmaxSamp, nTimes);
      if Kept(rows[0], sfreq, tminSamp, tmaxSamp, nTimes)
      then [Selected(SampleOf(rows[0], sfreq), RowLabel(rows[0]))] + rest
      else rest
  }

  /** An entry is selected exactly when some row survives the filters and
      gives that sample and label. */
  lemma {:induction false} SelectStimMembers(rows: seq<EventRow>, sfreq: real, tminSamp: int, tmaxSamp: int, nTimes: int, x: Selected)
    ensures x in SelectStim(rows, sfreq, tminSamp, tmaxSamp, nTimes) <==>
      exists i :: 0 <= i < |rows| && Kept(rows[i], sfreq, tminSamp, tmaxSamp, nTimes)
        && x == Selected(SampleOf(rows[i], sfreq), RowLabel(rows[i]))
  {
    if |rows| > 0 {
      SelectStimMembers(rows[1..], sfreq, tminSamp, tmaxSamp, nTimes, x);
      if exists i :: (0 <= i < |rows| && Kept(rows[i], sfreq, tminSamp, tmaxSamp, nTimes)
                     && x == Selected(SampleOf(rows[i], sfreq), RowLabel(rows[i]))) {
        var i :| 0 <= i < |rows| && Kept(rows[i], sfreq, tminSamp, tmaxSamp, nTimes)
          && x == Selected(SampleOf(rows[i], sfreq), RowLabel(rows[i]));
        if i > 0 {
          assert rows[1..][i - 1] == rows[i];
        }
      }
      if x in SelectStim(rows[1..], sfreq, tminSamp, tmaxSamp, nTimes) {
        var i :| 0 <= i < |rows[1..]| && Kept(rows[1..][i], sfreq, tminSamp, tmaxSamp, nTimes)
          && x == Selected(SampleOf(rows[1..][i], sfreq), RowLabel(rows[1..][i]));
        assert rows[i + 1] == rows[1..][i];
      }
    }
  }

  /** Every selected epoch window `[sample + tmin·sfreq, sample + tmax·sfreq]`
      lies inside `[0, n_times)`. */
  lemma SelectedWindowInside(rows: seq<EventRow>, sfreq: real, tmin: real, tmax: real, nTimes: int, x: Selected)
    requires x in SelectStim(rows, sfreq, Floor(tmin * sfreq), Ceil(tmax * sfreq), nTimes)
    ensures 0.0 <= x.sample as real + tmin * sfreq
    ensures x.sample as real + tmax * sfreq < nTimes as real
  {
    SelectStimMembers(rows, sfreq, Floor(tmin * sfreq), Ceil(tmax * sfreq), nTimes, x);
  }

  function Tags(sel: seq<Selected>): (ts: seq<string>)
    ensures |ts| == |sel| && forall i :: 0 <= i < |sel| ==> ts[i] == sel[i].tag
  {
    seq(|sel|, i requires 0 <= i < |sel| => sel[i].tag)
  }

  predicate AllCoded(sel: seq<Selected>) {
    forall i :: 0 <= i < |sel| ==> EventCode(sel[i].tag).Some?
  }

  /** `preprocess_surround_supp` after `get_filtered`: None when there is no
      table or no row survives; a KeyError when a surviving label is not in
      `EVENT_ID`; otherwise one event per surviving row, coded by `EVENT_ID`. */
  function SurroundPrep(table: Option<EventTable>, filtered: Raw, tmin: real, tmax: real): (r: Result<Option<Prepared>, string>)
    ensures r.Ok? && r.value.Some? ==>
      var p := r.value.value;
      |p.events| == |p.labels| > 0
      && (forall i :: 0 <= i < |p.events| ==> p.events[i].prev == 0 && p.labels[i] in p.eventId && p.events[i].code == p.eventId[p.labels[i]])
      && (forall k :: k in p.eventId ==> 1 <= p.eventId[k] <= 24)
  {
    if table.None? then Ok(None)
    else
      var sfreq := filtered.sfreq;
      var sel := SelectStim(table.value.rows, sfreq, Floor(tmin * sfreq), Ceil(tmax * sfreq), NTimes(filtered));
      if |sel| == 0 then Ok(None)
      else if !AllCoded(sel) then Err("KeyError")
      else Ok(Some(Prepared(filtered, CodedEvents(sel), CodedIds(Tags(sel)), Tags(sel))))
  }

  /** `np.column_stack([sample, 0, event_code])`. */
  function CodedEvents(sel: seq<Selected>): (es: seq<Event>)
    requires AllCoded(sel)
    ensures |es| == |sel|
    ensures forall i :: 0 <= i < |sel| ==> es[i] == Event(sel[i].sample, 0, EventCode(sel[i].tag).value)
  {
    seq(|sel|, i requires 0 <= i < |sel| => Event(sel[i].sample, 0, EventCode(sel[i].tag).value))
  }

  /** `{k: EVENT_ID[k] for k in labels.unique()}`. */
  function CodedIds(tags: seq<string>): (m: map<string, int>)
    requires forall i :: 0 <= i < |tags| ==> EventCode(tags[i]).Some?
    ensures forall k :: k in m <==> k in tags
    ensures forall k :: k in m ==> EventCode(k) == Some(m[k]) && 1 <= m[k] <= 24
  {
    var m := map k | k in tags :: EventCode(k).value;
    assert forall k :: k in m ==> 1 <= m[k] <= 24 by {
      forall k | k in m ensures 1 <= m[k] <= 24 {
        CodesAreOneTo24(k);
      }
    }
    m
  }

  // ---------- resting state ----------

  /** The annotation names and the condition each one opens, in loop order. */
  const RESTING_PAIRS: seq<(string, string)> := [("open", "instructed_toOpenEyes"), ("close", "instructed_toCloseEyes")]

  /** The rows of `events` with code `annCode`, re-coded as `[sample, 0, newCode]`. */
  function Relabel(events: seq<Event>, annCode: int, newCode: int): (r: seq<Event>)
    ensures |r| <= |events|
    ensures forall i :: 0 <= i < |r| ==> r[i].prev == 0 && r[i].code == newCode
  {
    if |events| == 0 then []
    else
      var init := Relabel(events[..|events| - 1], annCode, newCode);
      var e := events[|events| - 1];
      if e.code == annCode then init + [Event(e.sample, 0, newCode)] else init
  }

  /** The events one annotation contributes: none when it is absent. */
  function Contribution(events: seq<Event>, annId: map<string, int>, pair: (string, string)): seq<Event>
    requires pair.0 in RESTING_STATE_EVENT_ID
  {
    if pair.1 in annId then Relabel(events, annId[pair.1], RESTING_STATE_EVENT_ID[pair.0]) else []
  }

  /** What the loop over `RESTING_PAIRS[..n]` has built: the re-coded
      events and the conditions that had at least one. */
  function RestingUpTo(events: seq<Event>, annId: map<string, int>, n: nat): (seq<Event>, seq<string>)
    requires n <= |RESTING_PAIRS|
  {
    if n == 0 then ([], [])
    else
      var (evs, present) := RestingUpTo(events, annId, n - 1);
      var add := Contribution(events, annId, RESTING_PAIRS[n - 1]);
      (evs + add, present + if |add| > 0 then [RESTING_PAIRS[n - 1].0] else [])
  }

  /** Appends the re-coded rows of one annotation, as the inner loop does. */
  method AppendRelabelled(acc: seq<Event>, events: seq<Event>, annCode: int, newCode: int) returns (acc': seq<Event>)
    ensures acc' == acc + Relabel(events, annCode, newCode)
  {
    acc' := acc;
    for i := 0 to |events|
      invariant acc' == acc + Relabel(events[..i], annCode, newCode)
    {
      assert events[..i + 1][..i] == events[..i];
      if events[i].code == annCode {
        acc' := acc' + [Event(events[i].sample, 0, newCode)];
      }
    }
    assert events[..|events|] == events;
  }

  /** The loops of `preprocess_resting_state` that build `new_events` and `present`. */
  method RestingEvents(events: seq<Event>, annId: map<string, int>) returns (newEvents: seq<Event>, present: seq<string>)
    ensures (newEvents, present) == RestingUpTo(events, annId, |RESTING_PAIRS|)
  {
    newEvents, present := [], [];
    for n := 0 to |RESTING_PAIRS|
      invariant (newEvents, present) == RestingUpTo(events, annId, n)
    {
      var (name, code) := RESTING_PAIRS[n];
      ghost var add := Contribution(events, annId, RESTING_PAIRS[n]);
      ghost var (e0, p0) := (newEvents, present);
      if code in annId {
        var before := |newEvents|;
        newEvents := AppendRelabelled(newEvents, events, annId[code], RESTING_STATE_EVENT_ID[name]);
        assert newEvents == e0 + add;
        if |newEvents| > before {
          present := present + [name];
        }
      }
      assert newEvents == e0 + add;
      assert present == p0 + if |add| > 0 then [name] else [];
    }
  }

  /** The resting-state selection: open events are coded 1, close events 2;
      `present` names the conditions found, open before close; it is empty
      exactly when no event was found. */
  lemma RestingFacts(events: seq<Event>, annId: map<string, int>)
    ensures var (evs, present) := RestingUpTo(events, annId, 2);
      (forall i :: 0 <= i < |evs| ==> evs[i].code in {1, 2} && evs[i].prev == 0)
      && present in {[], ["open"], ["close"], ["open", "close"]}
      && (|present| == 0 <==> |evs| == 0)
      && ("open" in present <==> exists i :: 0 <= i < |evs| && evs[i].code == 1)
      && ("close" in present <==> exists i :: 0 <= i < |evs| && evs[i].code == 2)
  {
    var a1 := Contribution(events, annId, RESTING_PAIRS[0]);
    var a2 := Contribution(events, annId, RESTING_PAIRS[1]);
    RestingTwo(events, annId);
    PresentFacts(a1, a2);
  }

  /** The two passes of the loop, written out. */
  lemma RestingTwo(events: seq<Event>, annId: map<string, int>)
    ensures var a1 := Contribution(events, annId, RESTING_PAIRS[0]);
      var a2 := Contribution(events, annId, RESTING_PAIRS[1]);
      RestingUpTo(events, annId, 2) ==
        (a1 + a2, (if |a1| > 0 then ["open"] else []) + (if |a2| > 0 then ["close"] else []))
      && (forall i :: 0 <= i < |a1| ==> a1[i].code == 1 && a1[i].prev == 0)
      && (forall i :: 0 <= i < |a2| ==> a2[i].code == 2 && a2[i].prev == 0)
  {
    assert RestingUpTo(events, annId, 0) == ([], []);
    var a1 := Contribution(events, annId, RESTING_PAIRS[0]);
    var p1: seq<string> := if |a1| > 0 then ["open"] else [];
    assert RestingUpTo(events, annId, 1) == ([] + a1, [] + p1);
    assert [] + a1 == a1 && [] + p1 == p1;
    assert RESTING_STATE_EVENT_ID[RESTING_PAIRS[0].0] == 1;
    assert RESTING_STATE_EVENT_ID[RESTING_PAIRS[1].0] == 2;
  }

  lemma PresentFacts(a1: seq<Event>, a2: seq<Event>)
    requires forall i :: 0 <= i < |a1| ==> a1[i].code == 1 && a1[i].prev == 0
    requires forall i :: 0 <= i < |a2| ==> a2[i].code == 2 && a2[i].prev == 0
    ensures var evs := a1 + a2;
      var present := (if |a1| > 0 then ["open"] else []) + (if |a2| > 0 then ["close"] else []);
      (forall i :: 0 <= i < |evs| ==> evs[i].code in {1, 2} && evs[i].prev == 0)
      && present in {[], ["open"], ["close"], ["open", "close"]}
      && (|present| == 0 <==> |evs| == 0)
      && ("open" in present <==> exists i :: 0 <= i < |evs| && evs[i].code == 1)
      && ("close" in present <==> exists i :: 0 <= i < |evs| && evs[i].code == 2)
  {
    var evs := a1 + a2;
    forall i | 0 <= i < |evs| ensures evs[i] == (if i < |a1| then a1[i] else a2[i - |a1|]) {
    }
    if |a1| > 0 {
      assert evs[0] == a1[0];
    }
    if |a2| > 0 {
      assert evs[|a1|] == a2[0];
    }
    if |a1| > 0 && |a2| > 0 {
      assert (["open"] + ["close"]) == ["open", "close"];
    } else if |a1| > 0 {
      assert ["open"] + [] == ["open"];
    } else if |a2| > 0 {
      assert [] + ["close"] == ["close"];
    }
  }

  /** Python's ordering of `[sample, prev, code]` lists. */
  predicate EventLe(a: Event, b: Event) {
    a.sample < b.sample || (a.sample == b.sample && (a.prev < b.prev || (a.prev == b.prev && a.code <= b.code)))
  }

  predicate EventsSorted(s: seq<Event>) {
    forall i, j :: 0 <= i < j < |s| ==> EventLe(s[i], s[j])
  }

  function InsertEvent(x: Event, s: seq<Event>): (r: seq<Event>)
    requires EventsSorted(s)
    ensures EventsSorted(r) && multiset(r) == multiset(s) + multiset{x}
  {
    if |s| == 0 then [x]
    else if EventLe(x, s[0]) then
      var r := [x] + s;
      assert forall j :: 0 < j < |r| ==> EventLe(x, r[j]) by {
        forall j | 0 < j < |r| ensures EventLe(x, r[j]) {
          assert r[j] == s[j - 1];
          if j > 1 {
            assert EventLe(s[0], s[j - 1]);
          }
        }
      }
      r
    else
      var t := InsertEvent(x, s[1..]);
      var r := [s[0]] + t;
      assert s == [s[0]] + s[1..];
      assert forall j :: 0 <= j < |t| ==> EventLe(s[0], t[j]) by {
        forall j | 0 <= j < |t| ensures EventLe(s[0], t[j]) {
          assert t[j] in multiset(t);
          assert t[j] in multiset(s[1..]) || t[j] == x;
          if t[j] != x {
            var k :| 0 <= k < |s[1..]| && s[1..][k] == t[j];
            assert s[k + 1] == t[j];
          }
        }
      }
      r
  }

  /** `sorted(new_events)`. */
  function SortEvents(s: seq<Event>): (r: seq<Event>)
    ensures EventsSorted(r) && multiset(r) == multiset(s)
  {
    if |s| == 0 then []
    else
      assert s == [s[0]] + s[1..];
      InsertEvent(s[0], SortEvents(s[1..]))
  }

  /** The crop window: the first "resting_start" onset and the last
      "resting_end" or "break cnt" onset, when the table has both columns
      and both kinds of rows. */
  function CropBounds(table: EventTable): Option<(Option<real>, Option<real>)> {
    if !({"value", "onset"} <= table.columns) then None
    else
      var s := RowsWith(table.rows, {"resting_start"});
      var e := RowsWith(table.rows, {"resting_end", "break cnt"});
      if |s| == 0 || |e| == 0 then None
      else Some((s[0].onset, e[|e| - 1].onset))
  }

  /** The rows whose value is one of `values`, in order. */
  function RowsWith(rows: seq<EventRow>, values: set<string>): (r: seq<EventRow>)
    ensures forall i :: 0 <= i < |r| ==> r[i].value in values && r[i] in rows
  {
    if |rows| == 0 then []
    else (if rows[0].value in values then [rows[0]] else []) + RowsWith(rows[1..], values)
  }

  /** `preprocess_resting_state` after `get_filtered`: the recording is cropped
      when the table says so, the annotations are re-coded, and the events
      are sorted; None when there is no table or no event. */
  function RestingPrepared(table: Option<EventTable>, filtered: Raw, mne: Mne): (r: Option<Prepared>)
    ensures r.None? <==> table.None? || RestingUpTo(mne.eventsFromAnnotations(Cropped(table.value, filtered, mne)).0,
                                                   mne.eventsFromAnnotations(Cropped(table.value, filtered, mne)).1, 2).0 == []
    ensures r.Some? ==> |r.value.events| > 0 && EventsSorted(r.value.events)
  {
    if table.None? then None
    else
      var raw := Cropped(table.value, filtered, mne);
      var (events, annId) := mne.eventsFromAnnotations(raw);
      var (evs, present) := RestingUpTo(events, annId, 2);
      if |evs| == 0 then None
      else Some(Prepared(raw, SortEvents(evs), map k | k in present && k in RESTING_STATE_EVENT_ID :: RESTING_STATE_EVENT_ID[k], present))
  }

  /** The loop form of `preprocess_resting_state`: one pass per (name,
      annotation) pair, then the sort. */
  method RestingPrep(table: Option<EventTable>, filtered: Raw, mne: Mne) returns (r: Option<Prepared>)
    ensures r == RestingPrepared(table, filtered, mne)
  {
    if table.None? {
      return None;
    }
    var raw := Cropped(table.value, filtered, mne);
    var (events, annId) := mne.eventsFromAnnotations(raw);
    var evs, present := RestingEvents(events, annId);
    if |evs| == 0 {
      return None;
    }
    RestingFacts(events, annId);
    r := Some(Prepared(raw, SortEvents(evs), map k | k in present && k in RESTING_STATE_EVENT_ID :: RESTING_STATE_EVENT_ID[k], present));
  }

  function Cropped(table: EventTable, filtered: Raw, mne: Mne): Raw {
    match CropBounds(table)
    case Some((lo, hi)) => mne.crop(filtered, lo, hi)
    case None => filtered
  }

  // ---------- contrast change detection ----------

  /** `preprocess_ccd` after `get_filtered`: the "contrastTrial_start"
      annotations of the unfiltered recording, coded `trial_start = 1`, become
      events on the filtered one; None when there are none. */
  function CcdPrep(raw: Raw, filtered: Raw, mne: Mne): (r: Option<Prepared>)
    ensures r.Some? ==> (r.value.labels == ["trial_start"] && r.value.eventId == CCD_EVENT_ID
      && |r.value.events| > 0
      && forall i :: 0 <= i < |r.value.events| ==> r.value.events[i].code == 1 && r.value.events[i].prev == 0)
  {
    var (events, annId) := mne.eventsFromAnnotations(raw);
    if "contrastTrial_start" !in annId then None
    else
      var rows := Relabel(events, annId["contrastTrial_start"], CCD_EVENT_ID["trial_start"]);
      if |rows| == 0 then None
      else Some(Prepared(filtered, rows, CCD_EVENT_ID, ["trial_start"]))
  }

  /** The condition names a preprocessor's epochs can be indexed by never
      include the string "None". */
  lemma NoneIsNoCondition(table: Option<EventTable>, filtered: Raw, tmin: real, tmax: real, raw: Raw, mne: Mne)
    ensures var s := SurroundPrep(table, filtered, tmin, tmax);
      s.Ok? && s.value.Some? ==> "None" !in s.value.value.eventId
    ensures var c := CcdPrep(raw, filtered, mne); c.Some? ==> "None" !in c.value.eventId
    ensures "None" !in RESTING_STATE_EVENT_ID
  {
    var s := SurroundPrep(table, filtered, tmin, tmax);
    if s.Ok? && s.value.Some? && "None" in s.value.value.eventId {
      CodesAreOneTo24("None");
    }
  }
}

=== FILE: task_executor.dfy ===
/** The lazy single-recording executor of backend/app/pipeline/task_executor.py.
    `EEGTaskExecutor` creates its loader, cache and processor on first use,
    memoises what its loader returns, and hands the processor its own
    `get_raw` and `get_event` accessors. The loader's results are fixed
    values here (`LoaderData`); counters record how often each loader
    method and each constructor ran. */
module Executor {
  import opened Wrappers
  import opened PyDict
  import opened CacheKeys
  import opened Cache
  import opened Eeg
  import opened TaskEvents
  import opened Processor

  /** What the loader's methods return for this recording: `load_raw`,
      `load_events` (None when the file is missing), `load_electrodes`,
      `load_metadata` and `load_channels`. */
  datatype LoaderData = LoaderData(
    raw: Raw,
    events: Option<EventTable>,
    electrodes: Option<Json>,
    metadata: Option<Json>,
    channels: Option<Json>)

  /** What a new `LocalCache(pipeline_ver=PIPELINE_VERSION)` starts from: the
      default base directory, the digest and the files already on disk;
      and the foreign calls the processor makes. */
  datatype Env = Env(defaultBase: string, digest: Digest, files: Store, mne: Mne, cleaner: Cleaner)

  class TaskExecutor {
    const task: TaskRequest
    const data: LoaderData
    const env: Env

    var raw: Option<Raw>
    var events: Option<EventTable>
    var electrodes: Option<Json>
    var metadata: Option<Json>
    var channels: Option<Json>

    var loaderReady: bool
    var cache: LocalCache?
    var processor: TaskProcessor?

    var loaderInits: nat
    var cacheInits: nat
    var processorInits: nat
    var rawLoads: nat
    var eventLoads: nat
    var electrodeLoads: nat
    var metadataLoads: nat
    var channelLoads: nat
    var filteredCalls: nat

    /** Each of loader, cache and processor was created at most once, and a
        processor is bound to this executor's task and cache. */
    ghost predicate Valid()
      reads this
    {
      loaderInits == (if loaderReady then 1 else 0)
      && processorInits == (if processor != null then 1 else 0)
      && cacheInits <= 1 && (cache == null ==> cacheInits == 0)
      && (processor != null ==>
            loaderReady && cache != null && processor.cache == cache && processor.task == task
            && processor.mne == env.mne && processor.cleaner == env.cleaner)
    }

    /** `EEGTaskExecutor(task, data_dir, cache=cache)`: nothing is loaded or
        created yet; an injected cache is kept. */
    constructor(task: TaskRequest, data: LoaderData, env: Env, cache: LocalCache?)
      ensures Valid()
      ensures this.task == task && this.data == data && this.env == env && this.cache == cache
      ensures raw.None? && events.None? && electrodes.None? && metadata.None? && channels.None?
      ensures !loaderReady && processor == null
      ensures rawLoads == 0 && eventLoads == 0 && electrodeLoads == 0 && metadataLoads == 0 && channelLoads == 0
      ensures filteredCalls == 0
    {
      this.task := task;
      this.data := data;
      this.env := env;
      this.cache := cache;
      raw, events, electrodes, metadata, channels := None, None, None, None, None;
      loaderReady, processor := false, null;
      loaderInits, cacheInits, processorInits := 0, 0, 0;
      rawLoads, eventLoads, electrodeLoads, metadataLoads, channelLoads := 0, 0, 0, 0, 0;
      filteredCalls := 0;
    }

    /** The cache state the processor will see: the existing cache, or the
        one `_ensure` is about to create. */
    function CacheState(): Disk
      reads this, cache
    {
      if cache != null then Disk(cache.files, cache.dirs) else Disk(env.files, {env.defaultBase})
    }

    function CacheConfig(): CacheConf
      reads this
    {
      if cache != null then CacheConf(cache.base, cache.pipelineVer, cache.digest)
      else CacheConf(env.defaultBase, PIPELINE_VERSION, env.digest)
    }

    /** The values `get_raw()` and `get_event()` would return now. */
    function CurrentInputs(): Inputs
      reads this
    {
      Inputs(if raw.Some? then raw.value else data.raw, if events.Some? then events else data.events)
    }

    /** `_ensure`: create whatever is missing, once. */
    method Ensure()
      requires Valid()
      modifies this`loaderReady, this`loaderInits, this`cache, this`cacheInits, this`processor, this`processorInits
      ensures Valid() && loaderReady && cache != null && processor != null
      ensures old(cache) != null ==> cache == old(cache)
      ensures old(cache) == null ==> fresh(cache) && cache.base == env.defaultBase && cache.pipelineVer == PIPELINE_VERSION
      ensures old(processor) != null ==> processor == old(processor)
      ensures old(processor) == null ==> fresh(processor)
      ensures CacheConfig() == old(CacheConfig()) && CacheState() == old(CacheState())
    {
      if !loaderReady {
        loaderReady := true;
        loaderInits := loaderInits + 1;
      }
      if cache == null {
        cache := new LocalCache(env.defaultBase, PIPELINE_VERSION, env.digest, env.files, {});
        cacheInits := cacheInits + 1;
      }
      if processor == null {
        processor := new TaskProcessor(task, cache, env.mne, env.cleaner);
        processorInits := processorInits + 1;
      }
    }

    /** `get_raw`: the loader is asked only while nothing is memoised. */
    method GetRaw() returns (r: Raw)
      requires Valid()
      modifies this
      ensures Valid() && raw == Some(r) && r == old(CurrentInputs()).raw
      ensures rawLoads == old(rawLoads) + (if old(raw).None? then 1 else 0)
      ensures events == old(events) && eventLoads == old(eventLoads)
      ensures old(cache) != null ==> cache == old(cache)
      ensures old(cache) == null ==> fresh(cache)
    {
      Ensure();
      if raw.None? {
        raw := Some(data.raw);
        rawLoads := rawLoads + 1;
      }
      r := raw.value;
    }

    /** `get_event`: a None from the loader is not memoised, so the loader
        is asked again on the next call. */
    method GetEvent() returns (r: Option<EventTable>)
      requires Valid()
      modifies this
      ensures Valid() && r == old(CurrentInputs()).table
      ensures old(events).Some? ==> events == old(events) && eventLoads == old(eventLoads)
      ensures old(events).None? ==> events == data.events && eventLoads == old(eventLoads) + 1
      ensures raw == old(raw) && rawLoads == old(rawLoads)
      ensures old(cache) != null ==> cache == old(cache)
      ensures old(cache) == null ==> fresh(cache)
    {
      Ensure();
      if events.None? {
        events := data.events;
        eventLoads := eventLoads + 1;
      }
      r := events;
    }

    /** The `electrodes` property, memoised like `get_event`. */
    method Electrodes() returns (r: Option<Json>)
      requires Valid()
      modifies this
      ensures Valid()
      ensures old(electrodes).Some? ==> r == old(electrodes) && electrodes == r && electrodeLoads == old(electrodeLoads)
      ensures old(electrodes).None? ==> r == data.electrodes && electrodes == r && electrodeLoads == old(electrodeLoads) + 1
      ensures old(cache) != null ==> cache == old(cache)
      ensures old(cache) == null ==> fresh(cache)
    {
      Ensure();
      if electrodes.None? {
        electrodes := data.electrodes;
        electrodeLoads := electrodeLoads + 1;
      }
      r := electrodes;
    }

    /** The `metadata` property, memoised like `get_event`. */
    method Metadata() returns (r: Option<Json>)
      requires Valid()
      modifies this
      ensures Valid()
      ensures old(metadata).Some? ==> r == old(metadata) && metadata == r && metadataLoads == old(metadataLoads)
      ensures old(metadata).None? ==> r == data.metadata && metadata == r && metadataLoads == old(metadataLoads) + 1
      ensures old(cache) != null ==> cache == old(cache)
      ensures old(cache) == null ==> fresh(cache)
    {
      Ensure();
      if metadata.None? {
        metadata := data.metadata;
        metadataLoads := metadataLoads + 1;
      }
      r := metadata;
    }

    /** The `channels` property, memoised like `get_event`. */
    method Channels() returns (r: Option<Json>)
      requires Valid()
      modifies this
      ensures Valid()
      ensures old(channels).Some? ==> r == old(channels) && channels == r && channelLoads == old(channelLoads)
      ensures old(channels).None? ==> r == data.channels && channels == r && channelLoads == old(channelLoads) + 1
      ensures old(cache) != null ==> cache == old(cache)
      ensures old(cache) == null ==> fresh(cache)
    {
      Ensure();
      if channels.None? {
        channels := data.channels;
        channelLoads := channelLoads + 1;
      }
      r := channels;
    }

    /** Record that the processor called `get_raw()` and `get_event()` as
        `demand` says, and that the recording object it was handed is now
        `handed` (the processor may have changed it in place). */
    method Served(demand: Demand, handed: Raw)
      requires Valid()
      modifies this
      ensures Valid() && cache == old(cache) && processor == old(processor)
      ensures demand.raw ==> raw == Some(handed)
      ensures !demand.raw ==> raw == old(raw)
      ensures rawLoads == old(rawLoads) + (if demand.raw && old(raw).None? then 1 else 0)
      ensures demand.events && old(events).None? ==> events == data.events && eventLoads == old(eventLoads) + 1
      ensures !(demand.events && old(events).None?) ==> events == old(events) && eventLoads == old(eventLoads)
      ensures filteredCalls == old(filteredCalls)
    {
      if demand.raw {
        if raw.None? {
          rawLoads := rawLoads + 1;
        }
        raw := Some(handed);
      }
      if demand.events && events.None? {
        events := data.events;
        eventLoads := eventLoads + 1;
      }
    }

    /** The processor's `get_filtered`, fed with what `get_raw()` returns. */
    method Filter(p: StageParams, renameOk: bool) returns (r: Raw, rawUsed: bool)
      requires Valid() && processor != null
      modifies cache
      ensures var s := FilteredStage(CacheConfig(), task, p, env.cleaner, CurrentInputs().raw, renameOk, old(CacheState()));
        r == s.raw && rawUsed == s.rawUsed && CacheState() == s.disk
    {
      r, rawUsed := processor.GetFiltered(p, CurrentInputs().raw, renameOk);
    }

    /** `get_filtered_raw`: the processor's cleaned recording; the memoised
        raw recording, which `pre_filter` may have changed in place, is
        dropped afterwards, so the next `get_raw` reloads. */
    method GetFilteredRaw(p: StageParams, renameOk: bool) returns (r: Raw)
      requires Valid()
      modifies this, cache
      ensures Valid() && raw.None?
      ensures var s := FilteredStage(old(CacheConfig()), task, p, env.cleaner, old(CurrentInputs()).raw, renameOk, old(CacheState()));
        r == s.raw && CacheState() == s.disk
        && rawLoads == old(rawLoads) + (if s.rawUsed && old(raw).None? then 1 else 0)
      ensures events == old(events) && eventLoads == old(eventLoads)
      ensures filteredCalls == old(filteredCalls) + 1
      ensures old(cache) != null ==> cache == old(cache)
      ensures old(cache) == null ==> fresh(cache)
      ensures CacheConfig() == old(CacheConfig())
    {
      Ensure();
      r := FilteredRawReady(p, renameOk);
    }

    /** `get_filtered_raw` once `_ensure` has run. */
    method FilteredRawReady(p: StageParams, renameOk: bool) returns (r: Raw)
      requires Valid() && processor != null
      modifies this, cache
      ensures Valid() && raw.None? && cache == old(cache) && processor == old(processor)
      ensures var s := FilteredStage(CacheConfig(), task, p, env.cleaner, old(CurrentInputs()).raw, renameOk, old(CacheState()));
        r == s.raw && CacheState() == s.disk
        && rawLoads == old(rawLoads) + (if s.rawUsed && old(raw).None? then 1 else 0)
      ensures events == old(events) && eventLoads == old(eventLoads)
      ensures filteredCalls == old(filteredCalls) + 1
    {
      var rawUsed;
      r, rawUsed := Filter(p, renameOk);
      Served(Demand(rawUsed, false), Handed(env.cleaner, p, CurrentInputs().raw, rawUsed));
      raw := None;
      filteredCalls := filteredCalls + 1;
    }

    /** `get_epochs`: the processor's answer, unchanged. The memoised
        recording is kept, so when `pre_filter` ran on it, it is the
        pre-filtered recording from now on. */
    method GetEpochs(p: StageParams, fs: FsOutcomes) returns (out: Stage<EpochsPair>)
      requires Valid()
      modifies this, cache
      ensures Valid()
      ensures var s := EpochsStage(old(CacheConfig()), task, p, env.cleaner, env.mne, old(CurrentInputs()), fs, old(CacheState()));
        out == s.out && CacheState() == s.disk
        && rawLoads == old(rawLoads) + (if s.demand.raw && old(raw).None? then 1 else 0)
        && eventLoads == old(eventLoads) + (if s.demand.events && old(events).None? then 1 else 0)
        && raw == (if s.demand.raw then Some(Handed(env.cleaner, p, old(CurrentInputs()).raw, s.mutated)) else old(raw))
      ensures old(cache) != null ==> cache == old(cache)
      ensures old(cache) == null ==> fresh(cache)
      ensures CacheConfig() == old(CacheConfig())
    {
      Ensure();
      out := EpochsReady(p, fs);
    }

    /** `get_epochs` once `_ensure` has run. */
    method EpochsReady(p: StageParams, fs: FsOutcomes) returns (out: Stage<EpochsPair>)
      requires Valid() && processor != null
      modifies this, cache
      ensures Valid() && cache == old(cache) && processor == old(processor)
      ensures var s := EpochsStage(CacheConfig(), task, p, env.cleaner, env.mne, old(CurrentInputs()), fs, old(CacheState()));
        out == s.out && CacheState() == s.disk
        && rawLoads == old(rawLoads) + (if s.demand.raw && old(raw).None? then 1 else 0)
        && eventLoads == old(eventLoads) + (if s.demand.events && old(events).None? then 1 else 0)
        && raw == (if s.demand.raw then Some(Handed(env.cleaner, p, old(CurrentInputs()).raw, s.mutated)) else old(raw))
    {
      var demand, mutated;
      out, demand, mutated := processor.GetEpochs(p, CurrentInputs(), fs);
      Served(demand, Handed(env.cleaner, p, CurrentInputs().raw, mutated));
    }

    /** `get_evoked`: the processor's answer, unchanged. The memoised
        recording is kept, so when `pre_filter` ran on it, it is the
        pre-filtered recording from now on. */
    method GetEvoked(p: StageParams, fs: FsOutcomes) returns (out: Stage<Evoked>)
      requires Valid()
      modifies this, cache
      ensures Valid()
      ensures var s := EvokedStage(old(CacheConfig()), task, p, env.cleaner, env.mne, old(CurrentInputs()), fs, old(CacheState()));
        out == s.out && CacheState() == s.disk
        && rawLoads == old(rawLoads) + (if s.demand.raw && old(raw).None? then 1 else 0)
        && eventLoads == old(eventLoads) + (if s.demand.events && old(events).None? then 1 else 0)
        && raw == (if s.demand.raw then Some(Handed(env.cleaner, p, old(CurrentInputs()).raw, s.mutated)) else old(raw))
      ensures old(cache) != null ==> cache == old(cache)
      ensures old(cache) == null ==> fresh(cache)
      ensures CacheConfig() == old(CacheConfig())
    {
      Ensure();
      out := EvokedReady(p, fs);
    }

    /** `get_evoked` once `_ensure` has run. */
    method EvokedReady(p: StageParams, fs: FsOutcomes) returns (out: Stage<Evoked>)
      requires Valid() && processor != null
      modifies this, cache
      ensures Valid() && cache == old(cache) && processor == old(processor)
      ensures var s := EvokedStage(CacheConfig(), task, p, env.cleaner, env.mne, old(CurrentInputs()), fs, old(CacheState()));
        out == s.out && CacheState() == s.disk
        && rawLoads == old(rawLoads) + (if s.demand.raw && old(raw).None? then 1 else 0)
        && eventLoads == old(eventLoads) + (if s.demand.events && old(events).None? then 1 else 0)
        && raw == (if s.demand.raw then Some(Handed(env.cleaner, p, old(CurrentInputs()).raw, s.mutated)) else old(raw))
    {
      var demand, mutated;
      out, demand, mutated := processor.GetEvoked(p, CurrentInputs(), fs);
      Served(demand, Handed(env.cleaner, p, CurrentInputs().raw, mutated));
    }
  }
}

=== FILE: task_loader.dfy ===
/** `EEGTaskLoader` of backend/app/pipeline/task_loader.py: where a
    recording's files live, and what the loaders return when a file is
    missing. The file system is a map from path to content; reading a
    format (EEGLAB, JSON, TSV) is a parameter. */
module TaskLoader {
  import opened Wrappers
  import opened Text
  import opened PyDict
  import opened Eeg
  import Processor

  type TaskRequest = Processor.TaskRequest

  /** The files present, by path, with their contents. */
  type Files = map<string, string>

  /** `if self.task_dto.run:` — a run is given and is not the empty string. */
  predicate HasRun(t: TaskRequest) {
    t.run.Some? && t.run.value != ""
  }

  /** `<subject>_task-<task>[_run-<run>]`. */
  function BaseName(t: TaskRequest): (b: string)
    ensures HasRun(t) ==> b == t.subject + "_task-" + t.task + "_run-" + t.run.value
    ensures !HasRun(t) ==> b == t.subject + "_task-" + t.task
  {
    var base := t.subject + "_task-" + t.task;
    if HasRun(t) then base + "_run-" + t.run.value else base
  }

  /** The file name `get_file` builds: the base name, "_" and the extension. */
  function FileName(t: TaskRequest, ext: string): string {
    BaseName(t) + "_" + ext
  }

  /** `get_file(ext)`: `data_dir / subject / "eeg" / "<base>_<ext>"`. */
  function GetFile(dataDir: string, t: TaskRequest, ext: string): (p: string)
    ensures p == dataDir + "/" + t.subject + "/eeg/" + FileName(t, ext)
  {
    dataDir + "/" + t.subject + "/eeg/" + BaseName(t) + "_" + ext
  }

  // ---------- the loaders ----------

  /** `_load_json`: the parsed document when the file exists, `{}` otherwise. */
  function LoadJson(files: Files, path: string, parse: string -> Dict): (d: Dict)
    ensures path !in files ==> d == []
    ensures path in files ==> d == parse(files[path])
  {
    if path in files then parse(files[path]) else []
  }

  /** `_load_tsv`: the parsed table when the file exists, None otherwise. */
  function LoadTsv<T>(files: Files, path: string, parse: string -> T): (r: Option<T>)
    ensures r.None? <==> path !in files
    ensures path in files ==> r == Some(parse(files[path]))
  {
    if path in files then Some(parse(files[path])) else None
  }

  /** `load_metadata`: `eeg.json`, `{}` when missing. */
  function LoadMetadata(files: Files, dataDir: string, t: TaskRequest, parse: string -> Dict): (d: Dict)
    ensures GetFile(dataDir, t, "eeg.json") !in files ==> d == []
  {
    LoadJson(files, GetFile(dataDir, t, "eeg.json"), parse)
  }

  /** `load_events`, `load_channels`, `load_electrodes`: None when missing. */
  function LoadEvents<T>(files: Files, dataDir: string, t: TaskRequest, parse: string -> T): (r: Option<T>)
    ensures r.None? <==> GetFile(dataDir, t, "events.tsv") !in files
  {
    LoadTsv(files, GetFile(dataDir, t, "events.tsv"), parse)
  }

  function LoadChannels<T>(files: Files, dataDir: string, t: TaskRequest, parse: string -> T): (r: Option<T>)
    ensures r.None? <==> GetFile(dataDir, t, "channels.tsv") !in files
  {
    LoadTsv(files, GetFile(dataDir, t, "channels.tsv"), parse)
  }

  function LoadElectrodes<T>(files: Files, dataDir: string, t: TaskRequest, parse: string -> T): (r: Option<T>)
    ensures r.None? <==> GetFile(dataDir, t, "electrodes.tsv") !in files
  {
    LoadTsv(files, GetFile(dataDir, t, "electrodes.tsv"), parse)
  }

  /** `path.with_suffix('.fdt')` for a path ending in `.set`. */
  function FdtPath(setPath: string): (p: string)
    requires |setPath| >= 4 && setPath[|setPath| - 4..] == ".set"
    ensures |p| == |setPath| && p[..|p| - 4] == setPath[..|setPath| - 4] && p[|p| - 4..] == ".fdt"
  {
    setPath[..|setPath| - 4] + ".fdt"
  }

  /** The channels of `raw` other than those named `name`, in order, with
      their types and data rows: `raw.drop_channels([name])`. */
  function DropChannel(raw: Raw, name: string): (r: Raw)
    requires raw.Shaped()
    ensures r.Shaped()
    ensures name !in r.chNames
    ensures forall x :: x in r.chNames <==> x in raw.chNames && x != name
    ensures r.sfreq == raw.sfreq && r.bads == raw.bads && r.annotations == raw.annotations
    decreases |raw.chNames|
  {
    if |raw.chNames| == 0 then raw
    else
      var n := |raw.chNames| - 1;
      var init := DropChannel(raw.(chNames := raw.chNames[..n], isEeg := raw.isEeg[..n], data := raw.data[..n]), name);
      assert raw.chNames == raw.chNames[..n] + [raw.chNames[n]];
      if raw.chNames[n] == name then init
      else init.(chNames := init.chNames + [raw.chNames[n]], isEeg := init.isEeg + [raw.isEeg[n]], data := init.data + [raw.data[n]])
  }

  /** `load_raw`: read `eeg.set`, preloading exactly when no `.fdt` sidecar
      exists, then drop channel "Cz" when present. `readEeglab` is
      `mne.io.read_raw_eeglab`; the montage does not change the channels. */
  function LoadRaw(files: Files, dataDir: string, t: TaskRequest, readEeglab: (string, bool) -> Raw): (r: Raw)
    requires readEeglab(GetFile(dataDir, t, "eeg.set"), FdtPath(GetFile(dataDir, t, "eeg.set")) !in files).Shaped()
    ensures "Cz" !in r.chNames
    ensures var path := GetFile(dataDir, t, "eeg.set");
      var raw := readEeglab(path, FdtPath(path) !in files);
      forall x :: x in r.chNames <==> x in raw.chNames && x != "Cz"
  {
    var path := GetFile(dataDir, t, "eeg.set");
    var raw := readEeglab(path, FdtPath(path) !in files);
    if "Cz" in raw.chNames then DropChannel(raw, "Cz") else raw
  }
}

=== FILE: task_names.dfy ===
/** Task names and EEG file names as `ParticipantManager` reads them
    (backend/app/core/participants_loader.py): the comparison form `_norm`,
    the base names of a participants column, the `_<digits>` run suffix of a
    column, and the two file-name patterns that recover a (task, run) pair
    from `<subject>_task-<task>[_run-<run>]_eeg.set`. */
module TaskNames {
  import opened Wrappers
  import opened Text
  import TaskLoader

  /** A (task, run) pair read off an EEG file name. */
  type Pair = (string, Option<string>)

  // ---------- _norm ----------

  predicate IsNormChar(c: char) { 'a' <= c <= 'z' || '0' <= c <= '9' }

  predicate AllNorm(s: string) { forall i :: 0 <= i < |s| ==> IsNormChar(s[i]) }

  /** `re.sub(r"[^a-z0-9]+", "", s)`: the characters of `s` in [a-z0-9], in order. */
  function KeepNormChars(s: string): (r: string)
    ensures |r| <= |s|
    ensures AllNorm(r)
  {
    if |s| == 0 then ""
    else if IsNormChar(s[0]) then [s[0]] + KeepNormChars(s[1..])
    else KeepNormChars(s[1..])
  }

  /** `_norm(s)`: lower-case, then drop everything but ASCII letters and digits. */
  function Norm(s: Option<string>): (r: string)
    ensures AllNorm(r)
    ensures s.None? ==> r == ""
  {
    KeepNormChars(Lower(s.GetOr("")))
  }

  lemma {:induction false} KeepNormCharsFixed(s: string)
    requires AllNorm(s)
    ensures KeepNormChars(s) == s
    decreases |s|
  {
    if |s| > 0 {
      KeepNormCharsFixed(s[1..]);
      assert s == [s[0]] + s[1..];
    }
  }

  lemma {:induction false} KeepNormCharsConcat(a: string, b: string)
    ensures KeepNormChars(a + b) == KeepNormChars(a) + KeepNormChars(b)
    decreases |a|
  {
    if |a| == 0 {
      assert a + b == b;
    } else {
      assert (a + b)[1..] == a[1..] + b;
      KeepNormCharsConcat(a[1..], b);
    }
  }

  lemma LowerConcat(a: string, b: string)
    ensures Lower(a + b) == Lower(a) + Lower(b)
  {
  }

  lemma LowerIdempotent(s: string)
    ensures Lower(Lower(s)) == Lower(s)
  {
  }

  /** A string already in normal form is its own normal form. */
  lemma NormFixpoint(s: string)
    requires AllNorm(s)
    ensures Norm(Some(s)) == s
  {
    assert Lower(s) == s;
    KeepNormCharsFixed(s);
  }

  /** `_norm` is idempotent. */
  lemma NormIdempotent(s: Option<string>)
    ensures Norm(Some(Norm(s))) == Norm(s)
  {
    NormFixpoint(Norm(s));
  }

  /** `_norm` works character by character: the normal form of a
      concatenation is the concatenation of the normal forms. */
  lemma NormConcat(a: string, b: string)
    ensures Norm(Some(a + b)) == Norm(Some(a)) + Norm(Some(b))
  {
    LowerConcat(a, b);
    KeepNormCharsConcat(Lower(a), Lower(b));
  }

  /** One character: an ASCII letter becomes its lower case, a digit stays,
      anything else is dropped. */
  lemma NormChar(c: char)
    ensures Norm(Some([c])) == if IsNormChar(LowerChar(c)) then [LowerChar(c)] else []
  {
    assert Lower([c]) == [LowerChar(c)];
    assert [LowerChar(c)][1..] == [];
  }

  /** Lower-casing first does not change the normal form. */
  lemma NormLower(s: string)
    ensures Norm(Some(Lower(s))) == Norm(Some(s))
  {
    LowerIdempotent(s);
  }

  // ---------- the `_<digits>` run suffix ----------

  /** The length of the run of ASCII digits that ends `s`. */
  function TrailingDigits(s: string): (d: nat)
    ensures d <= |s|
    ensures AllDigits(s[|s| - d..])
    ensures d < |s| ==> !IsDigit(s[|s| - d - 1])
    decreases |s|
  {
    if |s| == 0 || !IsDigit(s[|s| - 1]) then 0
    else
      var d := TrailingDigits(s[..|s| - 1]);
      assert s[..|s| - 1][|s| - 1 - d..] == s[|s| - 1 - d..|s| - 1];
      assert forall i :: |s| - 1 - d <= i < |s| - 1 ==> s[i] == s[..|s| - 1][i];
      d + 1
  }

  /** No longer digit run ends `s`. */
  lemma TrailingDigitsMaximal(s: string, k: nat)
    requires k <= |s| && AllDigits(s[k..])
    ensures |s| - k <= TrailingDigits(s)
  {
    var d := TrailingDigits(s);
  }

  /** Where `_\d+$` matches `s`: the index of the "_" that starts it. */
  function RunSuffixAt(s: string): (r: Option<nat>)
    ensures r.Some? ==> r.value + 1 < |s| && s[r.value] == '_' && AllDigits(s[r.value + 1..])
  {
    var d := TrailingDigits(s);
    if 0 < d < |s| && s[|s| - d - 1] == '_' then Some(|s| - d - 1) else None
  }

  /** The match is unique: a "_" followed by nothing but (at least one)
      digits is the one `RunSuffixAt` finds. */
  lemma RunSuffixUnique(s: string, j: nat)
    requires j + 1 < |s| && s[j] == '_' && AllDigits(s[j + 1..])
    ensures RunSuffixAt(s) == Some(j)
  {
    var d := TrailingDigits(s);
    TrailingDigitsMaximal(s, j + 1);
  }

  /** Every column `<base>_<digits>` has its suffix found after `base`. */
  lemma RunSuffixOf(base: string, n: string)
    requires n != "" && AllDigits(n)
    ensures RunSuffixAt(base + "_" + n) == Some(|base|)
  {
    var s := base + "_" + n;
    assert s[|base| + 1..] == n;
    RunSuffixUnique(s, |base|);
  }

  /** `re.sub(r"_\d+$", "", col)`. */
  function StripRunSuffix(col: string): (r: string)
    ensures |r| <= |col| && r == col[..|r|]
  {
    match RunSuffixAt(col)
    case Some(j) => col[..j]
    case None => col
  }

  /** `re.match(r"^(.*?)(?:_(\d+))?$", c)`: the base and the run index of a
      column; the lazy base stops at the suffix when there is one. */
  function ColumnSplit(col: string): (r: (string, Option<string>))
    ensures r.0 == StripRunSuffix(col)
    ensures r.1.Some? ==> r.1.value != "" && AllDigits(r.1.value) && col == r.0 + "_" + r.1.value
    ensures r.1.None? ==> r.0 == col
  {
    match RunSuffixAt(col)
    case Some(j) =>
      assert col == col[..j] + "_" + col[j + 1..];
      (col[..j], Some(col[j + 1..]))
    case None => (col, None)
  }

  /** A column `<base>_<digits>` splits into exactly that base and index;
      together with `ColumnSplit`'s own contract this makes the split the
      inverse of joining with "_". */
  lemma ColumnSplitOf(base: string, n: string)
    requires n != "" && AllDigits(n)
    ensures ColumnSplit(base + "_" + n) == (base, Some(n))
    ensures StripRunSuffix(base + "_" + n) == base
  {
    RunSuffixOf(base, n);
    var s := base + "_" + n;
    assert s[..|base|] == base && s[|base| + 1..] == n;
  }

  // ---------- _norm_bases ----------

  /** `_norm_bases(col)`: the normal form of the column, of the column
      without its `_<digits>` suffix, and of the normal form without its
      trailing digits; the empty string is left out. */
  function NormBases(col: string): (r: set<string>)
    ensures "" !in r
    ensures Norm(Some(col)) != "" ==> Norm(Some(col)) in r
    ensures forall x :: x in r ==> AllNorm(x)
  {
    var n := Norm(Some(col));
    var low := Lower(col);
    var indexed := match RunSuffixAt(low)
      case Some(j) => {Norm(Some(low[..j]))}
      case None => {};
    var d := TrailingDigits(n);
    var numbered := if d > 0 then {Norm(Some(n[..|n| - d]))} else {};
    ({n} + indexed + numbered) - {""}
  }

  lemma LowerIndexed(base: string, n: string)
    requires AllDigits(n)
    ensures Lower(base + "_" + n) == Lower(base) + "_" + n
  {
    LowerConcat(base, "_" + n);
    LowerConcat("_", n);
    assert Lower(n) == n;
  }

  /** A column `<base>_<digits>` has the normal form of `base` among its
      base names, unless that normal form is empty. */
  lemma NormBasesIndexed(base: string, n: string)
    requires n != "" && AllDigits(n)
    requires Norm(Some(base)) != ""
    ensures Norm(Some(base)) in NormBases(base + "_" + n)
  {
    var low := Lower(base + "_" + n);
    LowerIndexed(base, n);
    RunSuffixOf(Lower(base), n);
    assert low[..|base|] == Lower(base);
    NormLower(base);
  }

  /** A column whose normal form is `stem` followed by digits, with `stem`
      not ending in a digit, has `stem` among its base names. */
  lemma NormBasesNumbered(col: string, stem: string, n: string)
    requires Norm(Some(col)) == stem + n
    requires stem != "" && !IsDigit(stem[|stem| - 1])
    requires n != "" && AllDigits(n)
    ensures stem in NormBases(col)
  {
    var s := stem + n;
    assert s[|stem|..] == n;
    TrailingDigitsMaximal(s, |stem|);
    var d := TrailingDigits(s);
    assert s[..|s| - d] == stem;
    assert AllNorm(stem) by {
      assert forall i :: 0 <= i < |stem| ==> stem[i] == s[i];
    }
    NormFixpoint(stem);
  }

  // ---------- the file-name patterns ----------

  /** The first `|lit|` characters of `s` equal `lit` ignoring ASCII case. */
  predicate CiPrefix(s: string, lit: string) {
    |lit| <= |s| && Lower(s[..|lit|]) == lit
  }

  /** The part of both patterns after the subject, split on "_":
      `task-([^_]+)`, optionally `run-(\d+)`, then `eeg.set`, matched
      ignoring case. */
  function ParseTail(ps: seq<string>): (r: Option<Pair>)
    requires forall k :: 0 <= k < |ps| ==> '_' !in ps[k]
    ensures r.Some? ==> r.value.0 != "" && '_' !in r.value.0
    ensures r.Some? && r.value.1.Some? ==> r.value.1.value != "" && AllDigits(r.value.1.value)
  {
    if 2 <= |ps| <= 3 && CiPrefix(ps[0], "task-") && |ps[0]| > 5 && Lower(ps[|ps| - 1]) == "eeg.set" then
      assert forall c :: c in ps[0][5..] ==> c in ps[0];
      if |ps| == 2 then Some((ps[0][5..], None))
      else if CiPrefix(ps[1], "run-") && |ps[1]| > 4 && AllDigits(ps[1][4..]) then
        Some((ps[0][5..], Some(ps[1][4..])))
      else None
    else None
  }

  predicate TaskMarkAt(name: string, i: int) {
    0 <= i && i + 6 <= |name| && name[i..i + 6] == "_task-"
  }

  /** The glob `sub-*_task-*_eeg.set`, which is case-sensitive. */
  predicate DiscoveryGlob(name: string) {
    |name| >= 18 && name[..4] == "sub-" && name[|name| - 8..] == "_eeg.set"
    && exists i :: 4 <= i <= |name| - 14 && TaskMarkAt(name, i)
  }

  /** The task discovery scan: the glob, then the case-insensitive pattern
      `(sub-([^_]+))_task-([^_]+)(?:_run-(\d+))?_eeg\.set$` matched at the
      start of the name; the pair is (task, run). */
  function DiscoverPair(name: string): (r: Option<Pair>)
    ensures r.Some? ==> DiscoveryGlob(name)
    ensures r.Some? ==> r.value.0 != "" && '_' !in r.value.0
    ensures r.Some? && r.value.1.Some? ==> r.value.1.value != "" && AllDigits(r.value.1.value)
  {
    if !DiscoveryGlob(name) then None
    else
      var ps := Split(name, '_');
      if CiPrefix(ps[0], "sub-") && |ps[0]| > 4 then ParseTail(ps[1..]) else None
  }

  /** The glob `<subject>_task-*_eeg.set`. */
  predicate SubjectGlob(subject: string, name: string) {
    |name| >= |subject| + 14 && name[..|subject| + 6] == subject + "_task-"
    && name[|name| - 8..] == "_eeg.set"
  }

  /** `_subject_task_pairs`' scan of one name: the glob, then the
      case-insensitive pattern `^<subject>_task-([^_]+)(?:_run-(\d+))?_eeg\.set$`. */
  function SubjectPair(subject: string, name: string): (r: Option<Pair>)
    ensures r.Some? ==> SubjectGlob(subject, name)
    ensures r.Some? ==> r.value.0 != "" && '_' !in r.value.0
    ensures r.Some? && r.value.1.Some? ==> r.value.1.value != "" && AllDigits(r.value.1.value)
  {
    if !SubjectGlob(subject, name) then None
    else
      var ps := Split(name[|subject|..], '_');
      if ps[0] == "" then ParseTail(ps[1..]) else None
  }

  // ---------- round trips with the loader's file names ----------

  /** The run part of the name the loader builds, when it has one. */
  function RunOf(t: TaskLoader.TaskRequest): Option<string> {
    if TaskLoader.HasRun(t) then t.run else None
  }

  /** The parts of the EEG file name the loader builds, without the subject. */
  function TailParts(t: TaskLoader.TaskRequest): seq<string> {
    if TaskLoader.HasRun(t) then ["task-" + t.task, "run-" + t.run.value, "eeg.set"]
    else ["task-" + t.task, "eeg.set"]
  }

  lemma TailFacts(t: TaskLoader.TaskRequest)
    requires t.task != "" && '_' !in t.task
    requires TaskLoader.HasRun(t) ==> AllDigits(t.run.value)
    ensures forall k :: 0 <= k < |TailParts(t)| ==> '_' !in TailParts(t)[k]
    ensures ParseTail(TailParts(t)) == Some((t.task, RunOf(t)))
  {
    var ps := TailParts(t);
    assert ps[0][..5] == "task-" && ps[0][5..] == t.task;
    assert Lower("task-") == "task-";
    assert Lower("eeg.set") == "eeg.set";
    if TaskLoader.HasRun(t) {
      assert ps[1][..4] == "run-" && ps[1][4..] == t.run.value;
      assert Lower("run-") == "run-";
      assert '_' !in t.run.value by {
        assert forall i :: 0 <= i < |t.run.value| ==> IsDigit(t.run.value[i]);
      }
    }
  }

  /** The file name is the subject followed by "_" and the tail parts joined with "_". */
  lemma FileNameJoin(t: TaskLoader.TaskRequest)
    ensures TaskLoader.FileName(t, "eeg.set") == t.subject + "_" + Join(TailParts(t), '_')
    ensures TaskLoader.FileName(t, "eeg.set") == Join([t.subject] + TailParts(t), '_')
  {
    TailJoin(t);
    assert ([t.subject] + TailParts(t))[1..] == TailParts(t);
  }

  /** The parts after the subject, joined: `task-<task>[_run-<run>]_eeg.set`. */
  lemma TailJoin(t: TaskLoader.TaskRequest)
    ensures Join(TailParts(t), '_') ==
      if TaskLoader.HasRun(t) then "task-" + t.task + "_run-" + t.run.value + "_eeg.set"
      else "task-" + t.task + "_eeg.set"
  {
    var ps := TailParts(t);
    if TaskLoader.HasRun(t) {
      assert ps[1..] == ["run-" + t.run.value, "eeg.set"];
      assert ps[1..][1..] == ["eeg.set"];
      assert Join(ps[1..], '_') == "run-" + t.run.value + "_" + "eeg.set";
      assert Join(ps, '_') == "task-" + t.task + "_" + ("run-" + t.run.value + "_" + "eeg.set");
    } else {
      assert ps[1..] == ["eeg.set"];
      assert Join(ps, '_') == "task-" + t.task + "_" + "eeg.set";
    }
  }

  /** The tail of the name starts with "task-" and ends with "_eeg.set". */
  lemma TailJoinShape(t: TaskLoader.TaskRequest)
    ensures var r := Join(TailParts(t), '_');
      |r| >= 13 && r[..5] == "task-" && r[|r| - 8..] == "_eeg.set"
  {
    TailJoin(t);
  }

  lemma SubjectGlobOfFileName(t: TaskLoader.TaskRequest)
    ensures SubjectGlob(t.subject, TaskLoader.FileName(t, "eeg.set"))
    ensures TaskLoader.FileName(t, "eeg.set")[|t.subject|..] == "_" + Join(TailParts(t), '_')
  {
    var name := TaskLoader.FileName(t, "eeg.set");
    var rest := Join(TailParts(t), '_');
    FileNameJoin(t);
    TailJoinShape(t);
    assert name == t.subject + ("_" + rest);
    assert name[..|t.subject| + 6] == t.subject + ("_" + rest)[..6];
    assert ("_" + rest)[..6] == "_" + rest[..5];
    assert name[|name| - 8..] == rest[|rest| - 8..];
  }

  lemma SplitLeadingSep(tail: seq<string>)
    requires |tail| >= 1
    requires forall k :: 0 <= k < |tail| ==> '_' !in tail[k]
    ensures Split("_" + Join(tail, '_'), '_') == [""] + tail
  {
    assert ([""] + tail)[1..] == tail;
    assert Join([""] + tail, '_') == "_" + Join(tail, '_');
    SplitJoin([""] + tail, '_');
  }

  /** The EEG file the loader opens is found by `_subject_task_pairs` for
      its subject, which reads back the task and the run. */
  lemma FileNameSubjectPair(t: TaskLoader.TaskRequest)
    requires t.task != "" && '_' !in t.task
    requires TaskLoader.HasRun(t) ==> AllDigits(t.run.value)
    ensures SubjectPair(t.subject, TaskLoader.FileName(t, "eeg.set")) == Some((t.task, RunOf(t)))
  {
    var name := TaskLoader.FileName(t, "eeg.set");
    var tail := TailParts(t);
    SubjectGlobOfFileName(t);
    TailFacts(t);
    SplitLeadingSep(tail);
    var ps := Split(name[|t.subject|..], '_');
    assert ps == [""] + tail;
    assert ps[1..] == tail;
  }

  lemma DiscoveryGlobOfFileName(t: TaskLoader.TaskRequest, ident: string)
    requires t.subject == "sub-" + ident
    ensures DiscoveryGlob(TaskLoader.FileName(t, "eeg.set"))
  {
    var name := TaskLoader.FileName(t, "eeg.set");
    SubjectGlobOfFileName(t);
    assert name[..4] == name[..|t.subject| + 6][..4];
    assert name[|t.subject|..|t.subject| + 6] == name[..|t.subject| + 6][|t.subject|..];
    assert TaskMarkAt(name, |t.subject|);
  }

  /** The same name, under a subject directory `sub-<ident>`, is found by
      the task discovery scan with the same pair. */
  lemma FileNameDiscovered(t: TaskLoader.TaskRequest, ident: string)
    requires t.subject == "sub-" + ident && ident != "" && '_' !in ident
    requires t.task != "" && '_' !in t.task
    requires TaskLoader.HasRun(t) ==> AllDigits(t.run.value)
    ensures DiscoverPair(TaskLoader.FileName(t, "eeg.set")) == Some((t.task, RunOf(t)))
  {
    var name := TaskLoader.FileName(t, "eeg.set");
    var tail := TailParts(t);
    DiscoveryGlobOfFileName(t, ident);
    FileNameJoin(t);
    TailFacts(t);
    assert '_' !in t.subject by {
      assert forall i :: 4 <= i < |t.subject| ==> t.subject[i] == ident[i - 4];
    }
    SplitJoin([t.subject] + tail, '_');
    var ps := Split(name, '_');
    assert ps[1..] == tail;
    assert ps[0][..4] == "sub-";
    assert Lower("sub-") == "sub-";
  }
}

=== FILE: task_processor.dfy ===
/** The stage orchestrator of backend/app/pipeline/task_processor.py.
    `EEGTaskProcessor` serves one recording: each stage (cleaned recording,
    epochs, evoked response) is looked up in the artifact cache under a key
    built from that stage's own parameter subset, and computed and stored on
    a miss. The stage functions below state what one call returns and what
    it leaves in the cache; the class's methods are proved equal to them. */
module Processor {
  import opened Wrappers
  import opened PyDict
  import opened CacheKeys
  import opened Cache
  import opened Eeg
  import opened EventCodes
  import opened TaskEvents
  import FilterFacet
  import EpochFacet
  import LegacyFacet

  /** `TaskRequest`: the recording a processor serves. */
  datatype TaskRequest = TaskRequest(subject: string, task: string, run: Option<string>)

  /** The `stimulus` value as `get_epochs` tests it: None, a string or a list. */
  datatype Stimulus = NoStimulus | One(name: string) | Several(names: seq<string>)

  /** `if params.stimulus:` then the string, or the first element of a list;
      an empty string or list is falsy. */
  function Chosen(s: Stimulus): Option<string> {
    match s
    case NoStimulus => None
    case One(x) => if x != "" then Some(x) else None
    case Several(xs) => if |xs| > 0 then Some(xs[0]) else None
  }

  /** What the processor reads from its params object: the four keys, the
      window and the stimulus. `evokedKey` is None for a params class that
      has no `evoked_key` property. */
  datatype StageParams = StageParams(
    filterKey: Dict,
    cleaningKey: Dict,
    epochsKey: Dict,
    evokedKey: Option<Dict>,
    tmin: real,
    tmax: real,
    stimulus: Stimulus)

  function StimulusOf(s: Option<string>): Stimulus {
    if s.Some? then One(s.value) else NoStimulus
  }

  /** A request of the params/ facets (filter and epoch fields in one object). */
  function FromRequest(r: EpochFacet.EpochRequest): StageParams {
    StageParams(FilterFacet.FilterKey(r.filter), FilterFacet.CleaningKey(r.filter), EpochFacet.EpochsKey(r),
                Some(EpochFacet.EvokedKey(r)), r.epoch.tmin, r.epoch.tmax, StimulusOf(r.epoch.stimulus))
  }

  /** The older `EvokedParams` the processor imports: it has no `evoked_key`. */
  function FromLegacy(e: LegacyFacet.LegacyEpochParams): StageParams {
    StageParams(LegacyFacet.LegacyFilterKey(e.filter), LegacyFacet.LegacyCleaningKey(e.filter),
                LegacyFacet.LegacyEpochsKey(e), None, e.tmin, e.tmax, StimulusOf(e.stimulus))
  }

  /** `EEGCleaner.pre_filter` and `EEGCleaner.clean_mark`, as functions of
      the parameter subset each depends on (the filter key and the cleaning
      key respectively) and of the recording. That they depend on no more is
      `SignalCleaner.PreFilterByFilterKey` and
      `SignalCleaner.CleanMarkByCleaningKey`. */
  datatype Cleaner = Cleaner(preFilter: (Dict, Raw) -> Raw, cleanMark: (Dict, Raw) -> Raw)

  /** What `get_raw()` and `get_events()` return when they are called. */
  datatype Inputs = Inputs(raw: Raw, table: Option<EventTable>)

  /** Whether the file-system calls inside the cache succeed. */
  datatype FsOutcomes = FsOutcomes(renameOk: bool, labelsRenameOk: bool, unlinkOk: bool, writeOk: bool)

  /** Which of `get_raw()` and `get_events()` a call asked for. */
  datatype Demand = Demand(raw: bool, events: bool)

  const NoDemand: Demand := Demand(false, false)

  /** The cache's files and the directories `_path_for` has created. */
  datatype Disk = Disk(files: Store, dirs: set<string>)

  /** The cache settings that go into paths. */
  datatype CacheConf = CacheConf(base: string, ver: string, digest: Digest)

  /** The outcome of a stage: "unavailable", a value, or a raised exception. */
  datatype Stage<T> = Unavailable | Ready(value: T) | Raised(error: string)

  /** The labels `get_epochs` hands back: the list read from the JSON
      sidecar, or the labels a preprocessor built. Those are a NumPy array of
      strings for surround suppression (`stim["label"].values[...]`) and a
      list for the other tasks. */
  datatype Labels = Listed(json: Json) | ArrayOf(items: seq<string>)

  /** The `(epochs, labels)` pair `get_epochs` returns. */
  datatype EpochsPair = EpochsPair(epochs: Epochs, labels: Option<Labels>)

  datatype FilteredRun = FilteredRun(raw: Raw, disk: Disk, rawUsed: bool)
  datatype FilteredTry = FilteredTry(result: Result<Raw, string>, disk: Disk, rawUsed: bool)
  /** `mutated` says whether `pre_filter` ran on the recording `get_raw()`
      returned, which it changes in place (see `Handed`). */
  datatype PrepRun = PrepRun(prep: Result<Option<Prepared>, string>, disk: Disk, demand: Demand, mutated: bool)
  datatype EpochsRun = EpochsRun(out: Stage<EpochsPair>, disk: Disk, demand: Demand, mutated: bool)
  datatype EvokedRun = EvokedRun(out: Stage<Evoked>, disk: Disk, demand: Demand, mutated: bool)

  /** The recording object `get_raw()` handed out, as a call leaves it:
      `pre_filter` filters, resamples and notches it in place and returns
      that same object, so once it has run the caller's recording is the
      pre-filtered one. */
  function Handed(cl: Cleaner, p: StageParams, raw: Raw, mutated: bool): Raw {
    if mutated then cl.preFilter(p.filterKey, raw) else raw
  }

  function StageKey(t: TaskRequest, stage: string, params: Dict, ver: string): CacheKey {
    CacheKey(t.subject, t.task, t.run, stage, params, ver)
  }

  function CleanedKey(c: CacheConf, t: TaskRequest, p: StageParams): CacheKey {
    StageKey(t, "cleaned", p.cleaningKey, c.ver)
  }

  function PrefilterKey(c: CacheConf, t: TaskRequest, p: StageParams): CacheKey {
    StageKey(t, "prefilter", p.filterKey, c.ver)
  }

  function EpochsKeyOf(c: CacheConf, t: TaskRequest, p: StageParams): CacheKey {
    StageKey(t, "epochs", p.epochsKey, c.ver)
  }

  function At(c: CacheConf, k: CacheKey, a: Artifact): string {
    CacheKeys.PathFor(c.base, k, a, c.digest)
  }

  function LabelsAt(c: CacheConf, k: CacheKey): string {
    LabelsPath(c.base, k, c.digest)
  }

  /** The request's components and the version are single path segments. */
  predicate Plain(c: CacheConf, t: TaskRequest) {
    NoSlash(t.subject) && NoSlash(t.task) && NoSlash(c.ver) && (t.run.Some? ==> NoSlash(t.run.value))
  }

  // ---------- get_filtered ----------

  /** `get_filtered` with the prefiltered recording read back from the file
      just written: a cleaned hit is returned at once; otherwise the
      prefilter artifact is loaded, or computed from `get_raw()` and saved,
      and the cleaned result is saved under the cleaned key. */
  function FilteredStage(c: CacheConf, t: TaskRequest, p: StageParams, cl: Cleaner, raw: Raw, renameOk: bool, d: Disk): (r: FilteredRun)
    ensures LoadRawResult(d.files, At(c, CleanedKey(c, t, p), RawFiltered)).Some? ==>
      r.raw == LoadRawResult(d.files, At(c, CleanedKey(c, t, p), RawFiltered)).value && !r.rawUsed && r.disk.files == d.files
    ensures LoadRawResult(r.disk.files, At(c, CleanedKey(c, t, p), RawFiltered)) == Some(r.raw)
    ensures r.disk.dirs >= d.dirs + DirsFor(c.base, CleanedKey(c, t, p))
    ensures var pc := At(c, CleanedKey(c, t, p), RawFiltered);
      r.rawUsed <==> LoadRawResult(d.files, pc).None?
                     && LoadRawResult(LoadRawStore(d.files, pc, renameOk), At(c, PrefilterKey(c, t, p), RawFiltered)).None?
  {
    var kc := CleanedKey(c, t, p);
    var pc := At(c, kc, RawFiltered);
    var f1 := LoadRawStore(d.files, pc, renameOk);
    var dirs1 := d.dirs + DirsFor(c.base, kc);
    var hit := LoadRawResult(d.files, pc);
    if hit.Some? then FilteredRun(hit.value, Disk(f1, dirs1), false)
    else
      var kp := PrefilterKey(c, t, p);
      var pp := At(c, kp, RawFiltered);
      var pre := LoadRawResult(f1, pp);
      var f2 := LoadRawStore(f1, pp, renameOk);
      var dirs2 := dirs1 + DirsFor(c.base, kp);
      var computed := cl.preFilter(p.filterKey, raw);
      var f3 := if pre.Some? then f2 else SaveRawStore(f2, pp, computed);
      RawRoundTrip(f2, pp, computed, renameOk);
      var cleaned := cl.cleanMark(p.cleaningKey, if pre.Some? then pre.value else LoadRawResult(f3, pp).value);
      FilteredRun(cleaned, Disk(SaveRawStore(f3, pc, cleaned), dirs2), pre.None?)
  }

  /** `get_filtered` as written: after a prefilter miss the saved file is read
      back through the module name `mne`, which the file never imports, so
      the call raises NameError with the prefilter artifact saved and the
      cleaned one not. Otherwise it agrees with `FilteredStage`. */
  function FilteredStageAsWritten(c: CacheConf, t: TaskRequest, p: StageParams, cl: Cleaner, raw: Raw, renameOk: bool, d: Disk): (r: FilteredTry)
    ensures var pc := At(c, CleanedKey(c, t, p), RawFiltered);
      var pp := At(c, PrefilterKey(c, t, p), RawFiltered);
      var f1 := LoadRawStore(d.files, pc, renameOk);
      r.result.Err? <==> LoadRawResult(d.files, pc).None? && LoadRawResult(f1, pp).None?
    ensures r.result.Ok? ==> var s := FilteredStage(c, t, p, cl, raw, renameOk, d);
      r.result.value == s.raw && r.disk == s.disk && r.rawUsed == s.rawUsed
  {
    var kc := CleanedKey(c, t, p);
    var pc := At(c, kc, RawFiltered);
    var f1 := LoadRawStore(d.files, pc, renameOk);
    var dirs1 := d.dirs + DirsFor(c.base, kc);
    var hit := LoadRawResult(d.files, pc);
    if hit.Some? then FilteredTry(Ok(hit.value), Disk(f1, dirs1), false)
    else
      var kp := PrefilterKey(c, t, p);
      var pp := At(c, kp, RawFiltered);
      var pre := LoadRawResult(f1, pp);
      var f2 := LoadRawStore(f1, pp, renameOk);
      var dirs2 := dirs1 + DirsFor(c.base, kp);
      if pre.None? then
        FilteredTry(Err("NameError: name 'mne' is not defined"), Disk(SaveRawStore(f2, pp, cl.preFilter(p.filterKey, raw)), dirs2), true)
      else
        var cleaned := cl.cleanMark(p.cleaningKey, pre.value);
        FilteredTry(Ok(cleaned), Disk(SaveRawStore(f2, pc, cleaned), dirs2), false)
  }

  // ---------- get_epochs ----------

  /** The preprocessor of the task, after `get_filtered`: surround
      suppression and resting state ask for the events table, contrast
      change detection for the recording `get_raw()` returns, which is the
      pre-filtered one when `get_filtered` has just run `pre_filter` on it. */
  function Preprocess(kind: TaskKind, c: CacheConf, t: TaskRequest, p: StageParams, cl: Cleaner, mne: Mne,
                      inp: Inputs, renameOk: bool, d: Disk): PrepRun
  {
    var fr := FilteredStage(c, t, p, cl, inp.raw, renameOk, d);
    match kind
    case SurroundSupp => PrepRun(SurroundPrep(inp.table, fr.raw, p.tmin, p.tmax), fr.disk, Demand(fr.rawUsed, true), fr.rawUsed)
    case RestingState => PrepRun(Ok(RestingPrepared(inp.table, fr.raw, mne)), fr.disk, Demand(fr.rawUsed, true), fr.rawUsed)
    case ContrastChangeDetection =>
      PrepRun(Ok(CcdPrep(Handed(cl, p, inp.raw, fr.rawUsed), fr.raw, mne)), fr.disk, Demand(true, false), fr.rawUsed)
  }

  /** `mne.Epochs(...)` over the prepared events, with bad channels
      interpolated when there are any. */
  function Built(pr: Prepared, p: StageParams): (e: Epochs)
    ensures e.bads == [] || e.bads == pr.raw.bads
    ensures e.eventId == pr.eventId && e.events == pr.events
  {
    var e := MakeEpochs(pr.raw, pr.events, pr.eventId, p.tmin, p.tmax);
    if |e.bads| > 0 then InterpolateEpochs(e) else e
  }

  /** The labels as the JSON sidecar stores them: a list of strings. */
  function LabelsJson(labels: seq<string>): Json {
    JArray(seq(|labels|, i requires 0 <= i < |labels| => JStr(labels[i])))
  }

  /** The labels a sidecar held, as `json.load` gives them. */
  function FromSidecar(l: Option<Json>): (r: Option<Labels>)
    ensures r.None? <==> l.None?
    ensures r.Some? ==> r.value == Listed(l.value)
  {
    match l
    case None => None
    case Some(j) => Some(Listed(j))
  }

  /** The labels a preprocessor of the given kind returns. */
  function FreshLabels(kind: TaskKind, labels: seq<string>): (r: Labels)
    ensures r.ArrayOf? <==> kind == SurroundSupp
    ensures Stored(r) == LabelsJson(labels)
  {
    if kind == SurroundSupp then ArrayOf(labels) else Listed(LabelsJson(labels))
  }

  /** What `save_epochs` writes for labels: `labels.tolist()` for an array,
      the list itself otherwise. */
  function Stored(l: Labels): Json {
    match l
    case Listed(j) => j
    case ArrayOf(items) => LabelsJson(items)
  }

  /** An answer with its labels as a later hit reads them back from the sidecar. */
  function Reloaded(r: Stage<EpochsPair>): Stage<EpochsPair> {
    if r.Ready? && r.value.labels.Some? then
      Ready(EpochsPair(r.value.epochs, Some(Listed(Stored(r.value.labels.value)))))
    else r
  }

  /** The stimulus step of `get_epochs`: a chosen condition that the epochs
      do not know is "unavailable"; a known one keeps only its epochs; with
      no stimulus the baseline (None, 0.0) is applied. */
  function Select(e: Epochs, labels: Option<Labels>, s: Stimulus): (r: Stage<EpochsPair>)
    ensures r.Raised? == false
    ensures r.Unavailable? <==> Chosen(s).Some? && Chosen(s).value !in e.eventId
    ensures r.Ready? && Chosen(s).Some? ==>
      r.value.epochs.eventId.Keys == {Chosen(s).value}
      && (forall x :: x in r.value.epochs.events ==> x in e.events && x.code == e.eventId[Chosen(s).value])
    ensures r.Ready? && Chosen(s).None? ==> r.value.epochs.events == e.events
    ensures r.Ready? ==> r.value.labels == labels
  {
    match Chosen(s)
    case Some(st) => if st in e.eventId then Ready(EpochsPair(PickCondition(e, st), labels)) else Unavailable
    case None => Ready(EpochsPair(BaselineToZero(e), labels))
  }

  /** `get_epochs`, with the hit test on the loaded epochs: an unsupported
      task is "unavailable" without touching the cache; a hit is selected
      from; a miss runs the task's preprocessor, saves what it built, and
      selects from that. */
  function EpochsStage(c: CacheConf, t: TaskRequest, p: StageParams, cl: Cleaner, mne: Mne,
                       inp: Inputs, fs: FsOutcomes, d: Disk): (r: EpochsRun)
    ensures Preprocessor(t.task).None? ==> r == EpochsRun(Unavailable, d, NoDemand, false)
    ensures r.mutated ==> r.demand.raw
    ensures r.out.Ready? && r.out.value.labels.Some? ==>
      (r.out.value.labels.value.ArrayOf? <==> r.demand != NoDemand && t.task == "surroundSupp")
    ensures r.demand == NoDemand && Preprocessor(t.task).Some? ==>
      var k := EpochsKeyOf(c, t, p);
      LoadEpochsResult(d.files, At(c, k, EpochsArtifact), LabelsAt(c, k)).0.Some?
  {
    match Preprocessor(t.task)
    case None => EpochsRun(Unavailable, d, NoDemand, false)
    case Some(kind) =>
      var k := EpochsKeyOf(c, t, p);
      var pe := At(c, k, EpochsArtifact);
      var lp := LabelsAt(c, k);
      var cached := LoadEpochsResult(d.files, pe, lp);
      var d1 := Disk(LoadEpochsStore(d.files, pe, lp, fs.renameOk, fs.labelsRenameOk, fs.unlinkOk),
                     d.dirs + DirsFor(c.base, k));
      if cached.0.Some? then EpochsRun(Select(cached.0.value, FromSidecar(cached.1), p.stimulus), d1, NoDemand, false)
      else
        var pr := Preprocess(kind, c, t, p, cl, mne, inp, fs.renameOk, d1);
        assert pr.demand != NoDemand;
        match pr.prep
        case Err(e) => EpochsRun(Raised(e), pr.disk, pr.demand, pr.mutated)
        case Ok(None) => EpochsRun(Unavailable, pr.disk, pr.demand, pr.mutated)
        case Ok(Some(prepared)) =>
          var e := Built(prepared, p);
          var d3 := Disk(SaveEpochsStore(pr.disk.files, pe, lp, e, Some(LabelsJson(prepared.labels)), fs.writeOk),
                         pr.disk.dirs + DirsFor(c.base, k));
          EpochsRun(Select(e, Some(FreshLabels(kind, prepared.labels)), p.stimulus), d3, pr.demand, pr.mutated)
  }

  /** `get_epochs` as written: `if cached:` tests the pair `(None, None)`,
      which is truthy, so a miss is taken for a hit and the stimulus step
      then fails on None. The preprocessor never runs and nothing is saved. */
  function EpochsStageAsWritten(c: CacheConf, t: TaskRequest, p: StageParams, cl: Cleaner, mne: Mne,
                                inp: Inputs, fs: FsOutcomes, d: Disk): (r: EpochsRun)
    ensures r.demand == NoDemand
    ensures var k := EpochsKeyOf(c, t, p);
      Preprocessor(t.task).None? || LoadEpochsResult(d.files, At(c, k, EpochsArtifact), LabelsAt(c, k)).0.Some?
      ==> r == EpochsStage(c, t, p, cl, mne, inp, fs, d)
  {
    match Preprocessor(t.task)
    case None => EpochsRun(Unavailable, d, NoDemand, false)
    case Some(kind) =>
      var k := EpochsKeyOf(c, t, p);
      var pe := At(c, k, EpochsArtifact);
      var lp := LabelsAt(c, k);
      var cached := LoadEpochsResult(d.files, pe, lp);
      var d1 := Disk(LoadEpochsStore(d.files, pe, lp, fs.renameOk, fs.labelsRenameOk, fs.unlinkOk),
                     d.dirs + DirsFor(c.base, k));
      if cached.0.Some? then EpochsRun(Select(cached.0.value, FromSidecar(cached.1), p.stimulus), d1, NoDemand, false)
      else if Chosen(p.stimulus).Some? then
        EpochsRun(Raised("AttributeError: 'NoneType' object has no attribute 'event_id'"), d1, NoDemand, false)
      else
        EpochsRun(Raised("AttributeError: 'NoneType' object has no attribute 'apply_baseline'"), d1, NoDemand, false)
  }

  // ---------- get_evoked ----------

  /** `epochs.average()` after interpolating any bad channels. */
  function AverageOf(e: Epochs): Evoked {
    Average(if |e.bads| > 0 then InterpolateEpochs(e) else e)
  }

  /** `get_evoked`: a params object without `evoked_key` raises; a hit is
      returned without computing epochs; otherwise the epochs stage runs and
      its average is saved under the evoked key. */
  function EvokedStage(c: CacheConf, t: TaskRequest, p: StageParams, cl: Cleaner, mne: Mne,
                       inp: Inputs, fs: FsOutcomes, d: Disk): (r: EvokedRun)
    ensures p.evokedKey.None? ==> r.out.Raised? && r.disk == d
    ensures r.mutated ==> r.demand.raw
    ensures p.evokedKey.Some? ==>
      var pv := At(c, StageKey(t, "evoked", p.evokedKey.value, c.ver), EvokedArtifact);
      (LoadEvokedResult(d.files, pv).Some? ==> r.out == Ready(LoadEvokedResult(d.files, pv).value)
                                               && r.disk.files == d.files && r.demand == NoDemand)
      && (r.out.Ready? ==> LoadEvokedResult(r.disk.files, pv) == Some(r.out.value))
  {
    match p.evokedKey
    case None => EvokedRun(Raised("AttributeError: 'EvokedParams' object has no attribute 'evoked_key'"), d, NoDemand, false)
    case Some(key) =>
      var k := StageKey(t, "evoked", key, c.ver);
      var pv := At(c, k, EvokedArtifact);
      var d1 := Disk(d.files, d.dirs + DirsFor(c.base, k));
      var hit := LoadEvokedResult(d.files, pv);
      if hit.Some? then EvokedRun(Ready(hit.value), d1, NoDemand, false)
      else
        var er := EpochsStage(c, t, p, cl, mne, inp, fs, d1);
        match er.out
        case Unavailable => EvokedRun(Unavailable, er.disk, er.demand, er.mutated)
        case Raised(e) => EvokedRun(Raised(e), er.disk, er.demand, er.mutated)
        case Ready(sel) =>
          var evk := AverageOf(sel.epochs);
          EvokedRoundTrip(er.disk.files, pv, evk);
          EvokedRun(Ready(evk), Disk(SaveEvokedStore(er.disk.files, pv, evk), er.disk.dirs + DirsFor(c.base, k)), er.demand, er.mutated)
  }

  // ---------- the processor object ----------

  /** `EEGTaskProcessor`: the recording it serves, its cache, the foreign
      MNE calls and the cleaner it applies. */
  class TaskProcessor {
    const task: TaskRequest
    const cache: LocalCache
    const mne: Mne
    const cleaner: Cleaner

    constructor(task: TaskRequest, cache: LocalCache, mne: Mne, cleaner: Cleaner)
      ensures this.task == task && this.cache == cache && this.mne == mne && this.cleaner == cleaner
    {
      this.task := task;
      this.cache := cache;
      this.mne := mne;
      this.cleaner := cleaner;
    }

    function Conf(): CacheConf {
      CacheConf(cache.base, cache.pipelineVer, cache.digest)
    }

    function State(): Disk
      reads cache
    {
      Disk(cache.files, cache.dirs)
    }

    /** `get_filtered(params)`; `raw` is what `get_raw()` returns and
        `rawUsed` says whether it was called. */
    method GetFiltered(p: StageParams, raw: Raw, renameOk: bool) returns (r: Raw, rawUsed: bool)
      modifies cache
      ensures FilteredRun(r, State(), rawUsed) == FilteredStage(Conf(), task, p, cleaner, raw, renameOk, old(State()))
    {
      var kc := StageKey(task, "cleaned", p.cleaningKey, cache.pipelineVer);
      var cached := cache.LoadRawFiltered(kc, renameOk);
      if cached.Some? {
        return cached.value, false;
      }
      var prefiltered;
      prefiltered, rawUsed := Prefilter(p, raw, renameOk);
      r := cleaner.cleanMark(p.cleaningKey, prefiltered);
      var _ := cache.SaveRawFiltered(r, kc);
    }

    /** The prefilter half of `get_filtered`: the saved prefiltered recording,
        or the one computed from `raw` (then saved), with `rawUsed` saying which. */
    method Prefilter(p: StageParams, raw: Raw, renameOk: bool) returns (pre: Raw, rawUsed: bool)
      modifies cache
      ensures var pp := At(Conf(), PrefilterKey(Conf(), task, p), RawFiltered);
        var hit := LoadRawResult(old(cache.files), pp);
        var f2 := LoadRawStore(old(cache.files), pp, renameOk);
        && rawUsed == hit.None?
        && pre == (if hit.Some? then hit.value else cleaner.preFilter(p.filterKey, raw))
        && cache.files == (if hit.Some? then f2 else SaveRawStore(f2, pp, pre))
        && cache.dirs == old(cache.dirs) + DirsFor(cache.base, PrefilterKey(Conf(), task, p))
    {
      var kp := StageKey(task, "prefilter", p.filterKey, cache.pipelineVer);
      var hit := cache.LoadRawFiltered(kp, renameOk);
      if hit.Some? {
        pre, rawUsed := hit.value, false;
      } else {
        var computed := cleaner.preFilter(p.filterKey, raw);
        ghost var f2 := cache.files;
        var path := cache.SaveRawFiltered(computed, kp);
        RawRoundTrip(f2, path, computed, renameOk);
        var back := LoadRawResult(cache.files, path);
        pre, rawUsed := back.value, true;
      }
    }

    /** `fn(self, params)` for the task's preprocessor `fn`; `mutated` says
        whether `pre_filter` changed the recording of `get_raw()`. */
    method RunPreprocessor(kind: TaskKind, p: StageParams, inp: Inputs, renameOk: bool)
      returns (prep: Result<Option<Prepared>, string>, demand: Demand, mutated: bool)
      modifies cache
      ensures PrepRun(prep, State(), demand, mutated) == Preprocess(kind, Conf(), task, p, cleaner, mne, inp, renameOk, old(State()))
    {
      var filtered, rawUsed := GetFiltered(p, inp.raw, renameOk);
      mutated := rawUsed;
      match kind {
        case SurroundSupp =>
          prep, demand := SurroundPrep(inp.table, filtered, p.tmin, p.tmax), Demand(rawUsed, true);
        case RestingState =>
          var rp := RestingPrep(inp.table, filtered, mne);
          prep, demand := Ok(rp), Demand(rawUsed, true);
        case ContrastChangeDetection =>
          prep, demand := Ok(CcdPrep(Handed(cleaner, p, inp.raw, rawUsed), filtered, mne)), Demand(true, false);
      }
    }

    /** `get_epochs(params)`. */
    method GetEpochs(p: StageParams, inp: Inputs, fs: FsOutcomes) returns (out: Stage<EpochsPair>, demand: Demand, mutated: bool)
      modifies cache
      ensures EpochsRun(out, State(), demand, mutated) == EpochsStage(Conf(), task, p, cleaner, mne, inp, fs, old(State()))
    {
      var kind := Preprocessor(task.task);
      if kind.None? {
        return Unavailable, NoDemand, false;
      }
      var k := StageKey(task, "epochs", p.epochsKey, cache.pipelineVer);
      var cachedEpochs, cachedLabels := cache.LoadEpochs(k, fs.renameOk, fs.labelsRenameOk, fs.unlinkOk);
      var e: Epochs;
      var labels: Option<Labels>;
      if cachedEpochs.Some? {
        e, labels, demand, mutated := cachedEpochs.value, FromSidecar(cachedLabels), NoDemand, false;
      } else {
        var prep;
        prep, demand, mutated := RunPreprocessor(kind.value, p, inp, fs.renameOk);
        if prep.Err? {
          return Raised(prep.error), demand, mutated;
        }
        if prep.value.None? {
          return Unavailable, demand, mutated;
        }
        e := Built(prep.value.value, p);
        labels := Some(FreshLabels(kind.value, prep.value.value.labels));
        var _ := cache.SaveEpochs(e, k, Some(Stored(labels.value)), fs.writeOk);
      }
      out := Select(e, labels, p.stimulus);
    }

    /** `get_evoked(params)`. */
    method GetEvoked(p: StageParams, inp: Inputs, fs: FsOutcomes) returns (out: Stage<Evoked>, demand: Demand, mutated: bool)
      modifies cache
      ensures EvokedRun(out, State(), demand, mutated) == EvokedStage(Conf(), task, p, cleaner, mne, inp, fs, old(State()))
    {
      if p.evokedKey.None? {
        return Raised("AttributeError: 'EvokedParams' object has no attribute 'evoked_key'"), NoDemand, false;
      }
      var k := StageKey(task, "evoked", p.evokedKey.value, cache.pipelineVer);
      var hit := cache.LoadEvoked(k);
      if hit.Some? {
        return Ready(hit.value), NoDemand, false;
      }
      var epochs;
      epochs, demand, mutated := GetEpochs(p, inp, fs);
      if epochs.Unavailable? {
        return Unavailable, demand, mutated;
      }
      if epochs.Raised? {
        return Raised(epochs.error), demand, mutated;
      }
      var evk := AverageOf(epochs.value.epochs);
      var _ := cache.SaveEvoked(evk, k);
      out := Ready(evk);
    }
  }

  // ---------- properties across calls ----------

  /** The cleaned and the prefilter artifacts of one recording never share a
      path, whatever their params. */
  lemma StagePathsDistinct(c: CacheConf, t: TaskRequest, p: StageParams, q: StageParams)
    requires Plain(c, t)
    ensures At(c, CleanedKey(c, t, p), RawFiltered) != At(c, PrefilterKey(c, t, q), RawFiltered)
  {
    var kc := CleanedKey(c, t, p);
    var kp := PrefilterKey(c, t, q);
    assert NoSlash("cleaned") && NoSlash("prefilter");
    if At(c, kc, RawFiltered) == At(c, kp, RawFiltered) {
      PathInjective(c.base, kc, RawFiltered, kp, RawFiltered, c.digest);
    }
  }

  /** A second `get_filtered` with the same params is a cleaned-cache hit:
      it returns what the first returned, leaves the files alone and never
      asks for the raw recording. */
  lemma FilteredTwiceHits(c: CacheConf, t: TaskRequest, p: StageParams, cl: Cleaner, raw: Raw, raw2: Raw,
                          renameOk: bool, renameOk2: bool, d: Disk)
    ensures var r1 := FilteredStage(c, t, p, cl, raw, renameOk, d);
      var r2 := FilteredStage(c, t, p, cl, raw2, renameOk2, r1.disk);
      r2.raw == r1.raw && !r2.rawUsed && r2.disk.files == r1.disk.files
  {
  }

  /** After a cleaned miss has gone through, a request sharing the filter key
      (its cleaning values may differ) finds the prefilter artifact and never
      asks for the raw recording. */
  lemma {:induction false} SharedFilterKeyReusesPrefilter(c: CacheConf, t: TaskRequest, p: StageParams, q: StageParams,
                                                          cl: Cleaner, cl2: Cleaner, raw: Raw, raw2: Raw, renameOk: bool, d: Disk)
    requires Plain(c, t)
    requires q.filterKey == p.filterKey
    requires LoadRawResult(d.files, At(c, CleanedKey(c, t, p), RawFiltered)).None?
    ensures var r1 := FilteredStage(c, t, p, cl, raw, renameOk, d);
      !FilteredStage(c, t, q, cl2, raw2, renameOk, r1.disk).rawUsed
  {
    var r1 := FilteredStage(c, t, p, cl, raw, renameOk, d);
    var pc := At(c, CleanedKey(c, t, p), RawFiltered);
    var pp := At(c, PrefilterKey(c, t, p), RawFiltered);
    var qc := At(c, CleanedKey(c, t, q), RawFiltered);
    assert PrefilterKey(c, t, q) == PrefilterKey(c, t, p);
    StagePathsDistinct(c, t, p, p);
    StagePathsDistinct(c, t, q, p);
    // the first call leaves a readable prefiltered recording at pp
    var f1 := LoadRawStore(d.files, pc, renameOk);
    SidecarAndBadPathsAreNotArtifacts(c.base, PrefilterKey(c, t, p), RawFiltered, PrefilterKey(c, t, p), c.digest, pc);
    assert LoadRawResult(f1, pp) == LoadRawResult(d.files, pp);
    var files1 := r1.disk.files;
    assert LoadRawResult(files1, pp).Some?;
    // the second call: a cleaned miss moves qc only, never pp
    if LoadRawResult(files1, qc).None? {
      SidecarAndBadPathsAreNotArtifacts(c.base, PrefilterKey(c, t, p), RawFiltered, PrefilterKey(c, t, p), c.digest, qc);
      assert LoadRawResult(LoadRawStore(files1, qc, renameOk), pp).Some?;
    }
  }

  /** A second identical `get_epochs` after one that produced epochs, with
      the write succeeding, is a hit: same epochs, nothing asked for, and the
      labels as the sidecar holds them (a list where the first call handed
      back an array). */
  lemma {:induction false} EpochsTwiceHits(c: CacheConf, t: TaskRequest, p: StageParams, cl: Cleaner, mne: Mne,
                                           inp: Inputs, inp2: Inputs, fs: FsOutcomes, fs2: FsOutcomes, d: Disk)
    requires fs.writeOk
    requires EpochsStage(c, t, p, cl, mne, inp, fs, d).out.Ready?
    ensures var r1 := EpochsStage(c, t, p, cl, mne, inp, fs, d);
      var r2 := EpochsStage(c, t, p, cl, mne, inp2, fs2, r1.disk);
      r2.out == Reloaded(r1.out) && r2.demand == NoDemand
  {
    var r1 := EpochsStage(c, t, p, cl, mne, inp, fs, d);
    var k := EpochsKeyOf(c, t, p);
    var pe := At(c, k, EpochsArtifact);
    var lp := LabelsAt(c, k);
    var cached := LoadEpochsResult(d.files, pe, lp);
    if cached.0.None? {
      var d1 := Disk(LoadEpochsStore(d.files, pe, lp, fs.renameOk, fs.labelsRenameOk, fs.unlinkOk), d.dirs + DirsFor(c.base, k));
      var pr := Preprocess(Preprocessor(t.task).value, c, t, p, cl, mne, inp, fs.renameOk, d1);
      var prepared := pr.prep.value.value;
      SidecarAndBadPathsAreNotArtifacts(c.base, k, EpochsArtifact, k, c.digest, pe);
      EpochsRoundTrip(pr.disk.files, pe, lp, Built(prepared, p), LabelsJson(prepared.labels));
    }
  }

  /** A second identical `get_evoked` after one that produced a response is
      a hit: same response, files untouched, nothing asked for. */
  lemma {:induction false} EvokedTwiceHits(c: CacheConf, t: TaskRequest, p: StageParams, cl: Cleaner, mne: Mne,
                                           inp: Inputs, inp2: Inputs, fs: FsOutcomes, fs2: FsOutcomes, d: Disk)
    requires EvokedStage(c, t, p, cl, mne, inp, fs, d).out.Ready?
    ensures var r1 := EvokedStage(c, t, p, cl, mne, inp, fs, d);
      var r2 := EvokedStage(c, t, p, cl, mne, inp2, fs2, r1.disk);
      r2.out == r1.out && r2.demand == NoDemand && r2.disk.files == r1.disk.files
  {
  }

  /** On a cold epochs cache for a supported task the code as written raises
      without running the preprocessor or saving anything. */
  lemma ColdEpochsAsWritten(c: CacheConf, t: TaskRequest, p: StageParams, cl: Cleaner, mne: Mne,
                            inp: Inputs, fs: FsOutcomes, d: Disk)
    requires Preprocessor(t.task).Some?
    requires At(c, EpochsKeyOf(c, t, p), EpochsArtifact) !in d.files
    ensures var w := EpochsStageAsWritten(c, t, p, cl, mne, inp, fs, d);
      w.out.Raised? && w.disk.files == d.files && w.demand == NoDemand
  {
    var k := EpochsKeyOf(c, t, p);
    var pe := At(c, k, EpochsArtifact);
    assert LoadEpochsResult(d.files, pe, LabelsAt(c, k)).0.None?;
    assert LoadEpochsStore(d.files, pe, LabelsAt(c, k), fs.renameOk, fs.labelsRenameOk, fs.unlinkOk) == d.files;
  }

  /** On a cold epochs cache for a supported task the corrected stage runs
      the preprocessor, which asks for the raw recording or the events. */
  lemma ColdEpochsComputed(c: CacheConf, t: TaskRequest, p: StageParams, cl: Cleaner, mne: Mne,
                           inp: Inputs, fs: FsOutcomes, d: Disk)
    requires Preprocessor(t.task).Some?
    requires At(c, EpochsKeyOf(c, t, p), EpochsArtifact) !in d.files
    ensures EpochsStage(c, t, p, cl, mne, inp, fs, d).demand != NoDemand
  {
    var k := EpochsKeyOf(c, t, p);
    assert LoadEpochsResult(d.files, At(c, k, EpochsArtifact), LabelsAt(c, k)).0.None?;
  }

  /** A request left at the default stimulus, the string "None", never gets
      epochs computed on a miss: no preprocessor's event map has a "None"
      condition. */
  lemma {:induction false} NoneStimulusUnavailable(c: CacheConf, t: TaskRequest, p: StageParams, cl: Cleaner, mne: Mne,
                                                   inp: Inputs, fs: FsOutcomes, d: Disk)
    requires p.stimulus == One("None")
    requires At(c, EpochsKeyOf(c, t, p), EpochsArtifact) !in d.files
    ensures !EpochsStage(c, t, p, cl, mne, inp, fs, d).out.Ready?
  {
    var r := EpochsStage(c, t, p, cl, mne, inp, fs, d);
    if Preprocessor(t.task).Some? {
      var k := EpochsKeyOf(c, t, p);
      var pe := At(c, k, EpochsArtifact);
      var lp := LabelsAt(c, k);
      var d1 := Disk(LoadEpochsStore(d.files, pe, lp, fs.renameOk, fs.labelsRenameOk, fs.unlinkOk), d.dirs + DirsFor(c.base, k));
      var kind := Preprocessor(t.task).value;
      var pr := Preprocess(kind, c, t, p, cl, mne, inp, fs.renameOk, d1);
      var fr := FilteredStage(c, t, p, cl, inp.raw, fs.renameOk, d1);
      NoneIsNoCondition(inp.table, fr.raw, p.tmin, p.tmax, Handed(cl, p, inp.raw, fr.rawUsed), mne);
      match kind
      case SurroundSupp => assert pr.prep == SurroundPrep(inp.table, fr.raw, p.tmin, p.tmax);
      case RestingState => assert pr.prep == Ok(RestingPrepared(inp.table, fr.raw, mne));
      case ContrastChangeDetection => assert pr.prep == Ok(CcdPrep(Handed(cl, p, inp.raw, fr.rawUsed), fr.raw, mne));
    }
  }

  /** After `get_filtered` as written raised NameError, the same call again
      succeeds from the prefilter artifact the first call saved, without
      asking for the raw recording, and returns what the corrected stage
      returns in one call. */
  lemma {:induction false} FilteredRetryAfterNameError(c: CacheConf, t: TaskRequest, p: StageParams, cl: Cleaner,
                                                       raw: Raw, raw2: Raw, renameOk: bool, d: Disk)
    requires Plain(c, t)
    requires FilteredStageAsWritten(c, t, p, cl, raw, renameOk, d).result.Err?
    ensures var first := FilteredStageAsWritten(c, t, p, cl, raw, renameOk, d);
      var retry := FilteredStageAsWritten(c, t, p, cl, raw2, renameOk, first.disk);
      retry.result == Ok(FilteredStage(c, t, p, cl, raw, renameOk, d).raw) && !retry.rawUsed
  {
    var first := FilteredStageAsWritten(c, t, p, cl, raw, renameOk, d);
    var pc := At(c, CleanedKey(c, t, p), RawFiltered);
    var pp := At(c, PrefilterKey(c, t, p), RawFiltered);
    StagePathsDistinct(c, t, p, p);
    SidecarAndBadPathsAreNotArtifacts(c.base, PrefilterKey(c, t, p), RawFiltered, PrefilterKey(c, t, p), c.digest, pc);
    SidecarAndBadPathsAreNotArtifacts(c.base, CleanedKey(c, t, p), RawFiltered, CleanedKey(c, t, p), c.digest, pp);
    var f1 := LoadRawStore(d.files, pc, renameOk);
    var f2 := LoadRawStore(f1, pp, renameOk);
    assert LoadRawResult(f1, pc).None?;
    assert LoadRawResult(f2, pc).None?;
    var files1 := first.disk.files;
    assert LoadRawResult(files1, pc).None?;
    assert LoadRawResult(LoadRawStore(files1, pc, renameOk), pp) == Some(cl.preFilter(p.filterKey, raw));
  }

  // ---------- the in-place pre-filter ----------

  /** A call that ran `pre_filter` leaves the pre-filtered recording it
      computed from `raw` readable at the prefilter path. */
  lemma PrefilterSaved(c: CacheConf, t: TaskRequest, p: StageParams, cl: Cleaner, raw: Raw, renameOk: bool, d: Disk)
    requires Plain(c, t)
    ensures var r := FilteredStage(c, t, p, cl, raw, renameOk, d);
      r.rawUsed ==> LoadRawResult(r.disk.files, At(c, PrefilterKey(c, t, p), RawFiltered)) == Some(cl.preFilter(p.filterKey, raw))
  {
    var r := FilteredStage(c, t, p, cl, raw, renameOk, d);
    if r.rawUsed {
      var pc := At(c, CleanedKey(c, t, p), RawFiltered);
      var pp := At(c, PrefilterKey(c, t, p), RawFiltered);
      StagePathsDistinct(c, t, p, p);
      var f1 := LoadRawStore(d.files, pc, renameOk);
      var f3 := SaveRawStore(LoadRawStore(f1, pp, renameOk), pp, cl.preFilter(p.filterKey, raw));
      var cleaned := cl.cleanMark(p.cleaningKey, LoadRawResult(f3, pp).value);
      assert r.disk.files == SaveRawStore(f3, pc, cleaned);
    }
  }

  /** The same for `get_filtered` as written: the call that raises NameError
      has already saved the pre-filter of the handed recording. */
  lemma PrefilterSavedAsWritten(c: CacheConf, t: TaskRequest, p: StageParams, cl: Cleaner, raw: Raw, renameOk: bool, d: Disk)
    ensures var r := FilteredStageAsWritten(c, t, p, cl, raw, renameOk, d);
      r.rawUsed ==> LoadRawResult(r.disk.files, At(c, PrefilterKey(c, t, p), RawFiltered)) == Some(cl.preFilter(p.filterKey, raw))
  {
    var r := FilteredStageAsWritten(c, t, p, cl, raw, renameOk, d);
    if r.rawUsed {
      var pc := At(c, CleanedKey(c, t, p), RawFiltered);
      var pp := At(c, PrefilterKey(c, t, p), RawFiltered);
      var f2 := LoadRawStore(LoadRawStore(d.files, pc, renameOk), pp, renameOk);
      RawRoundTrip(f2, pp, cl.preFilter(p.filterKey, raw), renameOk);
    }
  }

  /** As written: the executor hands the processor its memoised recording,
      which a first `get_filtered` that ran `pre_filter` has changed in
      place; `get_filtered_raw` keeps that memo when the call raises
      NameError, and `get_epochs` and `get_evoked` always keep it. A second
      request whose filter key misses then pre-filters the already
      pre-filtered recording and stores that under its own key, whether the
      stage is the one as written or the corrected one. */
  lemma RefilterAsWritten(c: CacheConf, t: TaskRequest, p: StageParams, q: StageParams, cl: Cleaner,
                          raw: Raw, renameOk: bool, d: Disk)
    requires Plain(c, t)
    ensures var a1 := FilteredStageAsWritten(c, t, p, cl, raw, renameOk, d);
      var memo := Handed(cl, p, raw, a1.rawUsed);
      var a2 := FilteredStageAsWritten(c, t, q, cl, memo, renameOk, a1.disk);
      a1.rawUsed ==>
        (a1.result.Err? && memo == cl.preFilter(p.filterKey, raw)
         && (a2.rawUsed ==> LoadRawResult(a2.disk.files, At(c, PrefilterKey(c, t, q), RawFiltered))
                            == Some(cl.preFilter(q.filterKey, cl.preFilter(p.filterKey, raw)))))
    ensures var r1 := FilteredStage(c, t, p, cl, raw, renameOk, d);
      var memo := Handed(cl, p, raw, r1.rawUsed);
      var r2 := FilteredStage(c, t, q, cl, memo, renameOk, r1.disk);
      r1.rawUsed ==>
        (memo == cl.preFilter(p.filterKey, raw)
         && (r2.rawUsed ==> LoadRawResult(r2.disk.files, At(c, PrefilterKey(c, t, q), RawFiltered))
                            == Some(cl.preFilter(q.filterKey, cl.preFilter(p.filterKey, raw)))))
  {
    var a1 := FilteredStageAsWritten(c, t, p, cl, raw, renameOk, d);
    PrefilterSavedAsWritten(c, t, q, cl, Handed(cl, p, raw, a1.rawUsed), renameOk, a1.disk);
    var r1 := FilteredStage(c, t, p, cl, raw, renameOk, d);
    PrefilterSaved(c, t, q, cl, Handed(cl, p, raw, r1.rawUsed), renameOk, r1.disk);
  }

  /** Corrected: with `pre_filter` applied to a copy, the memoised recording
      stays the loaded one, so what a request stores under its prefilter key
      is the pre-filter of the loaded recording, the same whatever was
      requested before. */
  lemma RefilterOnCopy(c: CacheConf, t: TaskRequest, p: StageParams, q: StageParams, cl: Cleaner,
                       raw: Raw, renameOk: bool, d: Disk)
    requires Plain(c, t)
    ensures var r1 := FilteredStage(c, t, p, cl, raw, renameOk, d);
      var r2 := FilteredStage(c, t, q, cl, raw, renameOk, r1.disk);
      var alone := FilteredStage(c, t, q, cl, raw, renameOk, d);
      var pq := At(c, PrefilterKey(c, t, q), RawFiltered);
      r2.rawUsed && alone.rawUsed ==>
        LoadRawResult(r2.disk.files, pq) == LoadRawResult(alone.disk.files, pq) == Some(cl.preFilter(q.filterKey, raw))
  {
    var r1 := FilteredStage(c, t, p, cl, raw, renameOk, d);
    PrefilterSaved(c, t, q, cl, raw, renameOk, r1.disk);
    PrefilterSaved(c, t, q, cl, raw, renameOk, d);
  }
}

=== FILE: text.dfy ===
/** String helpers that the Python code gets from `str`, `int()`, `sorted()`
    and the `re` module: character classes, splitting and joining, integer
    rendering and parsing, code-point ordering and sorting. */
module Text {
  import opened Wrappers

  // ---------- character classes ----------

  predicate IsDigit(c: char) { '0' <= c <= '9' }

  predicate AllDigits(s: string) { forall i :: 0 <= i < |s| ==> IsDigit(s[i]) }

  predicate IsAsciiLower(c: char) { 'a' <= c <= 'z' }

  predicate IsAsciiUpper(c: char) { 'A' <= c <= 'Z' }

  /** The characters for which Python's `str.isspace()` holds (and which the
      regular-expression class `\s` matches on `str` patterns). */
  predicate IsSpace(c: char) {
    var n := c as int;
    (9 <= n <= 13) || (28 <= n <= 32) || n == 0x85 || n == 0xA0 || n == 0x1680
    || (0x2000 <= n <= 0x200A) || n == 0x2028 || n == 0x2029 || n == 0x202F
    || n == 0x205F || n == 0x3000
  }

  predicate AllSpace(s: string) { forall i :: 0 <= i < |s| ==> IsSpace(s[i]) }

  function LowerChar(c: char): (r: char)
    ensures !IsAsciiUpper(r)
    ensures IsAsciiUpper(c) <==> r != c
  {
    if IsAsciiUpper(c) then (c as int + 32) as char else c
  }

  /** `str.lower()` on the ASCII letters. */
  function Lower(s: string): (r: string)
    ensures |r| == |s|
    ensures forall i :: 0 <= i < |s| ==> r[i] == LowerChar(s[i])
  {
    seq(|s|, i requires 0 <= i < |s| => LowerChar(s[i]))
  }

  // ---------- strip ----------

  function TrimLeft(s: string): (r: string)
    ensures |r| <= |s| && r == s[|s| - |r|..]
    ensures |r| > 0 ==> !IsSpace(r[0])
    ensures AllSpace(s[..|s| - |r|])
  {
    if |s| > 0 && IsSpace(s[0]) then
      var r := TrimLeft(s[1..]);
      assert s[1..][..|s[1..]| - |r|] == s[1..|s| - |r|];
      r
    else s
  }

  function TrimRight(s: string): (r: string)
    ensures |r| <= |s| && r == s[..|r|]
    ensures |r| > 0 ==> !IsSpace(r[|r| - 1])
    ensures AllSpace(s[|r|..])
  {
    if |s| > 0 && IsSpace(s[|s| - 1]) then
      var r := TrimRight(s[..|s| - 1]);
      assert s[..|s| - 1][|r|..] == s[|r|..|s| - 1];
      r
    else s
  }

  /** `str.strip()` with no argument. */
  function Strip(s: string): string {
    TrimRight(TrimLeft(s))
  }

  lemma {:induction false} StripEmptyIffAllSpace(s: string)
    ensures Strip(s) == "" <==> AllSpace(s)
  {
    var l := TrimLeft(s);
    if !AllSpace(s) {
      var k :| 0 <= k < |s| && !IsSpace(s[k]);
      assert |l| > 0;
      assert !IsSpace(l[0]);
      assert |TrimRight(l)| > 0;
    }
  }

  /** `s.strip()` is a slice of `s` with only white space cut off either side. */
  lemma StripBounds(s: string) returns (a: nat, b: nat)
    ensures a <= b <= |s| && Strip(s) == s[a..b]
    ensures AllSpace(s[..a]) && AllSpace(s[b..])
  {
    var l := TrimLeft(s);
    a := |s| - |l|;
    b := a + |TrimRight(l)|;
    assert s[b..] == l[|TrimRight(l)|..];
  }

  lemma StripNoSpace(s: string)
    requires forall i :: 0 <= i < |s| ==> !IsSpace(s[i])
    ensures Strip(s) == s
  {
  }

  // ---------- split and join on one character ----------

  /** `s.split(sep)` for a one-character separator: always at least one part. */
  function Split(s: string, sep: char): (parts: seq<string>)
    ensures |parts| >= 1
    ensures forall k :: 0 <= k < |parts| ==> sep !in parts[k]
  {
    if |s| == 0 then [""]
    else if s[0] == sep then [""] + Split(s[1..], sep)
    else
      var rest := Split(s[1..], sep);
      [[s[0]] + rest[0]] + rest[1..]
  }

  function Join(parts: seq<string>, sep: char): string {
    if |parts| == 0 then ""
    else if |parts| == 1 then parts[0]
    else parts[0] + [sep] + Join(parts[1..], sep)
  }

  lemma {:induction false} SplitPrefix(p: string, t: string, sep: char)
    requires sep !in p
    ensures Split(p + t, sep) == [p + Split(t, sep)[0]] + Split(t, sep)[1..]
    decreases |p|
  {
    if |p| > 0 {
      assert (p + t)[1..] == p[1..] + t;
      SplitPrefix(p[1..], t, sep);
      assert [p[0]] + (p[1..] + Split(t, sep)[0]) == p + Split(t, sep)[0];
    } else {
      assert p + t == t;
      assert p + Split(t, sep)[0] == Split(t, sep)[0];
      assert Split(t, sep) == [Split(t, sep)[0]] + Split(t, sep)[1..];
    }
  }

  /** Splitting a joined list gives the list back when no part holds the separator. */
  lemma {:induction false} SplitJoin(parts: seq<string>, sep: char)
    requires |parts| >= 1
    requires forall k :: 0 <= k < |parts| ==> sep !in parts[k]
    ensures Split(Join(parts, sep), sep) == parts
    decreases |parts|
  {
    if |parts| == 1 {
      SplitPrefix(parts[0], "", sep);
      assert parts[0] + "" == parts[0];
    } else {
      var rest := Join(parts[1..], sep);
      assert Join(parts, sep) == parts[0] + ([sep] + rest);
      SplitPrefix(parts[0], [sep] + rest, sep);
      assert ([sep] + rest)[1..] == rest;
      SplitJoin(parts[1..], sep);
      assert Split([sep] + rest, sep) == [""] + parts[1..];
      assert parts[0] + "" == parts[0];
    }
  }

  /** Joining one more part appends the separator and the part. */
  lemma {:induction false} JoinSnoc(parts: seq<string>, x: string, sep: char)
    requires |parts| >= 1
    ensures Join(parts + [x], sep) == Join(parts, sep) + [sep] + x
    decreases |parts|
  {
    if |parts| > 1 {
      assert (parts + [x])[1..] == parts[1..] + [x];
      JoinSnoc(parts[1..], x, sep);
    }
  }

  /** Joined strings with separator-free parts are equal only when the parts are. */
  lemma JoinInjective(a: seq<string>, b: seq<string>, sep: char)
    requires |a| >= 1 && |b| >= 1
    requires forall k :: 0 <= k < |a| ==> sep !in a[k]
    requires forall k :: 0 <= k < |b| ==> sep !in b[k]
    requires Join(a, sep) == Join(b, sep)
    ensures a == b
  {
    SplitJoin(a, sep);
    SplitJoin(b, sep);
  }

  /** `re.split(r"[,\s]+", s)`: split on maximal runs of commas and white space. */
  predicate IsListSep(c: char) { c == ',' || IsSpace(c) }

  function DropListSeps(s: string): (r: string)
    ensures |r| <= |s|
    ensures |r| > 0 ==> !IsListSep(r[0])
  {
    if |s| > 0 && IsListSep(s[0]) then DropListSeps(s[1..]) else s
  }

  function SplitListSeps(s: string): (parts: seq<string>)
    ensures |parts| >= 1
    ensures forall k, i :: 0 <= k < |parts| && 0 <= i < |parts[k]| ==> !IsListSep(parts[k][i])
    decreases |s|
  {
    if |s| == 0 then [""]
    else if IsListSep(s[0]) then [""] + SplitListSeps(DropListSeps(s))
    else
      var rest := SplitListSeps(s[1..]);
      [[s[0]] + rest[0]] + rest[1..]
  }

  // ---------- integers ----------

  function DigitChar(d: nat): (c: char)
    requires d < 10
    ensures IsDigit(c)
  {
    ('0' as int + d) as char
  }

  function DigitValue(c: char): (d: nat)
    requires IsDigit(c)
    ensures d < 10
  {
    c as int - '0' as int
  }

  /** `str(n)` for a natural number. */
  function NatToString(n: nat): (s: string)
    ensures |s| >= 1 && AllDigits(s)
    ensures |s| > 1 ==> s[0] != '0'
  {
    if n < 10 then [DigitChar(n)] else NatToString(n / 10) + [DigitChar(n % 10)]
  }

  /** `str(i)` for any integer. */
  function IntToString(i: int): (s: string)
    ensures |s| >= 1
    ensures i >= 0 <==> AllDigits(s)
  {
    if i >= 0 then NatToString(i)
    else
      var s := "-" + NatToString(-i);
      assert !IsDigit(s[0]);
      s
  }

  function DigitsValue(s: string): nat
    requires AllDigits(s)
  {
    if |s| == 0 then 0 else DigitsValue(s[..|s| - 1]) * 10 + DigitValue(s[|s| - 1])
  }

  lemma {:induction false} DigitsValueOfNat(n: nat)
    ensures DigitsValue(NatToString(n)) == n
  {
    if n >= 10 {
      var s := NatToString(n);
      assert s[..|s| - 1] == NatToString(n / 10);
      DigitsValueOfNat(n / 10);
    }
  }

  /** Python's `int(text)` on ASCII text: optional surrounding white space,
      an optional sign and a numeral (section "Integer literals" of the
      Python reference, as PEP 515 extends it: digits, with single
      underscores allowed between two digits). */
  function ParseInt(s: string): (r: Option<int>)
    ensures Strip(s) == "" ==> r == None
  {
    ParseSignedDigits(Strip(s))
  }

  /** Digits, where an underscore may stand only between two digits:
      a digit, or a numeral followed by a digit or by '_' and a digit. */
  predicate Numeral(d: string) {
    |d| > 0 && IsDigit(d[|d| - 1]) &&
    (|d| == 1 || Numeral(d[..|d| - 1]) || (|d| > 2 && d[|d| - 2] == '_' && Numeral(d[..|d| - 2])))
  }

  lemma {:induction false} DigitsAreNumeral(d: string)
    requires d != "" && AllDigits(d)
    ensures Numeral(d)
  {
    if |d| > 1 {
      DigitsAreNumeral(d[..|d| - 1]);
    }
  }

  /** The digits of a text, underscores and anything else dropped. */
  function DigitsOf(s: string): (r: string)
    ensures AllDigits(r) && |r| <= |s|
    ensures AllDigits(s) ==> r == s
  {
    if |s| == 0 then ""
    else DigitsOf(s[..|s| - 1]) + (if IsDigit(s[|s| - 1]) then [s[|s| - 1]] else [])
  }

  /** The part of `int(text)` after white space is stripped. */
  function ParseSignedDigits(t: string): (r: Option<int>)
    ensures t == "" ==> r == None
  {
    if |t| > 0 && (t[0] == '-' || t[0] == '+') then
      var d := t[1..];
      if Numeral(d) then
        var v: int := DigitsValue(DigitsOf(d));
        Some(if t[0] == '-' then -v else v)
      else None
    else if Numeral(t) then Some(DigitsValue(DigitsOf(t)))
    else None
  }

  lemma {:induction false} NumeralStartsWithDigit(d: string)
    requires Numeral(d)
    ensures IsDigit(d[0])
  {
    if |d| > 1 {
      if Numeral(d[..|d| - 1]) {
        NumeralStartsWithDigit(d[..|d| - 1]);
      } else {
        NumeralStartsWithDigit(d[..|d| - 2]);
      }
    }
  }

  /** Two numerals side by side, or joined by one underscore, form a numeral. */
  lemma {:induction false} NumeralConcat(a: string, b: string)
    requires Numeral(a) && Numeral(b)
    ensures Numeral(a + b) && Numeral(a + "_" + b)
  {
    var j := a + "_" + b;
    if |b| == 1 {
      assert (a + b)[..|a + b| - 1] == a;
      assert j[..|j| - 2] == a;
    } else if Numeral(b[..|b| - 1]) {
      NumeralConcat(a, b[..|b| - 1]);
      assert (a + b)[..|a + b| - 1] == a + b[..|b| - 1];
      assert j[..|j| - 1] == a + "_" + b[..|b| - 1];
    } else {
      NumeralConcat(a, b[..|b| - 2]);
      assert (a + b)[..|a + b| - 2] == a + b[..|b| - 2];
      assert j[..|j| - 2] == a + "_" + b[..|b| - 2];
    }
  }

  lemma {:induction false} DigitsOfConcat(x: string, y: string)
    ensures DigitsOf(x + y) == DigitsOf(x) + DigitsOf(y)
  {
    if |y| == 0 {
      assert x + y == x;
    } else {
      DigitsOfConcat(x, y[..|y| - 1]);
      assert (x + y)[..|x + y| - 1] == x + y[..|y| - 1];
    }
  }

  lemma DigitsOfUnderscore(a: string, b: string)
    ensures DigitsOf(a + "_" + b) == DigitsOf(a + b)
  {
    DigitsOfConcat(a + "_", b);
    DigitsOfConcat(a, "_");
    DigitsOfConcat(a, b);
    assert DigitsOf("_") == "";
  }

  /** An unsigned numeral reads as the value of its digits. */
  lemma ParseNumeral(t: string)
    requires Numeral(t)
    ensures ParseSignedDigits(t) == Some(DigitsValue(DigitsOf(t)))
  {
    NumeralStartsWithDigit(t);
  }

  /** An underscore between two numerals is dropped: "1_0" reads as "10". */
  lemma UnderscoreDropped(a: string, b: string)
    requires Numeral(a) && Numeral(b)
    ensures ParseSignedDigits(a + "_" + b) == ParseSignedDigits(a + b)
    ensures ParseSignedDigits(a + "_" + b).Some?
  {
    NumeralConcat(a, b);
    DigitsOfUnderscore(a, b);
    ParseNumeral(a + "_" + b);
    ParseNumeral(a + b);
  }

  lemma {:induction false} NoDoubleUnderscore(x: string, y: string)
    ensures !Numeral(x + "__" + y)
  {
    var d := x + "__" + y;
    if |y| == 1 {
      assert d[..|d| - 1] == x + "__";
      assert d[..|d| - 2] == x + "_";
    } else if |y| > 1 {
      NoDoubleUnderscore(x, y[..|y| - 1]);
      NoDoubleUnderscore(x, y[..|y| - 2]);
      assert d[..|d| - 1] == x + "__" + y[..|y| - 1];
      assert d[..|d| - 2] == x + "__" + y[..|y| - 2];
    }
  }

  /** An underscore at either end of the number, or two in a row, is refused. */
  lemma UnderscoreMisplaced(sign: string, x: string, y: string)
    requires sign == "" || sign == "-" || sign == "+"
    ensures ParseSignedDigits(sign + "_" + x) == None
    ensures ParseSignedDigits(x + "_") == None
    ensures ParseSignedDigits(x + "__" + y) == None
  {
    var t := sign + "_" + x;
    if Numeral(t) {
      NumeralStartsWithDigit(t);
    }
    if sign != "" {
      assert t[1..] == "_" + x;
      if Numeral("_" + x) {
        NumeralStartsWithDigit("_" + x);
      }
    }
    var u := x + "__" + y;
    NoDoubleUnderscore(x, y);
    if |x| > 0 {
      assert u[1..] == x[1..] + "__" + y;
      NoDoubleUnderscore(x[1..], y);
    }
  }

  /** `int(str(i)) == i`. */
  lemma ParseIntOfString(i: int)
    ensures ParseInt(IntToString(i)) == Some(i)
  {
    var s := IntToString(i);
    IntStringNoSpace(i);
    ParseIntNoSpace(s);
    if i < 0 {
      ParseNegative(-i);
    } else {
      ParseNonNegative(i);
    }
  }

  lemma ParseIntNoSpace(s: string)
    requires forall k :: 0 <= k < |s| ==> !IsSpace(s[k])
    ensures ParseInt(s) == ParseSignedDigits(s)
  {
    StripNoSpace(s);
  }

  /** Plain digits read as their decimal value. */
  lemma ParseDigits(t: string)
    requires t != "" && AllDigits(t)
    ensures ParseSignedDigits(t) == Some(DigitsValue(t))
    ensures ParseSignedDigits("-" + t) == Some(-(DigitsValue(t) as int))
  {
    DigitsAreNumeral(t);
    assert IsDigit(t[0]);
    assert ("-" + t)[1..] == t;
  }

  lemma ParseNonNegative(n: nat)
    ensures ParseSignedDigits(IntToString(n)) == Some(n)
  {
    DigitsValueOfNat(n);
    ParseDigits(NatToString(n));
  }

  lemma ParseNegative(n: nat)
    requires n > 0
    ensures ParseSignedDigits(IntToString(-(n as int))) == Some(-(n as int))
  {
    assert IntToString(-(n as int)) == "-" + NatToString(n);
    DigitsValueOfNat(n);
    ParseDigits(NatToString(n));
  }

  lemma IntStringNoSpace(i: int)
    ensures forall k :: 0 <= k < |IntToString(i)| ==> !IsSpace(IntToString(i)[k])
  {
    var s := IntToString(i);
    forall k | 0 <= k < |s| ensures !IsSpace(s[k]) {
      assert IsDigit(s[k]) || s[k] == '-';
    }
  }

  // ---------- code-point order ----------

  /** Python's `<` on `str`: lexicographic by code point. */
  predicate LexLess(a: string, b: string)
    decreases |a|
  {
    if |a| == 0 then |b| > 0
    else if |b| == 0 then false
    else if a[0] != b[0] then a[0] < b[0]
    else LexLess(a[1..], b[1..])
  }

  predicate LexLe(a: string, b: string) { a == b || LexLess(a, b) }

  lemma LexIrreflexive(a: string)
    ensures !LexLess(a, a)
  {
  }

  lemma {:induction false} LexTransitive(a: string, b: string, c: string)
    requires LexLess(a, b) && LexLess(b, c)
    ensures LexLess(a, c)
    decreases |a|
  {
    if |a| > 0 && |b| > 0 && |c| > 0 && a[0] == b[0] && b[0] == c[0] {
      LexTransitive(a[1..], b[1..], c[1..]);
    }
  }

  lemma {:induction false} LexTotal(a: string, b: string)
    ensures a == b || LexLess(a, b) || LexLess(b, a)
    decreases |a|
  {
    if |a| > 0 && |b| > 0 && a[0] == b[0] {
      LexTotal(a[1..], b[1..]);
      if a[1..] == b[1..] {
        assert a == [a[0]] + a[1..] && b == [b[0]] + b[1..];
      }
    }
  }

  lemma {:induction false} LexAsymmetric(a: string, b: string)
    ensures !(LexLess(a, b) && LexLess(b, a))
    decreases |a|
  {
    if |a| > 0 && |b| > 0 && a[0] == b[0] {
      LexAsymmetric(a[1..], b[1..]);
    }
  }

  // ---------- sorting by a string key ----------

  ghost predicate SortedBy<T>(s: seq<T>, key: T -> string) {
    forall i, j :: 0 <= i < j < |s| ==> LexLe(key(s[i]), key(s[j]))
  }

  ghost predicate StrictlySortedBy<T>(s: seq<T>, key: T -> string) {
    forall i, j :: 0 <= i < j < |s| ==> LexLess(key(s[i]), key(s[j]))
  }

  /** Stable insertion: `x` goes before the first element whose key is not smaller. */
  function InsertBy<T>(x: T, s: seq<T>, key: T -> string): seq<T> {
    if |s| == 0 then [x]
    else if LexLe(key(x), key(s[0])) then [x] + s
    else [s[0]] + InsertBy(x, s[1..], key)
  }

  /** Python's stable `sorted(s, key=key)` on a string key. */
  function SortBy<T>(s: seq<T>, key: T -> string): seq<T> {
    if |s| == 0 then [] else InsertBy(s[0], SortBy(s[1..], key), key)
  }

  lemma {:induction false} InsertByFacts<T>(x: T, s: seq<T>, key: T -> string)
    requires SortedBy(s, key)
    ensures SortedBy(InsertBy(x, s, key), key)
    ensures multiset(InsertBy(x, s, key)) == multiset(s) + multiset{x}
    decreases |s|
  {
    if |s| > 0 {
      if LexLe(key(x), key(s[0])) {
        var r := [x] + s;
        forall i, j | 0 <= i < j < |r| ensures LexLe(key(r[i]), key(r[j])) {
          if i == 0 && j > 1 {
            if key(x) != key(s[0]) && key(s[0]) != key(s[j - 1]) {
              LexTransitive(key(x), key(s[0]), key(s[j - 1]));
            }
          }
        }
      } else {
        InsertByFacts(x, s[1..], key);
        var t := InsertBy(x, s[1..], key);
        var r := [s[0]] + t;
        LexTotal(key(x), key(s[0]));
        assert s == [s[0]] + s[1..];
        forall i, j | 0 <= i < j < |r| ensures LexLe(key(r[i]), key(r[j])) {
          if i == 0 {
            assert r[j] in multiset(s[1..]) + multiset{x};
            if r[j] == x {
            } else {
              assert r[j] in s[1..];
              var k :| 0 <= k < |s[1..]| && s[1..][k] == r[j];
              assert s[k + 1] == r[j];
            }
          }
        }
      }
    }
  }

  lemma {:induction false} SortByFacts<T>(s: seq<T>, key: T -> string)
    ensures SortedBy(SortBy(s, key), key)
    ensures multiset(SortBy(s, key)) == multiset(s)
    decreases |s|
  {
    if |s| > 0 {
      SortByFacts(s[1..], key);
      InsertByFacts(s[0], SortBy(s[1..], key), key);
      assert s == [s[0]] + s[1..];
    }
  }

  /** Two non-empty lists strictly increasing in the key with the same
      elements start with the same element: each head is the key-least. */
  lemma SameElementsSameHead<T>(a: seq<T>, b: seq<T>, key: T -> string)
    requires StrictlySortedBy(a, key) && StrictlySortedBy(b, key)
    requires multiset(a) == multiset(b) && |a| > 0
    ensures |b| > 0 && a[0] == b[0]
  {
    assert a[0] in multiset(b);
    var j :| 0 <= j < |b| && b[j] == a[0];
    assert b[0] in multiset(a);
    var i :| 0 <= i < |a| && a[i] == b[0];
    if j > 0 {
      // key(b[0]) < key(a[0]) and a[0] is the key-least of a
      if i > 0 {
        LexAsymmetric(key(a[0]), key(a[i]));
      } else {
        LexIrreflexive(key(a[0]));
      }
    }
  }

  /** Dropping equal heads keeps the element multisets equal. */
  lemma SameElementsTail<T>(a: seq<T>, b: seq<T>)
    requires multiset(a) == multiset(b) && |a| > 0 && |b| > 0 && a[0] == b[0]
    ensures multiset(a[1..]) == multiset(b[1..])
  {
    assert a == [a[0]] + a[1..] && b == [b[0]] + b[1..];
    assert multiset(a) == multiset{a[0]} + multiset(a[1..]);
    assert multiset(b) == multiset{b[0]} + multiset(b[1..]);
    assert multiset(a[1..]) == multiset(a) - multiset{a[0]};
    assert multiset(b[1..]) == multiset(b) - multiset{b[0]};
  }

  /** Two lists strictly increasing in the key with the same elements are equal:
      the ordering alone fixes the list. */
  lemma {:induction false} StrictlySortedUnique<T>(a: seq<T>, b: seq<T>, key: T -> string)
    requires StrictlySortedBy(a, key) && StrictlySortedBy(b, key)
    requires multiset(a) == multiset(b)
    ensures a == b
    decreases |a|
  {
    if |a| == 0 {
      assert |b| == |multiset(b)|;
    } else {
      SameElementsSameHead(a, b, key);
      SameElementsTail(a, b);
      StrictlySortedUnique(a[1..], b[1..], key);
      assert a == [a[0]] + a[1..] && b == [b[0]] + b[1..];
    }
  }


  // ---------- de-duplication keeping first occurrences ----------

  /** The list with every repeated element dropped after its first occurrence. */
  function Dedup<T(==,!new)>(s: seq<T>): (r: seq<T>)
    ensures forall i, j :: 0 <= i < j < |r| ==> r[i] != r[j]
    ensures forall x :: x in r <==> x in s
    ensures |r| <= |s|
  {
    if |s| == 0 then []
    else
      var d := Dedup(s[..|s| - 1]);
      assert forall x :: x in s <==> x in s[..|s| - 1] || x == s[|s| - 1];
      if s[|s| - 1] in d then d else d + [s[|s| - 1]]
  }

  lemma DistinctSortedIsStrict(s: seq<string>)
    requires SortedBy(s, x => x)
    requires forall i, j :: 0 <= i < j < |s| ==> s[i] != s[j]
    ensures StrictlySortedBy(s, x => x)
  {
  }

  /** Python's `sorted(set(s))` on strings. */
  function SortedSet(s: seq<string>): (r: seq<string>)
    ensures forall x :: x in r <==> x in s
    ensures StrictlySortedBy(r, x => x)
  {
    var d := Dedup(s);
    var r := SortBy(d, x => x);
    SortByFacts(d, x => x);
    assert forall x :: x in r <==> x in multiset(d);
    DistinctMultiplicityAll(d);
    DistinctPermutation(r, d);
    DistinctSortedIsStrict(r);
    r
  }

  lemma {:induction false} DistinctMultiplicity<T>(s: seq<T>, x: T)
    requires forall i, j :: 0 <= i < j < |s| ==> s[i] != s[j]
    ensures multiset(s)[x] <= 1
    decreases |s|
  {
    if |s| > 0 {
      assert s == s[..|s| - 1] + [s[|s| - 1]];
      assert multiset(s) == multiset(s[..|s| - 1]) + multiset{s[|s| - 1]};
      DistinctMultiplicity(s[..|s| - 1], x);
      if x == s[|s| - 1] {
        assert x !in s[..|s| - 1];
      }
    }
  }

  lemma DistinctMultiplicityAll<T>(s: seq<T>)
    requires forall i, j :: 0 <= i < j < |s| ==> s[i] != s[j]
    ensures forall x :: multiset(s)[x] <= 1
  {
    forall x ensures multiset(s)[x] <= 1 {
      DistinctMultiplicity(s, x);
    }
  }

  /** A rearrangement of a list without repeats has no repeats. */
  lemma DistinctPermutation<T>(c: seq<T>, d: seq<T>)
    requires multiset(c) == multiset(d)
    requires forall x :: multiset(d)[x] <= 1
    ensures forall i, j :: 0 <= i < j < |c| ==> c[i] != c[j]
  {
    forall i, j | 0 <= i < j < |c| ensures c[i] != c[j] {
      assert c == c[..j] + c[j..];
      assert multiset(c) == multiset(c[..j]) + multiset(c[j..]);
      assert c[i] in multiset(c[..j]);
      assert c[j] in multiset(c[j..]);
      assert multiset(c)[c[i]] == multiset(c[..j])[c[i]] + multiset(c[j..])[c[i]];
      assert multiset(c)[c[j]] == multiset(c[..j])[c[j]] + multiset(c[j..])[c[j]];
      assert multiset(d)[c[i]] <= 1;
    }
  }

  // ---------- split once, first occurrences, trailing separators ----------

  /** `s.split(sep, 1)` when `sep in s`: the text before the first separator
      and everything after it; None when there is no separator. */
  function SplitOnce(s: string, sep: char): (r: Option<(string, string)>)
    ensures r.None? <==> sep !in s
    ensures r.Some? ==> s == r.value.0 + [sep] + r.value.1 && sep !in r.value.0
  {
    if |s| == 0 then None
    else if s[0] == sep then Some(([], s[1..]))
    else
      match SplitOnce(s[1..], sep)
      case None => None
      case Some((a, b)) => Some(([s[0]] + a, b))
  }

  /** Splitting at the first separator finds the parts it was built from. */
  lemma {:induction false} SplitOnceOf(a: string, b: string, sep: char)
    requires sep !in a
    ensures SplitOnce(a + [sep] + b, sep) == Some((a, b))
    decreases |a|
  {
    if |a| > 0 {
      assert (a + [sep] + b)[1..] == a[1..] + [sep] + b;
      SplitOnceOf(a[1..], b, sep);
      assert [a[0]] + a[1..] == a;
    } else {
      assert a + [sep] + b == [sep] + b;
    }
  }

  /** The position of the first occurrence of `x` in `s`. */
  function IndexOf<T(==)>(s: seq<T>, x: T): (i: nat)
    requires x in s
    ensures i < |s| && s[i] == x && x !in s[..i]
  {
    if s[0] == x then 0 else 1 + IndexOf(s[1..], x)
  }

  lemma {:induction false} IndexOfPrefix<T>(s: seq<T>, n: nat, x: T)
    requires n <= |s| && x in s[..n]
    ensures IndexOf(s, x) == IndexOf(s[..n], x)
    decreases n
  {
    if s[0] != x {
      assert s[..n][1..] == s[1..][..n - 1];
      IndexOfPrefix(s[1..], n - 1, x);
    }
  }

  /** `Dedup` keeps the elements in the order of their first occurrences. */
  lemma {:induction false} DedupFirstOccurrenceOrder<T(!new)>(s: seq<T>)
    ensures forall i, j :: 0 <= i < j < |Dedup(s)| ==> IndexOf(s, Dedup(s)[i]) < IndexOf(s, Dedup(s)[j])
    decreases |s|
  {
    if |s| > 0 {
      var init := s[..|s| - 1];
      var last := s[|s| - 1];
      var d := Dedup(init);
      DedupFirstOccurrenceOrder(init);
      assert s[..|s| - 1] == init;
      forall x | x in d ensures IndexOf(s, x) == IndexOf(init, x) {
        IndexOfPrefix(s, |s| - 1, x);
      }
      if last !in d {
        assert last !in init;
        assert IndexOf(s, last) == |s| - 1;
        var r := d + [last];
        assert Dedup(s) == r;
        assert forall x :: x in r ==> x in s;
        forall i, j | 0 <= i < j < |r| ensures IndexOf(s, r[i]) < IndexOf(s, r[j]) {
          assert r[i] in d;
          if j < |d| {
            assert r[j] in d;
          }
        }
      }
    }
  }

  /** `re.split` on separators: text ending in a separator ends in an empty part. */
  lemma {:induction false} SplitListSepsTrailing(s: string)
    requires |s| > 0 && IsListSep(s[|s| - 1])
    ensures |SplitListSeps(s)| >= 2
    ensures SplitListSeps(s)[|SplitListSeps(s)| - 1] == ""
    decreases |s|
  {
    if IsListSep(s[0]) {
      var t := DropListSeps(s);
      assert SplitListSeps(s) == [""] + SplitListSeps(t);
      DropListSepsSuffix(s);
      if |t| > 0 {
        assert t[|t| - 1] == s[|s| - 1];
        SplitListSepsTrailing(t);
      } else {
        assert SplitListSeps(t) == [""];
      }
    } else {
      var rest := SplitListSeps(s[1..]);
      assert SplitListSeps(s) == [[s[0]] + rest[0]] + rest[1..];
      assert s[1..][|s[1..]| - 1] == s[|s| - 1];
      SplitListSepsTrailing(s[1..]);
    }
  }

  lemma {:induction false} DropListSepsSuffix(s: string)
    ensures |DropListSeps(s)| <= |s| && DropListSeps(s) == s[|s| - |DropListSeps(s)|..]
    decreases |s|
  {
    if |s| > 0 && IsListSep(s[0]) {
      DropListSepsSuffix(s[1..]);
    }
  }

  /** A word without separators is one part. */
  lemma {:induction false} SplitListSepsWord(t: string)
    requires forall i :: 0 <= i < |t| ==> !IsListSep(t[i])
    ensures SplitListSeps(t) == [t]
    decreases |t|
  {
    if |t| > 0 {
      SplitListSepsWord(t[1..]);
      assert [t[0]] + t[1..] == t;
    }
  }

  /** A word, a comma, then text starting with a non-separator: the word is
      the first part and the rest splits on its own. */
  lemma {:induction false} SplitListSepsComma(t: string, u: string)
    requires forall i :: 0 <= i < |t| ==> !IsListSep(t[i])
    requires |u| > 0 && !IsListSep(u[0])
    ensures SplitListSeps(t + [','] + u) == [t] + SplitListSeps(u)
    decreases |t|
  {
    var s := t + [','] + u;
    if |t| == 0 {
      assert s == [','] + u;
      assert DropListSeps(s) == DropListSeps(u);
    } else {
      assert s[1..] == t[1..] + [','] + u;
      SplitListSepsComma(t[1..], u);
      assert [t[0]] + t[1..] == t;
    }
  }
}

=== FILE: train_predict.dfy ===
/** The request and response models of the training and prediction endpoints
    (`backend/app/schemas/train_schema.py`, `backend/app/schemas/predict_schema.py`).

    A pydantic model validates every field in declaration order, runs each
    field's validator, and either builds the model or raises one
    `ValidationError` that lists the failure of every field that failed.
    Fields are taken as already of their declared type: pydantic's coercion
    of other input types is not part of this model. */
module TrainPredict {
  import opened Wrappers
  import opened Text

  /** The fields of `TrainRequest`, in declaration order. */
  datatype Field = ModelName | DatasetName | Epochs | KFolds

  function Position(f: Field): nat {
    match f
    case ModelName => 0
    case DatasetName => 1
    case Epochs => 2
    case KFolds => 3
  }

  datatype FieldError = FieldError(field: Field, message: string)

  datatype TrainRequest = TrainRequest(model_name: string, dataset_name: string, epochs: int, kfolds: int)
  datatype TrainResponse = TrainResponse(message: string)
  datatype PredictRequest = PredictRequest(model_name: string)
  datatype PredictResponse = PredictResponse(message: string)

  const EPOCHS_MESSAGE := "Epochs must be greater than 0."
  const KFOLDS_MESSAGE := "K-folds must be greater than 1."

  /** `non_empty_string`: a value whose `strip()` is empty is refused with
      "<field> must not be empty."; any other value is kept exactly as given,
      surrounding white space included. `fieldText` is what the message's
      `{field}` placeholder renders. */
  function NonEmptyString(v: string, fieldText: string): (r: Result<string, string>)
    ensures r.Ok? <==> !AllSpace(v)
    ensures r.Ok? ==> r.value == v
    ensures r.Err? ==> r.error == fieldText + " must not be empty."
  {
    StripEmptyIffAllSpace(v);
    if Strip(v) == "" then Err(fieldText + " must not be empty.") else Ok(v)
  }

  /** `positive_epochs`. */
  function PositiveEpochs(v: int): (r: Result<int, string>)
    ensures r.Ok? <==> v >= 1
    ensures r.Ok? ==> r.value == v
    ensures r.Err? ==> r.error == EPOCHS_MESSAGE
  {
    if v <= 0 then Err(EPOCHS_MESSAGE) else Ok(v)
  }

  /** `minimum_kfolds`. */
  function MinimumKfolds(v: int): (r: Result<int, string>)
    ensures r.Ok? <==> v >= 2
    ensures r.Ok? ==> r.value == v
    ensures r.Err? ==> r.error == KFOLDS_MESSAGE
  {
    if v <= 1 then Err(KFOLDS_MESSAGE) else Ok(v)
  }

  /** The failure of one field's validator as a list of at most one error. */
  function Failure<T>(f: Field, r: Result<T, string>): (es: seq<FieldError>)
    ensures |es| <= 1
    ensures r.Err? <==> |es| == 1
    ensures r.Err? ==> es[0] == FieldError(f, r.error)
  {
    if r.Err? then [FieldError(f, r.error)] else []
  }

  predicate Failed(es: seq<FieldError>, f: Field) {
    exists i :: 0 <= i < |es| && es[i].field == f
  }

  /** Errors listed in strictly increasing field order (so each field at most once). */
  predicate InFieldOrder(es: seq<FieldError>) {
    forall i, j :: 0 <= i < j < |es| ==> Position(es[i].field) < Position(es[j].field)
  }

  /** `TrainRequest(...)`: builds the request when all four validators
      accept, and otherwise reports exactly the fields whose validator
      refused, in declaration order. */
  function ValidateTrain(model_name: string, dataset_name: string, epochs: int, kfolds: int,
                         modelText: string, datasetText: string): (r: Result<TrainRequest, seq<FieldError>>)
    ensures r.Ok? <==> !AllSpace(model_name) && !AllSpace(dataset_name) && epochs >= 1 && kfolds >= 2
    ensures r.Ok? ==> r.value == TrainRequest(model_name, dataset_name, epochs, kfolds)
    ensures r.Err? ==> |r.error| > 0 && InFieldOrder(r.error)
    ensures r.Err? ==> (Failed(r.error, ModelName) <==> AllSpace(model_name))
    ensures r.Err? ==> (Failed(r.error, DatasetName) <==> AllSpace(dataset_name))
    ensures r.Err? ==> (Failed(r.error, Epochs) <==> epochs <= 0)
    ensures r.Err? ==> (Failed(r.error, KFolds) <==> kfolds <= 1)
  {
    var m := NonEmptyString(model_name, modelText);
    var d := NonEmptyString(dataset_name, datasetText);
    var e := PositiveEpochs(epochs);
    var k := MinimumKfolds(kfolds);
    if m.Ok? && d.Ok? && e.Ok? && k.Ok? then
      Ok(TrainRequest(m.value, d.value, e.value, k.value))
    else
      var es := Failure(ModelName, m) + (Failure(DatasetName, d) + (Failure(Epochs, e) + Failure(KFolds, k)));
      FailuresOrdered(m, d, e, k);
      FailuresNamed(m, d, e, k, ModelName);
      FailuresNamed(m, d, e, k, DatasetName);
      FailuresNamed(m, d, e, k, Epochs);
      FailuresNamed(m, d, e, k, KFolds);
      Err(es)
  }

  /** Every listed error belongs to a field declared after position `p`. */
  predicate AllAfter(es: seq<FieldError>, p: int) {
    forall i :: 0 <= i < |es| ==> Position(es[i].field) > p
  }

  /** Putting one field's failure in front of the failures of later fields
      keeps the list in field order. */
  lemma {:induction false} PrependOrdered<T>(f: Field, r: Result<T, string>, rest: seq<FieldError>)
    requires InFieldOrder(rest) && AllAfter(rest, Position(f))
    ensures InFieldOrder(Failure(f, r) + rest) && AllAfter(Failure(f, r) + rest, Position(f) - 1)
  {
    var h := Failure(f, r);
    var es := h + rest;
    forall i | 0 <= i < |es| ensures Position(es[i].field) >= Position(f) && (i >= |h| ==> es[i] == rest[i - |h|]) {
      if i >= |h| { assert es[i] == rest[i - |h|]; }
    }
  }

  /** The fields failed in `Failure(f, r) + rest` are `f` when `r` failed and those failed in `rest`. */
  lemma {:induction false} PrependFailed<T>(f: Field, r: Result<T, string>, rest: seq<FieldError>, g: Field)
    ensures Failed(Failure(f, r) + rest, g) <==> (g == f && r.Err?) || Failed(rest, g)
  {
    var h := Failure(f, r);
    var es := h + rest;
    if Failed(rest, g) {
      var i :| 0 <= i < |rest| && rest[i].field == g;
      assert es[|h| + i] == rest[i];
    }
    if g == f && r.Err? { assert es[0].field == f; }
    if Failed(es, g) {
      var i :| 0 <= i < |es| && es[i].field == g;
      if i >= |h| { assert rest[i - |h|] == es[i]; }
    }
  }

  lemma FailureAlone<T>(f: Field, r: Result<T, string>)
    ensures InFieldOrder(Failure(f, r)) && AllAfter(Failure(f, r), Position(f) - 1)
  {
  }

  lemma {:induction false} FailuresOrdered(m: Result<string, string>, d: Result<string, string>,
                                           e: Result<int, string>, k: Result<int, string>)
    ensures InFieldOrder(Failure(ModelName, m) + (Failure(DatasetName, d) + (Failure(Epochs, e) + Failure(KFolds, k))))
  {
    FailureAlone(KFolds, k);
    PrependOrdered(Epochs, e, Failure(KFolds, k));
    PrependOrdered(DatasetName, d, Failure(Epochs, e) + Failure(KFolds, k));
    PrependOrdered(ModelName, m, Failure(DatasetName, d) + (Failure(Epochs, e) + Failure(KFolds, k)));
  }

  /** Each of the four fields is listed exactly when its validator refused. */
  lemma {:induction false} FailuresNamed(m: Result<string, string>, d: Result<string, string>,
                                         e: Result<int, string>, k: Result<int, string>, g: Field)
    ensures Failed(Failure(ModelName, m) + (Failure(DatasetName, d) + (Failure(Epochs, e) + Failure(KFolds, k))), g)
            <==> match g
                 case ModelName => m.Err?
                 case DatasetName => d.Err?
                 case Epochs => e.Err?
                 case KFolds => k.Err?
  {
    var r3 := Failure(KFolds, k);
    var r2 := Failure(Epochs, e) + r3;
    var r1 := Failure(DatasetName, d) + r2;
    assert Failed(r3, g) <==> g == KFolds && k.Err? by {
      if k.Err? && g == KFolds { assert r3[0].field == KFolds; }
    }
    PrependFailed(Epochs, e, r3, g);
    PrependFailed(DatasetName, d, r2, g);
    PrependFailed(ModelName, m, r1, g);
  }

  /** `PredictRequest(model_name=...)`. */
  function ValidatePredict(model_name: string, modelText: string): (r: Result<PredictRequest, seq<FieldError>>)
    ensures r.Ok? <==> !AllSpace(model_name)
    ensures r.Ok? ==> r.value == PredictRequest(model_name)
    ensures r.Err? ==> r.error == [FieldError(ModelName, modelText + " must not be empty.")]
  {
    match NonEmptyString(model_name, modelText)
    case Ok(v) => Ok(PredictRequest(v))
    case Err(msg) => Err([FieldError(ModelName, msg)])
  }

  /** A name is accepted exactly when its stripped form is, though the
      accepted value keeps the white space around it. */
  lemma {:induction false} AcceptedIffStrippedAccepted(v: string, fieldText: string)
    ensures NonEmptyString(v, fieldText).Ok? <==> NonEmptyString(Strip(v), fieldText).Ok?
    ensures NonEmptyString(v, fieldText).Ok? ==> Strip(Strip(v)) == Strip(v)
  {
    StripEmptyIffAllSpace(v);
    var s := Strip(v);
    if !AllSpace(v) {
      var l := TrimLeft(v);
      assert s == l[..|s|];
      assert s[0] == l[0];
      StripNoSpaceEnds(s);
      StripEmptyIffAllSpace(s);
    }
  }

  /** A string with non-space ends is its own strip. */
  lemma {:induction false} StripNoSpaceEnds(s: string)
    requires |s| > 0 && !IsSpace(s[0]) && !IsSpace(s[|s| - 1])
    ensures Strip(s) == s
  {
    assert TrimLeft(s) == s;
    assert TrimRight(s) == s;
  }

  /** A name with white space around a non-blank core is accepted with the
      white space kept. */
  lemma {:induction false} PaddedNameAccepted(pre: string, core: string, post: string, modelText: string)
    requires AllSpace(pre) && AllSpace(post) && !AllSpace(core)
    ensures ValidatePredict(pre + core + post, modelText) == Ok(PredictRequest(pre + core + post))
  {
    var j :| 0 <= j < |core| && !IsSpace(core[j]);
    assert (pre + core + post)[|pre| + j] == core[j];
  }
}

=== FILE: wrappers.dfy ===
/** Failure-carrying values shared by every module: `Option` for Python's
    `None`-or-value and `Result` for "returns a value or raises". */
module Wrappers {

  datatype Option<+T> = None | Some(value: T) {
    function GetOr(default: T): T {
      match this
      case Some(v) => v
      case None => default
    }
  }

  datatype Result<+R, +E> = Ok(value: R) | Err(error: E) {
    predicate IsFailure() { Err? }

    function PropagateFailure<U>(): Result<U, E>
      requires Err?
    {
      Err(error)
    }

    function Extract(): R
      requires Ok?
    {
      value
    }
  }
}
